=== FILE: README.md ===
# Quirky core in Dafny

A model of the sequential core of the Quirky chess engine and of the pure
parts of its training-data tools, with the properties the code promises
proved about it.

The engine side covers:

- the board text codec: cell, colour, castling and en-passant strings, FEN
  parsing with its error codes, and FEN printing;
- the 16-bit move encoding, move strings and the translation of UCI move
  text;
- making and unmaking moves, including the castling-change table and the
  incremental Zobrist hash;
- the bit utilities (single bits, lowest bit, byte scatter, and the portable
  deposit/extract fallbacks);
- the string utilities and the UCI command parser;
- the search-support tables: the linear-probing repetition set, the
  clustered transposition table with its generations and replacement rule,
  the killer and history tables, the staged move picker and its quiescence
  variant, and the direct-mapped pawn cache;
- the piece-square table's indexing and colour mirroring.

The tool side covers three pieces:

- the labelling rule of the data sampler (`getResult`): the WDL swap, the
  sampled target, the mate clamp and the sign flip, and the record line;
- its per-game sample cap (`takeRandom`, `playGame`);
- the model sampler's target and 96-byte feature packing.

Modules follow the source layout:

| module | covers |
|---|---|
| `Wrappers` | `Option` and `Result` |
| `Types` | validity predicates and the castling bits |
| `Geometry` | square arithmetic |
| `CoreUtil` | cell and square helpers |
| `Bits` | bit utilities |
| `Strings` | string utilities |
| `Board` | board fields, string conversions and hash keys |
| `Fen` | FEN codec |
| `FenRoundTrip` | FEN codec round trips |
| `Moves` | move encoding and move strings |
| `BoardManipulation` | make and unmake |
| `UciParser` | the UCI command parser |
| `RepetitionTable` | the repetition set |
| `TranspositionTable` | the transposition table |
| `MovePicker` | killers, history and the move pickers |
| `Score` | score constants and score pairs |
| `Psq` | piece-square tables |
| `Pawns` | the pawn cache |
| `Label` | the data sampler's labelling |
| `FenGen` | the data sampler's game sampling |
| `ModelWriter` | the model sampler's writer |

Where the code does something other than what it evidently intends, the
member without a suffix is the intended behaviour, which the rest of the
model uses. A member ending in `AsWritten` models the code as it stands,
and a lemma exhibits the difference (see "## Findings").

Effects the model does not see become parameters:

- the Zobrist keys are a `Zobrist` record of key tables;
- the move generator and the pseudo-legality test are an environment of
  move lists and a predicate;
- the engine's replies are a `SearchReply` value;
- the random numbers are explicit arguments: a real in [0, 1) for the
  target, and the swap draws of `rand.Shuffle`;
- number formatting in the record line is a pair of function parameters.
- the contents of a freshly allocated transposition table, which the
  allocation does not initialise, are an argument: any well-formed clusters.

## Model

| member | source | states |
|---|---|---|
| Types.Color.Inverted | src/core/board/types.h:34 | the other colour: never the same, and White exactly for Black |
| Types.Color.Index | src/core/board/types.h:34 | the enum's value: below 2, and 0 exactly for White |
| Types.CoordValidity | src/core/board/types.h:55-61 | a defined square is exactly a valid coordinate other than the undefined marker -1 |
| Types.IsPieceValid | src/core/board/types.h:67-70 | corrected: a value is a valid piece exactly when it is one of the six piece kinds |
| Types.IsPieceValidAsWritten | src/core/board/types.h:67-70 | as written: every value is a valid piece |
| Types.IsCellValid | src/core/board/types.h:72-75 | a cell value is valid when it is the undefined cell or one of the thirteen codes 0..12 (empty, six white, six black pieces) |
| Types.IsCastlingValid | src/core/board/types.h:77-79 | a castling byte is valid exactly when it has no bit outside the four rights |
| Types.PieceValidityAsWritten | src/core/board/types.h:67-70 | the `||`-joined check accepts every value (0 included), while the corrected `IsPieceValid` accepts exactly Pawn..King |
| Types.CastlingNot | src/core/board/types.h:21-32 | the complement within the four rights: disjoint from the argument and together with it all four rights |
| Types.CastlingConstants | src/core/board/types.h:21-30 | WhiteAll is 3, BlackAll 12, they are disjoint and together All; the single rights are distinct bits |
| CoreUtil.MakeCell | src/core/util.h:15-18 | the cell holds the given colour and piece: its colour and piece read back as the arguments |
| CoreUtil.IsCellWithPiece | src/core/util.h:20-23 | a valid cell holds a piece when it is neither the undefined nor the empty cell |
| CoreUtil.GetCellColor | src/core/util.h:25-28 | White exactly for cells up to the colour offset (King) |
| CoreUtil.CellOfParts | src/core/util.h:15-28 | every occupied cell is `MakeCell` of its own colour and piece |
| CoreUtil.IsAnyCastlingAllowed | src/core/util.h:30-33 | corrected: true exactly when some right is left, i.e. the negation of the as-written `c == None` |
| CoreUtil.IsAnyCastlingAllowedAsWritten | src/core/util.h:30-33 | as written: true exactly when none of the four single rights is allowed |
| CoreUtil.IsCastlingAllowed | src/core/util.h:35-38 | a right set is allowed when it shares a right with the current rights |
| CoreUtil.AnyCastlingAsWritten | src/core/util.h:30-33 | as written, a board holding all four rights is reported as allowing none |
| CoreUtil.CastStringToCoord | src/core/util.h:47-53 | "-" exactly gives the undefined square; otherwise the square of that rank and file |
| CoreUtil.IsCoordStringValid | src/core/util.h:40-45 | a square name is two characters, a file letter a..h and a rank digit 1..8 |
| CoreUtil.CastCoordToString | src/core/util.h:55-62 | "-" exactly for the undefined square, otherwise a valid square name; parsing it gives the square back |
| CoreUtil.CoordStringRoundTrip | src/core/util.h:40-62 | printing a parsed square name gives the same text |
| Geometry.MakeCoord | src/core/board/geometry.h:8-11 | a defined square whose rank and file read back as the arguments |
| Geometry.InvertSubcoord | src/core/board/geometry.h:13-16 | a valid index that sums with the argument to 7 |
| Geometry.GetXSubcoord | src/core/board/geometry.h:18-21 | a valid rank for a defined square, and -1 for the undefined square (arithmetic shift) |
| Geometry.GetYSubcoord | src/core/board/geometry.h:23-26 | a valid file for every coordinate, 7 for the undefined square |
| Geometry.MakeCoordOfParts | src/core/board/geometry.h:8-26 | a defined square is rebuilt from its rank and file |
| Geometry.MakeCoordInjective | src/core/board/geometry.h:8-11 | two squares are equal exactly when their ranks and files are |
| Geometry.GetRank | src/core/board/board.cpp:161 | the rank of a defined square lies in 0..7, and the undefined square's is -1 |
| Geometry.GetFile | src/core/board/board.cpp:178 | the file of a square lies in 0..7 |
| Geometry.RankFileRoundTrip | src/core/board/geometry.h:8-26 | a defined square is rebuilt from its rank and file, and two squares have the same rank and file exactly when they are equal |
| Geometry.InvertSubcoordInvolution | src/core/board/geometry.h:13-16 | mirroring an index twice gives it back |
| Geometry.FlipCoordInvolution | src/eval/psq.h:46-48 | mirroring a square's rank twice gives the square back (the flip the black tables use) |
| Score.MateIsSymmetric | src/eval/score.h:15-22 | a score is a mate score exactly when it lies outside [-25000, 25000], whatever its sign |
| Score.IsScoreMate | src/eval/score.h:20-22 | a score is a mate score exactly when it lies below -25000 or above 25000 |
| Bits.PopCount | src/util/bit.h:56-58 | the number of set bits is at most the value, and zero exactly for zero |
| Bits.LowestBit | src/util/bit.h:35-38 | the index of a set bit with every lower bit clear |
| Bits.SetBit | src/util/bit.h:15-18 | bit b becomes 1, every other bit is kept, and the word stays a 64-bit word |
| Bits.ClearBit | src/util/bit.h:25-28 | bit b becomes 0, every other bit is kept, and the word does not grow |
| Bits.FlipBit | src/util/bit.h:20-23 | bit b is inverted and every other bit is kept |
| Bits.CheckBit | src/util/bit.h:30-33 | true exactly when bit b is set, i.e. when setting it changes nothing |
| Bits.FlipBitInvolution | src/util/bit.h:20-23 | flipping the same bit twice gives the word back |
| Bits.ExtractLowestBit | src/util/bit.h:45-50 | returns the lowest set bit's index and the word with exactly that bit cleared, one bit fewer set |
| Bits.ScatterByte | src/util/bit.h:72-78 | bit i of the result is bit i % 8 of the byte for all 64 bits |
| Bits.DepositBits | src/util/bit.h:89-101 | the portable loop equals `pdep`: its set bits lie inside the mask and extracting through the mask gives the source's low bits back |
| Bits.ExtractBits | src/util/bit.h:102-114 | the portable loop equals `pext` and fits in as many bits as the mask has set |
| Bits.PdepWithinMask | src/util/bit.h:81-83 | a deposit sets no bit outside the mask |
| Bits.PextBound | src/util/bit.h:85-87 | an extract is below 2 to the mask's population count |
| Bits.PextOfPdep | src/util/bit.h:81-87 | extracting a deposit through the same mask recovers the deposited low bits |
| Strings.Find | src/util/string.h:19 | the first position at or after the start holding the character, or the end when no later character matches |
| Strings.Split | src/util/string.h:13-25 | splitting always yields at least one piece |
| Strings.SplitPieces | src/util/string.h:13-25 | a split has one piece more than the string has delimiters, and no piece holds a delimiter |
| Strings.JoinSplit | src/util/string.h:13-25 | joining the pieces of a split with the delimiter gives back the string |
| Strings.SplitJoin | src/util/string.h:13-25 | splitting a join of delimiter-free pieces gives back the pieces |
| Strings.Concatenate | src/util/string.h:27-37 | the concatenation is at least as long as each non-empty piece |
| Strings.ConcatenateIsJoin | src/util/string.h:27-37 | the concatenation is the join of the pieces after the leading empty ones, and the plain join when the first piece is non-empty |
| Strings.FindNonDigit | src/util/string.h:41-42 | the first non-digit at or after the start, or the end when every later character is a digit |
| Strings.IsNonNegativeNumber | src/util/string.h:39-43 | true exactly for a non-empty string of digits |
| Strings.IsNumber | src/util/string.h:45-49 | true exactly for a non-empty string all digits after an optional leading '-'; without the '-' the same as the non-negative test |
| Strings.NatToString | src/api/uci/parser.cpp:94 | a printed number is a non-empty digit string without a superfluous leading zero |
| Strings.ParseNatToString | src/api/uci/parser.cpp:90-94 | a printed number passes the digit test and parses back to the number |
| Strings.NatToStringParse | src/api/uci/parser.cpp:90-94 | a canonical digit string parses to a number that prints back as the same string |
| Board.CastCharToCell | src/core/board/board.cpp:15-46 | a valid cell; empty exactly for '.', undefined exactly for characters that are not cell letters |
| Board.CastCellToChar | src/core/board/board.cpp:48-80 | a cell letter that is neither a digit, '/' nor a space, which reads back as the same cell; '.' exactly for the empty cell |
| Board.CellLetterRoundTrip | src/core/board/board.cpp:15-80 | every letter that names a cell is printed back from that cell |
| Board.CastCharToColor | src/core/board/board.cpp:82-84 | White exactly for 'w', Black for every other character |
| Board.CastColorToChar | src/core/board/board.cpp:86-89 | 'w' or 'b', reading back as the same colour |
| Board.CastStringToCastling | src/core/board/board.cpp:91-106 | each of the four rights is present exactly when its letter occurs in the text |
| Board.CastlingBits | src/core/util.h:35-38 | a castling set is empty exactly when none of the four rights is allowed |
| Board.CastCastlingToString | src/core/board/board.cpp:108-127 | one to four characters, "-" exactly for the empty set |
| Board.CastlingStringValid | src/core/board/board.cpp:108-149 | every printed castling field passes the castling-field check |
| Board.CastlingStringOrder | src/core/board/board.cpp:108-127 | the printed letters come in the order K, Q, k, q |
| Board.CastlingStringRoundTrip | src/core/board/board.cpp:91-127 | parsing a printed castling field gives the same set of rights |
| Board.IsCastlingStringValid | src/core/board/board.cpp:131-149 | true exactly for "-" or one to four castling letters without repeats |
| Board.IsEnPassantCoordValid | src/core/board/board.cpp:154-162 | true exactly for no target, a sixth-rank square with White to move, or a third-rank square with Black to move |
| Board.CastStringToEnPassantCoord | src/core/board/board.cpp:181-187 | "-" gives no target, any other name its square |
| Board.CastEnPassantCoordToString | src/core/board/board.cpp:173-179 | "-" exactly for no target; otherwise a square name that parses back to the square |
| Board.EnPassantStringRoundTrip | src/core/board/board.cpp:173-187 | printing a parsed en-passant field gives it back, except "a1", which reads as no target |
| Board.Int8 | src/core/board/board.cpp:186 | the `coord_t` value of an integer: within -128..127, congruent to it modulo 256, and the integer itself when it fits |
| Board.EnPassantCoordOfText | src/core/board/board.cpp:181-187 | the release build's reading fits `coord_t` and agrees with the checked reading on "-" and every square name |
| Board.CellKey | src/core/board/hash.h:27-35 | the empty cell's key is zero, so empty squares do not change a hash |
| Board.XorSelf | src/core/board/board.cpp:318-326 | combining a key in twice removes it, the property incremental hashing relies on |
| Board.CellsHashUpdate | src/core/board/board.cpp:318-322 | changing one square changes the squares' hash by that square's old key and new key only |
| Board.HashCellUpdate | src/core/board/board.cpp:318-326 | the full hash of a board with one square changed is the old hash with the old cell key removed and the new cell key added |
| Board.HashEnPassantUpdate | src/core/board/board.cpp:318-326 | changing the en-passant target changes the hash by its old and its new key |
| Board.HashCastlingUpdate | src/core/board/board.cpp:318-326 | changing the castling set changes the hash by its old and its new key |
| Board.HashSideUpdate | src/core/board/board.cpp:318-326 | changing the side to move changes the hash by its old and its new key |
| Board.NoRepeatAfter | src/core/board/board.cpp:142-146 | the inner loop passes exactly when no later character repeats the current one |
| Board.CastlingLettersFrom | src/core/board/board.cpp:138-147 | the outer loop passes exactly when every character is a castling letter and no two are equal |
| Fen.ParseRow | src/core/board/board.cpp:203-221 | a parsed row has exactly the remaining files, each a defined cell; errors are only the three column errors; an exhausted row is accepted exactly at the eighth file |
| Fen.ParseRows | src/core/board/board.cpp:202-222 | all rows parse exactly when each row parses alone; the error is a column error |
| Fen.CellsOfRows | src/core/board/board.cpp:210-216 | row k of the text fills rank 7 - k, file by file |
| Fen.IsMoveCountStringValidAsWritten | src/core/board/board.cpp:164-171 | as written: true exactly for all-digit text, so also for the empty text |
| Fen.ParseCountAsWritten | src/core/board/board.cpp:231-236 | as written: rejected exactly when the digit check fails; an accepted count is nonempty and within `int` |
| Fen.EmptyCountThrows | src/core/board/board.cpp:164-171 | the empty count field passes the digit check and then makes `stoi` throw |
| Fen.ParseCount | src/core/board/board.cpp:231-236 | corrected: a count is read exactly when the text is a nonempty decimal number within `int`, and it agrees with the as-written reading whenever that one succeeds |
| Fen.FiftyOfCount | src/core/board/board.cpp:233 | the counter keeps the low 8 bits of the parsed value, so values below 256 are kept exactly |
| Fen.MoveCountOfCount | src/core/board/board.cpp:236 | the half-move number is twice the full-move number, minus one when White moves, within 16 bits; it is odd exactly when White moves |
| Fen.MoveCountExamples | src/core/board/board.cpp:236 | full-move numbers 171, 169, 11 and 1 give half-move numbers 342, 337, 22 and 1 |
| Fen.ParseEnPassant | src/core/board/board.cpp:227-230 | a read target is valid for the side to move; on "-" or a square name it is read exactly when that square passes the check, and is that square; a text shorter than two characters other than "-" is rejected |
| Fen.EnPassantFieldLax | src/core/board/board.cpp:181-187 | with the name check compiled out only the first two characters count: "e3x" is e3 for Black, "i5" is a6 for White, and trailing text never changes the result |
| Fen.ParsePieces | src/core/board/board.cpp:199-222 | a parsed piece field is 64 cells; not eight rows gives InvalidNumberOfRows; errors are only row and column errors |
| Fen.ParseState | src/core/board/board.cpp:223-238 | the five fields after the pieces: a bad side is InvalidMoveSide, then a bad castling field InvalidCastling; a parsed board has a consistent hash, White exactly for "w", and an odd move count exactly when White moves |
| Fen.MakeFromFen | src/core/board/board.cpp:196-241 | not six fields is exactly InvalidNumberOfFENFields; not eight rows is InvalidNumberOfRows; a parsed board has a consistent hash and a move count whose parity gives the side |
| Fen.PrintRow | src/core/board/board.cpp:247-262 | a printed row contains no '/' or space |
| Fen.RankCells | src/core/board/board.cpp:248-249 | the eight cells of rank x, file by file |
| Fen.GetFen | src/core/board/board.cpp:243-273 | the printed FEN has six space-separated fields |
| Fen.FenFieldsFree | src/core/board/board.cpp:243-273 | no printed field holds a space and no printed row a '/' |
| FenRoundTrip.RowRoundTrip | src/core/board/board.cpp:203-262 | a printed row parses back to its cells after the leading empty run |
| FenRoundTrip.RowsRoundTrip | src/core/board/board.cpp:202-222 | rows that each parse to a grid row parse together to the grid |
| FenRoundTrip.PiecesRoundTrip | src/core/board/board.cpp:196-266 | the printed piece field parses back to the same 64 cells |
| FenRoundTrip.CountsRoundTrip | src/core/board/board.cpp:231-271 | the printed counters parse back to the stored fifty-move counter and move count |
| FenRoundTrip.EnPassantRoundTrip | src/core/board/board.cpp:173-230 | the printed en-passant field parses back to the stored target |
| FenRoundTrip.StateRoundTrip | src/core/board/board.cpp:223-271 | the five printed state fields parse back to the same board |
| FenRoundTrip.FenRoundTrip | src/core/board/board.cpp:196-273 | every board with a consistent hash and a move count matching the side prints to a FEN that parses back to the same board |
| FenRoundTrip.FenReparse | src/core/board/board.cpp:196-273 | printing a parsed board and parsing again gives the same result |
| Moves.ConstructMove | src/core/moves/move.h:41-43 | a move with the given squares and type, no flag and ordering key 0 |
| Moves.GetMoveType | src/core/moves/move.h:52-55 | a four-bit type whose low three bits are the basic type and whose capture bit is set exactly for captures |
| Moves.GetMoveBasicType | src/core/moves/move.h:47-50 | the basic type 0..7, which together with the capture bit rebuilds the type |
| Moves.SameMoveFields | src/core/moves/move.h:57-60 | two moves compare equal exactly when squares, type and fifty-rule flag agree; the ordering key is ignored |
| Moves.IsMoveCapture | src/core/moves/move.h:67-70 | corrected: true exactly for a type with the capture bit on top of its basic type; the fifty-rule flag does not count |
| Moves.IsMoveCaptureAsWritten | src/core/moves/move.h:67-70 | as written: a capture exactly when the capture bit or the fifty-rule flag is set, since the whole type byte is compared with 7 |
| Moves.QuietPawnPushCaptureAsWritten | src/core/moves/move.cpp:61-87 | a quiet one-rank pawn push translates to a simple move with the fifty-rule flag and no capture bit: the as-written test calls it a capture, the capture bit does not |
| Moves.IsMoveNull | src/core/moves/move.h:62-65 | a move is null exactly when, apart from its type and flags, it is the null move: both squares a1 |
| Moves.SameMove | src/core/moves/move.h:57-60 | two moves are equal when `src + (dst << 8) + (type << 16)` agree, the type byte taken with its fifty-rule flag |
| Moves.MoveKindsPartition | src/core/moves/move.h:72-96 | every move is exactly one of simple, pawn double, en passant, castling or promotion |
| Moves.KingHome | src/core/moves/move.h:98-100 | the king squares e1 and e8: file 4, rank 0 for White and 7 for Black |
| Moves.GetCastlingSide | src/core/moves/move.h:98-106 | kingside exactly when the king lands two files right of its home square |
| Moves.GetPromotionPiece | src/core/moves/move.h:108-114 | Knight..Queen, and the promotion basic type of that piece is the move's basic type |
| Moves.GetPawnMoveDelta | src/core/moves/move.h:116-120 | one rank, forward for White and backward for Black |
| Moves.GetCompressedMove | src/core/moves/move.h:149-152 | a 16-bit value whose three fields are the source, the destination and the type |
| Moves.GetDecompressedMove | src/core/moves/move.h:142-147 | a move with defined squares, a four-bit type, no flag and key 0 |
| Moves.DecompressCompressed | src/core/moves/move.h:142-152 | decompressing a compressed move gives back its squares and type |
| Moves.CompressDecompressed | src/core/moves/move.h:142-152 | every 16-bit value is the compressed form of its decompression |
| Moves.CastPieceToChar | src/core/moves/move.cpp:17 | a piece letter that reads back as the same piece |
| Moves.CastCharToPiece | src/core/moves/move.cpp:30 | 0 exactly for characters that are not piece letters, otherwise a valid piece |
| Moves.CastMoveToString | src/core/moves/move.cpp:8-20 | "null" exactly for no move (the undefined moves the engine builds have both squares 0, so the null test catches them) or the null move; otherwise two square names that parse back to the squares plus, for a promotion, the letter of the new piece |
| Moves.TranslatePromotionAsWritten | src/core/moves/move.cpp:29-44 | as written: a move with the given squares whenever one is returned |
| Moves.PromotionLetterAsWritten | src/core/moves/move.cpp:29-44 | as written, "e7e8x" becomes a bishop promotion because the `||` check passes the non-piece; the corrected reading rejects it |
| Moves.TranslatePromotion | src/core/moves/move.cpp:29-44 | corrected: a move exactly for the letters n, b, r, q; it is a non-capturing promotion to the piece the letter names |
| Moves.TranslateStringToMove | src/core/moves/move.cpp:46-88 | no move from an empty square; a returned move has the named squares and fits the compressed form |
| Moves.TranslateKinds | src/core/moves/move.cpp:61-87 | the classification: no move exactly for an empty source or a bad promotion letter; a pawn moving two ranks is a double move; a pawn moving diagonally onto an empty square is an en-passant capture with the flag; a king moving two files castles, kingside exactly on g1/g8; a simple move captures exactly onto an occupied square and carries the flag exactly for captures and pawn moves, so the as-written capture test holds of it exactly for captures and pawn moves |
| Moves.TranslatePrintRoundTrip | src/core/moves/move.cpp:8-88 | printing a translated move gives back its text: the squares, plus the letter for a promotion; only a1a1 prints as "null" |
| BoardManipulation.NextFifty | src/core/moves/board_manipulation.cpp:105-109 | the 8-bit quiet-move counter's increment stays below 256 and adds one below 255 |
| BoardManipulation.NextMoveCount | src/core/moves/board_manipulation.cpp:232 | the 16-bit move number's increment stays below 2^16 and adds one below 65535 |
| BoardManipulation.PrevMoveCount | src/core/moves/board_manipulation.cpp:245 | the 16-bit move number's decrement stays below 2^16 and subtracts one from a positive number |
| BoardManipulation.MoveCountSteps | src/core/moves/board_manipulation.cpp:232-245 | counting the move number on and back (in either order) gives back every 16-bit value |
| BoardManipulation.RookHome | src/core/moves/board_manipulation.cpp:8-19 | the rook's corner is one of the castling squares on the king's rank, three files right (kingside) or four left (queenside) of the king |
| BoardManipulation.RightsOfSquare | src/core/moves/board_manipulation.cpp:37-48 | a square costs a right exactly when it is that right's king square or rook corner |
| BoardManipulation.RightsOfOtherSquares | src/core/moves/board_manipulation.cpp:21-23 | only the six squares of TOTAL_CASTLING_CHANGE_BITBOARD cost any right |
| BoardManipulation.CastlingChange | src/core/moves/board_manipulation.cpp:62-71 | the castling set after a move is the old set less the rights of its two squares, and stays valid |
| BoardManipulation.CastlingChangeRights | src/core/moves/board_manipulation.cpp:37-48 | a right survives a move iff it was held and neither square of the move belongs to it |
| BoardManipulation.CastlingSubmask | src/core/moves/board_manipulation.cpp:66 | the submask extracted from the move's squares has six bits |
| BoardManipulation.RightsOfSubmask | src/core/moves/board_manipulation.cpp:33-48 | the rights a deposited submask clears form a valid castling set |
| BoardManipulation.CastlingChangeTable | src/core/moves/board_manipulation.cpp:25-56 | the intended table has 2^6 * 2^4 entries, each the entry built from its index |
| BoardManipulation.CastlingChangeEntry | src/core/moves/board_manipulation.cpp:36-52 | every table entry is a valid castling set |
| BoardManipulation.SubmaskRights | src/core/moves/board_manipulation.cpp:33-48 | the rights of the submask extracted from a move are the union of the rights of its two squares (DepositBits of ExtractBits) |
| BoardManipulation.TableEntry | src/core/moves/board_manipulation.cpp:51-52 | the entry at (submask << 4) \| castling is that castling set less the submask's rights |
| BoardManipulation.CastlingChangeTableLookup | src/core/moves/board_manipulation.cpp:66-68 | the lookup UpdateCastling performs is in range and yields the castling change of the move |
| BoardManipulation.CastlingChangeTableAsWritten | src/core/moves/board_manipulation.cpp:25-34 | the table as built has only popcount(6) * 16 = 96 entries |
| BoardManipulation.CastlingChangeTableTooSmall | src/core/moves/board_manipulation.cpp:58-68 | a move from h8 indexes the as-built table past its end for every castling set |
| BoardManipulation.UpdateCastling | src/core/moves/board_manipulation.cpp:62-71 | the castling set becomes the move's castling change, and the hash trades the old set's key for the new one's |
| BoardManipulation.UpdateCastlingAsWritten | src/core/moves/board_manipulation.cpp:62-64 | with the guard as written, any non-empty castling set and the hash are left untouched |
| BoardManipulation.UpdateCastlingGuardAsWritten | src/core/moves/board_manipulation.cpp:63-64 | a rook leaving h1 with all rights keeps White's kingside right as written but loses it as intended |
| BoardManipulation.BuildMakeMoveInfo | src/core/moves/board_manipulation.cpp:73-79 | the info saves the captured cell and exactly the hash, en-passant target, castling set and counter of the board |
| BoardManipulation.MoveHashStep | src/core/moves/board_manipulation.cpp:99-103 | the combined keys of a move turn the full hash of the old cells into the full hash of the new cells and target |
| BoardManipulation.MakeSimple | src/core/moves/board_manipulation.cpp:88-113 | the piece moves to dst over any capture, the target is cleared, castling rights change, the counter resets for fifty-rule moves, and a consistent hash stays consistent |
| BoardManipulation.MakePawnDouble | src/core/moves/board_manipulation.cpp:115-132 | the pawn moves two ranks, the square it passed becomes the target, the counter resets, and a consistent hash stays consistent |
| BoardManipulation.MakeEnPassantAsWritten | src/core/moves/board_manipulation.cpp:134-155 | as written the cells lose the taken pawn |
| BoardManipulation.EnPassantHashAsWritten | src/core/moves/board_manipulation.cpp:146-149 | as written the hash still describes the board with the taken pawn on its square |
| BoardManipulation.MakeEnPassant | src/core/moves/board_manipulation.cpp:134-155 | the pawn moves, the pawn behind the target is removed, target and counter reset, and the hash stays consistent |
| BoardManipulation.CastledCells | src/core/moves/board_manipulation.cpp:161-199 | king on its target, rook on the square the king crossed, both homes empty, every other square unchanged |
| BoardManipulation.SideRights | src/core/moves/board_manipulation.cpp:173-174 | castling spends both rights of the mover |
| BoardManipulation.CastlingHashStep | src/core/moves/board_manipulation.cpp:161-199 | the keys of the four square writes turn the hash of the board before castling into that after it |
| BoardManipulation.MakeCastlingAsWritten | src/core/moves/board_manipulation.cpp:157-203 | as written the caller's info is returned untouched and the mover's rights are cleared |
| BoardManipulation.KingsideCastlingAsWritten | src/core/moves/board_manipulation.cpp:176-179 | as written kingside castling leaves the rook on the king's target square; intended, the king |
| BoardManipulation.CastlingInfoAsWritten | src/core/moves/board_manipulation.cpp:157-203 | as written a stale info survives castling, whereas MakeMove saves the board's castling set |
| BoardManipulation.CastlingHashAsWritten | src/core/moves/board_manipulation.cpp:172-175 | as written the hash after castling is that of the unmoved cells and old target with only the castling set new |
| BoardManipulation.MakeCastling | src/core/moves/board_manipulation.cpp:157-203 | king and rook jump, the mover's rights go, the counter counts on, the target clears, and the hash stays consistent |
| BoardManipulation.MakePromotionAsWritten | src/core/moves/board_manipulation.cpp:205-227 | as written the cells hold the promoted piece on dst |
| BoardManipulation.PromotionHashAsWritten | src/core/moves/board_manipulation.cpp:217-221 | as written the hash is that of a pawn, not the new piece, standing on dst |
| BoardManipulation.MakePromotion | src/core/moves/board_manipulation.cpp:205-227 | the pawn leaves src, the new piece stands on dst, castling rights change, target and counter reset, and the hash stays consistent |
| BoardManipulation.FinishMove | src/core/moves/board_manipulation.cpp:232-234 | the move number counts on, the side turns, the side keys swap in the hash, and nothing else changes |
| BoardManipulation.MakeBranch | src/core/moves/board_manipulation.cpp:85-231 | every branch keeps cells, target and castling set in range and a consistent hash consistent |
| BoardManipulation.MakeMove | src/core/moves/board_manipulation.cpp:360-365 | the side turns, the move number counts on, and the info is that BuildMakeMoveInfo saves |
| BoardManipulation.MakeMoveKeepsHash | src/core/moves/board_manipulation.cpp:82-237 | from a board whose hash is its Zobrist hash, the made move's board again has its Zobrist hash |
| BoardManipulation.MakeBranchFields | src/core/moves/board_manipulation.cpp:85-231 | castling set, counter and en-passant target stay valid for the side about to move |
| BoardManipulation.MakeMoveEffects | src/core/moves/board_manipulation.cpp:88-228 | per kind of move: the cells it rewrites, the en-passant target, the counter and the castling set after it |
| BoardManipulation.MoveTypeMaskAsWritten | src/core/moves/board_manipulation.cpp:85-86 | the `&` of distinct single-bit flags masks every move type to 0 |
| BoardManipulation.MakeMoveAsWritten | src/core/moves/board_manipulation.cpp:85-113 | as written every move takes the simple branch and leaves no en-passant target |
| BoardManipulation.PawnDoubleDispatchAsWritten | src/core/moves/board_manipulation.cpp:85-132 | as written a pawn double move leaves no target; intended, it sets one |
| BoardManipulation.UncastledCells | src/core/moves/board_manipulation.cpp:296-331 | king and rook back home, the squares they jumped to empty |
| BoardManipulation.UnmakeMoveImpl | src/core/moves/board_manipulation.cpp:240-358 | the move number counts back, the side turns, and hash, target, castling set and counter come back from the info |
| BoardManipulation.UndoSimpleCells | src/core/moves/board_manipulation.cpp:252-267 | case 0 of the undo rewrites only src and dst |
| BoardManipulation.UnmakeMoveImplAsWritten | src/core/moves/board_manipulation.cpp:240-267 | as written the type mask is 0, so every undo takes case 0: the saved fields come back, only src and dst are rewritten, and only a simple move is undone as intended |
| BoardManipulation.EnPassantUndoAsWritten | src/core/moves/board_manipulation.cpp:243-244 | after the intended make (the make dispatch fixed), the as-written undo of an en-passant capture leaves the taken pawn's square empty, where the intended undo puts the pawn back |
| BoardManipulation.PromotionUndoAsWritten | src/core/moves/board_manipulation.cpp:243-244 | after the intended make (the make dispatch fixed), the as-written undo of a promotion leaves the new piece on src, where the intended undo puts the pawn back |
| BoardManipulation.UnmakeCasesAsWritten | src/core/moves/board_manipulation.cpp:296-335 | the case bodies as written, latent behind the 243-244 mask: they agree with the intended undo except castling's, which counts the counter on and clears the target again |
| BoardManipulation.UnmakeCastlingAsWritten | src/core/moves/board_manipulation.cpp:332-333 | latent behind the 243-244 mask: were the castling case reached, castling and its undo would leave the quiet-move counter one higher |
| BoardManipulation.UnmakeMove | src/core/moves/board_manipulation.cpp:367-372 | the undo is that of the side not to move, and the side turns back |
| BoardManipulation.UnmakeTwiceAsWritten | src/core/moves/board_manipulation.cpp:367-372 | as written, with White to move, both undos run: the side is White again and the move number drops by two |
| BoardManipulation.UnmakeMoveAsWritten | src/core/moves/board_manipulation.cpp:367-372 | as written: with Black to move the one undo runs and the result is that of the corrected `UnmakeMove` |
| BoardManipulation.MadeMoveUnmakeable | src/core/moves/board_manipulation.cpp:360-372 | every move MakeMove accepts can be handed to UnmakeMove with its info |
| BoardManipulation.UncastleCastled | src/core/moves/board_manipulation.cpp:296-331 | uncastling restores the cells castling rewrote |
| BoardManipulation.UnmakeRestoresCells | src/core/moves/board_manipulation.cpp:252-352 | the squares a made move rewrote are put back, for every kind of move |
| BoardManipulation.MakeUnmakeRoundTrip | src/core/moves/board_manipulation.cpp:82-372 | unmaking a made move with its info gives back exactly the board it was made on |
| UciParser.Byte | src/api/uci/parser.cpp:116-117 | the 8-bit moves-to-go field keeps a number below 256 unchanged and never exceeds 255 |
| UciParser.SetOptionWordsRejected | src/api/uci/parser.cpp:26-28 | the corrected test rejects exactly the argument lists where "key" or "value" is missing, and rejects whatever the written test rejects |
| UciParser.SetOptionWordsAsWritten | src/api/uci/parser.cpp:26 | "setoption key Hash size 64" passes the written test and fails the corrected one |
| UciParser.ParseSetOption | src/api/uci/parser.cpp:22-32 | five words are required, a set-option command results exactly for "key Hash value v" and carries v, anything else is an error |
| UciParser.ParsePosition | src/api/uci/parser.cpp:33-54 | a position results exactly after "fen" or "startpos"; startpos gives the start FEN; moves are present iff the word "moves" appears and are the words after its first occurrence |
| UciParser.ParseClocks | src/api/uci/parser.cpp:102-121 | an accepted clock list pairs a clock key with a number at every other word from the start |
| UciParser.SetClock | src/api/uci/parser.cpp:108-117 | each clock key sets exactly its own field, moves-to-go truncated to 8 bits |
| UciParser.ClockReadsAsWritten | src/api/uci/parser.cpp:103-104 | the word indexes the written loop reads reach up to the list's length, one past its end |
| UciParser.ClockReadPastEndAsWritten | src/api/uci/parser.cpp:103-105 | "go wtime" reads the word after the last one as written, while the corrected parser reports a missing time |
| UciParser.ParseGo | src/api/uci/parser.cpp:55-124 | bare "go" is infinite to maximal depth; a fixed time results iff "movetime n" alone; a depth results iff "depth n" alone with n at most the maximum; every other failure is a parse error |
| UciParser.ParseWords | src/api/uci/parser.cpp:13-130 | the command name decides the command: the five argument-less names map to their commands both ways, and an unknown name is the only source of the unknown-command error |
| UciParser.ParseUciCommand | src/api/uci/parser.cpp:13-131 | the first space-separated word of the line picks the command: "uci" and "quit" map to their commands both ways, position and go commands come only from their names, and only an unknown name gives the unknown-command error |
| UciParser.ClockWords | src/api/uci/parser.cpp:102-121 | the canonical spelling of a clock is ten words, none empty or containing a space |
| UciParser.CommandWordsFree | src/api/uci/parser.cpp:14 | the words of a printable command contain no space, so splitting their join gives them back |
| UciParser.ClockRoundTrip | src/api/uci/parser.cpp:102-122 | parsing the canonical clock words from an empty clock gives the clock back |
| UciParser.FenWordsRoundTrip | src/api/uci/parser.cpp:42-44 | joining the FEN words of a canonical position line gives the FEN text back |
| UciParser.ParsePrintRoundTrip | src/api/uci/parser.cpp:13-131 | parsing the printed line of any printable command gives the command back |
| UciParser.WordsRoundTrip | src/api/uci/parser.cpp:15-130 | parsing the words of any printable command gives the command back |
| UciParser.PositionWordsRoundTrip | src/api/uci/parser.cpp:33-54 | the words of a canonical position line parse back to its FEN and moves |
| UciParser.GoWordsRoundTrip | src/api/uci/parser.cpp:55-124 | the words of a canonical go line parse back to its clock and depth |
| RepetitionTable.Key | src/search/position/repetition_table.cpp:14 | the home slot of a hash is a slot of the table (`hash & size_mask_`) |
| RepetitionTable.Step | src/search/position/repetition_table.cpp:15 | stepping with wrap-around `(i + 1) & size_mask_` stays inside the table |
| RepetitionTable.Distance | src/search/position/repetition_table.cpp:15 | every slot is reached from every other by fewer steps than the table has slots |
| RepetitionTable.New | src/search/position/repetition_table.cpp:5-11 | the table has 2^(byte_size_log - 3) slots, all free, and satisfies the probing invariant |
| RepetitionTable.ProbeFrom | src/search/position/repetition_table.cpp:15-23 | the probe stops at the first step whose slot is free or holds the hash; every slot it passes is occupied by another hash |
| RepetitionTable.ProbeStops | src/search/position/repetition_table.cpp:15-23 | the modelled probe stops exactly when the source's endless loop would end |
| RepetitionTable.ProbeSlot | src/search/position/repetition_table.cpp:38-45 | the slot where the probe stops is free or holds the hash |
| RepetitionTable.Has | src/search/position/repetition_table.cpp:36-47 | a hash reported present is non-zero and stored |
| RepetitionTable.Insert | src/search/position/repetition_table.cpp:13-24 | the size is kept; a reported insertion fills exactly one free slot with the hash; an absent non-zero hash is always inserted; otherwise nothing changes |
| RepetitionTable.FindFrom | src/search/position/repetition_table.cpp:28-33 | the erase probe stops at the first step holding the hash, or at none when no later step holds it |
| RepetitionTable.FindStops | src/search/position/repetition_table.cpp:28-33 | the erase probe of a stored hash ends |
| RepetitionTable.Erase | src/search/position/repetition_table.cpp:26-34 | the size is kept and exactly one slot holding the hash is freed |
| RepetitionTable.InsertKeepsValid | src/search/position/repetition_table.cpp:13-24 | inserting keeps every stored hash reachable from its home slot |
| RepetitionTable.HasIsMembership | src/search/position/repetition_table.cpp:36-47 | in a valid table Has answers exactly whether a non-zero hash is stored |
| RepetitionTable.ProbeBound | src/search/position/repetition_table.cpp:15-23 | the probe stops no later than any step whose slot is free or holds the hash |
| RepetitionTable.HasAfterInsert | src/search/position/repetition_table.cpp:13-47 | after inserting a non-zero hash into a valid table, Has finds it |
| RepetitionTable.InsertReportsNew | src/search/position/repetition_table.cpp:13-24 | Insert reports true exactly when Has did not find the hash before |
| RepetitionTable.EraseUndoesInsert | src/search/position/repetition_table.cpp:13-34 | erasing a hash just inserted gives back the table it was inserted into |
| RepetitionTable.FindFirstFrom | src/search/position/repetition_table.cpp:28-33 | the erase probe stops at the first step holding the hash |
| RepetitionTable.EraseOutOfOrderHides | src/search/position/repetition_table.cpp:26-45 | erasing a hash that an older collision sits behind hides the older one from Has (erasure is only safe in reverse order of insertion) |
| TranspositionTable.NodeTypeCode | src/search/position/transposition_table.h:15-20 | each node type has a two-bit code |
| TranspositionTable.NodeTypeOfCode | src/search/position/transposition_table.h:26-28 | every two-bit code is the code of the node type read from it |
| TranspositionTable.InfoByte | src/search/position/transposition_table.h:21-31 | the flags of an entry pack into one byte |
| TranspositionTable.InfoOfByte | src/search/position/transposition_table.h:23-31 | the generation read from a flags byte has its three low bits clear |
| TranspositionTable.InfoRoundTrip | src/search/position/transposition_table.h:21-31 | packing the flags and reading them back are inverse in both directions |
| TranspositionTable.EntryHash | src/search/position/transposition_table.cpp:43-44 | the two stored 16-bit halves form a 32-bit hash |
| TranspositionTable.New | src/search/position/transposition_table.cpp:16-19 | a new table has 2^(byte_size_log - 5) clusters, holding whatever well-formed entries the allocation left, generation 0, and every key hash inside it |
| TranspositionTable.KeyHash | src/search/position/transposition_table.cpp:5-7 | the cluster key is below 2^size_log |
| TranspositionTable.ValueHash | src/search/position/transposition_table.cpp:9 | the value hash is the high 32 bits: it and the low 32 bits rebuild the hash |
| TranspositionTable.GenerationDiff | src/search/position/transposition_table.cpp:12 | the byte difference of two generations is a multiple of the step and the plain difference when there is no wrap |
| TranspositionTable.Importance | src/search/position/transposition_table.cpp:11-14 | importance is the depth less at most 63, and exactly the depth for the current generation |
| TranspositionTable.ImportanceAfterPositions | src/search/position/transposition_table.cpp:11-14 | an entry stored k < 32 positions ago has lost exactly 2k points of importance |
| TranspositionTable.StepGeneration | src/search/position/transposition_table.cpp:76-78 | one step keeps the low bits clear and wraps to 0 exactly from 248 |
| TranspositionTable.AdvanceGeneration | src/search/position/transposition_table.cpp:76-78 | any number of steps keeps a valid generation |
| TranspositionTable.AdvanceGenerationWraps | src/search/position/transposition_table.cpp:76-78 | k steps add 8k to the generation modulo 256 |
| TranspositionTable.NextPosition | src/search/position/transposition_table.cpp:76-78 | one generation step, the clusters untouched |
| TranspositionTable.NextGame | src/search/position/transposition_table.cpp:80 | the generation restarts at 0, the clusters untouched |
| TranspositionTable.FindFrom | src/search/position/transposition_table.cpp:42-49 | the scan stops at the first entry holding the value hash, or at the end when none does |
| TranspositionTable.LeastImportantFrom | src/search/position/transposition_table.cpp:51-57 | the replacement scan picks an entry of least importance, the first such one |
| TranspositionTable.GetEntry | src/search/position/transposition_table.cpp:37-59 | found iff some entry of the hash's cluster holds its value hash, and then the first such entry; otherwise the first least important entry |
| TranspositionTable.MakeEntry | src/search/position/transposition_table.cpp:25-31 | the new entry stores the value hash, the depth and the current generation's flags, and so has importance equal to its depth |
| TranspositionTable.Store | src/search/position/transposition_table.cpp:21-35 | only the designated entry may change, and it is replaced exactly when the new entry is strictly more important |
| TranspositionTable.StoreThenFind | src/search/position/transposition_table.cpp:21-59 | after a miss and a replacing store, looking the hash up finds the stored entry in the same slot |
| TranspositionTable.ClearAndResizeAsWritten | src/search/position/transposition_table.cpp:71-74 | as written the storage takes the new size but the key width stays the old one |
| TranspositionTable.ClearAndResizeShrinkAsWritten | src/search/position/transposition_table.cpp:71-74 | shrinking from two clusters to one leaves hash 1 keyed to a cluster that no longer exists |
| TranspositionTable.ClearAndResize | src/search/position/transposition_table.cpp:71-74 | corrected, the table is valid at the new size with generation 0 and every key inside it |
| TranspositionTable.Clear | src/search/position/transposition_table.cpp:66-69 | clearing leaves no cluster and generation 0, keeps the key width, and the result is not a table that may be probed |
| MovePicker.NewKillers | src/search/position/move_picker.cpp:10-14 | a new killer table has two slots, both the null move |
| MovePicker.AddKiller | src/search/position/move_picker.cpp:16-21 | the added move is in slot 0 and every older move moved one slot on |
| MovePicker.AddKillers | src/search/position/move_picker.cpp:16-21 | a sequence of additions keeps the table at two slots |
| MovePicker.KillersKeepLatest | src/search/position/move_picker.cpp:16-21 | after two or more additions the table holds the last two moves added, the latest first |
| MovePicker.NewHistory | src/search/position/move_picker.cpp:25-31 | a new history table has every counter zero |
| MovePicker.GetScore | src/search/position/move_picker.cpp:37-39 | a score is a 64-bit counter |
| MovePicker.Update | src/search/position/move_picker.cpp:33-35 | the counter of the cell and destination gains depth squared modulo 2^64, and every other counter is unchanged |
| MovePicker.UpdatesCommute | src/search/position/move_picker.cpp:33-35 | two updates give the same table in either order |
| MovePicker.InsertDesc | src/search/position/move_picker.cpp:62-63 | inserting into a list sorted by decreasing key keeps it sorted and adds exactly the one move |
| MovePicker.SortDesc | src/search/position/move_picker.cpp:62-63 | the sort with `>` gives a permutation of the list in decreasing key order |
| MovePicker.Annotate | src/search/position/move_picker.cpp:46-53 | a capture's key is its victim's cost plus its attacker's, between 0 and 42, and nothing else of the move changes |
| MovePicker.AnnotateAll | src/search/position/move_picker.cpp:46-53 | every move of the list gets its own key, in place |
| MovePicker.SortByMvvLva | src/search/position/move_picker.cpp:55-64 | the annotated captures, permuted into decreasing key order |
| MovePicker.HistoryKey | src/search/position/move_picker.cpp:68-71 | the sort key of a move is the history counter of its moving cell and destination |
| MovePicker.SortByHistory | src/search/position/move_picker.cpp:66-72 | the quiet moves, permuted into decreasing history-counter order |
| MovePicker.SwapRemove | src/search/position/move_picker.cpp:148-149 | the removed move is replaced by the last one and the list is one shorter, otherwise unchanged |
| MovePicker.RemoveKillersAsWritten | src/search/position/move_picker.cpp:139-151 | the loop as written only removes moves |
| MovePicker.RemoveKillersSkipAsWritten | src/search/position/move_picker.cpp:139-151 | with two killers at the end of the list, the one swapped in is never examined and survives |
| MovePicker.RemoveKillers | src/search/position/move_picker.cpp:139-151 | corrected, the loop keeps the examined prefix and leaves no killer, and only removes moves |
| MovePicker.NoKillerCount | src/search/position/move_picker.cpp:140-146 | a list without killers holds no copy of a killer move |
| MovePicker.RemoveKillersCounts | src/search/position/move_picker.cpp:139-151 | the corrected loop removes every copy of each killer and keeps every copy of any other move |
| MovePicker.NonKillersCount | src/search/position/move_picker.cpp:139-151 | the reference filter keeps exactly the copies of the moves that are not killers |
| MovePicker.RemoveKillersIsFilter | src/search/position/move_picker.cpp:139-151 | the corrected loop keeps the same moves as the reference filter |
| MovePicker.NextStage | src/search/position/move_picker.cpp:74-76 | the stage after a stage other than End is the next one |
| MovePicker.GetNewMoves | src/search/position/move_picker.cpp:103-164 | the stage only advances; a state with moves left is untouched; the loop ends with a move to read or at End |
| MovePicker.SkipTtMove | src/search/position/move_picker.cpp:91-99 | a move handed out after the TT stage is never the TT move, and the state makes progress |
| MovePicker.SkipRefill | src/search/position/move_picker.cpp:92-98 | after stepping over the TT move the picker refills, and a move it hands out is not the TT move |
| MovePicker.GetNextMove | src/search/position/move_picker.cpp:86-101 | each call that hands out a move makes progress, and after the TT stage never hands out the TT move |
| MovePicker.WithoutTtMove | src/search/position/move_picker.cpp:91 | the reference filter keeps moves other than the TT move and adds none |
| MovePicker.WithoutTtMoveAppend | src/search/position/move_picker.cpp:91 | filtering a concatenation filters each part |
| MovePicker.GetNewMovesPending | src/search/position/move_picker.cpp:103-164 | fetching the next stages keeps a reachable state and changes nothing that is still to come |
| MovePicker.InvStep | src/search/position/move_picker.cpp:100 | advancing the read position inside a stage keeps the state reachable |
| MovePicker.PendingSkipHead | src/search/position/move_picker.cpp:91-92 | stepping over the TT move leaves the moves still to come as they were |
| MovePicker.PendingTakeHead | src/search/position/move_picker.cpp:100 | handing out the move at the read position removes it from the front of the moves still to come |
| MovePicker.SkipTtMovePending | src/search/position/move_picker.cpp:91-100 | the skip loop hands out the first of the moves still to come, or ends when none are |
| MovePicker.SkipRefillPending | src/search/position/move_picker.cpp:93-98 | a refill after a skip hands out the first of the moves still to come, or ends when none are |
| MovePicker.GetNextMovePending | src/search/position/move_picker.cpp:86-101 | one call hands out the first of the moves still to come, or returns the null move when none are |
| MovePicker.DrainIsPending | src/search/position/move_picker.cpp:86-101 | calling until the end hands out exactly the moves still to come |
| MovePicker.StagesFrom | src/search/position/move_picker.cpp:103-164 | the concatenated moves of the later stages are all of valid kind |
| MovePicker.FutureWithoutTtMove | src/search/position/move_picker.cpp:91 | after the TT stage the moves still to come are the later stages' moves without the TT move |
| MovePicker.DrainOrder | src/search/position/move_picker.cpp:86-164 | a fresh picker hands out the TT stage's moves, then every later stage's moves in stage order without the TT move |
| MovePicker.PseudolegalKillers | src/search/position/move_picker.cpp:127-135 | the killer stage holds exactly the pseudo-legal killer moves, at most two |
| MovePicker.CaptureMoves | src/search/position/move_picker.cpp:116-122 | the capture stage's moves are all of valid kind |
| MovePicker.HistoryMoves | src/search/position/move_picker.cpp:136-155 | the history stage's moves are all of valid kind |
| MovePicker.StageLists | src/search/position/move_picker.cpp:103-164 | the lists of the stages satisfy the picker's requirements |
| MovePicker.PickerOrder | src/search/position/move_picker.cpp:78-164 | a fresh picker in any position hands out the pseudo-legal TT move, the sorted captures, the promotions, the pseudo-legal killers and the sorted non-killer quiet moves, none but the first equal to the TT move |
| MovePicker.SelectFrom | src/search/position/move_picker.cpp:181-185 | the swap scan permutes the list and ends with the largest key at its head |
| MovePicker.Select | src/search/position/move_picker.cpp:180-186 | selection permutes the captures and puts a largest key first |
| MovePicker.SelectionOrder | src/search/position/move_picker.cpp:180-187 | repeated selection hands the captures out as a permutation in decreasing key order |
| MovePicker.QGetNewMoves | src/search/position/move_picker.cpp:190-221 | the quiescence stage only advances; the loop ends with a move to read or at End |
| MovePicker.QGetNextMove | src/search/position/move_picker.cpp:175-188 | each call makes progress, and a capture handed out has a key no smaller than any capture left |
| MovePicker.QGetNewMovesPending | src/search/position/move_picker.cpp:190-221 | fetching the next quiescence stages changes nothing still to come |
| MovePicker.QGetNextMovePending | src/search/position/move_picker.cpp:175-188 | one call hands out the first of the moves still to come, or the null move when none are |
| MovePicker.QDrainIsPending | src/search/position/move_picker.cpp:175-188 | calling until the end hands out exactly the moves still to come |
| MovePicker.QStageLists | src/search/position/move_picker.cpp:190-221 | the quiescence stage lists satisfy the picker's requirements |
| MovePicker.QDrainOrder | src/search/position/move_picker.cpp:175-221 | a fresh quiescence picker hands out the captures in selection order, then the promotions, then the evasions |
| MovePicker.QuiescenceOrder | src/search/position/move_picker.cpp:172-221 | the first n moves are the annotated captures in decreasing key order, followed by the promotions and, in check only, the quiet moves |
| Pawns.New | src/eval/pawns.cpp:5 | a new cache has 2^16 entries, none of them valid |
| Pawns.KeyFromHash | src/eval/pawns.cpp:7-9 | the key of a 64-bit hash is one of the 2^16 slots |
| Pawns.IsEntryValid | src/eval/pawns.h:15-17 | an entry is valid when its stored hash part is non-zero (the zeroed entry of a new cache is not) |
| Pawns.HashPart | src/eval/pawns.cpp:11-13 | the stored hash part is a 32-bit value |
| Pawns.Add | src/eval/pawns.cpp:15-20 | the returned entry holds the score and hash part and is stored at the hash's key; every other slot is unchanged |
| Pawns.Get | src/eval/pawns.cpp:22-29 | an entry is found exactly when the slot at the hash's key is valid and its hash part matches, and then it is that slot's entry |
| Pawns.GetAfterAdd | src/eval/pawns.cpp:15-29 | after Add, Get of the same hash returns the stored entry when the low 32 bits are non-zero and nothing when they are zero |
| Pawns.AddKeepsOtherKeys | src/eval/pawns.cpp:15-29 | Add leaves the answer of Get unchanged for every hash with another key |
| Pawns.NewFindsNothing | src/eval/pawns.cpp:5 | a new cache answers no hash |
| Pawns.SharedEntry | src/eval/pawns.cpp:7-13 | hashes that agree in their top 16 and low 32 bits share an entry: 1 + 2^32 finds the entry stored for 1 |
| Psq.PsqIndex | src/eval/psq.h:18-22 | the index of a cell and square lies inside the 832-entry table |
| Psq.CoordFromPsqIndex | src/eval/psq.h:134-136 | the square read from an index is a square of the board |
| Psq.CellFromPsqIndex | src/eval/psq.h:138-140 | the cell read from an index is one of the 13 cells |
| Psq.PsqIndexRoundTrip | src/eval/psq.h:20-22 | the index and its two readings are inverse in both directions |
| Psq.GetPsq | src/eval/psq.h:32-53 | every entry of the table is the reference value: zero for the empty cell, table value plus piece cost for White, the negated white value of the mirrored square for Black |
| Psq.FillCell | src/eval/psq.h:36-50 | one occupied cell's loop, writing the white sum on each square or the negated sum on the mirrored square, leaves every one of that cell's 64 entries at its reference value and every other cell's entries as they were |
| Psq.BlackMirrorsWhite | src/eval/psq.h:43-49 | a black piece's entry on the mirrored square is the negation of the white piece's entry |
| Score.Neg | src/eval/psq.h:48 | multiplying a score pair by -1 gives its additive inverse |
| Label.WhiteWdl | tools/data_sampler/label.go:61-63 | the draw probability is kept; for White nothing changes, for Black win and loss trade places |
| Label.SampleTarget | tools/data_sampler/label.go:64-72 | the target is 1, 0.5 or 0: 1 exactly when the random number is below the win probability, 0 exactly when it is also at least win plus draw |
| Label.SampleTargetMonotone | tools/data_sampler/label.go:64-72 | a larger random number never gives a larger target |
| Label.MoverScore | tools/data_sampler/label.go:73-86 | a mate becomes +30000 exactly for a non-negative mate distance and -30000 exactly for a negative one; centipawns are kept |
| Label.WhiteScore | tools/data_sampler/label.go:87-89 | the score seen from White: the mover's score, negated when Black moves |
| Label.MateScoreIsMate | tools/data_sampler/label.go:76-89 | a mate is always labelled with a mate-range score of magnitude 30000 |
| Label.GetResult | tools/data_sampler/label.go:27-91 | an unparsable FEN is an error and a finished game a silent skip; a record results exactly when the engine answered with a best move, a score and a WDL; it keeps the FEN and best move, and its target is 0, 0.5 or 1 |
| Label.FinishedIgnoresEngine | tools/data_sampler/label.go:34-36 | the outcome for a finished game does not depend on the engine's reply or the random number |
| Label.LabelColorSymmetry | tools/data_sampler/label.go:61-90 | the same reply labelled for Black gives the negated score, the swapped WDL and the target sampled from the swapped WDL |
| Label.RecordFields | tools/data_sampler/label.go:150 | a record has seven fields, the FEN first and the best move third |
| Label.RecordLine | tools/data_sampler/label.go:150 | a record line ends with a newline |
| Label.RecordLineFields | tools/data_sampler/label.go:150 | splitting a record line without its newline on commas gives back its seven fields, when no field contains a comma |
| FenGen.Shuffle | tools/data_sampler/fengen.go:55-57 | the shuffle with any draws of `rand.Shuffle` is a permutation of its input |
| FenGen.TakeRandom | tools/data_sampler/fengen.go:51-59 | a list no longer than num comes back unchanged; otherwise num of its elements, with multiplicity, come back |
| FenGen.SideInfos | tools/data_sampler/fengen.go:88-99 | a side's list holds no more than all info strings |
| FenGen.SideInfosPartition | tools/data_sampler/fengen.go:118-123 | every info string goes to exactly one of the two side lists |
| FenGen.FirstFailure | tools/data_sampler/fengen.go:101-150 | the first turn whose engine call failed, and no failure before it |
| FenGen.SampleSides | tools/data_sampler/fengen.go:151-155 | each side keeps min(n, num) of its own strings, White's first, so at most 2 num strings; the merged cut never removes any |
| FenGen.PlayGame | tools/data_sampler/fengen.go:61-156 | the game is reported played out exactly when no turn failed; on failure White's strings up to and including the failed turn come back; otherwise each side's sample of its own strings |
| FenGen.CollectGame | tools/data_sampler/fengen.go:223-234 | a failed game contributes nothing; a played one at most 2 num strings, all taken from the two sides' info strings |
| ModelWriter.GetTarget | tools/model_sampler/writer.cpp:13-29 | +1 for the side that won, -1 for the side that lost, 0 for a draw; an error exactly for an unexpected result |
| ModelWriter.TargetAntisymmetric | tools/model_sampler/writer.cpp:13-29 | the two sides get opposite targets from the same result |
| ModelWriter.FeatureIndex | tools/model_sampler/writer.cpp:36-46 | the feature of a piece on a square is one of the 768 features |
| ModelWriter.FeatureSquare | tools/model_sampler/writer.cpp:35-46 | the square that sets a feature is a square of the board |
| ModelWriter.FeatureIndexMeaning | tools/model_sampler/writer.cpp:36-46 | the feature a piece sets holds on the board and names that piece's square back |
| ModelWriter.FeatureHoldsMeaning | tools/model_sampler/writer.cpp:36-46 | a feature that holds is the one its square's piece sets |
| ModelWriter.Features | tools/model_sampler/writer.cpp:34-48 | feature k is 1 exactly when it holds for the board seen from the side to move, else 0 |
| ModelWriter.PackByte | tools/model_sampler/writer.cpp:51-56 | bit j from the most significant of a byte is set exactly when feature 8 byte + j is non-zero |
| ModelWriter.PackedBitAppend | tools/model_sampler/writer.cpp:50-57 | appending a byte keeps the earlier bits and puts its own bits after them |
| ModelWriter.Pack | tools/model_sampler/writer.cpp:49-57 | 96 bytes in which feature k's bit is set exactly when feature k is non-zero |
| ModelWriter.WriteBoard | tools/model_sampler/writer.cpp:31-62 | no record exactly for an unexpected result; otherwise 96 bytes whose bit k is set exactly when feature k holds, and the side's target |
| ModelWriter.PackedBytesDetermined | tools/model_sampler/writer.cpp:49-57 | the packed bytes are determined by the features: two packings agreeing on every feature bit are equal |

## Left out

- Bitboards, attack tables, move generation, legality and check detection: the model works on the 64-cell array and takes generated move lists and the pseudo-legality test as parameters.
- The meaning of the move's `info` field beyond its bit layout: the engine does not read it in the parts modelled here.
- The Zobrist key generator in hash.h: the keys are a parameter, and every hash statement holds for any key tables of the right shape.
- The cells a failing FEN parse has already written: the model returns an error instead of a half-written board.
- `Q_ASSERT` debug checks: they are compiled out of release builds, and the model states the same conditions as preconditions or leaves them out. The exception is the name check in `CastStringToEnPassantCoord` (board.cpp:185), whose input comes straight from the FEN text. There the model follows the release build (`Fen.ParseEnPassant`).
- Fen.ParseEnPassant: a field of one character other than "-", or an empty field, makes the source index past the end of the text, which is undefined behaviour. The model rejects it with `InvalidEnPassantCoord`. Characters are taken by their code points, so the signed `char` reading of bytes above 0x7f is not modelled.
- The range of `std::stoll` in the UCI parser (parser.cpp:80, 90 and 107), and its acceptance of a sign or of trailing text: numbers are unbounded naturals there (the FEN counts do model the `int` bound and the `uint8_t` truncation of the 50-move counter).
- The mismatches between headers and implementations, which do not compile together. The model follows the .cpp files in each case:
  - board_manipulation.h declares `MadeMoveInfo` and a `void` MakeMove, while the .cpp has `MakeMoveInfo` and a `bool` result.
  - transposition_table.h is a template with split hash halves and a generation of `data >> 3`; the model takes the generation byte with its three low bits clear, stepping by 8.
  - move_picker.h declares a quiescence picker without the in-check constructor and evasion stage that the .cpp defines.
- The storage `TranspositionTable::Clear` releases (`data_ = nullptr`): `TranspositionTable.Clear` returns a table with no clusters, and probing it is left undefined, as it is in the source.
- The repetition table probe on a full table that does not hold the hash: the source loops forever. So `RepetitionTable.Insert` and `RepetitionTable.Has` require `ProbeEnds`: a free slot, or the hash already stored. The erase probe of a hash that is not stored never ends either (repetition_table.cpp:28-33), so `RepetitionTable.Erase` requires the hash to be stored.
- The tie order of `std::sort` among equal history scores: the picker's contracts speak of a descending order, not of one particular permutation among ties.
- The capacity of `MoveList` and the width of `depth_t`: the model uses unbounded sequences and naturals.
- `GetPawnCacheRef`, the process-wide pawn cache: the model passes the cache as a value.
- `ScorePair`, `FlipCoord`, `FlipCellColor`, `GetCellPiece`, `CastCharToPiece`, `GetRank`, `GetFile` and `NO_ENPASSANT_COORD` are used by the modelled files, but their definitions are not part of this model. The model defines them as their uses require. The same holds for these constants, each with the reading the model chose:
  - `WHITE_KING_INITIAL_POSITION` and `BLACK_KING_INITIAL_POSITION`: e1 and e8, squares 4 and 60 (`Moves.KingHome`).
  - `FIFTY_RULE_MOVE_BIT`: a flag of its own beside the four type bits (value 16, the `fifty` field of a move). move.cpp:63, 69 and 85 set it on pawn moves and captures. Any value for it above the three basic-type bits makes `IsMoveCapture` as written true of every move that carries it, so the finding on move.h:67-70 does not depend on the value chosen.
  - `PAWN_DOUBLE_MOVE_BIT`, `EN_PASSANT_MOVE_BIT`, `CASTLING_MOVE_BIT` and `PROMOTION_MOVE_BIT`: four distinct single-bit flags. That is all the masks at board_manipulation.cpp:85-86 and 243-244 need (`BoardManipulation.MoveTypeMaskAsWritten`). The `case` labels are read as the basic types below.
  - `PAWN_DOUBLE_MOVE_TYPE`, `EN_PASSANT_MOVE_TYPE`, the castling type and the four `*_PROMOTION_MOVE_TYPE`s: basic types 1, 2, 3 and 4-7 (knight, bishop, rook, queen) in the low three bits, beside `CAPTURE_MOVE_BIT` (8) as move.h:37-38 lay out.
  - `UNDEFINED_MOVE_TYPE`: no move at all; a translation that fails returns `None`.
  - `KINGSIDE_CASTLING_MOVE` and `KINGSIDE_CASTLING_MOVE_TYPE`: a single castling type. The side is read from the destination, as `GetCastlingSide` (move.h:102-106) does.
  - `CLUSTER_SIZE_LOG`: 5, because a cluster is three 10-byte entries and 2 bytes of padding, 32 bytes (`TranspositionTable.ClusterSizeLog`).
- `score_t` is `int16_t`: scores are unbounded integers, and the constants (mate bound, infinity) are the source's, well inside that range.
- Label: the `float32` rounding of scores and targets is not modelled; WDL values and targets are reals.
- Label: the branch marked as never happening, which panics, is left out.
- Label: the chess library, the engine process, its deadlines and the worker goroutines are left out; their results are parameters.
- FenGen.TakeRandom: `num` is a natural; a negative count, on which the Go slice expression panics, is not modelled.
- FenGen.CollectGame: when a game fails, `PlayGame` returns White's positions with the error, as fengen.go:146 does, and its caller discards both. The model keeps that: a failed game contributes no positions.
- ModelWriter: reader.h names the results and the file kind differently from writer.cpp (side-relative wins and a position set, against White/Black wins and a game set). The model follows writer.cpp.
- ModelWriter: the byte encoding of the `float` target, the file output and `ExitWithError` are left out; the record holds the packed features and the integer target.

## Findings

| source | as written | input that shows it | evidently intended | confidence | as-written member | corrected member |
|---|---|---|---|---|---|---|
| src/core/board/types.h:67-70 | `IsPieceValid` joins its two comparisons with `\|\|`, so every value passes | piece 0 (empty) or 200 | a piece strictly between empty and king, i.e. pawn..king | not executed | Types.PieceValidityAsWritten | Types.IsPieceValid |
| src/core/moves/move.cpp:29-44 | the promotion letter is checked with the always-true `IsPieceValid` | "e7e8x" becomes a bishop promotion | only n, b, r, q give a promotion | not executed | Moves.PromotionLetterAsWritten | Moves.TranslatePromotion |
| src/core/util.h:30-33 | `IsAnyCastlingAllowed` returns `c == None` | all four rights: it returns false | true exactly when some right is left | not executed | CoreUtil.AnyCastlingAsWritten | CoreUtil.IsAnyCastlingAllowed |
| src/core/moves/move.h:67-70 | `IsMoveCapture` compares the whole type byte with 7, and the fifty-rule flag above the four type bits counts too | the quiet pawn push e2e3 from the starting position: its type is the simple type with only the fifty-rule flag (move.cpp:63, 87), and it reads as a capture, which also turns off the null-move guard at searcher.cpp:197-198 after it | only the capture bit makes a capture | not executed | Moves.QuietPawnPushCaptureAsWritten | Moves.IsMoveCapture |
| src/core/board/board.cpp:164-171 | the count check accepts any all-digit text, the empty text included, and `std::stoi` then throws | a FEN whose last field is empty | the empty count is a parse error code | not executed | Fen.EmptyCountThrows | Fen.ParseCount |
| src/core/moves/board_manipulation.cpp:25-34 | the castling-change table has popcount(6) * 16 = 96 entries | a move from h8 reads past the end for every castling set c | 64 * 16 entries, one per source square and castling set | not executed | BoardManipulation.CastlingChangeTableTooSmall | BoardManipulation.CastlingChangeTable |
| src/core/moves/board_manipulation.cpp:63-64 | UpdateCastling only acts when the castling set is empty | a rook leaving h1 with all rights keeps White's kingside right | act whenever some right is left | not executed | BoardManipulation.UpdateCastlingGuardAsWritten | BoardManipulation.UpdateCastling |
| src/core/moves/board_manipulation.cpp:85-86 | the move type is masked with the `&` of distinct single-bit flags, which is 0 | a pawn double move takes the simple branch and sets no en-passant target | dispatch on each move type | not executed | BoardManipulation.PawnDoubleDispatchAsWritten | BoardManipulation.MakeMove |
| src/core/moves/board_manipulation.cpp:146-149 | en passant never removes the taken pawn's key from the hash (latent behind the 85-86 mask, which never reaches this branch) | any en-passant capture | the hash drops the taken pawn | not executed | BoardManipulation.EnPassantHashAsWritten | BoardManipulation.MakeEnPassant |
| src/core/moves/board_manipulation.cpp:157-203 | castling returns the caller's info untouched (latent behind the 85-86 mask, which never reaches this branch) | castling after an unrelated move keeps the stale info | the info saves the board's castling set, target, counter and hash | not executed | BoardManipulation.CastlingInfoAsWritten | BoardManipulation.MakeCastling |
| src/core/moves/board_manipulation.cpp:172-175 | castling updates only the castling key of the hash (latent behind the 85-86 mask, which never reaches this branch) | e1g1 with White's rights | the hash also trades the king's and rook's square keys | not executed | BoardManipulation.CastlingHashAsWritten | BoardManipulation.MakeCastling |
| src/core/moves/board_manipulation.cpp:176-179 | kingside castling writes the king and rook to swapped cells (latent behind the 85-86 mask, which never reaches this branch) | e1g1 leaves the rook on g1 | king on g1, rook on f1 | not executed | BoardManipulation.KingsideCastlingAsWritten | BoardManipulation.MakeCastling |
| src/core/moves/board_manipulation.cpp:217-221 | promotion adds the pawn's key for the destination square (latent behind the 85-86 mask, which never reaches this branch) | e7e8q | the key of the promoted piece | not executed | BoardManipulation.PromotionHashAsWritten | BoardManipulation.MakePromotion |
| src/core/moves/board_manipulation.cpp:243-244 | the undo masks the type with the `&` of distinct single-bit flags, which is 0, so every undo takes case 0 | after the intended make (latent behind the 85-86 mask: it shows once the make dispatch is fixed, since the as-written make also takes the simple branch and the two round-trip), undoing an en-passant capture leaves the taken pawn's square empty and undoing a promotion leaves the new piece on src | dispatch on each move type | not executed | BoardManipulation.EnPassantUndoAsWritten | BoardManipulation.UnmakeMoveImpl |
| src/core/moves/board_manipulation.cpp:332-333 | the castling undo does not restore the counter from the info (latent behind the 243-244 mask, which never reaches this case) | castling then its undo, were the castling case reached: the counter is one higher | every undo restores the counter | not executed | BoardManipulation.UnmakeCastlingAsWritten | BoardManipulation.UnmakeMoveImpl |
| src/core/moves/board_manipulation.cpp:367-372 | both undo branches run when White is to move | undoing Black's move, with White to move, turns the side twice and counts the move number back twice | exactly one undo, for the side that moved | not executed | BoardManipulation.UnmakeTwiceAsWritten | BoardManipulation.UnmakeMove |
| src/api/uci/parser.cpp:26 | the setoption test joins its two mismatches with `&&` | "setoption key Hash size 64" is accepted | reject when either keyword is missing | not executed | UciParser.SetOptionWordsAsWritten | UciParser.SetOptionWordsRejected |
| src/api/uci/parser.cpp:103-105 | a clock option reads the next word without a bounds check | "go wtime" reads past the last word | a missing value is a parse error | not executed | UciParser.ClockReadPastEndAsWritten | UciParser.ParseGo |
| src/search/position/transposition_table.cpp:71-74 | ClearAndResize resizes the storage but keeps the old key width | shrinking from two clusters to one keys hash 1 to cluster 1, which no longer exists | the key width follows the new size | not executed | TranspositionTable.ClearAndResizeShrinkAsWritten | TranspositionTable.ClearAndResize |
| src/search/position/move_picker.cpp:139-151 | after swapping a removed killer with the last move, the loop steps past the swapped-in move | two killers at the end of the list: the second survives | test the swapped-in move too | not executed | MovePicker.RemoveKillersSkipAsWritten | MovePicker.RemoveKillers |

=== FILE: bits.dfy ===
/**
 * The single-bit and bit-gathering helpers of the engine's bit utilities.
 *
 * A 64-bit machine word is a `nat` below `Pow2(64)`; `Bit(n, i)` reads its
 * i-th binary digit. `Pdep` and `Pext` are the reference meaning of the
 * BMI2 instructions `_pdep_u64` and `_pext_u64`, and the methods
 * `DepositBits` and `ExtractBits` are the portable loops used when BMI2 is
 * unavailable; their contracts state that both agree.
 */
module Bits {

  /** 2 to the power k. */
  function Pow2(k: nat): (r: nat)
    ensures r >= 1
  {
    if k == 0 then 1 else 2 * Pow2(k - 1)
  }

  /** The width of `uint64_t`. */
  const WordBits: nat := 64

  /** n fits in an unsigned 64-bit word. */
  predicate IsWord(n: nat)
  {
    n < Pow2(WordBits)
  }

  /** Binary digit i of n, the least significant digit being digit 0. */
  function Bit(n: nat, i: nat): (r: nat)
    ensures r < 2
  {
    if i == 0 then n % 2 else Bit(n / 2, i - 1)
  }

  /** Number of set bits (`__builtin_popcountll`). */
  function PopCount(n: nat): (r: nat)
    ensures r <= n
    ensures r == 0 <==> n == 0
  {
    if n == 0 then 0 else n % 2 + PopCount(n / 2)
  }

  /** Index of the lowest set bit (`__builtin_ctzll`); undefined on 0, as in the source. */
  function LowestBit(n: nat): (r: nat)
    requires n > 0
    ensures Bit(n, r) == 1 && Pow2(r) <= n
    ensures forall j :: 0 <= j < r ==> Bit(n, j) == 0
  {
    if n % 2 == 1 then 0 else 1 + LowestBit(n / 2)
  }

  // ---------------------------------------------------------------- lemmas

  /** A number below 2^k has no set bit at or above k. */
  lemma {:induction false} BitAboveBound(n: nat, k: nat, i: nat)
    requires n < Pow2(k) && i >= k
    ensures Bit(n, i) == 0
    decreases k
  {
    if k == 0 {
      assert n == 0;
      ZeroBits(i);
    } else {
      if i == 0 {
      } else {
        BitAboveBound(n / 2, k - 1, i - 1);
      }
    }
  }

  /** Zero has no set bit. */
  lemma {:induction false} ZeroBits(i: nat)
    ensures Bit(0, i) == 0
  {
    if i > 0 {
      ZeroBits(i - 1);
    }
  }

  /** Adding 2^b to a number whose bit b is clear sets bit b and leaves every other bit. */
  lemma {:induction false} AddPow2Bit(n: nat, b: nat, i: nat)
    requires Bit(n, b) == 0
    ensures Bit(n + Pow2(b), i) == if i == b then 1 else Bit(n, i)
    decreases b
  {
    if b == 0 {
      assert n % 2 == 0;
      if i > 0 {
        assert (n + 1) / 2 == n / 2;
      }
    } else {
      assert (n + Pow2(b)) / 2 == n / 2 + Pow2(b - 1);
      if i > 0 {
        AddPow2Bit(n / 2, b - 1, i - 1);
      }
    }
  }

  /** Subtracting 2^b from a number whose bit b is set clears bit b and leaves every other bit. */
  lemma {:induction false} SubPow2Bit(n: nat, b: nat, i: nat)
    requires Bit(n, b) == 1
    ensures n >= Pow2(b)
    ensures Bit(n - Pow2(b), i) == if i == b then 0 else Bit(n, i)
    decreases b
  {
    if b == 0 {
      assert n % 2 == 1;
      if i > 0 {
        assert (n - 1) / 2 == n / 2;
      }
    } else {
      SubPow2Bit(n / 2, b - 1, 0);
      HalveSubPow2(n, b);
      if i > 0 {
        SubPow2Bit(n / 2, b - 1, i - 1);
      }
    }
  }

  /** Setting a clear bit below the word width keeps a word a word. */
  lemma {:induction false} AddPow2Bound(n: nat, b: nat, k: nat)
    requires n < Pow2(k) && b < k && Bit(n, b) == 0
    ensures n + Pow2(b) < Pow2(k)
    decreases b
  {
    if b == 0 {
      assert n % 2 == 0;
    } else {
      AddPow2Bound(n / 2, b - 1, k - 1);
    }
  }

  /** Two numbers with the same binary digits are equal. */
  lemma {:induction false} BitsDetermine(a: nat, b: nat, k: nat)
    requires a < Pow2(k) && b < Pow2(k)
    requires forall i :: 0 <= i < k ==> Bit(a, i) == Bit(b, i)
    ensures a == b
    decreases k
  {
    if k > 0 {
      assert Bit(a, 0) == Bit(b, 0);
      forall i | 0 <= i < k - 1
        ensures Bit(a / 2, i) == Bit(b / 2, i)
      {
        assert Bit(a, i + 1) == Bit(b, i + 1);
      }
      BitsDetermine(a / 2, b / 2, k - 1);
    }
  }

  /** Digit i of hi * 2^k + lo, for lo below 2^k, comes from lo below k and from hi above. */
  lemma {:induction false} BitOfSplit(hi: nat, lo: nat, k: nat, i: nat)
    requires lo < Pow2(k)
    ensures Bit(hi * Pow2(k) + lo, i) == if i < k then Bit(lo, i) else Bit(hi, i - k)
    decreases k
  {
    if k > 0 {
      var t := hi * Pow2(k - 1);
      assert hi * Pow2(k) == 2 * t;
      assert (2 * t + lo) / 2 == t + lo / 2;
      assert (2 * t + lo) % 2 == lo % 2;
      if i > 0 {
        BitOfSplit(hi, lo / 2, k - 1, i - 1);
      }
    }
  }

  /** Halving n, then reducing modulo p, gives the upper digits of n modulo 2p. */
  lemma ModDouble(n: nat, p: nat)
    requires p > 0
    ensures n % (2 * p) == 2 * ((n / 2) % p) + n % 2
  {
    var q := (n / 2) / p;
    var r := (n / 2) % p;
    assert n / 2 == q * p + r;
    assert q * (2 * p) == 2 * (q * p);
    assert n == q * (2 * p) + (2 * r + n % 2);
    DivUnique(n, 2 * p, q, 2 * r + n % 2);
  }

  /** Quotient and remainder are unique. */
  lemma DivUnique(n: nat, d: nat, q: nat, r: nat)
    requires d > 0 && r < d && n == q * d + r
    ensures n / d == q && n % d == r
  {
    var q0 := n / d;
    var r0 := n % d;
    assert n == q0 * d + r0;
    if q0 < q {
      MulMono(q0, q, d);
    } else if q0 > q {
      MulMono(q, q0, d);
    }
  }

  /** Multiplication is strictly monotone in its left factor, by at least the right factor. */
  lemma {:induction false} MulMono(a: nat, b: nat, d: nat)
    requires a < b
    ensures a * d + d <= b * d
    decreases b - a
  {
    assert (a + 1) * d == a * d + d;
    if a + 1 < b {
      MulMono(a + 1, b, d);
    }
  }

  /** A set bit of a number below 2^k lies below k. */
  lemma SetBitBelow(n: nat, k: nat, i: nat)
    requires n < Pow2(k) && Bit(n, i) == 1
    ensures i < k
  {
    if i >= k {
      BitAboveBound(n, k, i);
    }
  }

  // ------------------------------------------------------- single-bit ops

  /** `num |= 1 << bit`: bit b becomes 1 and nothing else changes. */
  function SetBit(n: nat, b: nat): (r: nat)
    requires IsWord(n) && b < WordBits
    ensures IsWord(r)
    ensures Bit(r, b) == 1
    ensures forall i :: i != b ==> Bit(r, i) == Bit(n, i)
  {
    if Bit(n, b) == 1 then n
    else
      AddPow2Bound(n, b, WordBits);
      forall i ensures Bit(n + Pow2(b), i) == if i == b then 1 else Bit(n, i) {
        AddPow2Bit(n, b, i);
      }
      n + Pow2(b)
  }

  /** `num &= ~(1 << bit)`: bit b becomes 0 and nothing else changes. */
  function ClearBit(n: nat, b: nat): (r: nat)
    requires IsWord(n) && b < WordBits
    ensures IsWord(r) && r <= n
    ensures Bit(r, b) == 0
    ensures forall i :: i != b ==> Bit(r, i) == Bit(n, i)
  {
    if Bit(n, b) == 0 then n
    else
      SubPow2Bit(n, b, b);
      forall i ensures Bit(n - Pow2(b), i) == if i == b then 0 else Bit(n, i) {
        SubPow2Bit(n, b, i);
      }
      n - Pow2(b)
  }

  /** `num ^= 1 << bit`: bit b is inverted and nothing else changes. */
  function FlipBit(n: nat, b: nat): (r: nat)
    requires IsWord(n) && b < WordBits
    ensures IsWord(r)
    ensures Bit(r, b) == 1 - Bit(n, b)
    ensures forall i :: i != b ==> Bit(r, i) == Bit(n, i)
  {
    if Bit(n, b) == 1 then ClearBit(n, b) else SetBit(n, b)
  }

  /** `num & (1 << bit)` converted to bool. */
  function CheckBit(n: nat, b: nat): (r: bool)
    requires IsWord(n) && b < WordBits
    ensures r <==> Bit(n, b) == 1
    ensures r <==> SetBit(n, b) == n
  {
    Bit(n, b) == 1
  }

  /** Flipping a bit twice gives back the word. */
  lemma FlipBitInvolution(n: nat, b: nat)
    requires IsWord(n) && b < WordBits
    ensures FlipBit(FlipBit(n, b), b) == n
  {
    var r := FlipBit(FlipBit(n, b), b);
    assert forall i :: 0 <= i < WordBits ==> Bit(r, i) == Bit(n, i);
    BitsDetermine(r, n, WordBits);
  }

  /**
   * `ExtractLowestBit`: returns the index of the lowest set bit and the word
   * `num & (num - 1)`, which is the word with only that bit cleared.
   */
  function ExtractLowestBit(n: nat): (r: (nat, nat))
    requires IsWord(n) && n > 0
    ensures r.0 < WordBits
    ensures Bit(n, r.0) == 1 && forall j :: 0 <= j < r.0 ==> Bit(n, j) == 0
    ensures IsWord(r.1) && r.1 < n
    ensures Bit(r.1, r.0) == 0 && forall i :: i != r.0 ==> Bit(r.1, i) == Bit(n, i)
    ensures PopCount(r.1) + 1 == PopCount(n)
  {
    var b := LowestBit(n);
    SetBitBelow(n, WordBits, b);
    SubPow2Bit(n, b, b);
    forall i ensures Bit(n - Pow2(b), i) == if i == b then 0 else Bit(n, i) {
      SubPow2Bit(n, b, i);
    }
    PopCountSubPow2(n, b);
    (b, n - Pow2(b))
  }

  /** Clearing a set bit lowers the population count by one. */
  lemma {:induction false} PopCountSubPow2(n: nat, b: nat)
    requires Bit(n, b) == 1
    ensures n >= Pow2(b) && PopCount(n - Pow2(b)) + 1 == PopCount(n)
    decreases b
  {
    SubPow2Bit(n, b, b);
    if b == 0 {
      assert (n - 1) / 2 == n / 2;
    } else {
      PopCountSubPow2(n / 2, b - 1);
      HalveSubPow2(n, b);
    }
  }

  /** Halving commutes with taking away a power of two above the lowest bit. */
  lemma HalveSubPow2(n: nat, b: nat)
    requires 0 < b && n >= Pow2(b)
    ensures (n - Pow2(b)) / 2 == n / 2 - Pow2(b - 1)
    ensures (n - Pow2(b)) % 2 == n % 2
  {
    var q, r, p := n / 2, n % 2, Pow2(b - 1);
    assert n == 2 * q + r;
    assert n - Pow2(b) == 2 * (q - p) + r;
  }

  // ------------------------------------------------------------ ScatterByte

  lemma Pow2Values()
    ensures Pow2(8) == 256 && Pow2(16) == 65536 && Pow2(32) == 4294967296
    ensures Pow2(64) == 18446744073709551616
  {
    assert Pow2(8) == 256;
    assert Pow2(16) == 65536;
    Pow2Add(16, 16);
    Pow2Add(32, 32);
  }

  /** `x | (x << k)` for x below 2^k: the two copies do not overlap. */
  function Doubled(x: nat, k: nat): (r: nat)
    requires x < Pow2(k)
    ensures r < Pow2(2 * k)
    ensures forall i :: 0 <= i < 2 * k ==> Bit(r, i) == Bit(x, if i < k then i else i - k)
  {
    DoubledBound(x, k);
    var r := x * Pow2(k) + x;
    forall i | 0 <= i < 2 * k
      ensures Bit(r, i) == Bit(x, if i < k then i else i - k)
    {
      BitOfSplit(x, x, k, i);
    }
    r
  }

  lemma DoubledBound(x: nat, k: nat)
    requires x < Pow2(k)
    ensures x * Pow2(k) + x < Pow2(2 * k)
  {
    var p := Pow2(k);
    Pow2Add(k, k);
    assert Pow2(2 * k) == p * p;
    MulMono(x, p, p);
    assert x * p + x < x * p + p <= p * p;
  }

  /** 2^(a+b) = 2^a * 2^b. */
  lemma {:induction false} Pow2Add(a: nat, b: nat)
    ensures Pow2(a + b) == Pow2(a) * Pow2(b)
    decreases a
  {
    if a > 0 {
      Pow2Add(a - 1, b);
    }
  }

  /** `ScatterByte`: the byte copied into all eight byte lanes of a word. */
  function ScatterByte(byte: nat): (r: nat)
    requires byte < 256
    ensures IsWord(r)
    ensures forall i :: 0 <= i < WordBits ==> Bit(r, i) == Bit(byte, i % 8)
  {
    Pow2Values();
    var a1 := Doubled(byte, 8);
    var a2 := Doubled(a1, 16);
    var a3 := Doubled(a2, 32);
    ScatterLanes(byte, a1, a2, a3);
    a3
  }

  /** Three doublings of widths 8, 16 and 32 leave digit i holding digit i % 8 of the byte. */
  lemma ScatterLanes(byte: nat, a1: nat, a2: nat, a3: nat)
    requires forall i :: 0 <= i < 16 ==> Bit(a1, i) == Bit(byte, if i < 8 then i else i - 8)
    requires forall i :: 0 <= i < 32 ==> Bit(a2, i) == Bit(a1, if i < 16 then i else i - 16)
    requires forall i :: 0 <= i < 64 ==> Bit(a3, i) == Bit(a2, if i < 32 then i else i - 32)
    ensures forall i :: 0 <= i < 64 ==> Bit(a3, i) == Bit(byte, i % 8)
  {
    forall i | 0 <= i < 64
      ensures Bit(a3, i) == Bit(byte, i % 8)
    {
      var j := if i < 32 then i else i - 32;
      var k := if j < 16 then j else j - 16;
      var l := if k < 8 then k else k - 8;
      assert Bit(a3, i) == Bit(a2, j);
      assert Bit(a2, j) == Bit(a1, k);
      assert Bit(a1, k) == Bit(byte, l);
      assert l == i % 8;
    }
  }

  // ----------------------------------------------------- deposit / extract

  /** `_pdep_u64(src, mask)`: the low bits of src placed, in order, at the set bits of mask. */
  function Pdep(src: nat, mask: nat): (r: nat)
    decreases mask
  {
    if mask == 0 then 0
    else if mask % 2 == 0 then 2 * Pdep(src, mask / 2)
    else src % 2 + 2 * Pdep(src / 2, mask / 2)
  }

  /** `_pext_u64(src, mask)`: the bits of src at the set bits of mask, packed into the low bits. */
  function Pext(src: nat, mask: nat): (r: nat)
    decreases mask
  {
    if mask == 0 then 0
    else if mask % 2 == 0 then Pext(src / 2, mask / 2)
    else src % 2 + 2 * Pext(src / 2, mask / 2)
  }

  /** Every set bit of a deposit lies inside the mask. */
  lemma {:induction false} PdepWithinMask(src: nat, mask: nat, i: nat)
    ensures Bit(Pdep(src, mask), i) == 1 ==> Bit(mask, i) == 1
    decreases mask
  {
    var r := Pdep(src, mask);
    if mask == 0 {
      ZeroBits(i);
    } else if mask % 2 == 0 {
      if i > 0 {
        assert r / 2 == Pdep(src, mask / 2);
        PdepWithinMask(src, mask / 2, i - 1);
      }
    } else if i > 0 {
      assert r / 2 == Pdep(src / 2, mask / 2);
      PdepWithinMask(src / 2, mask / 2, i - 1);
    }
  }

  /** A deposit is never larger than its mask, so it is a word when the mask is. */
  lemma {:induction false} PdepBound(src: nat, mask: nat)
    ensures Pdep(src, mask) <= mask
    decreases mask
  {
    if mask > 0 {
      if mask % 2 == 0 {
        PdepBound(src, mask / 2);
      } else {
        PdepBound(src / 2, mask / 2);
      }
    }
  }

  /** An extract has at most as many bits as the mask has set bits. */
  lemma {:induction false} PextBound(src: nat, mask: nat)
    ensures Pext(src, mask) < Pow2(PopCount(mask))
    decreases mask
  {
    if mask > 0 {
      PextBound(src / 2, mask / 2);
    }
  }

  /** Extracting through the mask a word deposited through it recovers the deposited bits. */
  lemma {:induction false} PextOfPdep(src: nat, mask: nat)
    ensures Pext(Pdep(src, mask), mask) == src % Pow2(PopCount(mask))
    decreases mask
  {
    if mask > 0 {
      if mask % 2 == 0 {
        PextOfPdep(src, mask / 2);
        PextOfPdepEven(src, mask);
      } else {
        PextOfPdep(src / 2, mask / 2);
        PextOfPdepOdd(src, mask);
      }
    }
  }

  /** The even step of `PextOfPdep`: a clear low mask bit is skipped on both sides. */
  lemma PextOfPdepEven(src: nat, mask: nat)
    requires mask > 0 && mask % 2 == 0
    requires Pext(Pdep(src, mask / 2), mask / 2) == src % Pow2(PopCount(mask / 2))
    ensures Pext(Pdep(src, mask), mask) == src % Pow2(PopCount(mask))
  {
    var d := Pdep(src, mask);
    assert d / 2 == Pdep(src, mask / 2);
  }

  /** The odd step of `PextOfPdep`: the source's low digit goes out and comes back first. */
  lemma PextOfPdepOdd(src: nat, mask: nat)
    requires mask % 2 == 1
    requires Pext(Pdep(src / 2, mask / 2), mask / 2) == (src / 2) % Pow2(PopCount(mask / 2))
    ensures Pext(Pdep(src, mask), mask) == src % Pow2(PopCount(mask))
  {
    PextPdepOddShape(src, mask);
    OddMaskModulus(src, mask);
  }

  /** Depositing then extracting through an odd mask: the low digit, then the rest one level down. */
  lemma PextPdepOddShape(src: nat, mask: nat)
    requires mask % 2 == 1
    ensures Pext(Pdep(src, mask), mask) == src % 2 + 2 * Pext(Pdep(src / 2, mask / 2), mask / 2)
  {
    PdepOdd(src, mask);
    PextOfDigitAndHalf(Pdep(src, mask), src % 2, Pdep(src / 2, mask / 2), mask);
  }

  /** Extracting, through an odd mask, a digit followed by q gives the digit followed by q's extract. */
  lemma PextOfDigitAndHalf(d: nat, a: nat, q: nat, mask: nat)
    requires a < 2 && mask % 2 == 1 && d == a + 2 * q
    ensures Pext(d, mask) == a + 2 * Pext(q, mask / 2)
  {
    DigitAndHalf(a, q);
    PextOdd(d, mask);
  }

  /** Depositing through an odd mask puts the source's low digit at bit 0. */
  lemma PdepOdd(src: nat, mask: nat)
    requires mask % 2 == 1
    ensures Pdep(src, mask) == src % 2 + 2 * Pdep(src / 2, mask / 2)
  {
  }

  /** Extracting through an odd mask takes bit 0 of the source first. */
  lemma PextOdd(src: nat, mask: nat)
    requires mask % 2 == 1
    ensures Pext(src, mask) == src % 2 + 2 * Pext(src / 2, mask / 2)
  {
  }

  /** Keeping an odd mask's count of low bits is keeping the low digit and that many less one of the rest. */
  lemma OddMaskModulus(src: nat, mask: nat)
    requires mask % 2 == 1
    ensures src % Pow2(PopCount(mask)) == src % 2 + 2 * ((src / 2) % Pow2(PopCount(mask / 2)))
  {
    var p := Pow2(PopCount(mask / 2));
    assert PopCount(mask) == 1 + PopCount(mask / 2);
    assert Pow2(PopCount(mask)) == 2 * p;
    ModDouble(src, p);
  }

  /** A binary digit below twice q splits back into the digit and q. */
  lemma DigitAndHalf(a: nat, q: nat)
    requires a < 2
    ensures (a + 2 * q) % 2 == a && (a + 2 * q) / 2 == q
  {
  }

  /** Depositing walks the mask from its lowest set bit: the source's low digit lands there first. */
  lemma {:induction false} PdepLowestStep(src: nat, mask: nat)
    requires mask > 0
    ensures Pdep(src, mask) == (if src % 2 == 1 then Pow2(LowestBit(mask)) else 0)
                               + Pdep(src / 2, mask - Pow2(LowestBit(mask)))
    decreases mask
  {
    if mask % 2 == 0 {
      LowestBitOfEven(mask);
      PdepLowestStep(src, mask / 2);
      PdepDouble(src / 2, mask / 2 - Pow2(LowestBit(mask / 2)));
    } else {
      LowestBitOfOdd(mask);
      PdepDouble(src / 2, mask / 2);
    }
  }

  /** An even mask's lowest set bit is one above that of its half, and clearing it commutes with halving. */
  lemma LowestBitOfEven(mask: nat)
    requires mask > 0 && mask % 2 == 0
    ensures LowestBit(mask) == LowestBit(mask / 2) + 1
    ensures Pow2(LowestBit(mask)) == 2 * Pow2(LowestBit(mask / 2))
    ensures mask - Pow2(LowestBit(mask)) == 2 * (mask / 2 - Pow2(LowestBit(mask / 2)))
  {
  }

  /** An odd mask's lowest set bit is bit 0, and clearing it leaves twice its half. */
  lemma LowestBitOfOdd(mask: nat)
    requires mask % 2 == 1
    ensures LowestBit(mask) == 0 && Pow2(LowestBit(mask)) == 1
    ensures mask - Pow2(LowestBit(mask)) == 2 * (mask / 2)
  {
  }

  /** Shifting the mask left by one shifts the deposit left by one. */
  lemma PdepDouble(src: nat, m: nat)
    ensures Pdep(src, 2 * m) == 2 * Pdep(src, m)
  {
    if m > 0 {
      assert (2 * m) / 2 == m;
    }
  }

  /** The same step for extraction: the bit at the mask's lowest set bit comes first. */
  lemma {:induction false} PextLowestStep(src: nat, mask: nat)
    requires mask > 0
    ensures Pext(src, mask) == Bit(src, LowestBit(mask)) + 2 * Pext(src, mask - Pow2(LowestBit(mask)))
    decreases mask
  {
    if mask % 2 == 0 {
      LowestBitOfEven(mask);
      PextLowestStep(src / 2, mask / 2);
      PextHalve(src, mask / 2 - Pow2(LowestBit(mask / 2)));
    } else {
      LowestBitOfOdd(mask);
      PextHalve(src, mask / 2);
    }
  }

  /** Extracting through a doubled mask reads the source shifted right by one. */
  lemma PextHalve(src: nat, m: nat)
    ensures Pext(src, 2 * m) == Pext(src / 2, m)
  {
    if m > 0 {
      assert (2 * m) / 2 == m;
    }
  }

  /** One turn of the extract loop: the bit at the mask's lowest set bit is appended at weight 2^resPos. */
  lemma ExtractLoopStep(src: nat, mask: nat, m: nat, result: nat, resPos: nat)
    requires m > 0 && result + Pow2(resPos) * Pext(src, m) == Pext(src, mask)
    ensures (if Bit(src, LowestBit(m)) == 1 then result + Pow2(resPos) else result)
            + Pow2(resPos + 1) * Pext(src, m - Pow2(LowestBit(m))) == Pext(src, mask)
  {
    PextLowestStep(src, m);
    ExtractStep(result, Pow2(resPos), Bit(src, LowestBit(m)), Pext(src, m - Pow2(LowestBit(m))), Pext(src, mask));
  }

  /** One step of `ExtractBits`: appending the digit at weight p leaves the rest at weight 2p. */
  lemma ExtractStep(result: nat, p: nat, digit: nat, rest: nat, total: nat)
    requires digit < 2 && result + p * (digit + 2 * rest) == total
    ensures (if digit == 1 then result + p else result) + (2 * p) * rest == total
  {
    assert p * (digit + 2 * rest) == p * digit + (2 * p) * rest;
  }

  /**
   * The portable `DepositBits`: walk the mask from its lowest set bit
   * upward, copying successive source bits into it.
   */
  method DepositBits(src: nat, mask: nat) returns (result: nat)
    requires IsWord(src) && IsWord(mask)
    ensures result == Pdep(src, mask)
    ensures IsWord(result)
    ensures forall i :: Bit(result, i) == 1 ==> Bit(mask, i) == 1
    ensures Pext(result, mask) == src % Pow2(PopCount(mask))
  {
    result := DepositWalk(src, mask);
    DepositFacts(src, mask);
  }

  /**
   * The loop of the portable `DepositBits`: one source bit per set bit of
   * the mask, lowest first. `rest` is `src >> src_pos`, the source bits
   * not yet consumed, so its low digit is the bit the loop tests.
   */
  method DepositWalk(src: nat, mask: nat) returns (result: nat)
    ensures result == Pdep(src, mask)
  {
    result := 0;
    var m := mask;
    var rest := src;
    while m != 0
      invariant result + Pdep(rest, m) == Pdep(src, mask)
      decreases m
    {
      var lsb := Pow2(LowestBit(m));
      PdepLowestStep(rest, m);
      if rest % 2 == 1 {
        result := result + lsb;
      }
      m := m - lsb;
      rest := rest / 2;
    }
  }

  /** A deposit through a word mask is a word inside the mask, and extracting it recovers the deposited bits. */
  lemma DepositFacts(src: nat, mask: nat)
    requires IsWord(mask)
    ensures IsWord(Pdep(src, mask))
    ensures forall i :: Bit(Pdep(src, mask), i) == 1 ==> Bit(mask, i) == 1
    ensures Pext(Pdep(src, mask), mask) == src % Pow2(PopCount(mask))
  {
    PdepBound(src, mask);
    forall i ensures Bit(Pdep(src, mask), i) == 1 ==> Bit(mask, i) == 1 {
      PdepWithinMask(src, mask, i);
    }
    PextOfPdep(src, mask);
  }

  /**
   * The portable `ExtractBits`: walk the mask from its lowest set bit
   * upward, appending the source bit found there.
   */
  method ExtractBits(src: nat, mask: nat) returns (result: nat)
    requires IsWord(src) && IsWord(mask)
    ensures result == Pext(src, mask)
    ensures result < Pow2(PopCount(mask))
  {
    result := ExtractWalk(src, mask);
    PextBound(src, mask);
  }

  /** The loop of the portable `ExtractBits`: the source bit at each set bit of the mask, lowest first. */
  method ExtractWalk(src: nat, mask: nat) returns (result: nat)
    ensures result == Pext(src, mask)
  {
    result := 0;
    var m := mask;
    var resPos: nat := 0;
    while m != 0
      invariant result + Pow2(resPos) * Pext(src, m) == Pext(src, mask)
      decreases m
    {
      var lsb := Pow2(LowestBit(m));
      ExtractLoopStep(src, mask, m, result, resPos);
      if Bit(src, LowestBit(m)) == 1 {
        result := result + Pow2(resPos);
      }
      resPos := resPos + 1;
      m := m - lsb;
    }
  }
}

=== FILE: board.dfy ===
/**
 * The board state and its piece-level text conversions: cells to and from
 * FEN letters, the castling field, the en-passant field, and the Zobrist
 * hash of a position.
 *
 * The Zobrist key tables are generated by a fixed 64-bit mixing function in
 * the engine; here they are a parameter `Zobrist` whose only assumed shape is
 * the table sizes and the zeroed keys of the empty cell.
 */
module Board {
  import opened Types
  import opened Geometry
  import opened CoreUtil
  import opened Strings

  // ------------------------------------------------------------- cells

  /** The FEN letters of the cells 0..12, indexed by cell. */
  const CellLetters: string := ".PNBRQKpnbrqk"

  /** `CastCharToCell`: a FEN piece letter or '.' to its cell, anything else to the undefined cell. */
  function CastCharToCell(c: char): (r: int)
    ensures IsCellValid(r)
    ensures r == EmptyCell <==> c == '.'
    ensures r == UndefinedCell <==> c !in CellLetters
  {
    match c
    case 'P' => MakeCell(White, Pawn)
    case 'N' => MakeCell(White, Knight)
    case 'B' => MakeCell(White, Bishop)
    case 'R' => MakeCell(White, Rook)
    case 'Q' => MakeCell(White, Queen)
    case 'K' => MakeCell(White, King)
    case 'p' => MakeCell(Black, Pawn)
    case 'n' => MakeCell(Black, Knight)
    case 'b' => MakeCell(Black, Bishop)
    case 'r' => MakeCell(Black, Rook)
    case 'q' => MakeCell(Black, Queen)
    case 'k' => MakeCell(Black, King)
    case '.' => EmptyCell
    case _ => UndefinedCell
  }

  /** `CastCellToChar`: the letter of a defined cell; reading it back gives the cell. */
  function CastCellToChar(c: int): (r: char)
    requires 0 <= c < NumberOfCells
    ensures r in CellLetters && !IsDigit(r) && r != '/' && r != ' '
    ensures CastCharToCell(r) == c
    ensures r == '.' <==> c == EmptyCell
  {
    CellLetters[c]
  }

  /** Every letter that names a cell is printed back from that cell. */
  lemma CellLetterRoundTrip(c: char)
    requires CastCharToCell(c) != UndefinedCell
    ensures 0 <= CastCharToCell(c) < NumberOfCells
    ensures CastCellToChar(CastCharToCell(c)) == c
  {
  }

  /** `CastCharToColor`: 'w' is White and every other letter Black. */
  function CastCharToColor(c: char): (r: Color)
    ensures r == White <==> c == 'w'
  {
    if c == 'w' then White else Black
  }

  /** `CastColorToChar`. */
  function CastColorToChar(c: Color): (r: char)
    ensures r == 'w' || r == 'b'
    ensures CastCharToColor(r) == c
  {
    if c == White then 'w' else 'b'
  }

  /** `IsMoveSideStringValid`. */
  predicate IsMoveSideStringValid(s: string)
  {
    s == "w" || s == "b"
  }

  // ---------------------------------------------------------- castling

  /** One of the four castling letters. */
  predicate IsCastlingChar(c: char)
  {
    c == 'K' || c == 'Q' || c == 'k' || c == 'q'
  }

  /** `CastStringToCastling`: each right whose letter occurs anywhere in s. */
  function CastStringToCastling(s: string): (r: Castling)
    ensures IsCastlingValid(r)
    ensures r & WhiteKingside != CastlingNone <==> 'K' in s
    ensures r & WhiteQueenside != CastlingNone <==> 'Q' in s
    ensures r & BlackKingside != CastlingNone <==> 'k' in s
    ensures r & BlackQueenside != CastlingNone <==> 'q' in s
  {
    (if 'k' in s then BlackKingside else CastlingNone)
    | (if 'K' in s then WhiteKingside else CastlingNone)
    | (if 'q' in s then BlackQueenside else CastlingNone)
    | (if 'Q' in s then WhiteQueenside else CastlingNone)
  }

  /** A castling set is empty exactly when none of its four rights is present. */
  lemma CastlingBits(c: Castling)
    requires IsCastlingValid(c)
    ensures c == CastlingNone <==> !(IsCastlingAllowed(c, WhiteKingside) || IsCastlingAllowed(c, WhiteQueenside)
                                     || IsCastlingAllowed(c, BlackKingside) || IsCastlingAllowed(c, BlackQueenside))
  {
  }

  /** Position of a castling letter in the printing order K, Q, k, q. */
  function CastlingLetterRank(c: char): nat
    requires IsCastlingChar(c)
  {
    match c
    case 'K' => 0
    case 'Q' => 1
    case 'k' => 2
    case _ => 3
  }

  /**
   * `CastCastlingToString`: the letters of the present rights in the order
   * K, Q, k, q, or "-" when there are none.
   */
  function CastCastlingToString(c: Castling): (r: string)
    requires IsCastlingValid(c)
    ensures 0 < |r| <= 4
    ensures r == "-" <==> c == CastlingNone
  {
    var res := CastlingLetters(c);
    CastlingBits(c);
    assert |res| == 0 <==> c == CastlingNone;
    assert |res| > 0 ==> res[0] != '-';
    if res == "" then "-" else res
  }

  /** The letters of the present rights, each in its place of the order K, Q, k, q. */
  function CastlingLetters(c: Castling): (r: string)
    requires IsCastlingValid(c)
    ensures |r| <= 4 && (|r| > 0 ==> r[0] != '-')
  {
    LettersOfHeld(IsCastlingAllowed(c, WhiteKingside), IsCastlingAllowed(c, WhiteQueenside),
                  IsCastlingAllowed(c, BlackKingside), IsCastlingAllowed(c, BlackQueenside))
  }

  /** The letters K, Q, k, q of the rights marked as held, in that order. */
  function LettersOfHeld(wk: bool, wq: bool, bk: bool, bq: bool): (r: string)
    ensures |r| <= 4 && (|r| > 0 ==> r[0] != '-')
    ensures |r| == 0 <==> !(wk || wq || bk || bq)
  {
    CastlingLetter(wk, 'K') + CastlingLetter(wq, 'Q') + CastlingLetter(bk, 'k') + CastlingLetter(bq, 'q')
  }

  /** The letter of a right when it is held, nothing otherwise. */
  function CastlingLetter(held: bool, letter: char): (r: string)
    ensures |r| <= 1 && (|r| == 1 <==> held) && (|r| == 1 ==> r[0] == letter)
  {
    if held then [letter] else []
  }

  /** Letters of a castling field that appear in the printing order K, Q, k, q. */
  predicate InCastlingOrder(s: string)
  {
    (forall i :: 0 <= i < |s| ==> IsCastlingChar(s[i]))
    && forall i :: 0 <= i < |s| - 1 ==> CastlingLetterRank(s[i]) < CastlingLetterRank(s[i + 1])
  }

  /** The printed castling field passes the castling-field check. */
  lemma CastlingStringValid(c: Castling)
    requires IsCastlingValid(c)
    ensures IsCastlingStringValid(CastCastlingToString(c))
  {
    if c != CastlingNone {
      CastlingLettersOrdered(c);
      OrderedDistinct(CastlingLetters(c));
    }
  }

  /** The printed castling field lists its letters in the order K, Q, k, q. */
  lemma CastlingStringOrder(c: Castling)
    requires IsCastlingValid(c) && c != CastlingNone
    ensures InCastlingOrder(CastCastlingToString(c))
  {
    CastlingLettersOrdered(c);
  }

  /** The letters of the present rights come in the order K, Q, k, q. */
  lemma CastlingLettersOrdered(c: Castling)
    requires IsCastlingValid(c)
    ensures InCastlingOrder(CastlingLetters(c))
  {
    HeldLettersOrdered(IsCastlingAllowed(c, WhiteKingside), IsCastlingAllowed(c, WhiteQueenside),
                       IsCastlingAllowed(c, BlackKingside), IsCastlingAllowed(c, BlackQueenside));
  }

  /** Whichever rights are held, their letters come in the order K, Q, k, q. */
  lemma HeldLettersOrdered(wk: bool, wq: bool, bk: bool, bq: bool)
    ensures InCastlingOrder(LettersOfHeld(wk, wq, bk, bq))
  {
    FirstLetterOrdered(wk);
    OrderedFromWhiteQueenside(CastlingLetter(wk, 'K'), wq, bk, bq);
  }

  /** The held K alone is in order, and before Q. */
  lemma FirstLetterOrdered(wk: bool)
    ensures InCastlingOrder(CastlingLetter(wk, 'K')) && RanksBelow(CastlingLetter(wk, 'K'), 1)
  {
  }

  /** Ordered letters before Q, followed by the held Q, k and q, stay ordered. */
  lemma OrderedFromWhiteQueenside(x: string, wq: bool, bk: bool, bq: bool)
    requires InCastlingOrder(x) && RanksBelow(x, 1)
    ensures InCastlingOrder(x + CastlingLetter(wq, 'Q') + CastlingLetter(bk, 'k') + CastlingLetter(bq, 'q'))
  {
    AppendCastlingLetter(x, CastlingLetter(wq, 'Q'), 1);
    OrderedFromBlackKingside(x + CastlingLetter(wq, 'Q'), bk, bq);
  }

  /** Ordered letters before k, followed by the held k and q, stay ordered. */
  lemma OrderedFromBlackKingside(x: string, bk: bool, bq: bool)
    requires InCastlingOrder(x) && RanksBelow(x, 2)
    ensures InCastlingOrder(x + CastlingLetter(bk, 'k') + CastlingLetter(bq, 'q'))
  {
    AppendCastlingLetter(x, CastlingLetter(bk, 'k'), 2);
    AppendCastlingLetter(x + CastlingLetter(bk, 'k'), CastlingLetter(bq, 'q'), 3);
  }

  /** Every letter of s comes before position k of the order K, Q, k, q. */
  predicate RanksBelow(s: string, k: nat)
  {
    forall i :: 0 <= i < |s| ==> IsCastlingChar(s[i]) && CastlingLetterRank(s[i]) < k
  }

  /** Letters in the order K, Q, k, q are pairwise distinct. */
  lemma OrderedDistinct(s: string)
    requires InCastlingOrder(s)
    ensures forall k, l :: 0 <= k < l < |s| ==> s[k] != s[l]
  {
    forall k, l | 0 <= k < l < |s| ensures s[k] != s[l] {
      OrderedRanks(s, k, l);
    }
  }

  /** Along letters in the order K, Q, k, q, the order position strictly grows. */
  lemma {:induction false} OrderedRanks(s: string, k: nat, l: nat)
    requires InCastlingOrder(s) && k < l < |s|
    ensures CastlingLetterRank(s[k]) < CastlingLetterRank(s[l])
    decreases l - k
  {
    if l > k + 1 {
      OrderedRanks(s, k, l - 1);
    }
  }

  /** Appending nothing or the letter at position k to an ordered field of earlier letters keeps it ordered. */
  lemma AppendCastlingLetter(x: string, y: string, k: nat)
    requires InCastlingOrder(x) && RanksBelow(x, k)
    requires |y| <= 1 && (|y| == 1 ==> IsCastlingChar(y[0]) && CastlingLetterRank(y[0]) == k)
    ensures InCastlingOrder(x + y) && RanksBelow(x + y, k + 1)
  {
    var s := x + y;
    forall i | 0 <= i < |s| - 1
      ensures CastlingLetterRank(s[i]) < CastlingLetterRank(s[i + 1])
    {
      if i + 1 < |x| {
        assert s[i] == x[i] && s[i + 1] == x[i + 1];
      } else {
        assert s[i] == x[i] && s[i + 1] == y[0];
      }
    }
  }

  /** The printed castling field reads back as the same set of rights. */
  lemma CastlingStringRoundTrip(c: Castling)
    requires IsCastlingValid(c)
    ensures CastStringToCastling(CastCastlingToString(c)) == c
  {
    var r := CastStringToCastling(CastCastlingToString(c));
    if c == CastlingNone {
      assert CastCastlingToString(c) == "-";
    } else {
      HeldLettersPresent(IsCastlingAllowed(c, WhiteKingside), IsCastlingAllowed(c, WhiteQueenside),
                         IsCastlingAllowed(c, BlackKingside), IsCastlingAllowed(c, BlackQueenside));
    }
    CastlingOfRights(r, c);
  }

  /** A letter occurs among the held letters exactly when its right is held. */
  lemma HeldLettersPresent(wk: bool, wq: bool, bk: bool, bq: bool)
    ensures var s := LettersOfHeld(wk, wq, bk, bq);
            ('K' in s <==> wk) && ('Q' in s <==> wq) && ('k' in s <==> bk) && ('q' in s <==> bq)
  {
    var a, b, d, e := CastlingLetter(wk, 'K'), CastlingLetter(wq, 'Q'), CastlingLetter(bk, 'k'), CastlingLetter(bq, 'q');
    assert LettersOfHeld(wk, wq, bk, bq) == a + (b + (d + e));
  }

  /** Two castling sets holding the same four rights are equal. */
  lemma CastlingOfRights(a: Castling, b: Castling)
    requires IsCastlingValid(a) && IsCastlingValid(b)
    requires IsCastlingAllowed(a, WhiteKingside) == IsCastlingAllowed(b, WhiteKingside)
    requires IsCastlingAllowed(a, WhiteQueenside) == IsCastlingAllowed(b, WhiteQueenside)
    requires IsCastlingAllowed(a, BlackKingside) == IsCastlingAllowed(b, BlackKingside)
    requires IsCastlingAllowed(a, BlackQueenside) == IsCastlingAllowed(b, BlackQueenside)
    ensures a == b
  {
  }

  /** No character of s after position i repeats s[i] (the inner loop of the check). */
  function NoRepeatAfter(s: string, i: nat, j: nat): (r: bool)
    requires i < j <= |s|
    ensures r <==> forall l :: j <= l < |s| ==> s[l] != s[i]
    decreases |s| - j
  {
    j == |s| || (s[i] != s[j] && NoRepeatAfter(s, i, j + 1))
  }

  /** From position i on, every character is a castling letter and none repeats (the outer loop). */
  function CastlingLettersFrom(s: string, i: nat): (r: bool)
    requires i <= |s|
    ensures r <==> ((forall k :: i <= k < |s| ==> IsCastlingChar(s[k]))
                    && (forall k, l :: i <= k < l < |s| ==> s[k] != s[l]))
    decreases |s| - i
  {
    i == |s| || (IsCastlingChar(s[i]) && NoRepeatAfter(s, i, i + 1) && CastlingLettersFrom(s, i + 1))
  }

  /**
   * `IsCastlingStringValid`: "-", or one to four distinct castling letters
   * in any order.
   */
  function IsCastlingStringValid(s: string): (r: bool)
    ensures r <==> (0 < |s| <= 4 && (s == "-" ||
                    ((forall k :: 0 <= k < |s| ==> IsCastlingChar(s[k]))
                     && (forall k, l :: 0 <= k < l < |s| ==> s[k] != s[l]))))
  {
    if |s| == 0 || |s| > 4 then false
    else if s == "-" then true
    else CastlingLettersFrom(s, 0)
  }

  // -------------------------------------------------------- en passant

  /** `NO_ENPASSANT_COORD`. Its definition is not part of this model's sources; a1 (0) is taken, a square no en-passant target can be. */
  const NoEnPassantCoord: int := 0
  const WhiteEnPassantRank: int := 5
  const BlackEnPassantRank: int := 2

  /**
   * `IsEnPassantCoordValid`: no target, or a square on the sixth rank when
   * White moves (the square a black pawn just passed) or the third when
   * Black moves.
   */
  function IsEnPassantCoordValid(side: Color, coord: int): (r: bool)
    ensures r ==> IsCoordValidAndDefined(coord)
    ensures r <==> (coord == NoEnPassantCoord
                    || (side == White && 40 <= coord < 48)
                    || (side == Black && 16 <= coord < 24))
  {
    if coord == NoEnPassantCoord then true
    else if !IsCoordValid(coord) then false
    else GetRank(coord) == (if side == White then WhiteEnPassantRank else BlackEnPassantRank)
  }

  /** `CastStringToEnPassantCoord`: "-" is no target, otherwise the named square. */
  function CastStringToEnPassantCoord(s: string): (r: int)
    requires s == "-" || IsCoordStringValid(s)
    ensures IsCoordValidAndDefined(r)
    ensures s == "-" ==> r == NoEnPassantCoord
    ensures s != "-" ==> r == CastStringToCoord(s)
  {
    if s == "-" then NoEnPassantCoord
    else (s[1] as int - '1' as int) * BoardSide + s[0] as int - 'a' as int
  }

  /** The `int8_t` value of an integer: the low eight bits, read as two's complement. */
  function Int8(v: int): (r: int)
    ensures -0x80 <= r < 0x80 && (r - v) % 0x100 == 0
    ensures -0x80 <= v < 0x80 ==> r == v
  {
    (v + 0x80) % 0x100 - 0x80
  }

  /**
   * `CastStringToEnPassantCoord` as a release build runs it: the assert is
   * compiled out, so any text of two or more characters other than "-" is
   * read through the same arithmetic on its first two characters, and the
   * result is cut to `coord_t`.
   */
  function EnPassantCoordOfText(s: string): (r: int)
    requires s == "-" || |s| >= 2
    ensures -0x80 <= r < 0x80
    ensures s == "-" || IsCoordStringValid(s) ==> r == CastStringToEnPassantCoord(s)
  {
    if s == "-" then NoEnPassantCoord
    else Int8((s[1] as int - '1' as int) * BoardSide + s[0] as int - 'a' as int)
  }

  /** `CastEnPassantCoordToString`: "-" for no target, otherwise file letter and rank digit. */
  function CastEnPassantCoordToString(c: int): (r: string)
    requires IsCoordValid(c)
    ensures r == "-" <==> c == NoEnPassantCoord
    ensures c != NoEnPassantCoord && c != UndefinedCoord ==>
      IsCoordStringValid(r) && CastStringToEnPassantCoord(r) == c
  {
    if c == NoEnPassantCoord then "-"
    else [(GetFile(c) + 'a' as int) as char, (GetRank(c) + '1' as int) as char]
  }

  /** Printing a parsed en-passant field gives it back, except "a1", which reads as no target. */
  lemma EnPassantStringRoundTrip(s: string)
    requires s == "-" || IsCoordStringValid(s)
    ensures s != "a1" ==> CastEnPassantCoordToString(CastStringToEnPassantCoord(s)) == s
    ensures s == "a1" ==> CastStringToEnPassantCoord(s) == CastStringToEnPassantCoord("-")
  {
  }

  // ------------------------------------------------------------ hashing

  /**
   * The Zobrist key tables: one key per (cell, square) at index
   * cell * 64 + square, one per en-passant square, one per castling set and
   * one per side to move.
   */
  datatype Zobrist = Zobrist(cells: seq<bv64>, enPassant: seq<bv64>, castling: seq<bv64>, side: seq<bv64>)

  /** The table sizes, and the empty cell's keys cleared so that empty squares add nothing. */
  predicate ZobristWf(z: Zobrist)
  {
    |z.cells| == BoardSize * NumberOfCells
    && |z.enPassant| == BoardSize
    && |z.castling| == CastlingAll as int + 1
    && |z.side| == 2
    && forall i :: 0 <= i < BoardSize ==> z.cells[i] == 0
  }

  /** `MakeZobristHashFromCell`. */
  function CellKey(z: Zobrist, coord: int, cell: int): (r: bv64)
    requires ZobristWf(z) && IsCoordValidAndDefined(coord) && 0 <= cell < NumberOfCells
    ensures cell == EmptyCell ==> r == 0
  {
    z.cells[cell * BoardSize + coord]
  }

  /** `MakeZobristHashFromEnPassantCoord`. */
  function EnPassantKey(z: Zobrist, coord: int): bv64
    requires ZobristWf(z) && IsCoordValidAndDefined(coord)
  {
    z.enPassant[coord]
  }

  /** `MakeZobristHashFromCastling`. */
  function CastlingKey(z: Zobrist, c: Castling): bv64
    requires ZobristWf(z) && IsCastlingValid(c)
  {
    z.castling[c as int]
  }

  /** `MakeZobristHashFromMoveSide`. */
  function SideKey(z: Zobrist, c: Color): bv64
    requires ZobristWf(z)
  {
    z.side[c.Index()]
  }

  /** 64 cells, each empty or a piece. */
  predicate CellsWf(cells: seq<int>)
  {
    |cells| == BoardSize && forall i :: 0 <= i < |cells| ==> 0 <= cells[i] < NumberOfCells
  }

  /**
   * The hash combination `^`. Kept as a function so that proofs about hash
   * updates can reason about it by the algebra lemmas below.
   */
  function Xor(a: bv64, b: bv64): bv64
  {
    a ^ b
  }

  /** Combining with the same key twice undoes it. */
  lemma XorSelf(a: bv64, b: bv64)
    ensures Xor(Xor(a, b), b) == a
  {
  }

  /** Combination is associative. */
  lemma XorAssoc(a: bv64, b: bv64, c: bv64)
    ensures Xor(Xor(a, b), c) == Xor(a, Xor(b, c))
  {
  }

  /** Combination is commutative. */
  lemma XorComm(a: bv64, b: bv64)
    ensures Xor(a, b) == Xor(b, a)
  {
  }

  /** The order in which two keys are combined does not matter. */
  lemma XorSwap(a: bv64, b: bv64, c: bv64)
    ensures Xor(Xor(a, b), c) == Xor(Xor(a, c), b)
  {
    calc {
      Xor(Xor(a, b), c);
      { XorAssoc(a, b, c); }
      Xor(a, Xor(b, c));
      { XorComm(b, c); }
      Xor(a, Xor(c, b));
      { XorAssoc(a, c, b); }
      Xor(Xor(a, c), b);
    }
  }

  /** A key combined in and out again leaves the next one alone. */
  lemma XorTwice(a: bv64, b: bv64, c: bv64)
    ensures Xor(a, c) == Xor(Xor(Xor(a, b), b), c)
  {
    XorSelf(a, b);
  }

  /** The last of three keys may be moved to the front. */
  lemma XorRotate(a: bv64, b: bv64, c: bv64, d: bv64)
    ensures Xor(Xor(Xor(a, b), c), d) == Xor(Xor(Xor(a, d), b), c)
  {
    calc {
      Xor(Xor(Xor(a, b), c), d);
      { XorSwap(Xor(a, b), c, d); }
      Xor(Xor(Xor(a, b), d), c);
      { XorSwap(a, b, d); }
      Xor(Xor(Xor(a, d), b), c);
    }
  }

  /** Two keys added to the cell part of a sum may be added to the whole instead. */
  lemma XorCarry3(h: bv64, o: bv64, n: bv64, e: bv64, k: bv64, s: bv64)
    ensures Xor(Xor(Xor(Xor(Xor(h, o), n), e), k), s) == Xor(Xor(Xor(Xor(Xor(h, e), k), s), o), n)
  {
    calc {
      Xor(Xor(Xor(Xor(Xor(h, o), n), e), k), s);
      { XorRotate(h, o, n, e); }
      Xor(Xor(Xor(Xor(Xor(h, e), o), n), k), s);
      { XorRotate(Xor(h, e), o, n, k); }
      Xor(Xor(Xor(Xor(Xor(h, e), k), o), n), s);
      { XorRotate(Xor(Xor(h, e), k), o, n, s); }
      Xor(Xor(Xor(Xor(Xor(h, e), k), s), o), n);
    }
  }

  /** The exclusive-or of the keys of the first n squares. */
  function CellsHash(z: Zobrist, cells: seq<int>, n: nat): bv64
    requires ZobristWf(z) && CellsWf(cells) && n <= BoardSize
  {
    if n == 0 then 0 else Xor(CellsHash(z, cells, n - 1), CellKey(z, n - 1, cells[n - 1]))
  }

  /** `Board::MakeHash`: the keys of every square, the en-passant target, the castling set and the side. */
  function MakeHash(z: Zobrist, cells: seq<int>, ep: int, castling: Castling, side: Color): bv64
    requires ZobristWf(z) && CellsWf(cells) && IsCoordValidAndDefined(ep) && IsCastlingValid(castling)
  {
    Xor(Xor(Xor(CellsHash(z, cells, BoardSize), EnPassantKey(z, ep)), CastlingKey(z, castling)), SideKey(z, side))
  }

  /** Changing one square changes the first n squares' hash by the old and the new key of that square only. */
  lemma {:induction false} CellsHashUpdate(z: Zobrist, cells: seq<int>, n: nat, i: int, v: int)
    requires ZobristWf(z) && CellsWf(cells) && n <= BoardSize
    requires 0 <= i < BoardSize && 0 <= v < NumberOfCells
    ensures CellsWf(cells[i := v])
    ensures CellsHash(z, cells[i := v], n)
      == if i < n then Xor(Xor(CellsHash(z, cells, n), CellKey(z, i, cells[i])), CellKey(z, i, v))
         else CellsHash(z, cells, n)
    decreases n
  {
    var cells' := cells[i := v];
    if n > 0 {
      CellsHashUpdate(z, cells, n - 1, i, v);
      var h := CellsHash(z, cells, n - 1);
      if i < n - 1 {
        XorRotate(h, CellKey(z, i, cells[i]), CellKey(z, i, v), CellKey(z, n - 1, cells[n - 1]));
      } else if i == n - 1 {
        XorTwice(h, CellKey(z, i, cells[i]), CellKey(z, i, v));
      }
    }
  }

  /**
   * The incremental rule the move code relies on: writing v to square i
   * changes the position hash by the old and the new key of that square.
   */
  lemma HashCellUpdate(z: Zobrist, cells: seq<int>, ep: int, castling: Castling, side: Color, i: int, v: int)
    requires ZobristWf(z) && CellsWf(cells) && IsCoordValidAndDefined(ep) && IsCastlingValid(castling)
    requires 0 <= i < BoardSize && 0 <= v < NumberOfCells
    ensures CellsWf(cells[i := v])
    ensures MakeHash(z, cells[i := v], ep, castling, side)
      == Xor(Xor(MakeHash(z, cells, ep, castling, side), CellKey(z, i, cells[i])), CellKey(z, i, v))
  {
    CellsHashUpdate(z, cells, BoardSize, i, v);
    var h := CellsHash(z, cells, BoardSize);
    var o, n := CellKey(z, i, cells[i]), CellKey(z, i, v);
    var e, k, s := EnPassantKey(z, ep), CastlingKey(z, castling), SideKey(z, side);
    XorCarry3(h, o, n, e, k, s);
  }

  /** Changing the en-passant target changes the hash by its old and its new key. */
  lemma HashEnPassantUpdate(z: Zobrist, cells: seq<int>, ep: int, castling: Castling, side: Color, ep': int)
    requires ZobristWf(z) && CellsWf(cells) && IsCastlingValid(castling)
    requires IsCoordValidAndDefined(ep) && IsCoordValidAndDefined(ep')
    ensures MakeHash(z, cells, ep', castling, side)
      == Xor(Xor(MakeHash(z, cells, ep, castling, side), EnPassantKey(z, ep)), EnPassantKey(z, ep'))
  {
    var h := CellsHash(z, cells, BoardSize);
    var e, e' := EnPassantKey(z, ep), EnPassantKey(z, ep');
    var k, s := CastlingKey(z, castling), SideKey(z, side);
    calc {
      Xor(Xor(Xor(Xor(Xor(h, e), k), s), e), e');
      { XorRotate(Xor(h, e), k, s, e); XorSelf(h, e); }
      Xor(Xor(Xor(h, k), s), e');
      { XorRotate(h, k, s, e'); }
      Xor(Xor(Xor(h, e'), k), s);
    }
  }

  /** Changing the castling set changes the hash by its old and its new key. */
  lemma HashCastlingUpdate(z: Zobrist, cells: seq<int>, ep: int, castling: Castling, side: Color, castling': Castling)
    requires ZobristWf(z) && CellsWf(cells) && IsCoordValidAndDefined(ep)
    requires IsCastlingValid(castling) && IsCastlingValid(castling')
    ensures MakeHash(z, cells, ep, castling', side)
      == Xor(Xor(MakeHash(z, cells, ep, castling, side), CastlingKey(z, castling)), CastlingKey(z, castling'))
  {
    var a := Xor(CellsHash(z, cells, BoardSize), EnPassantKey(z, ep));
    var k, k' := CastlingKey(z, castling), CastlingKey(z, castling');
    var s := SideKey(z, side);
    calc {
      Xor(Xor(Xor(Xor(a, k), s), k), k');
      { XorRotate(a, k, s, k); XorSelf(a, k); }
      Xor(Xor(a, s), k');
      { XorSwap(a, s, k'); }
      Xor(Xor(a, k'), s);
    }
  }

  /** Changing the side to move changes the hash by its old and its new key. */
  lemma HashSideUpdate(z: Zobrist, cells: seq<int>, ep: int, castling: Castling, side: Color, side': Color)
    requires ZobristWf(z) && CellsWf(cells) && IsCoordValidAndDefined(ep) && IsCastlingValid(castling)
    ensures MakeHash(z, cells, ep, castling, side')
      == Xor(Xor(MakeHash(z, cells, ep, castling, side), SideKey(z, side)), SideKey(z, side'))
  {
    var a := Xor(Xor(CellsHash(z, cells, BoardSize), EnPassantKey(z, ep)), CastlingKey(z, castling));
    XorTwice(a, SideKey(z, side), SideKey(z, side'));
  }

  // -------------------------------------------------------------- board

  /**
   * `Board` without its bitboards (which are a function of `cells`) and
   * without the unused `info` field. `fifty` is the `uint8_t` quiet-move
   * counter and `moveCount` the `uint16_t` half-move number, odd exactly
   * when White is to move.
   */
  datatype Board = Board(
    cells: seq<int>,
    hash: bv64,
    enPassant: int,
    castling: Castling,
    side: Color,
    fifty: nat,
    moveCount: nat)

  /** The field ranges the engine's types and text formats guarantee. */
  predicate IsWellFormed(b: Board)
  {
    CellsWf(b.cells)
    && IsCastlingValid(b.castling)
    && IsEnPassantCoordValid(b.side, b.enPassant)
    && b.fifty < 0x100
    && b.moveCount < 0x1_0000
  }

  /** The hash field is the hash of the rest of the board. */
  predicate HashConsistent(b: Board, z: Zobrist)
  {
    ZobristWf(z) && IsWellFormed(b)
    && b.hash == MakeHash(z, b.cells, b.enPassant, b.castling, b.side)
  }

  /** Number of squares holding a piece of colour c. */
  function CountColor(cells: seq<int>, c: Color): (r: nat)
    requires forall i :: 0 <= i < |cells| ==> 0 <= cells[i] < NumberOfCells
    ensures r <= |cells|
  {
    if |cells| == 0 then 0
    else (if cells[0] != EmptyCell && GetCellColor(cells[0]) == c then 1 else 0) + CountColor(cells[1..], c)
  }

  /**
   * `Board::IsValid`: well-formed fields, at most 16 pieces a side, one
   * king each, no pawn on the first or last rank, and a hash that matches
   * the position.
   */
  predicate IsValid(b: Board, z: Zobrist)
  {
    HashConsistent(b, z)
    && CountColor(b.cells, White) <= 16 && CountColor(b.cells, Black) <= 16
    && Count(b.cells, MakeCell(White, King)) == 1
    && Count(b.cells, MakeCell(Black, King)) == 1
    && forall i :: 0 <= i < BoardSize && (i < BoardSide || i >= BoardSize - BoardSide) ==>
         b.cells[i] != MakeCell(White, Pawn) && b.cells[i] != MakeCell(Black, Pawn)
  }
}

=== FILE: board_manipulation.dfy ===
/**
 * Making and unmaking a move: the cell, en-passant, castling, counter,
 * side and hash updates for each kind of move, and the saved `MakeMoveInfo`
 * that lets `UnmakeMove` put the board back.
 *
 * The functions without a suffix are the behaviour the code evidently
 * intends; the `AsWritten` members model the places where the source does
 * something else, each with a lemma that exhibits the difference.
 */
module BoardManipulation {
  import opened Wrappers
  import opened Types
  import opened Geometry
  import opened CoreUtil
  import opened Board
  import opened Moves

  /** `MakeMoveInfo`: what `UnmakeMove` cannot recompute. */
  datatype MakeMoveInfo = MakeMoveInfo(dstCell: int, hash: bv64, enPassant: int, castling: Castling, fifty: nat)

  // --------------------------------------------------------- counters

  /** The `uint8_t` quiet-move counter's `++`. */
  function NextFifty(f: nat): (r: nat)
    ensures r < 0x100
    ensures f < 0xFF ==> r == f + 1
  {
    (f + 1) % 0x100
  }

  /** The `uint16_t` move number's `++`. */
  function NextMoveCount(n: nat): (r: nat)
    ensures r < 0x1_0000
    ensures n < 0xFFFF ==> r == n + 1
  {
    (n + 1) % 0x1_0000
  }

  /** The `uint16_t` move number's `--`. */
  function PrevMoveCount(n: nat): (r: nat)
    ensures r < 0x1_0000
    ensures 0 < n < 0x1_0000 ==> r == n - 1
  {
    (n + 0xFFFF) % 0x1_0000
  }

  /** The two wrap-around steps undo each other on every 16-bit value. */
  lemma MoveCountSteps(n: nat)
    requires n < 0x1_0000
    ensures PrevMoveCount(NextMoveCount(n)) == n && NextMoveCount(PrevMoveCount(n)) == n
  {
  }

  // ---------------------------------------------------- castling rights

  /** The six squares whose change can cost a castling right, in bit order: a1 e1 h1 a8 e8 h8. */
  const CastlingSquares: seq<int> := [0, 4, 7, 56, 60, 63]

  /** The rook's square before castling on the given side. */
  function RookHome(c: Color, s: CastlingSide): (r: int)
    ensures r in CastlingSquares && GetXSubcoord(r) == GetXSubcoord(KingHome(c))
    ensures r == KingHome(c) + (if s == Kingside then 3 else -4)
  {
    KingHome(c) + (if s == Kingside then 3 else -4)
  }

  /**
   * The rights a change on square sq removes: a king square both of its
   * side's rights, a rook square the one right of that rook.
   */
  function RightsOfSquare(sq: int): (r: Castling)
    ensures IsCastlingValid(r)
    ensures r & WhiteKingside != 0 <==> (sq == KingHome(White) || sq == RookHome(White, Kingside))
    ensures r & WhiteQueenside != 0 <==> (sq == KingHome(White) || sq == RookHome(White, Queenside))
    ensures r & BlackKingside != 0 <==> (sq == KingHome(Black) || sq == RookHome(Black, Kingside))
    ensures r & BlackQueenside != 0 <==> (sq == KingHome(Black) || sq == RookHome(Black, Queenside))
  {
    if sq == 4 then WhiteAll
    else if sq == 7 then WhiteKingside
    else if sq == 0 then WhiteQueenside
    else if sq == 60 then BlackAll
    else if sq == 63 then BlackKingside
    else if sq == 56 then BlackQueenside
    else CastlingNone
  }

  /** Only the six castling squares cost a right. */
  lemma RightsOfOtherSquares(sq: int)
    ensures RightsOfSquare(sq) != CastlingNone <==> sq in CastlingSquares
  {
  }

  /** The castling set after a move touching src and dst: the touched rights cleared, the others kept. */
  function CastlingChange(c: Castling, src: int, dst: int): (r: Castling)
    requires IsCastlingValid(c)
    ensures IsCastlingValid(r)
    ensures r == c & CastlingNot(RightsOfSquare(src) | RightsOfSquare(dst))
  {
    c & CastlingNot(RightsOfSquare(src) | RightsOfSquare(dst))
  }

  /** A right survives a move exactly when it was held and neither square of the move is its king's or rook's. */
  lemma CastlingChangeRights(c: Castling, src: int, dst: int, right: Castling)
    requires IsCastlingValid(c)
    requires right == WhiteKingside || right == WhiteQueenside || right == BlackKingside || right == BlackQueenside
    ensures CastlingChange(c, src, dst) & right != 0
      <==> (c & right != 0 && RightsOfSquare(src) & right == 0 && RightsOfSquare(dst) & right == 0)
  {
  }

  /** The submask `ExtractBits` takes from a two-square bitboard: bit k set when the k-th castling square is one of them. */
  function CastlingSubmask(src: int, dst: int): (r: bv8)
    ensures r < 64
  {
    (if src == 0 || dst == 0 then 1 else 0)
    | (if src == 4 || dst == 4 then 2 else 0)
    | (if src == 7 || dst == 7 then 4 else 0)
    | (if src == 56 || dst == 56 then 8 else 0)
    | (if src == 60 || dst == 60 then 16 else 0)
    | (if src == 63 || dst == 63 then 32 else 0)
  }

  /** The rights lost when the castling squares a submask selects change: e1 or h1 costs White's kingside right, and so on. */
  function RightsOfSubmask(sub: bv8): (r: Castling)
    ensures IsCastlingValid(r)
  {
    (if sub & 6 != 0 then WhiteKingside else 0)
    | (if sub & 3 != 0 then WhiteQueenside else 0)
    | (if sub & 48 != 0 then BlackKingside else 0)
    | (if sub & 24 != 0 then BlackQueenside else 0)
  }

  /**
   * `CASTLING_CHANGE` as intended: one entry for each of the 2^6 submasks
   * and 2^4 castling sets, at index `(submask << 4) | castling`.
   */
  function CastlingChangeTable(): (r: seq<Castling>)
    ensures |r| == 64 * 16
    ensures forall i :: 0 <= i < |r| ==> r[i] == CastlingChangeEntry(i)
  {
    seq(64 * 16, i requires 0 <= i < 64 * 16 => CastlingChangeEntry(i))
  }

  /** The entry at index i: the castling set in the low four bits less the rights of the submask above them. */
  function CastlingChangeEntry(i: int): (r: Castling)
    requires 0 <= i < 64 * 16
    ensures IsCastlingValid(r)
  {
    ((i % 16) as bv8) & CastlingNot(RightsOfSubmask((i / 16) as bv8))
  }

  /** The rights a submask selects are the rights of the two squares it was taken from. */
  lemma SubmaskRights(src: int, dst: int)
    ensures RightsOfSubmask(CastlingSubmask(src, dst)) == RightsOfSquare(src) | RightsOfSquare(dst)
  {
    var sub := CastlingSubmask(src, dst);
    assert sub & 6 != 0 <==> (src == 4 || src == 7 || dst == 4 || dst == 7);
    assert sub & 3 != 0 <==> (src == 0 || src == 4 || dst == 0 || dst == 4);
    assert sub & 48 != 0 <==> (src == 60 || src == 63 || dst == 60 || dst == 63);
    assert sub & 24 != 0 <==> (src == 56 || src == 60 || dst == 56 || dst == 60);
  }

  /** The entry at `(submask << 4) | castling` is built from that submask and that castling set. */
  lemma TableEntry(sub: bv8, c: Castling)
    requires sub < 64 && IsCastlingValid(c)
    ensures sub as int * 16 + c as int < |CastlingChangeTable()|
    ensures CastlingChangeTable()[sub as int * 16 + c as int] == c & CastlingNot(RightsOfSubmask(sub))
  {
    EntryParts(sub, c);
  }

  /** The entry at `(submask << 4) | castling` is the castling set less the submask's rights. */
  lemma EntryParts(sub: bv8, c: Castling)
    requires sub < 64 && IsCastlingValid(c)
    ensures 0 <= sub as int * 16 + c as int < 64 * 16
    ensures CastlingChangeEntry(sub as int * 16 + c as int) == c & CastlingNot(RightsOfSubmask(sub))
  {
    IndexParts(sub, c);
  }

  /** The index `(submask << 4) | castling` splits back into its two parts. */
  lemma IndexParts(sub: bv8, c: Castling)
    requires sub < 64 && IsCastlingValid(c)
    ensures 0 <= sub as int * 16 + c as int < 64 * 16
    ensures ((sub as int * 16 + c as int) % 16) as bv8 == c
    ensures ((sub as int * 16 + c as int) / 16) as bv8 == sub
  {
    var i := sub as int * 16 + c as int;
    assert i / 16 == sub as int && i % 16 == c as int;
  }

  /** Looking up the table at the move's submask gives the castling change of the move. */
  lemma CastlingChangeTableLookup(c: Castling, src: int, dst: int)
    requires IsCastlingValid(c)
    ensures CastlingSubmask(src, dst) as int * 16 + c as int < |CastlingChangeTable()|
    ensures CastlingChangeTable()[CastlingSubmask(src, dst) as int * 16 + c as int] == CastlingChange(c, src, dst)
  {
    TableEntry(CastlingSubmask(src, dst), c);
    SubmaskRights(src, dst);
  }

  /**
   * `CASTLING_CHANGE` as the source builds it: the submask loop stops at
   * the number of castling squares (6) instead of 2^6, so the table has
   * 6 * 16 entries.
   */
  function CastlingChangeTableAsWritten(): (r: seq<Castling>)
    ensures |r| == 6 * 16
  {
    seq(6 * 16, i requires 0 <= i < 6 * 16 => CastlingChangeEntry(i))
  }

  /** A move from h8 indexes the as-written table far past its end, whatever the castling set. */
  lemma CastlingChangeTableTooSmall(c: Castling, dst: int)
    requires IsCastlingValid(c) && 0 <= dst < BoardSize
    ensures CastlingSubmask(63, dst) as int * 16 + c as int >= |CastlingChangeTableAsWritten()|
  {
  }

  /** Whether the move touches any castling square: `change_bitboard & TOTAL_CASTLING_CHANGE_BITBOARD`. */
  predicate TouchesCastlingSquares(src: int, dst: int)
  {
    src in CastlingSquares || dst in CastlingSquares
  }

  /**
   * `UpdateCastling`: when some right is left and the move touches a
   * castling square, replace the castling set and its hash key. The test is
   * only a shortcut: the set is always the castling change of the move.
   */
  function UpdateCastling(z: Zobrist, c: Castling, hash: bv64, src: int, dst: int): (r: (Castling, bv64))
    requires ZobristWf(z) && IsCastlingValid(c)
    ensures IsCastlingValid(r.0)
    ensures r.0 == CastlingChange(c, src, dst)
    ensures r.1 == Xor(Xor(hash, CastlingKey(z, c)), CastlingKey(z, r.0))
  {
    if IsAnyCastlingAllowed(c) && TouchesCastlingSquares(src, dst) then
      var c' := CastlingChangeTable()[CastlingSubmask(src, dst) as int * 16 + c as int];
      CastlingChangeTableLookup(c, src, dst);
      (c', Xor(Xor(hash, CastlingKey(z, c)), CastlingKey(z, c')))
    else
      RightsOfOtherSquares(src);
      RightsOfOtherSquares(dst);
      XorSelf(hash, CastlingKey(z, c));
      (c, hash)
  }

  /**
   * `UpdateCastling` with its guard as written: `IsAnyCastlingAllowed`
   * answers whether no right is left, so the set is replaced only when it is
   * already empty.
   */
  function UpdateCastlingAsWritten(z: Zobrist, c: Castling, hash: bv64, src: int, dst: int): (r: (Castling, bv64))
    requires ZobristWf(z) && IsCastlingValid(c)
    ensures c != CastlingNone ==> r == (c, hash)
  {
    if IsAnyCastlingAllowedAsWritten(c) && TouchesCastlingSquares(src, dst) then
      var c' := CastlingChange(c, src, dst);
      (c', Xor(Xor(hash, CastlingKey(z, c)), CastlingKey(z, c')))
    else (c, hash)
  }

  /** A rook leaving h1 with all rights held keeps White's kingside right in the code as written. */
  lemma UpdateCastlingGuardAsWritten(z: Zobrist, hash: bv64, dst: int)
    requires ZobristWf(z)
    ensures UpdateCastlingAsWritten(z, CastlingAll, hash, 7, dst).0 & WhiteKingside != 0
    ensures UpdateCastling(z, CastlingAll, hash, 7, dst).0 & WhiteKingside == 0
  {
  }

  // ------------------------------------------------- move applicability

  /** The square of the pawn an en-passant capture by c landing on dst takes. */
  function TakenSquare(c: Color, dst: int): int
  {
    if c == White then dst - BoardSide else dst + BoardSide
  }

  /** The rank a side's pawn makes its double move from. */
  function PawnDoubleMoveRank(c: Color): int
  {
    if c == White then 1 else BoardSide - 2
  }

  /** A pawn double move: the side's pawn on its starting rank, two empty ranks ahead. */
  predicate PawnDoubleFits(b: Board, m: Move)
    requires CellsWf(b.cells) && IsCompressible(m)
  {
    b.cells[m.src] == MakeCell(b.side, Pawn)
    && GetRank(m.src) == PawnDoubleMoveRank(b.side)
    && m.dst == m.src + 2 * GetPawnMoveDelta(b.side)
    && b.cells[m.dst] == EmptyCell
  }

  /** An en-passant capture: the side's pawn moves to an empty square behind an enemy pawn. */
  predicate EnPassantFits(b: Board, m: Move)
    requires CellsWf(b.cells) && IsCompressible(m)
  {
    var t := TakenSquare(b.side, m.dst);
    b.cells[m.src] == MakeCell(b.side, Pawn)
    && b.cells[m.dst] == EmptyCell
    && IsCoordValidAndDefined(t) && t != m.src
    && b.cells[t] == MakeCell(b.side.Inverted(), Pawn)
  }

  /** Castling: the king on its home square, the rook on its corner, the squares they cross empty. */
  predicate CastlingFits(b: Board, m: Move)
    requires CellsWf(b.cells) && IsCompressible(m) && IsMoveCastling(m)
  {
    var home := KingHome(b.side);
    m.src == home && b.cells[home] == MakeCell(b.side, King)
    && (GetCastlingSide(m) == Kingside ==>
          m.dst == home + 2 && b.cells[home + 1] == EmptyCell && b.cells[home + 2] == EmptyCell
          && b.cells[home + 3] == MakeCell(b.side, Rook))
    && (GetCastlingSide(m) == Queenside ==>
          m.dst == home - 2 && b.cells[home - 1] == EmptyCell && b.cells[home - 2] == EmptyCell
          && b.cells[home - 4] == MakeCell(b.side, Rook))
  }

  /**
   * What the move generator guarantees of a move it hands to `MakeMove`:
   * a piece of the side to move leaves its square for another one, and the
   * squares each kind of move rewrites hold what that kind expects.
   */
  predicate IsMoveApplicable(b: Board, m: Move)
  {
    IsWellFormed(b) && IsCompressible(m) && m.src != m.dst
    && b.cells[m.src] != EmptyCell && GetCellColor(b.cells[m.src]) == b.side
    && (IsMovePawnDouble(m) ==> PawnDoubleFits(b, m))
    && (IsMoveEnPassant(m) ==> EnPassantFits(b, m))
    && (IsMoveCastling(m) ==> CastlingFits(b, m))
    && (IsMovePromotion(m) ==> b.cells[m.src] == MakeCell(b.side, Pawn))
  }

  // ------------------------------------------------------------- make

  /** `BuildMakeMoveInfo`: the captured cell and the fields a move overwrites. */
  function BuildMakeMoveInfo(b: Board, m: Move): (r: MakeMoveInfo)
    requires CellsWf(b.cells) && IsCoordValidAndDefined(m.dst)
    ensures 0 <= r.dstCell < NumberOfCells
    ensures r.hash == b.hash && r.enPassant == b.enPassant && r.castling == b.castling && r.fifty == b.fifty
  {
    MakeMoveInfo(b.cells[m.dst], b.hash, b.enPassant, b.castling, b.fifty)
  }

  /**
   * The hash change of a piece `moved` leaving src and landing on dst as
   * `landed` over `captured`, with the en-passant target replaced: each
   * key is combined in turn, which for `^` is the source's single
   * expression.
   */
  function MoveHash(z: Zobrist, h: bv64, src: int, dst: int, moved: int, captured: int, landed: int, ep: int, ep': int): bv64
    requires ZobristWf(z) && IsCoordValidAndDefined(src) && IsCoordValidAndDefined(dst)
    requires 0 <= moved < NumberOfCells && 0 <= captured < NumberOfCells && 0 <= landed < NumberOfCells
    requires IsCoordValidAndDefined(ep) && IsCoordValidAndDefined(ep')
  {
    Xor(Xor(Xor(Xor(Xor(h, CellKey(z, src, moved)), CellKey(z, dst, captured)), CellKey(z, dst, landed)),
            EnPassantKey(z, ep)), EnPassantKey(z, ep'))
  }

  /** Combining with the zero key changes nothing. */
  lemma XorZero(a: bv64)
    ensures Xor(a, 0) == a
  {
  }

  /** `MoveHash` is the hash of the position after the piece moved and the target changed. */
  lemma MoveHashStep(z: Zobrist, cells: seq<int>, ep: int, castling: Castling, side: Color,
                     src: int, dst: int, landed: int, ep': int)
    requires ZobristWf(z) && CellsWf(cells) && IsCastlingValid(castling)
    requires IsCoordValidAndDefined(ep) && IsCoordValidAndDefined(ep')
    requires IsCoordValidAndDefined(src) && IsCoordValidAndDefined(dst) && src != dst
    requires 0 <= landed < NumberOfCells
    ensures CellsWf(cells[src := EmptyCell][dst := landed])
    ensures MakeHash(z, cells[src := EmptyCell][dst := landed], ep', castling, side)
      == MoveHash(z, MakeHash(z, cells, ep, castling, side), src, dst, cells[src], cells[dst], landed, ep, ep')
  {
    var h0 := MakeHash(z, cells, ep, castling, side);
    var c1 := cells[src := EmptyCell];
    HashCellUpdate(z, cells, ep, castling, side, src, EmptyCell);
    XorZero(Xor(h0, CellKey(z, src, cells[src])));
    HashCellUpdate(z, c1, ep, castling, side, dst, landed);
    HashEnPassantUpdate(z, c1[dst := landed], ep, castling, side, ep');
  }

  /** The simple branch: the piece moves, whatever stood on dst is captured. */
  function MakeSimple(z: Zobrist, b: Board, m: Move): (r: Board)
    requires ZobristWf(z) && IsMoveApplicable(b, m)
    ensures r.cells == b.cells[m.src := EmptyCell][m.dst := b.cells[m.src]] && CellsWf(r.cells)
    ensures r.enPassant == NoEnPassantCoord && r.side == b.side
    ensures r.castling == CastlingChange(b.castling, m.src, m.dst)
    ensures r.fifty == (if m.fifty then 0 else NextFifty(b.fifty))
    ensures HashConsistent(b, z) ==> r.hash == MakeHash(z, r.cells, r.enPassant, r.castling, r.side)
  {
    var srcCell := b.cells[m.src];
    var hash := MoveHash(z, b.hash, m.src, m.dst, srcCell, b.cells[m.dst], srcCell, b.enPassant, NoEnPassantCoord);
    var (castling, hash') := UpdateCastling(z, b.castling, hash, m.src, m.dst);
    MoveHashStep(z, b.cells, b.enPassant, b.castling, b.side, m.src, m.dst, srcCell, NoEnPassantCoord);
    HashCastlingUpdate(z, b.cells[m.src := EmptyCell][m.dst := srcCell], NoEnPassantCoord, b.castling, b.side, castling);
    b.(cells := b.cells[m.src := EmptyCell][m.dst := srcCell],
       hash := hash',
       enPassant := NoEnPassantCoord,
       castling := castling,
       fifty := if m.fifty then 0 else NextFifty(b.fifty))
  }

  /** The pawn-double branch: the pawn moves two ranks and leaves the square it passed as the target. */
  function MakePawnDouble(z: Zobrist, b: Board, m: Move): (r: Board)
    requires ZobristWf(z) && IsMoveApplicable(b, m) && IsMovePawnDouble(m)
    ensures r.cells == b.cells[m.src := EmptyCell][m.dst := MakeCell(b.side, Pawn)] && CellsWf(r.cells)
    ensures r.enPassant == m.src + GetPawnMoveDelta(b.side) && r.fifty == 0
    ensures r.castling == b.castling && r.side == b.side
    ensures HashConsistent(b, z) ==> r.hash == MakeHash(z, r.cells, r.enPassant, r.castling, r.side)
  {
    var pawn := MakeCell(b.side, Pawn);
    var ep := if b.side == White then m.src + BoardSide else m.src - BoardSide;
    MoveHashStep(z, b.cells, b.enPassant, b.castling, b.side, m.src, m.dst, pawn, ep);
    b.(cells := b.cells[m.src := EmptyCell][m.dst := pawn],
       hash := MoveHash(z, b.hash, m.src, m.dst, pawn, b.cells[m.dst], pawn, b.enPassant, ep),
       enPassant := ep,
       fifty := 0)
  }

  /**
   * The en-passant branch as written: the taken pawn leaves the cells but
   * its key is not taken out of the hash, which so stays the hash of the
   * board with that pawn still on it.
   */
  function MakeEnPassantAsWritten(z: Zobrist, b: Board, m: Move): (r: Board)
    requires ZobristWf(z) && IsMoveApplicable(b, m) && IsMoveEnPassant(m)
    ensures r.cells == b.cells[m.src := EmptyCell][m.dst := MakeCell(b.side, Pawn)][TakenSquare(b.side, m.dst) := EmptyCell]
  {
    var pawn := MakeCell(b.side, Pawn);
    var taken := TakenSquare(b.side, m.dst);
    b.(cells := b.cells[m.src := EmptyCell][m.dst := pawn][taken := EmptyCell],
       hash := MoveHash(z, b.hash, m.src, m.dst, pawn, b.cells[m.dst], pawn, b.enPassant, NoEnPassantCoord),
       enPassant := NoEnPassantCoord,
       fifty := 0)
  }

  /** As written, the en-passant hash is that of the board on which the taken pawn was never removed. */
  lemma EnPassantHashAsWritten(z: Zobrist, b: Board, m: Move)
    requires HashConsistent(b, z) && IsMoveApplicable(b, m) && IsMoveEnPassant(m)
    ensures var w := MakeEnPassantAsWritten(z, b, m);
            w.cells[TakenSquare(b.side, m.dst)] == EmptyCell
            && w.hash == MakeHash(z, w.cells[TakenSquare(b.side, m.dst) := MakeCell(b.side.Inverted(), Pawn)],
                                  w.enPassant, w.castling, w.side)
  {
    var w := MakeEnPassantAsWritten(z, b, m);
    var pawn := MakeCell(b.side, Pawn);
    var taken := TakenSquare(b.side, m.dst);
    MoveHashStep(z, b.cells, b.enPassant, b.castling, b.side, m.src, m.dst, pawn, NoEnPassantCoord);
    assert w.cells[taken := MakeCell(b.side.Inverted(), Pawn)] == b.cells[m.src := EmptyCell][m.dst := pawn];
  }

  /** The en-passant branch: the pawn moves diagonally and the pawn behind its target square is removed. */
  function MakeEnPassant(z: Zobrist, b: Board, m: Move): (r: Board)
    requires ZobristWf(z) && IsMoveApplicable(b, m) && IsMoveEnPassant(m)
    ensures r.cells == b.cells[m.src := EmptyCell][m.dst := MakeCell(b.side, Pawn)][TakenSquare(b.side, m.dst) := EmptyCell]
    ensures CellsWf(r.cells) && r.enPassant == NoEnPassantCoord && r.fifty == 0
    ensures r.castling == b.castling && r.side == b.side
    ensures HashConsistent(b, z) ==> r.hash == MakeHash(z, r.cells, r.enPassant, r.castling, r.side)
  {
    var w := MakeEnPassantAsWritten(z, b, m);
    var taken := TakenSquare(b.side, m.dst);
    var pawn := MakeCell(b.side, Pawn);
    var c2 := b.cells[m.src := EmptyCell][m.dst := pawn];
    MoveHashStep(z, b.cells, b.enPassant, b.castling, b.side, m.src, m.dst, pawn, NoEnPassantCoord);
    HashCellUpdate(z, c2, NoEnPassantCoord, b.castling, b.side, taken, EmptyCell);
    XorZero(Xor(w.hash, CellKey(z, taken, MakeCell(b.side.Inverted(), Pawn))));
    w.(hash := Xor(w.hash, CellKey(z, taken, MakeCell(b.side.Inverted(), Pawn))))
  }

  /** The king's and the rook's squares after castling on side s. */
  function KingTarget(c: Color, s: CastlingSide): (r: int)
    ensures IsCoordValidAndDefined(r)
  {
    KingHome(c) + (if s == Kingside then 2 else -2)
  }

  function RookTarget(c: Color, s: CastlingSide): (r: int)
    ensures IsCoordValidAndDefined(r)
  {
    KingHome(c) + (if s == Kingside then 1 else -1)
  }

  /** The cells after castling: the king two files toward the rook, the rook on the square the king crossed. */
  function CastledCells(cells: seq<int>, c: Color, s: CastlingSide): (r: seq<int>)
    requires CellsWf(cells)
    ensures CellsWf(r)
    ensures r[KingTarget(c, s)] == MakeCell(c, King) && r[RookTarget(c, s)] == MakeCell(c, Rook)
    ensures r[KingHome(c)] == EmptyCell && r[RookHome(c, s)] == EmptyCell
    ensures forall i ::
              (0 <= i < BoardSize && i != KingHome(c) && i != RookHome(c, s) && i != KingTarget(c, s) && i != RookTarget(c, s))
              ==> r[i] == cells[i]
  {
    cells[KingHome(c) := EmptyCell][KingTarget(c, s) := MakeCell(c, King)]
         [RookTarget(c, s) := MakeCell(c, Rook)][RookHome(c, s) := EmptyCell]
  }

  /** The piece keys of castling, in the order of the four square writes. */
  function CastlingKeys(z: Zobrist, h: bv64, c: Color, s: CastlingSide): bv64
    requires ZobristWf(z)
  {
    Xor(Xor(Xor(Xor(h, CellKey(z, KingHome(c), MakeCell(c, King))), CellKey(z, KingTarget(c, s), MakeCell(c, King))),
            CellKey(z, RookTarget(c, s), MakeCell(c, Rook))), CellKey(z, RookHome(c, s), MakeCell(c, Rook)))
  }

  /** The rights castling spends: both of the mover's. */
  function SideRights(c: Color): (r: Castling)
    ensures IsCastlingValid(r)
    ensures r == (if c == White then WhiteKingside | WhiteQueenside else BlackKingside | BlackQueenside)
  {
    if c == White then WhiteAll else BlackAll
  }

  /**
   * The castling branch as written: the kingside king lands next to its
   * home square with the rook beyond it, only the castling keys of the hash
   * change, and no `MakeMoveInfo` is built, so the caller's `info` is
   * returned untouched.
   */
  function MakeCastlingAsWritten(z: Zobrist, b: Board, m: Move, info: MakeMoveInfo): (r: (Board, MakeMoveInfo))
    requires ZobristWf(z) && IsMoveApplicable(b, m) && IsMoveCastling(m)
    ensures r.1 == info
    ensures r.0.castling == b.castling & CastlingNot(SideRights(b.side))
  {
    var home := KingHome(b.side);
    var castling := b.castling & CastlingNot(SideRights(b.side));
    var hash := Xor(Xor(b.hash, CastlingKey(z, b.castling)), CastlingKey(z, castling));
    var cells :=
      if GetCastlingSide(m) == Kingside then
        b.cells[home := EmptyCell][home + 1 := MakeCell(b.side, King)][home + 2 := MakeCell(b.side, Rook)][home + 3 := EmptyCell]
      else CastledCells(b.cells, b.side, Queenside);
    (b.(cells := cells, hash := hash, castling := castling, fifty := NextFifty(b.fifty), enPassant := NoEnPassantCoord),
     info)
  }

  /** As written, kingside castling leaves the rook, not the king, on the king's destination square. */
  lemma KingsideCastlingAsWritten(z: Zobrist, b: Board, m: Move, info: MakeMoveInfo)
    requires ZobristWf(z) && IsMoveApplicable(b, m) && IsMoveCastling(m) && GetCastlingSide(m) == Kingside
    ensures MakeCastlingAsWritten(z, b, m, info).0.cells[m.dst] == MakeCell(b.side, Rook)
    ensures MakeCastling(z, b, m).cells[m.dst] == MakeCell(b.side, King)
  {
  }

  /**
   * As written, castling's `info` is whatever the caller passed in, so the
   * castling set `UnmakeMove` restores is the stale one.
   */
  lemma CastlingInfoAsWritten(z: Zobrist, b: Board, m: Move, info: MakeMoveInfo)
    requires ZobristWf(z) && IsMoveApplicable(b, m) && IsMoveCastling(m)
    requires info.castling != b.castling
    ensures MakeCastlingAsWritten(z, b, m, info).1.castling != b.castling
    ensures MakeMove(z, b, m).1.castling == b.castling
  {
  }

  /**
   * As written, castling's hash is that of the board before king and rook
   * moved and with the old en-passant target: only the castling set is new.
   */
  lemma CastlingHashAsWritten(z: Zobrist, b: Board, m: Move, info: MakeMoveInfo)
    requires HashConsistent(b, z) && IsMoveApplicable(b, m) && IsMoveCastling(m)
    ensures var w := MakeCastlingAsWritten(z, b, m, info).0;
            w.hash == MakeHash(z, b.cells, b.enPassant, w.castling, w.side)
  {
    var w := MakeCastlingAsWritten(z, b, m, info).0;
    HashCastlingUpdate(z, b.cells, b.enPassant, b.castling, b.side, w.castling);
  }

  /** The castling keys are the hash change of the four square writes. */
  lemma CastlingHashStep(z: Zobrist, cells: seq<int>, ep: int, castling: Castling, side: Color, c: Color, s: CastlingSide)
    requires ZobristWf(z) && CellsWf(cells) && IsCastlingValid(castling) && IsCoordValidAndDefined(ep)
    requires cells[KingHome(c)] == MakeCell(c, King) && cells[RookHome(c, s)] == MakeCell(c, Rook)
    requires cells[KingTarget(c, s)] == EmptyCell && cells[RookTarget(c, s)] == EmptyCell
    ensures MakeHash(z, CastledCells(cells, c, s), ep, castling, side)
      == CastlingKeys(z, MakeHash(z, cells, ep, castling, side), c, s)
  {
    var king, rook := MakeCell(c, King), MakeCell(c, Rook);
    var home, kt, rt, rh := KingHome(c), KingTarget(c, s), RookTarget(c, s), RookHome(c, s);
    var c1 := cells[home := EmptyCell];
    var c2 := c1[kt := king];
    var c3 := c2[rt := rook];
    HashCellStep(z, cells, ep, castling, side, home, EmptyCell);
    HashCellStep(z, c1, ep, castling, side, kt, king);
    HashCellStep(z, c2, ep, castling, side, rt, rook);
    HashCellStep(z, c3, ep, castling, side, rh, EmptyCell);
  }

  /**
   * One square write between empty and a piece changes the hash by that
   * piece's key on the square.
   */
  lemma HashCellStep(z: Zobrist, cells: seq<int>, ep: int, castling: Castling, side: Color, i: int, v: int)
    requires ZobristWf(z) && CellsWf(cells) && IsCoordValidAndDefined(ep) && IsCastlingValid(castling)
    requires 0 <= i < BoardSize && 0 <= v < NumberOfCells && (cells[i] == EmptyCell || v == EmptyCell)
    ensures CellsWf(cells[i := v])
    ensures MakeHash(z, cells[i := v], ep, castling, side)
      == Xor(MakeHash(z, cells, ep, castling, side), if v == EmptyCell then CellKey(z, i, cells[i]) else CellKey(z, i, v))
  {
    HashCellUpdate(z, cells, ep, castling, side, i, v);
    XorZero(MakeHash(z, cells, ep, castling, side));
    XorZero(Xor(MakeHash(z, cells, ep, castling, side), CellKey(z, i, cells[i])));
  }

  /** The castling branch: king and rook jump, the mover's rights are spent, the counter counts on. */
  function MakeCastling(z: Zobrist, b: Board, m: Move): (r: Board)
    requires ZobristWf(z) && IsMoveApplicable(b, m) && IsMoveCastling(m)
    ensures r.cells == CastledCells(b.cells, b.side, GetCastlingSide(m)) && CellsWf(r.cells)
    ensures r.castling == b.castling & CastlingNot(SideRights(b.side))
    ensures r.enPassant == NoEnPassantCoord && r.fifty == NextFifty(b.fifty) && r.side == b.side
    ensures HashConsistent(b, z) ==> r.hash == MakeHash(z, r.cells, r.enPassant, r.castling, r.side)
  {
    var s := GetCastlingSide(m);
    var cells := CastledCells(b.cells, b.side, s);
    var castling := b.castling & CastlingNot(SideRights(b.side));
    var hash := Xor(Xor(CastlingKeys(z, b.hash, b.side, s), EnPassantKey(z, b.enPassant)), EnPassantKey(z, NoEnPassantCoord));
    var hash' := Xor(Xor(hash, CastlingKey(z, b.castling)), CastlingKey(z, castling));
    CastlingHashStep(z, b.cells, b.enPassant, b.castling, b.side, b.side, s);
    HashEnPassantUpdate(z, cells, b.enPassant, b.castling, b.side, NoEnPassantCoord);
    HashCastlingUpdate(z, cells, NoEnPassantCoord, b.castling, b.side, castling);
    b.(cells := cells, hash := hash', castling := castling, fifty := NextFifty(b.fifty), enPassant := NoEnPassantCoord)
  }

  /**
   * The promotion branch as written: the hash gains the key of a pawn on
   * dst, not of the new piece, and so is the hash of the board with a pawn
   * there. Only the hash is as written here: the castling update is the
   * corrected `UpdateCastling` (the as-written guard is
   * `UpdateCastlingAsWritten`), so that the hash defect shows on its own.
   */
  function MakePromotionAsWritten(z: Zobrist, b: Board, m: Move): (r: Board)
    requires ZobristWf(z) && IsMoveApplicable(b, m) && IsMovePromotion(m)
    ensures r.cells == b.cells[m.src := EmptyCell][m.dst := MakeCell(b.side, GetPromotionPiece(m))]
  {
    var pawn := MakeCell(b.side, Pawn);
    var promoted := MakeCell(b.side, GetPromotionPiece(m));
    var hash := MoveHash(z, b.hash, m.src, m.dst, pawn, b.cells[m.dst], pawn, b.enPassant, NoEnPassantCoord);
    var (castling, hash') := UpdateCastling(z, b.castling, hash, m.src, m.dst);
    b.(cells := b.cells[m.src := EmptyCell][m.dst := promoted],
       hash := hash', castling := castling, fifty := 0, enPassant := NoEnPassantCoord)
  }

  /** As written, the promotion hash is that of the board with the promoting pawn, not the new piece, on dst. */
  lemma PromotionHashAsWritten(z: Zobrist, b: Board, m: Move)
    requires HashConsistent(b, z) && IsMoveApplicable(b, m) && IsMovePromotion(m)
    ensures var w := MakePromotionAsWritten(z, b, m);
            w.cells[m.dst] != MakeCell(b.side, Pawn)
            && w.hash == MakeHash(z, w.cells[m.dst := MakeCell(b.side, Pawn)], w.enPassant, w.castling, w.side)
  {
    var w := MakePromotionAsWritten(z, b, m);
    var pawn := MakeCell(b.side, Pawn);
    MoveHashStep(z, b.cells, b.enPassant, b.castling, b.side, m.src, m.dst, pawn, NoEnPassantCoord);
    assert w.cells[m.dst := pawn] == b.cells[m.src := EmptyCell][m.dst := pawn];
    HashCastlingUpdate(z, w.cells[m.dst := pawn], NoEnPassantCoord, b.castling, b.side, w.castling);
  }

  /** The promotion branch: the pawn leaves src and the new piece of the mover stands on dst. */
  function MakePromotion(z: Zobrist, b: Board, m: Move): (r: Board)
    requires ZobristWf(z) && IsMoveApplicable(b, m) && IsMovePromotion(m)
    ensures r.cells == b.cells[m.src := EmptyCell][m.dst := MakeCell(b.side, GetPromotionPiece(m))] && CellsWf(r.cells)
    ensures r.castling == CastlingChange(b.castling, m.src, m.dst) && r.side == b.side
    ensures r.enPassant == NoEnPassantCoord && r.fifty == 0
    ensures HashConsistent(b, z) ==> r.hash == MakeHash(z, r.cells, r.enPassant, r.castling, r.side)
  {
    var pawn := MakeCell(b.side, Pawn);
    var promoted := MakeCell(b.side, GetPromotionPiece(m));
    var hash := MoveHash(z, b.hash, m.src, m.dst, pawn, b.cells[m.dst], promoted, b.enPassant, NoEnPassantCoord);
    var (castling, hash') := UpdateCastling(z, b.castling, hash, m.src, m.dst);
    MoveHashStep(z, b.cells, b.enPassant, b.castling, b.side, m.src, m.dst, promoted, NoEnPassantCoord);
    HashCastlingUpdate(z, b.cells[m.src := EmptyCell][m.dst := promoted], NoEnPassantCoord, b.castling, b.side, castling);
    b.(cells := b.cells[m.src := EmptyCell][m.dst := promoted],
       hash := hash', castling := castling, fifty := 0, enPassant := NoEnPassantCoord)
  }

  /**
   * The steps every move ends with: the move number counts on, the side
   * turns, and the keys of both sides are combined into the hash.
   */
  function FinishMove(z: Zobrist, b: Board): (r: Board)
    requires ZobristWf(z)
    ensures r.moveCount == NextMoveCount(b.moveCount) && r.side == b.side.Inverted()
    ensures r.cells == b.cells && r.enPassant == b.enPassant && r.castling == b.castling && r.fifty == b.fifty
    ensures r.hash == Xor(Xor(b.hash, SideKey(z, b.side)), SideKey(z, b.side.Inverted()))
  {
    b.(moveCount := NextMoveCount(b.moveCount),
       side := b.side.Inverted(),
       hash := Xor(Xor(b.hash, SideKey(z, b.side)), SideKey(z, b.side.Inverted())))
  }

  /** The branch `MakeMoveImpl` runs for the move's basic type. */
  function MakeBranch(z: Zobrist, b: Board, m: Move): (r: Board)
    requires ZobristWf(z) && IsMoveApplicable(b, m)
    ensures CellsWf(r.cells) && r.side == b.side
    ensures IsCoordValidAndDefined(r.enPassant) && IsCastlingValid(r.castling)
    ensures HashConsistent(b, z) ==> r.hash == MakeHash(z, r.cells, r.enPassant, r.castling, r.side)
  {
    if IsMoveSimple(m) then MakeSimple(z, b, m)
    else if IsMovePawnDouble(m) then MakePawnDouble(z, b, m)
    else if IsMoveEnPassant(m) then MakeEnPassant(z, b, m)
    else if IsMoveCastling(m) then MakeCastling(z, b, m)
    else MakePromotion(z, b, m)
  }

  /**
   * `MakeMove`: the branch for the move's basic type, then the common
   * finish; the saved info holds the captured cell and the overwritten
   * fields.
   */
  function MakeMove(z: Zobrist, b: Board, m: Move): (r: (Board, MakeMoveInfo))
    requires ZobristWf(z) && IsMoveApplicable(b, m)
    ensures r.1 == BuildMakeMoveInfo(b, m)
    ensures r.0.side == b.side.Inverted() && r.0.moveCount == NextMoveCount(b.moveCount)
  {
    (FinishMove(z, MakeBranch(z, b, m)), BuildMakeMoveInfo(b, m))
  }

  /** A made move leaves a board with every field in range and, from a consistent board, a consistent hash. */
  lemma MakeMoveKeepsHash(z: Zobrist, b: Board, m: Move)
    requires HashConsistent(b, z) && IsMoveApplicable(b, m)
    ensures HashConsistent(MakeMove(z, b, m).0, z)
  {
    var b1 := MakeBranch(z, b, m);
    assert IsWellFormed(MakeMove(z, b, m).0) by {
      MakeBranchFields(z, b, m);
    }
    HashSideUpdate(z, b1.cells, b1.enPassant, b1.castling, b1.side, b1.side.Inverted());
  }

  /** The fields a branch writes stay in their ranges, the en-passant target valid for the side about to move. */
  lemma MakeBranchFields(z: Zobrist, b: Board, m: Move)
    requires ZobristWf(z) && IsMoveApplicable(b, m)
    ensures var r := MakeBranch(z, b, m);
            IsCastlingValid(r.castling) && r.fifty < 0x100
            && IsEnPassantCoordValid(b.side.Inverted(), r.enPassant)
  {
  }

  /** The per-kind effects of `MakeMove` on the en-passant target, the quiet-move counter and the castling set. */
  lemma MakeMoveEffects(z: Zobrist, b: Board, m: Move)
    requires ZobristWf(z) && IsMoveApplicable(b, m)
    ensures var r := MakeMove(z, b, m).0;
            && (IsMoveSimple(m) ==> r.enPassant == NoEnPassantCoord
                                    && r.fifty == (if m.fifty then 0 else NextFifty(b.fifty))
                                    && r.cells[m.dst] == b.cells[m.src] && r.cells[m.src] == EmptyCell)
            && (IsMovePawnDouble(m) ==> r.enPassant == m.src + GetPawnMoveDelta(b.side) && r.fifty == 0
                                        && r.enPassant != NoEnPassantCoord)
            && (IsMoveEnPassant(m) ==> r.cells[TakenSquare(b.side, m.dst)] == EmptyCell && r.fifty == 0)
            && (IsMoveCastling(m) ==> r.castling & SideRights(b.side) == CastlingNone
                                      && r.castling & SideRights(b.side.Inverted()) == b.castling & SideRights(b.side.Inverted())
                                      && r.cells[m.dst] == MakeCell(b.side, King)
                                      && r.cells[RookTarget(b.side, GetCastlingSide(m))] == MakeCell(b.side, Rook)
                                      && r.fifty == NextFifty(b.fifty) && r.enPassant == NoEnPassantCoord)
            && (IsMovePromotion(m) ==> r.cells[m.dst] == MakeCell(b.side, GetPromotionPiece(m)) && r.fifty == 0)
            && (IsMoveSimple(m) || IsMovePromotion(m) ==> r.castling == CastlingChange(b.castling, m.src, m.dst))
  {
  }

  /**
   * The type test of `MakeMoveImpl` as written: the type is masked with the
   * `&` of four distinct single-bit flags, which is 0, so every move takes
   * the simple branch.
   */
  function MoveTypeMaskAsWritten(m: Move, pawnDoubleBit: bv8, enPassantBit: bv8, castlingBit: bv8, promotionBit: bv8): (r: bv8)
    requires IsKindValid(m)
    requires pawnDoubleBit != enPassantBit
    requires pawnDoubleBit in {1, 2, 4, 8, 16, 32, 64, 128} && enPassantBit in {1, 2, 4, 8, 16, 32, 64, 128}
    ensures r == 0
  {
    (TypeByte(m) as bv8) & (pawnDoubleBit & enPassantBit & castlingBit & promotionBit)
  }

  /**
   * `MakeMove` as written: whatever the type, the simple branch runs. Only
   * the dispatch is as written here: the branch is `MakeSimple`, whose
   * castling update is the corrected `UpdateCastling` (the as-written guard
   * is `UpdateCastlingAsWritten`), so that each defect shows on its own.
   */
  function MakeMoveAsWritten(z: Zobrist, b: Board, m: Move): (r: (Board, MakeMoveInfo))
    requires ZobristWf(z) && IsMoveApplicable(b, m)
    ensures r.0.enPassant == NoEnPassantCoord
  {
    (FinishMove(z, MakeSimple(z, b, m)), BuildMakeMoveInfo(b, m))
  }

  /** As written, a pawn double move leaves no en-passant target, where the intended branch sets one. */
  lemma PawnDoubleDispatchAsWritten(z: Zobrist, b: Board, m: Move)
    requires ZobristWf(z) && IsMoveApplicable(b, m) && IsMovePawnDouble(m)
    ensures MakeMoveAsWritten(z, b, m).0.enPassant == NoEnPassantCoord
    ensures MakeMove(z, b, m).0.enPassant != NoEnPassantCoord
  {
  }

  // ----------------------------------------------------------- unmake

  /** What `UnmakeMove` needs to rewrite the squares of the move made by c. */
  predicate IsUnmakeable(c: Color, b: Board, m: Move, info: MakeMoveInfo)
  {
    CellsWf(b.cells) && IsCompressible(m) && 0 <= info.dstCell < NumberOfCells
    && (IsMoveEnPassant(m) ==> IsCoordValidAndDefined(TakenSquare(c, m.dst)))
  }

  /** The cells before castling: king and rook back home, the squares they jumped to empty. */
  function UncastledCells(cells: seq<int>, c: Color, s: CastlingSide): (r: seq<int>)
    requires CellsWf(cells)
    ensures CellsWf(r)
    ensures r[KingHome(c)] == MakeCell(c, King) && r[RookHome(c, s)] == MakeCell(c, Rook)
    ensures r[KingTarget(c, s)] == EmptyCell && r[RookTarget(c, s)] == EmptyCell
  {
    cells[RookHome(c, s) := MakeCell(c, Rook)][RookTarget(c, s) := EmptyCell]
         [KingTarget(c, s) := EmptyCell][KingHome(c) := MakeCell(c, King)]
  }

  /** Case 0 of `UnmakeMoveImpl`: the piece on dst goes back to src and the saved cell back to dst. */
  function UndoSimpleCells(b: Board, m: Move, info: MakeMoveInfo): (r: seq<int>)
    requires CellsWf(b.cells) && IsCompressible(m) && 0 <= info.dstCell < NumberOfCells
    ensures CellsWf(r)
    ensures forall k :: 0 <= k < BoardSize && k != m.src && k != m.dst ==> r[k] == b.cells[k]
  {
    b.cells[m.src := b.cells[m.dst]][m.dst := info.dstCell]
  }

  /** The squares of a move by c put back, for each kind of move. */
  function UnmakeCells(c: Color, b: Board, m: Move, info: MakeMoveInfo): (r: seq<int>)
    requires IsUnmakeable(c, b, m, info)
    ensures CellsWf(r)
  {
    var pawn := MakeCell(c, Pawn);
    if IsMoveSimple(m) then UndoSimpleCells(b, m, info)
    else if IsMovePawnDouble(m) then b.cells[m.src := pawn][m.dst := EmptyCell]
    else if IsMoveEnPassant(m) then
      b.cells[m.src := pawn][m.dst := EmptyCell][TakenSquare(c, m.dst) := MakeCell(c.Inverted(), Pawn)]
    else if IsMoveCastling(m) then UncastledCells(b.cells, c, GetCastlingSide(m))
    else b.cells[m.src := pawn][m.dst := info.dstCell]
  }

  /**
   * `UnmakeMoveImpl` for the mover c: the move number counts back, the side
   * turns, the saved fields come back, and the move's squares are put back.
   */
  function UnmakeMoveImpl(c: Color, b: Board, m: Move, info: MakeMoveInfo): (r: Board)
    requires IsUnmakeable(c, b, m, info)
    ensures r.side == b.side.Inverted() && r.moveCount == PrevMoveCount(b.moveCount)
    ensures r.hash == info.hash && r.enPassant == info.enPassant && r.castling == info.castling
    ensures r.fifty == info.fifty
  {
    b.(moveCount := PrevMoveCount(b.moveCount),
       side := b.side.Inverted(),
       hash := info.hash,
       enPassant := info.enPassant,
       castling := info.castling,
       fifty := info.fifty,
       cells := UnmakeCells(c, b, m, info))
  }

  /**
   * `UnmakeMoveImpl` as written: the type is masked with the `&` of the
   * four flags, as in `MakeMoveImpl` (`MoveTypeMaskAsWritten`), which is 0,
   * so every undo takes case 0 whatever the kind of move. The saved fields
   * come back, and only src and dst are rewritten.
   */
  function UnmakeMoveImplAsWritten(c: Color, b: Board, m: Move, info: MakeMoveInfo): (r: Board)
    requires IsUnmakeable(c, b, m, info)
    ensures r.side == b.side.Inverted() && r.moveCount == PrevMoveCount(b.moveCount)
    ensures r.hash == info.hash && r.enPassant == info.enPassant && r.castling == info.castling
    ensures r.fifty == info.fifty && CellsWf(r.cells)
    ensures forall k :: 0 <= k < BoardSize && k != m.src && k != m.dst ==> r.cells[k] == b.cells[k]
    ensures IsMoveSimple(m) ==> r == UnmakeMoveImpl(c, b, m, info)
  {
    UnmakeMoveImpl(c, b, m, info).(cells := UndoSimpleCells(b, m, info))
  }

  /**
   * After the intended make, the as-written undo of an en-passant capture
   * does not put the taken pawn back, where the intended undo does. The
   * defect is latent while the make dispatch is also as written: both then
   * take the simple case and undo each other.
   */
  lemma EnPassantUndoAsWritten(z: Zobrist, b: Board, m: Move)
    requires ZobristWf(z) && IsMoveApplicable(b, m) && IsMoveEnPassant(m)
    ensures var (b', info) := MakeMove(z, b, m);
            IsUnmakeable(b.side, b', m, info)
            && UnmakeMoveImplAsWritten(b.side, b', m, info).cells[TakenSquare(b.side, m.dst)] == EmptyCell
            && UnmakeMoveImpl(b.side, b', m, info).cells[TakenSquare(b.side, m.dst)] == MakeCell(b.side.Inverted(), Pawn)
  {
    MadeMoveUnmakeable(z, b, m);
    MakeMoveEffects(z, b, m);
  }

  /**
   * After the intended make, the as-written undo of a promotion leaves the
   * new piece on src, where the intended undo puts the pawn back; latent,
   * like the en-passant case, while the make dispatch is as written.
   */
  lemma PromotionUndoAsWritten(z: Zobrist, b: Board, m: Move)
    requires ZobristWf(z) && IsMoveApplicable(b, m) && IsMovePromotion(m)
    ensures var (b', info) := MakeMove(z, b, m);
            IsUnmakeable(b.side, b', m, info)
            && UnmakeMoveImplAsWritten(b.side, b', m, info).cells[m.src] == MakeCell(b.side, GetPromotionPiece(m))
            && UnmakeMoveImpl(b.side, b', m, info).cells[m.src] == MakeCell(b.side, Pawn)
  {
    MadeMoveUnmakeable(z, b, m);
    PromotionLands(z, b, m);
  }

  /** A promotion leaves the new piece on dst. */
  lemma PromotionLands(z: Zobrist, b: Board, m: Move)
    requires ZobristWf(z) && IsMoveApplicable(b, m) && IsMovePromotion(m)
    ensures MakeMove(z, b, m).0.cells[m.dst] == MakeCell(b.side, GetPromotionPiece(m))
  {
    assert MakeBranch(z, b, m) == MakePromotion(z, b, m);
  }

  /**
   * The case bodies of `UnmakeMoveImpl` as written, were the switch to reach
   * them: they agree with the intended undo except that the castling case
   * counts the quiet-move counter on and clears the en-passant target again
   * after the saved fields are back. Behind the type mask only case 0 runs.
   */
  function UnmakeCasesAsWritten(c: Color, b: Board, m: Move, info: MakeMoveInfo): (r: Board)
    requires IsUnmakeable(c, b, m, info)
    ensures !IsMoveCastling(m) ==> r == UnmakeMoveImpl(c, b, m, info)
    ensures IsMoveCastling(m) ==> r.fifty == NextFifty(info.fifty) && r.enPassant == NoEnPassantCoord
  {
    var r := UnmakeMoveImpl(c, b, m, info);
    if IsMoveCastling(m) then r.(fifty := NextFifty(r.fifty), enPassant := NoEnPassantCoord) else r
  }

  /** The castling case as written: reached after castling, it would leave the quiet-move counter one higher. */
  lemma UnmakeCastlingAsWritten(z: Zobrist, b: Board, m: Move)
    requires ZobristWf(z) && IsMoveApplicable(b, m) && IsMoveCastling(m) && b.fifty < 0xFF
    ensures var (b', info) := MakeMove(z, b, m);
            UnmakeCasesAsWritten(b.side, b', m, info).fifty == b.fifty + 1
  {
  }

  /** `UnmakeMove`: undo the move of the side that is not to move. */
  function UnmakeMove(b: Board, m: Move, info: MakeMoveInfo): (r: Board)
    requires IsUnmakeable(b.side.Inverted(), b, m, info)
    ensures r.side == b.side.Inverted()
  {
    UnmakeMoveImpl(b.side.Inverted(), b, m, info)
  }

  /**
   * `UnmakeMove` as written: with White to move it runs the black undo and
   * then the white one as well. Both steps are the intended `UnmakeMoveImpl`;
   * the as-written type mask of the undo lives in `UnmakeMoveImplAsWritten`,
   * so this shows the double undo on its own.
   */
  function UnmakeMoveAsWritten(b: Board, m: Move, info: MakeMoveInfo): (r: Board)
    requires IsUnmakeable(Black, b, m, info) && IsUnmakeable(White, b, m, info)
    ensures b.side == Black ==> r == UnmakeMove(b, m, info)
  {
    if b.side == White then
      var once := UnmakeMoveImpl(Black, b, m, info);
      UnmakeMoveImpl(White, once, m, info)
    else UnmakeMoveImpl(White, b, m, info)
  }

  /** As written, undoing Black's move turns the side twice and counts the move number back twice. */
  lemma UnmakeTwiceAsWritten(b: Board, m: Move, info: MakeMoveInfo)
    requires IsUnmakeable(Black, b, m, info) && IsUnmakeable(White, b, m, info)
    requires b.side == White && 2 <= b.moveCount < 0x1_0000
    ensures UnmakeMoveAsWritten(b, m, info).side == White
    ensures UnmakeMoveAsWritten(b, m, info).moveCount == b.moveCount - 2
    ensures UnmakeMove(b, m, info).side == Black
  {
  }

  /** A move that `MakeMove` accepts can be taken back. */
  lemma MadeMoveUnmakeable(z: Zobrist, b: Board, m: Move)
    requires ZobristWf(z) && IsMoveApplicable(b, m)
    ensures IsUnmakeable(MakeMove(z, b, m).0.side.Inverted(), MakeMove(z, b, m).0, m, MakeMove(z, b, m).1)
  {
  }

  /** Writing two squares and then their old contents back leaves the cells as they were. */
  lemma WriteBack(cells: seq<int>, src: int, dst: int, x: int, y: int)
    requires 0 <= src < |cells| && 0 <= dst < |cells| && src != dst
    ensures cells[src := x][dst := y][src := cells[src]][dst := cells[dst]] == cells
  {
  }

  /** Uncastling undoes castling on a board where castling fits. */
  lemma UncastleCastled(cells: seq<int>, c: Color, s: CastlingSide)
    requires CellsWf(cells)
    requires cells[KingHome(c)] == MakeCell(c, King) && cells[RookHome(c, s)] == MakeCell(c, Rook)
    requires cells[KingTarget(c, s)] == EmptyCell && cells[RookTarget(c, s)] == EmptyCell
    ensures UncastledCells(CastledCells(cells, c, s), c, s) == cells
  {
    var r := UncastledCells(CastledCells(cells, c, s), c, s);
    assert forall i | 0 <= i < BoardSize :: r[i] == cells[i];
  }

  /** The squares a made move rewrote are put back. */
  lemma UnmakeRestoresCells(z: Zobrist, b: Board, m: Move)
    requires ZobristWf(z) && IsMoveApplicable(b, m)
    ensures UnmakeCells(b.side, MakeMove(z, b, m).0, m, MakeMove(z, b, m).1) == b.cells
  {
    MoveKindsPartition(m);
    if IsMoveSimple(m) { UnmakeRestoresSimple(z, b, m); }
    else if IsMovePawnDouble(m) { UnmakeRestoresPawnDouble(z, b, m); }
    else if IsMoveEnPassant(m) { UnmakeRestoresEnPassant(z, b, m); }
    else if IsMoveCastling(m) { UnmakeRestoresCastling(z, b, m); }
    else { UnmakeRestoresPromotion(z, b, m); }
  }

  lemma UnmakeRestoresSimple(z: Zobrist, b: Board, m: Move)
    requires ZobristWf(z) && IsMoveApplicable(b, m) && IsMoveSimple(m)
    ensures UnmakeCells(b.side, MakeMove(z, b, m).0, m, MakeMove(z, b, m).1) == b.cells
  {
    assert MakeMove(z, b, m).0.cells == MakeSimple(z, b, m).cells;
    WriteBack(b.cells, m.src, m.dst, EmptyCell, b.cells[m.src]);
  }

  lemma UnmakeRestoresPawnDouble(z: Zobrist, b: Board, m: Move)
    requires ZobristWf(z) && IsMoveApplicable(b, m) && IsMovePawnDouble(m)
    ensures UnmakeCells(b.side, MakeMove(z, b, m).0, m, MakeMove(z, b, m).1) == b.cells
  {
    assert MakeMove(z, b, m).0.cells == MakePawnDouble(z, b, m).cells;
    WriteBack(b.cells, m.src, m.dst, EmptyCell, MakeCell(b.side, Pawn));
  }

  lemma UnmakeRestoresEnPassant(z: Zobrist, b: Board, m: Move)
    requires ZobristWf(z) && IsMoveApplicable(b, m) && IsMoveEnPassant(m)
    ensures UnmakeCells(b.side, MakeMove(z, b, m).0, m, MakeMove(z, b, m).1) == b.cells
  {
    assert MakeMove(z, b, m).0.cells == MakeEnPassant(z, b, m).cells;
    UnmakeEnPassantCells(b.cells, m.src, m.dst, TakenSquare(b.side, m.dst), MakeCell(b.side, Pawn), MakeCell(b.side.Inverted(), Pawn));
  }

  lemma UnmakeRestoresCastling(z: Zobrist, b: Board, m: Move)
    requires ZobristWf(z) && IsMoveApplicable(b, m) && IsMoveCastling(m)
    ensures UnmakeCells(b.side, MakeMove(z, b, m).0, m, MakeMove(z, b, m).1) == b.cells
  {
    assert MakeMove(z, b, m).0.cells == MakeCastling(z, b, m).cells;
    UncastleCastled(b.cells, b.side, GetCastlingSide(m));
  }

  lemma UnmakeRestoresPromotion(z: Zobrist, b: Board, m: Move)
    requires ZobristWf(z) && IsMoveApplicable(b, m) && IsMovePromotion(m)
    ensures UnmakeCells(b.side, MakeMove(z, b, m).0, m, MakeMove(z, b, m).1) == b.cells
  {
    assert MakeMove(z, b, m).0.cells == MakePromotion(z, b, m).cells;
    WriteBack(b.cells, m.src, m.dst, EmptyCell, MakeCell(b.side, GetPromotionPiece(m)));
  }

  /** Putting back the pawn, the empty target and the taken pawn undoes an en-passant capture. */
  lemma UnmakeEnPassantCells(cells: seq<int>, src: int, dst: int, taken: int, pawn: int, other: int)
    requires 0 <= src < |cells| && 0 <= dst < |cells| && 0 <= taken < |cells|
    requires src != dst && taken != src && taken != dst
    requires cells[src] == pawn && cells[dst] == EmptyCell && cells[taken] == other
    ensures cells[src := EmptyCell][dst := pawn][taken := EmptyCell][src := pawn][dst := EmptyCell][taken := other] == cells
  {
  }

  /** Unmaking a made move gives back exactly the board it was made on. */
  lemma MakeUnmakeRoundTrip(z: Zobrist, b: Board, m: Move)
    requires ZobristWf(z) && IsMoveApplicable(b, m)
    ensures IsUnmakeable(MakeMove(z, b, m).0.side.Inverted(), MakeMove(z, b, m).0, m, MakeMove(z, b, m).1)
    ensures UnmakeMove(MakeMove(z, b, m).0, m, MakeMove(z, b, m).1) == b
  {
    var (b', info) := MakeMove(z, b, m);
    MadeMoveUnmakeable(z, b, m);
    UnmakeRestoresCells(z, b, m);
    MoveCountSteps(b.moveCount);
    MakeBranchFields(z, b, m);
  }
}

=== FILE: core_util.dfy ===
/**
 * Cell construction and inspection, castling-right queries and the
 * two-character square notation ("e4").
 *
 * A cell is 0 for an empty square, 1..6 for a white Pawn..King and 7..12
 * for a black one (the colour offset is the value of King).
 */
module CoreUtil {
  import opened Types
  import opened Geometry

  /** `COLOR_OFFSET`: black cells follow the six white ones. */
  const ColorOffset: int := King

  /** `MakeCell`: the cell holding piece p of colour c. */
  function MakeCell(c: Color, p: int): (r: int)
    requires IsPieceValid(p)
    ensures IsCellValid(r) && IsCellWithPiece(r)
    ensures GetCellColor(r) == c && GetCellPiece(r) == p
  {
    (if c == White then 0 else ColorOffset) + p
  }

  /** `IsCellWithPiece`: neither undefined nor empty. */
  predicate IsCellWithPiece(c: int)
    requires IsCellValid(c)
  {
    c != UndefinedCell && c != EmptyCell
  }

  /** `GetCellColor`: cells up to the colour offset are white. */
  function GetCellColor(c: int): (r: Color)
    requires IsCellValid(c) && IsCellWithPiece(c)
    ensures r == White <==> c <= King
  {
    if c <= ColorOffset then White else Black
  }

  /**
   * The piece on a cell. `GetCellPiece` is not part of this model's
   * sources; it is taken to strip the colour offset.
   */
  function GetCellPiece(c: int): (r: int)
    requires IsCellValid(c) && IsCellWithPiece(c)
    ensures IsPieceValid(r)
  {
    (c - 1) % NumberOfPieces + 1
  }

  /** Every occupied cell is the cell of its own colour and piece. */
  lemma CellOfParts(c: int)
    requires IsCellValid(c) && IsCellWithPiece(c)
    ensures MakeCell(GetCellColor(c), GetCellPiece(c)) == c
  {
  }

  /**
   * The same piece with the other colour. `FlipCellColor` is not part of
   * this model's sources; it is taken to move the cell across the colour
   * offset.
   */
  function FlipCellColor(c: int): (r: int)
    requires IsCellValid(c) && IsCellWithPiece(c)
    ensures IsCellValid(r) && IsCellWithPiece(r)
    ensures GetCellColor(r) == GetCellColor(c).Inverted()
    ensures GetCellPiece(r) == GetCellPiece(c)
  {
    MakeCell(GetCellColor(c).Inverted(), GetCellPiece(c))
  }

  /** `IsCastlingAllowed`: some right of p is in c. */
  predicate IsCastlingAllowed(c: Castling, p: Castling)
    requires IsCastlingValid(c) && IsCastlingValid(p)
  {
    c & p != CastlingNone
  }

  /** `IsAnyCastlingAllowed` as the source writes it: it answers whether no right is left. */
  function IsAnyCastlingAllowedAsWritten(c: Castling): (r: bool)
    requires IsCastlingValid(c)
    ensures r <==> !(IsCastlingAllowed(c, WhiteKingside) || IsCastlingAllowed(c, WhiteQueenside)
                     || IsCastlingAllowed(c, BlackKingside) || IsCastlingAllowed(c, BlackQueenside))
  {
    c == CastlingNone
  }

  /** `IsAnyCastlingAllowed` as its name and its use promise: some right is left. */
  function IsAnyCastlingAllowed(c: Castling): (r: bool)
    requires IsCastlingValid(c)
    ensures r <==> IsCastlingAllowed(c, CastlingAll)
    ensures r <==> !IsAnyCastlingAllowedAsWritten(c)
  {
    c != CastlingNone
  }

  /** With every right held, the check as written says that none is allowed. */
  lemma AnyCastlingAsWritten()
    ensures !IsAnyCastlingAllowedAsWritten(CastlingAll)
    ensures IsAnyCastlingAllowed(CastlingAll)
  {
  }

  /** `IsCoordStringValid`: a file letter a..h followed by a rank digit 1..8. */
  predicate IsCoordStringValid(s: string)
  {
    |s| == 2 && 'a' <= s[0] <= 'h' && '1' <= s[1] <= '8'
  }

  /** `CastStringToCoord`: "-" is the undefined square, otherwise rank * 8 + file. */
  function CastStringToCoord(s: string): (r: int)
    requires s == "-" || IsCoordStringValid(s)
    ensures IsCoordValid(r)
    ensures s == "-" <==> r == UndefinedCoord
    ensures s != "-" ==> r == MakeCoord(s[1] as int - '1' as int, s[0] as int - 'a' as int)
  {
    if s == "-" then UndefinedCoord
    else (s[1] as int - '1' as int) * BoardSide + s[0] as int - 'a' as int
  }

  /** `CastCoordToString`: the file letter then the rank digit, or "-" for the undefined square. */
  function CastCoordToString(c: int): (r: string)
    requires IsCoordValid(c)
    ensures r == "-" || IsCoordStringValid(r)
    ensures r == "-" <==> c == UndefinedCoord
    ensures CastStringToCoord(r) == c
  {
    if c == UndefinedCoord then "-"
    else [(GetYSubcoord(c) + 'a' as int) as char, (GetXSubcoord(c) + '1' as int) as char]
  }

  /** Printing a parsed square gives back its text. */
  lemma CoordStringRoundTrip(s: string)
    requires s == "-" || IsCoordStringValid(s)
    ensures CastCoordToString(CastStringToCoord(s)) == s
  {
  }
}

=== FILE: fen.dfy ===
/**
 * The FEN codec of the board: `Board::MakeFromFEN`, with its error codes
 * in the order the parser checks them, and `Board::GetFEN`.
 *
 * The parser reads the piece field rank by rank from the eighth rank down;
 * a row's cells are collected left to right and the whole board is
 * assembled once every row has parsed.
 */
module Fen {
  import opened Wrappers
  import opened Types
  import opened Geometry
  import opened CoreUtil
  import opened Strings
  import opened Board

  /** `Board::FENParseStatus` without `Ok`, which is the `Ok` case of the result. */
  datatype FenError =
    | InvalidNumberOfFENFields
    | InvalidNumberOfRows
    | InvalidNumberOfColumns
    | InvalidSizeOfColumnSkip
    | InvalidCell
    | InvalidMoveSide
    | InvalidCastling
    | InvalidEnPassantCoord
    | InvalidQuietMoveCount
    | InvalidMoveCount

  /** `std::numeric_limits<int>::max()`, the largest value `std::stoi` returns. */
  const IntMax: nat := 0x7fff_ffff

  /** n empty cells. */
  function Empties(n: nat): (r: seq<int>)
    ensures |r| == n && forall i :: 0 <= i < n ==> r[i] == EmptyCell
  {
    seq(n, i => EmptyCell)
  }

  /** Every cell is empty or a piece. */
  predicate RowWf(row: seq<int>)
  {
    forall i :: 0 <= i < |row| ==> 0 <= row[i] < NumberOfCells
  }

  // ---------------------------------------------------------- piece rows

  /**
   * One rank of the piece field, read from column `file` on: the cells it
   * fills, or the first error the per-character checks meet.
   */
  function ParseRow(s: string, file: nat): (r: Result<seq<int>, FenError>)
    requires file <= BoardSide
    ensures r.Ok? ==> |r.value| == BoardSide - file && RowWf(r.value)
    ensures r.Err? ==> r.error in {InvalidNumberOfColumns, InvalidSizeOfColumnSkip, InvalidCell}
    ensures |s| == 0 ==> (r.Ok? <==> file == BoardSide)
    decreases |s|
  {
    if |s| == 0 then
      if file == BoardSide then Ok([]) else Err(InvalidNumberOfColumns)
    else if file >= BoardSide then Err(InvalidNumberOfColumns)
    else if IsDigit(s[0]) then
      var skip := DigitValue(s[0]);
      if !(0 < skip <= BoardSide) then Err(InvalidSizeOfColumnSkip)
      else if file + skip > BoardSide then Err(InvalidNumberOfColumns)
      else match ParseRow(s[1..], file + skip)
        case Ok(rest) => Ok(Empties(skip) + rest)
        case Err(e) => Err(e)
    else
      var cell := CastCharToCell(s[0]);
      if cell == UndefinedCell then Err(InvalidCell)
      else match ParseRow(s[1..], file + 1)
        case Ok(rest) => Ok([cell] + rest)
        case Err(e) => Err(e)
  }

  /** The ranks of the piece field, eighth rank first; the first failing rank decides the error. */
  function ParseRows(rows: seq<string>): (r: Result<seq<seq<int>>, FenError>)
    ensures r.Ok? ==> (|r.value| == |rows|
                       && forall k :: 0 <= k < |rows| ==> |r.value[k]| == BoardSide && RowWf(r.value[k]))
    ensures r.Ok? <==> forall k :: 0 <= k < |rows| ==> ParseRow(rows[k], 0).Ok?
    ensures r.Err? ==> r.error in {InvalidNumberOfColumns, InvalidSizeOfColumnSkip, InvalidCell}
  {
    if |rows| == 0 then Ok([])
    else match ParseRow(rows[0], 0)
      case Err(e) => Err(e)
      case Ok(row) =>
        match ParseRows(rows[1..])
        case Err(e) => Err(e)
        case Ok(rest) => Ok([row] + rest)
  }

  /** The board's cells from the parsed ranks: square (x, y) comes from rank 7 - x of the field, column y. */
  function CellsOfRows(grid: seq<seq<int>>): (r: seq<int>)
    requires |grid| == BoardSide
    requires forall k :: 0 <= k < BoardSide ==> |grid[k]| == BoardSide && RowWf(grid[k])
    ensures CellsWf(r)
    ensures forall x, y :: 0 <= x < BoardSide && 0 <= y < BoardSide ==>
      r[MakeCoord(x, y)] == grid[InvertSubcoord(x)][y]
  {
    var r := seq(BoardSize, i requires 0 <= i < BoardSize => grid[InvertSubcoord(GetXSubcoord(i))][GetYSubcoord(i)]);
    assert CellsWf(r) by {
      forall i | 0 <= i < BoardSize
        ensures 0 <= r[i] < NumberOfCells
      {
        assert RowWf(grid[InvertSubcoord(GetXSubcoord(i))]);
      }
    }
    r
  }

  // ------------------------------------------------------------- counts

  /** `IsMoveCountStringValid` as the source writes it: every character is a digit, so "" passes. */
  function IsMoveCountStringValidAsWritten(s: string): (r: bool)
    ensures r <==> DigitsFrom(s, 0)
    ensures |s| == 0 ==> r
  {
    DigitsFrom(s, 0)
  }

  /** What the count-field check followed by `std::stoi` does with a field. */
  datatype CountOutcome = Rejected | Accepted(value: nat) | Throws

  /**
   * The count field as the source reads it: rejected unless all digits,
   * then `std::stoi`, which throws on the empty string and on values past
   * `int`.
   */
  function ParseCountAsWritten(s: string): (r: CountOutcome)
    ensures r.Rejected? <==> !IsMoveCountStringValidAsWritten(s)
    ensures r.Accepted? ==> |s| > 0 && r.value == ParseNat(s) <= IntMax
  {
    if !IsMoveCountStringValidAsWritten(s) then Rejected
    else if |s| == 0 || ParseNat(s) > IntMax then Throws
    else Accepted(ParseNat(s))
  }

  /** The empty count field passes the check and then makes `std::stoi` throw. */
  lemma EmptyCountThrows()
    ensures IsMoveCountStringValidAsWritten("")
    ensures ParseCountAsWritten("") == Throws
  {
  }

  /**
   * The count field as intended: a non-empty digit string whose value
   * `std::stoi` can return; every other field is an error code and never
   * an exception.
   */
  function ParseCount(s: string): (r: Option<nat>)
    ensures r.Some? <==> ParseCountAsWritten(s).Accepted?
    ensures r.Some? ==> r.value == ParseCountAsWritten(s).value && r.value <= IntMax
    ensures r.Some? <==> IsNonNegativeNumber(s) && ParseNat(s) <= IntMax
  {
    if IsNonNegativeNumber(s) && ParseNat(s) <= IntMax then Some(ParseNat(s)) else None
  }

  /** The 50-move counter is the `uint8_t` truncation of the parsed value. */
  function FiftyOfCount(v: nat): (r: nat)
    ensures r < 0x100 && (v < 0x100 ==> r == v)
  {
    v % 0x100
  }

  /**
   * `move_count = stoi(field) * 2 - (white ? 1 : 0)` stored in a
   * `uint16_t`: the half-move number, odd exactly when White is to move.
   */
  function MoveCountOfCount(v: nat, side: Color): (r: nat)
    ensures r < 0x1_0000
    ensures 2 * v < 0x1_0000 ==> r == if side == White then (2 * v - 1) % 0x1_0000 else 2 * v
    ensures r % 2 == 1 <==> side == White
  {
    (2 * v - (if side == White then 1 else 0)) % 0x1_0000
  }

  /** The full-move numbers of the engine's parser tests. */
  lemma MoveCountExamples()
    ensures MoveCountOfCount(171, Black) == 342
    ensures MoveCountOfCount(169, White) == 337
    ensures MoveCountOfCount(11, Black) == 22
    ensures MoveCountOfCount(1, White) == 1
  {
  }

  // ------------------------------------------------------------- parser

  /**
   * The en-passant field, read as a release build reads it: "-" is no
   * target; any other text of two or more characters becomes a square by
   * the arithmetic of `CastStringToEnPassantCoord`, whose name check is
   * only a debug assert; the result must pass `IsEnPassantCoordValid` for
   * the side to move. A shorter text is rejected.
   */
  function ParseEnPassant(s: string, side: Color): (r: Option<int>)
    ensures r.Some? ==> IsEnPassantCoordValid(side, r.value)
    ensures s == "-" || IsCoordStringValid(s) ==>
              (r.Some? <==> IsEnPassantCoordValid(side, CastStringToEnPassantCoord(s)))
              && (r.Some? ==> r.value == CastStringToEnPassantCoord(s))
    ensures s != "-" && |s| < 2 ==> r.None?
  {
    if s != "-" && |s| < 2 then None
    else
      var c := EnPassantCoordOfText(s);
      if IsEnPassantCoordValid(side, c) then Some(c) else None
  }

  /**
   * The field is read by its first two characters only, and a file letter
   * past 'h' carries into the next rank: "e3x" is e3 for Black to move,
   * and "i5" is a6 for White to move.
   */
  lemma EnPassantFieldLax()
    ensures ParseEnPassant("e3x", Black) == Some(20)
    ensures ParseEnPassant("i5", White) == Some(40)
    ensures forall s: string, t: string :: |s| == 2 && s != "-" ==>
              ParseEnPassant(s + t, White) == ParseEnPassant(s, White)
  {
    var e, f := "e3x", "i5";
    assert EnPassantCoordOfText(e) == 20;
    assert EnPassantCoordOfText(f) == 40;
  }

  /**
   * The piece field: eight '/'-separated ranks, each parsed in turn, then
   * laid out as the board's cells.
   */
  function ParsePieces(s: string): (r: Result<seq<int>, FenError>)
    ensures r.Ok? ==> CellsWf(r.value)
    ensures |Split(s, '/')| != BoardSide ==> r == Err(InvalidNumberOfRows)
    ensures r.Err? ==> r.error in {InvalidNumberOfRows, InvalidNumberOfColumns, InvalidSizeOfColumnSkip, InvalidCell}
  {
    var rows := Split(s, '/');
    if |rows| != BoardSide then Err(InvalidNumberOfRows)
    else match ParseRows(rows)
      case Err(e) => Err(e)
      case Ok(grid) => Ok(CellsOfRows(grid))
  }

  /**
   * The five fields after the piece field, checked in order: side to move,
   * castling rights, en-passant target, quiet-move counter and full-move
   * number; on success the board with its hash computed from scratch.
   */
  function ParseState(fields: seq<string>, cells: seq<int>, z: Zobrist): (r: Result<Board, FenError>)
    requires |fields| == 6 && CellsWf(cells) && ZobristWf(z)
    ensures r.Ok? ==> HashConsistent(r.value, z) && r.value.cells == cells
    ensures r.Ok? ==> (r.value.side == White <==> fields[1] == "w")
    ensures r.Ok? ==> (r.value.moveCount % 2 == 1 <==> r.value.side == White)
    ensures !IsMoveSideStringValid(fields[1]) ==> r == Err(InvalidMoveSide)
    ensures IsMoveSideStringValid(fields[1]) && !IsCastlingStringValid(fields[2]) ==> r == Err(InvalidCastling)
    ensures r.Err? ==> r.error in {InvalidMoveSide, InvalidCastling, InvalidEnPassantCoord, InvalidQuietMoveCount, InvalidMoveCount}
  {
    if !IsMoveSideStringValid(fields[1]) then Err(InvalidMoveSide)
    else
      var side := CastCharToColor(fields[1][0]);
      if !IsCastlingStringValid(fields[2]) then Err(InvalidCastling)
      else
        var castling := CastStringToCastling(fields[2]);
        match ParseEnPassant(fields[3], side)
        case None => Err(InvalidEnPassantCoord)
        case Some(ep) =>
          match ParseCount(fields[4])
          case None => Err(InvalidQuietMoveCount)
          case Some(fifty) =>
            match ParseCount(fields[5])
            case None => Err(InvalidMoveCount)
            case Some(moves) =>
              Ok(Board(cells, MakeHash(z, cells, ep, castling, side), ep, castling, side,
                       FiftyOfCount(fifty), MoveCountOfCount(moves, side)))
  }

  /**
   * `Board::MakeFromFEN`: six space-separated fields, then the piece field,
   * then the rest, each failure reported with its own code in that order.
   */
  function MakeFromFen(fen: string, z: Zobrist): (r: Result<Board, FenError>)
    requires ZobristWf(z)
    ensures r.Ok? ==> HashConsistent(r.value, z)
    ensures r.Ok? ==> (r.value.moveCount % 2 == 1 <==> r.value.side == White)
    ensures |Split(fen, ' ')| != 6 <==> r == Err(InvalidNumberOfFENFields)
    ensures |Split(fen, ' ')| == 6 && |Split(Split(fen, ' ')[0], '/')| != BoardSide ==> r == Err(InvalidNumberOfRows)
    ensures r.Ok? ==> (r.value.side == White <==> Split(fen, ' ')[1] == "w")
  {
    var fields := Split(fen, ' ');
    if |fields| != 6 then Err(InvalidNumberOfFENFields)
    else match ParsePieces(fields[0])
      case Err(e) => Err(e)
      case Ok(cells) => ParseState(fields, cells, z)
  }

  // ------------------------------------------------------------ printer

  /**
   * One rank of the piece field from a run of `run` empty cells already
   * seen: runs of empty cells print as their length, pieces as letters.
   */
  function PrintRow(row: seq<int>, run: nat): (r: string)
    requires RowWf(row) && run + |row| <= BoardSide
    ensures Free(r, '/') && Free(r, ' ')
    decreases |row|
  {
    if |row| == 0 then (if run > 0 then [DigitChar(run)] else [])
    else if row[0] == EmptyCell then PrintRow(row[1..], run + 1)
    else (if run > 0 then [DigitChar(run)] else []) + ([CastCellToChar(row[0])] + PrintRow(row[1..], 0))
  }

  /** The cells of the board's rank x, file a first. */
  function RankCells(cells: seq<int>, x: int): (r: seq<int>)
    requires CellsWf(cells) && IsSubcoordValid(x)
    ensures |r| == BoardSide && RowWf(r)
    ensures forall y :: 0 <= y < BoardSide ==> r[y] == cells[MakeCoord(x, y)]
  {
    cells[x * BoardSide..x * BoardSide + BoardSide]
  }

  /** The piece field's ranks, eighth rank first. */
  function PrintRows(cells: seq<int>): (r: seq<string>)
    requires CellsWf(cells)
    ensures |r| == BoardSide
  {
    seq(BoardSide, k requires 0 <= k < BoardSide => PrintRow(RankCells(cells, InvertSubcoord(k)), 0))
  }

  /** The piece field: the ranks from the eighth down, joined by '/'. */
  function PieceField(cells: seq<int>): (r: string)
    requires CellsWf(cells)
  {
    Join(PrintRows(cells), '/')
  }

  /** Six fields in the order `Board::GetFEN` writes them: pieces, side, castling, en passant, counters. */
  function FieldsInOrder(piece: string, side: char, castling: string, ep: string, fifty: string, full: string)
    : (r: seq<string>)
    ensures |r| == 6 && r[0] == piece && r[1] == [side] && r[2] == castling
    ensures r[3] == ep && r[4] == fifty && r[5] == full
  {
    [piece, [side], castling, ep, fifty, full]
  }

  /** The full-move number `GetFEN` prints for a half-move count: every White move starts a new one. */
  function FullMoveNumber(moveCount: nat): (r: nat)
    ensures moveCount % 2 == 1 ==> 2 * r == moveCount + 1
    ensures moveCount % 2 == 0 ==> 2 * r == moveCount
  {
    (moveCount + 1) / 2
  }

  /** The fields of a board, in order. */
  lemma FenFieldsInOrder(b: Board)
    requires IsWellFormed(b)
    ensures FenFields(b) == FieldsInOrder(PieceField(b.cells), CastColorToChar(b.side), CastCastlingToString(b.castling),
                                          CastEnPassantCoordToString(b.enPassant), NatToString(b.fifty),
                                          NatToString(FullMoveNumber(b.moveCount)))
  {
  }

  /** Six fields each free of `c` make a sequence of fields free of `c`. */
  lemma FieldsInOrderFree(piece: string, side: char, castling: string, ep: string, fifty: string, full: string,
                          c: char)
    requires Free(piece, c) && side != c && Free(castling, c) && Free(ep, c) && Free(fifty, c) && Free(full, c)
    ensures forall k :: 0 <= k < 6 ==> Free(FieldsInOrder(piece, side, castling, ep, fifty, full)[k], c)
  {
    var r := FieldsInOrder(piece, side, castling, ep, fifty, full);
    forall k | 0 <= k < 6
      ensures Free(r[k], c)
    {
      if k == 1 {
        assert r[1] == [side];
      }
    }
  }

  /** The six fields `Board::GetFEN` writes. */
  function FenFields(b: Board): (r: seq<string>)
    requires IsWellFormed(b)
    ensures |r| == 6
  {
    FieldsInOrder(PieceField(b.cells), CastColorToChar(b.side), CastCastlingToString(b.castling),
                  CastEnPassantCoordToString(b.enPassant), NatToString(b.fifty),
                  NatToString(FullMoveNumber(b.moveCount)))
  }

  /**
   * `Board::GetFEN`: the fields joined by single spaces; the full-move
   * number is `(move_count + 1) / 2`.
   */
  function GetFen(b: Board): (r: string)
    requires IsWellFormed(b)
    ensures |Split(r, ' ')| == 6
  {
    FenFieldsFree(b);
    SplitJoin(FenFields(b), ' ');
    Join(FenFields(b), ' ')
  }

  /** No printed field contains a space, and the ranks contain no '/'. */
  lemma FenFieldsFree(b: Board)
    requires IsWellFormed(b)
    ensures forall k :: 0 <= k < 6 ==> Free(FenFields(b)[k], ' ')
    ensures forall k :: 0 <= k < BoardSide ==> Free(PrintRows(b.cells)[k], '/')
  {
    PieceFieldFree(b.cells);
    StateFieldsFree(b);
    FieldsInOrderFree(PieceField(b.cells), CastColorToChar(b.side), CastCastlingToString(b.castling),
                      CastEnPassantCoordToString(b.enPassant), NatToString(b.fifty),
                      NatToString(FullMoveNumber(b.moveCount)), ' ');
  }

  /** The ranks contain no '/' and the piece field no space. */
  lemma PieceFieldFree(cells: seq<int>)
    requires CellsWf(cells)
    ensures forall k :: 0 <= k < BoardSide ==> Free(PrintRows(cells)[k], '/')
    ensures Free(PieceField(cells), ' ')
  {
    JoinFree(PrintRows(cells), '/', ' ');
  }

  /** The side, castling, en-passant and counter fields contain no space. */
  lemma StateFieldsFree(b: Board)
    requires IsWellFormed(b)
    ensures CastColorToChar(b.side) != ' ' && Free(CastCastlingToString(b.castling), ' ')
    ensures Free(CastEnPassantCoordToString(b.enPassant), ' ')
    ensures Free(NatToString(b.fifty), ' ') && Free(NatToString(FullMoveNumber(b.moveCount)), ' ')
  {
    CastlingStringValid(b.castling);
  }

  /** A join of pieces free of c, with a delimiter other than c, is free of c. */
  lemma {:induction false} JoinFree(pieces: seq<string>, delim: char, c: char)
    requires delim != c
    requires forall k :: 0 <= k < |pieces| ==> Free(pieces[k], c)
    ensures Free(Join(pieces, delim), c)
    decreases |pieces|
  {
    if |pieces| > 1 {
      JoinFree(pieces[1..], delim, c);
    }
  }
}

=== FILE: fen_roundtrip.dfy ===
/**
 * The FEN codec's round trip: reading back what `Board::GetFEN` prints
 * gives the same board, for every board the parser can produce.
 */
module FenRoundTrip {
  import opened Wrappers
  import opened Types
  import opened Geometry
  import opened CoreUtil
  import opened Strings
  import opened Board
  import opened Fen

  /** Cells in front of a successful row parse; an error passes through. */
  function Prepend(pre: seq<int>, r: Result<seq<int>, FenError>): Result<seq<int>, FenError>
  {
    match r
    case Ok(cells) => Ok(pre + cells)
    case Err(e) => Err(e)
  }

  /** A skip digit that fits the rank parses to that many empty cells. */
  lemma ParseSkip(run: nat, t: string, file: nat)
    requires 0 < run && file + run <= BoardSide
    ensures ParseRow([DigitChar(run)] + t, file) == Prepend(Empties(run), ParseRow(t, file + run))
  {
    assert ([DigitChar(run)] + t)[1..] == t;
  }

  /** A piece letter on a column of the rank parses to its cell. */
  lemma ParseLetter(cell: int, t: string, file: nat)
    requires 0 < cell < NumberOfCells && file < BoardSide
    ensures ParseRow([CastCellToChar(cell)] + t, file) == Prepend([cell], ParseRow(t, file + 1))
  {
    assert ([CastCellToChar(cell)] + t)[1..] == t;
  }

  /**
   * A rank printed after a pending run of empty cells parses, from the
   * column where that run began, to the run's empty cells followed by the
   * rank's cells.
   */
  predicate RowTrips(row: seq<int>, run: nat)
    requires RowWf(row) && run + |row| <= BoardSide
  {
    ParseRow(PrintRow(row, run), BoardSide - |row| - run) == Ok(Empties(run) + row)
  }

  /** Every well-formed rank, after any pending run that fits, reads back as printed. */
  lemma {:induction false} RowRoundTrip(row: seq<int>, run: nat)
    requires RowWf(row) && run + |row| <= BoardSide
    ensures RowTrips(row, run)
    decreases |row|
  {
    if |row| == 0 {
      RowEndRoundTrip(run);
    } else {
      RowWfTail(row);
      if row[0] == EmptyCell {
        RowRoundTrip(row[1..], run + 1);
        RowEmptyRoundTrip(row, run);
      } else {
        RowRoundTrip(row[1..], 0);
        RowPieceRoundTrip(row, run);
      }
    }
  }

  /** The rest of a well-formed rank is well-formed. */
  lemma RowWfTail(row: seq<int>)
    requires RowWf(row) && |row| > 0
    ensures RowWf(row[1..])
  {
  }

  /** An empty cell joins the pending run: the rest of the rank, parsed from one column later, covers it. */
  lemma RowEmptyRoundTrip(row: seq<int>, run: nat)
    requires RowWf(row) && run + |row| <= BoardSide && |row| > 0 && row[0] == EmptyCell
    requires RowWf(row[1..]) && RowTrips(row[1..], run + 1)
    ensures RowTrips(row, run)
  {
    assert PrintRow(row, run) == PrintRow(row[1..], run + 1);
    assert Empties(run + 1) + row[1..] == Empties(run) + row;
  }

  /** The end of a rank: the pending run alone. */
  lemma RowEndRoundTrip(run: nat)
    requires run <= BoardSide
    ensures RowTrips([], run)
  {
    if run > 0 {
      ParseSkip(run, [], BoardSide - run);
      assert [DigitChar(run)] + [] == PrintRow([], run);
      assert ParseRow([], BoardSide) == Ok([]);
      assert Empties(run) + [] == Empties(run);
    }
  }

  /** A piece after a pending run: the run's digit, then the letter, then the rest of the rank. */
  lemma RowPieceRoundTrip(row: seq<int>, run: nat)
    requires RowWf(row) && run + |row| <= BoardSide && |row| > 0 && row[0] != EmptyCell
    requires RowWf(row[1..]) && RowTrips(row[1..], 0)
    ensures RowTrips(row, run)
  {
    RowTripsFromStart(row[1..]);
    PrintPiece(row, run);
    PieceAfterRun(run, PrintRow(row[1..], 0), PrintRow(row, run), BoardSide - |row| - run, row);
  }

  /** With no pending run, a rank that reads back reads back to exactly its cells. */
  lemma RowTripsFromStart(row: seq<int>)
    requires RowWf(row) && |row| <= BoardSide && RowTrips(row, 0)
    ensures ParseRow(PrintRow(row, 0), BoardSide - |row|) == Ok(row)
  {
    assert Empties(0) + row == row;
  }

  /** How a rank starting with a piece prints: the pending run's digit, if any, the letter, then the rest. */
  lemma PrintPiece(row: seq<int>, run: nat)
    requires RowWf(row) && run + |row| <= BoardSide && |row| > 0 && row[0] != EmptyCell
    ensures PrintRow(row, run) == RunText(run) + ([CastCellToChar(row[0])] + PrintRow(row[1..], 0))
  {
  }

  /** The digit a pending run of empty cells prints as; nothing when there is none. */
  function RunText(run: nat): (r: string)
    requires run <= BoardSide
    ensures |r| <= 1 && (r == [] <==> run == 0)
  {
    if run > 0 then [DigitChar(run)] else []
  }

  /** A run's digit and a letter in front of a rest that parses to the remaining cells. */
  lemma PieceAfterRun(run: nat, rest: string, p: string, file: nat, cells: seq<int>)
    requires |cells| > 0 && 0 < cells[0] < NumberOfCells && file + run < BoardSide
    requires p == RunText(run) + ([CastCellToChar(cells[0])] + rest)
    requires ParseRow(rest, file + run + 1) == Ok(cells[1..])
    ensures ParseRow(p, file) == Ok(Empties(run) + cells)
  {
    var tail := [CastCellToChar(cells[0])] + rest;
    LetterThenRest(cells[0], rest, file + run, cells[1..]);
    assert [cells[0]] + cells[1..] == cells;
    if run > 0 {
      assert p == [DigitChar(run)] + tail;
      SkipThenRest(run, tail, file, cells);
    } else {
      assert p == tail;
      assert Empties(0) + cells == cells;
    }
  }

  /** A letter followed by a rest that parses to `cells` parses to the letter's cell and then `cells`. */
  lemma LetterThenRest(cell: int, rest: string, file: nat, cells: seq<int>)
    requires 0 < cell < NumberOfCells && file < BoardSide
    requires ParseRow(rest, file + 1) == Ok(cells)
    ensures ParseRow([CastCellToChar(cell)] + rest, file) == Ok([cell] + cells)
  {
    ParseLetter(cell, rest, file);
  }

  /** A skip digit followed by a rest that parses to `cells` parses to the run's empty cells and then `cells`. */
  lemma SkipThenRest(run: nat, rest: string, file: nat, cells: seq<int>)
    requires 0 < run && file + run <= BoardSide
    requires ParseRow(rest, file + run) == Ok(cells)
    ensures ParseRow([DigitChar(run)] + rest, file) == Ok(Empties(run) + cells)
  {
    ParseSkip(run, rest, file);
  }

  /** Ranks that each parse to their grid row parse together to the grid. */
  lemma {:induction false} RowsRoundTrip(rows: seq<string>, grid: seq<seq<int>>)
    requires |rows| == |grid|
    requires forall k :: 0 <= k < |rows| ==> ParseRow(rows[k], 0) == Ok(grid[k])
    ensures ParseRows(rows) == Ok(grid)
    decreases |rows|
  {
    if |rows| > 0 {
      RowsRoundTrip(rows[1..], grid[1..]);
      assert [grid[0]] + grid[1..] == grid;
    }
  }

  /** The printed piece field parses back to the board's cells. */
  lemma PiecesRoundTrip(cells: seq<int>)
    requires CellsWf(cells)
    ensures ParsePieces(Join(PrintRows(cells), '/')) == Ok(cells)
  {
    RowsParse(cells);
    forall k | 0 <= k < BoardSide
      ensures Free(PrintRows(cells)[k], '/')
    {
    }
    SplitJoin(PrintRows(cells), '/');
  }

  /** The printed ranks parse back to the board's cells. */
  lemma RowsParse(cells: seq<int>)
    requires CellsWf(cells)
    ensures ParseRows(PrintRows(cells)).Ok?
    ensures |ParseRows(PrintRows(cells)).value| == BoardSide
    ensures CellsOfRows(ParseRows(PrintRows(cells)).value) == cells
  {
    var rows := PrintRows(cells);
    var grid := seq(BoardSide, k requires 0 <= k < BoardSide => RankCells(cells, InvertSubcoord(k)));
    forall k | 0 <= k < BoardSide
      ensures ParseRow(rows[k], 0) == Ok(grid[k])
    {
      RowRoundTrip(grid[k], 0);
      assert Empties(0) + grid[k] == grid[k];
    }
    RowsRoundTrip(rows, grid);
    var r := CellsOfRows(grid);
    forall i | 0 <= i < BoardSize
      ensures r[i] == cells[i]
    {
      var x, y := GetXSubcoord(i), GetYSubcoord(i);
      MakeCoordOfParts(i);
      assert r[MakeCoord(x, y)] == grid[InvertSubcoord(x)][y];
      InvertSubcoordInvolution(x);
    }
  }

  /** The printed counters read back as the stored ones. */
  lemma CountsRoundTrip(b: Board)
    requires IsWellFormed(b)
    requires b.moveCount % 2 == 1 <==> b.side == White
    ensures ParseCount(NatToString(b.fifty)) == Some(b.fifty)
    ensures FiftyOfCount(b.fifty) == b.fifty
    ensures ParseCount(NatToString(FullMoveNumber(b.moveCount))) == Some(FullMoveNumber(b.moveCount))
    ensures MoveCountOfCount(FullMoveNumber(b.moveCount), b.side) == b.moveCount
  {
    ParseNatToString(b.fifty);
    ParseNatToString(FullMoveNumber(b.moveCount));
  }

  /** The printed en-passant field reads back as the stored target. */
  lemma EnPassantRoundTrip(b: Board)
    requires IsWellFormed(b)
    ensures ParseEnPassant(CastEnPassantCoordToString(b.enPassant), b.side) == Some(b.enPassant)
  {
  }

  /** The five fields after the piece field read back as the board's state. */
  lemma StateRoundTrip(b: Board, z: Zobrist)
    requires HashConsistent(b, z)
    requires b.moveCount % 2 == 1 <==> b.side == White
    ensures ParseState(FenFields(b), b.cells, z) == Ok(b)
  {
    var moves := FullMoveNumber(b.moveCount);
    FieldsParseBack(b, z, moves, CastCastlingToString(b.castling), CastEnPassantCoordToString(b.enPassant),
                    NatToString(b.fifty), NatToString(moves));
  }

  /** The printed fields of a board, given by name, parse back to that board. */
  lemma FieldsParseBack(b: Board, z: Zobrist, moves: nat, castling: string, ep: string, fifty: string, full: string)
    requires HashConsistent(b, z)
    requires b.moveCount % 2 == 1 <==> b.side == White
    requires moves == FullMoveNumber(b.moveCount)
    requires castling == CastCastlingToString(b.castling) && ep == CastEnPassantCoordToString(b.enPassant)
    requires fifty == NatToString(b.fifty) && full == NatToString(moves)
    ensures ParseState(FenFields(b), b.cells, z) == Ok(b)
  {
    var fields := FieldsInOrder(PieceField(b.cells), CastColorToChar(b.side), castling, ep, fifty, full);
    FenFieldsInOrder(b);
    FieldsReadBack(b, moves, [CastColorToChar(b.side)], castling, ep, fifty, full);
    ParseStateOfBoard(fields, b, z, moves);
  }

  /** Fields that each read back as a board's own part make `ParseState` rebuild that board. */
  lemma ParseStateOfBoard(fields: seq<string>, b: Board, z: Zobrist, moves: nat)
    requires HashConsistent(b, z) && |fields| == 6
    requires IsMoveSideStringValid(fields[1]) && CastCharToColor(fields[1][0]) == b.side
    requires IsCastlingStringValid(fields[2]) && CastStringToCastling(fields[2]) == b.castling
    requires ParseEnPassant(fields[3], b.side) == Some(b.enPassant)
    requires ParseCount(fields[4]) == Some(b.fifty) && ParseCount(fields[5]) == Some(moves)
    requires FiftyOfCount(b.fifty) == b.fifty && MoveCountOfCount(moves, b.side) == b.moveCount
    ensures ParseState(fields, b.cells, z) == Ok(b)
  {
    ParseStateOk(fields, b.cells, z, b.side, b.castling, b.enPassant, b.fifty, moves);
    BoardOfParts(b, z, MakeHash(z, b.cells, b.enPassant, b.castling, b.side),
                 FiftyOfCount(b.fifty), MoveCountOfCount(moves, b.side));
  }

  /** Each of the five state fields printed from a board reads back as the board's value. */
  lemma FieldsReadBack(b: Board, moves: nat, side: string, castling: string, ep: string, fifty: string, full: string)
    requires IsWellFormed(b)
    requires b.moveCount % 2 == 1 <==> b.side == White
    requires moves == FullMoveNumber(b.moveCount)
    requires side == [CastColorToChar(b.side)] && castling == CastCastlingToString(b.castling)
    requires ep == CastEnPassantCoordToString(b.enPassant)
    requires fifty == NatToString(b.fifty) && full == NatToString(moves)
    ensures IsMoveSideStringValid(side) && CastCharToColor(side[0]) == b.side
    ensures IsCastlingStringValid(castling) && CastStringToCastling(castling) == b.castling
    ensures ParseEnPassant(ep, b.side) == Some(b.enPassant)
    ensures ParseCount(fifty) == Some(b.fifty) && ParseCount(full) == Some(moves)
    ensures FiftyOfCount(b.fifty) == b.fifty && MoveCountOfCount(moves, b.side) == b.moveCount
  {
    CastlingStringValid(b.castling);
    CastlingStringRoundTrip(b.castling);
    EnPassantRoundTrip(b);
    CountsRoundTrip(b);
  }

  /** Fields that each read back as given make `ParseState` build the board of those parts. */
  lemma ParseStateOk(fields: seq<string>, cells: seq<int>, z: Zobrist, side: Color, castling: Castling,
                     ep: int, fifty: nat, moves: nat)
    requires |fields| == 6 && CellsWf(cells) && ZobristWf(z)
    requires IsMoveSideStringValid(fields[1]) && CastCharToColor(fields[1][0]) == side
    requires IsCastlingStringValid(fields[2]) && CastStringToCastling(fields[2]) == castling
    requires ParseEnPassant(fields[3], side) == Some(ep)
    requires ParseCount(fields[4]) == Some(fifty) && ParseCount(fields[5]) == Some(moves)
    ensures ParseState(fields, cells, z)
            == Ok(Board(cells, MakeHash(z, cells, ep, castling, side), ep, castling, side,
                        FiftyOfCount(fifty), MoveCountOfCount(moves, side)))
  {
  }

  /** A board is the board built from its own parts. */
  lemma BoardOfParts(b: Board, z: Zobrist, hash: bv64, fifty: nat, moveCount: nat)
    requires HashConsistent(b, z) && hash == MakeHash(z, b.cells, b.enPassant, b.castling, b.side)
    requires fifty == b.fifty && moveCount == b.moveCount
    ensures Board(b.cells, hash, b.enPassant, b.castling, b.side, fifty, moveCount) == b
  {
  }

  /**
   * `MakeFromFEN(GetFEN(b)) == b`: every well-formed board whose hash is
   * its own and whose half-move number is odd exactly when White moves is
   * printed to a FEN that parses back to it.
   */
  lemma FenRoundTrip(b: Board, z: Zobrist)
    requires HashConsistent(b, z)
    requires b.moveCount % 2 == 1 <==> b.side == White
    ensures MakeFromFen(GetFen(b), z) == Ok(b)
  {
    var fields := FenFields(b);
    FenFieldsFree(b);
    SplitJoin(fields, ' ');
    PiecesRoundTrip(b.cells);
    StateRoundTrip(b, z);
  }

  /**
   * Re-reading the FEN printed from a parsed board gives the same board:
   * printing is a right inverse of parsing on everything the parser
   * accepts.
   */
  lemma FenReparse(fen: string, z: Zobrist)
    requires ZobristWf(z) && MakeFromFen(fen, z).Ok?
    ensures MakeFromFen(GetFen(MakeFromFen(fen, z).value), z) == MakeFromFen(fen, z)
  {
    FenRoundTrip(MakeFromFen(fen, z).value, z);
  }
}

=== FILE: fengen.dfy ===
/**
 * Sampling positions from a self-play game: the engines' info strings
 * (FENs) are collected per side to move, each side's list is cut down to
 * `num` random elements, and the merged list to `2 * num`. A turn that
 * fails ends the game unsuccessfully and its samples are dropped. The
 * engines and the random generator are parameters: a game is the list of
 * its turns, and a shuffle is the list of positions Go's `rand.Shuffle`
 * draws.
 */
module FenGen {
  import opened Types

  /**
   * Draws that fit `rand.Shuffle` on n elements: for i from n - 1 down to
   * 1, one index j with 0 <= j <= i.
   */
  predicate DrawsFit(n: nat, draws: seq<nat>)
  {
    |draws| == (if n == 0 then 0 else n - 1)
    && forall k :: 0 <= k < |draws| ==> draws[k] <= n - 1 - k
  }

  /** `rand.Shuffle` with the given draws: swap element i with element draws[n - 1 - i], i going down. */
  method Shuffle(src: seq<string>, draws: seq<nat>) returns (r: seq<string>)
    requires DrawsFit(|src|, draws)
    ensures |r| == |src| && multiset(r) == multiset(src)
  {
    r := src;
    var k := 0;
    while k < |draws|
      invariant 0 <= k <= |draws| && |r| == |src|
      invariant multiset(r) == multiset(src)
    {
      var i := |src| - 1 - k;
      var j := draws[k];
      r := r[i := r[j]][j := r[i]];
      k := k + 1;
    }
  }

  /**
   * `takeRandom`: the list itself when it is short enough, otherwise the
   * first `num` elements after a shuffle.
   */
  method TakeRandom(src: seq<string>, num: nat, draws: seq<nat>) returns (r: seq<string>)
    requires |src| <= num || DrawsFit(|src|, draws)
    ensures |src| <= num ==> r == src
    ensures |r| == if |src| <= num then |src| else num
    ensures multiset(r) <= multiset(src)
  {
    if |src| <= num {
      return src;
    }
    var shuffled := Shuffle(src, draws);
    r := shuffled[..num];
    assert shuffled == r + shuffled[num..];
    assert multiset(shuffled) == multiset(r) + multiset(shuffled[num..]);
  }

  /**
   * One engine turn: the side to move, the info strings its search
   * reported, and whether setting the position, the search or the move
   * failed.
   */
  datatype Turn = Turn(side: Color, infos: seq<string>, failed: bool)

  /** The info strings of the turns with the given side to move, in turn order. */
  function SideInfos(turns: seq<Turn>, side: Color): (r: seq<string>)
    ensures |r| <= InfoCount(turns)
  {
    if |turns| == 0 then []
    else SideInfos(turns[..|turns| - 1], side)
         + (if turns[|turns| - 1].side == side then turns[|turns| - 1].infos else [])
  }

  /** All info strings of the turns. */
  function InfoCount(turns: seq<Turn>): nat
  {
    if |turns| == 0 then 0 else InfoCount(turns[..|turns| - 1]) + |turns[|turns| - 1].infos|
  }

  /** Every info string goes to exactly one of the two lists. */
  lemma {:induction false} SideInfosPartition(turns: seq<Turn>)
    ensures |SideInfos(turns, White)| + |SideInfos(turns, Black)| == InfoCount(turns)
  {
    if |turns| > 0 {
      SideInfosPartition(turns[..|turns| - 1]);
    }
  }

  /** The index of the first failed turn, or the number of turns. */
  function FirstFailure(turns: seq<Turn>): (i: nat)
    ensures i <= |turns|
    ensures forall k :: 0 <= k < i ==> !turns[k].failed
    ensures i < |turns| ==> turns[i].failed
  {
    if |turns| == 0 then 0
    else if turns[0].failed then 0
    else 1 + FirstFailure(turns[1..])
  }

  /** What `playGame` returns: the sampled FENs and whether the game was played out. */
  datatype GameSamples = GameSamples(fens: seq<string>, ok: bool)

  /** The number of samples a side keeps from a list of length n. */
  function Kept(n: nat, num: nat): nat
  {
    if n <= num then n else num
  }

  /**
   * The end of `playGame`: each side's list cut to `num`, the two
   * concatenated and the result cut to `2 * num`. The last cut never
   * removes anything, so the result is White's kept samples followed by
   * Black's.
   */
  method SampleSides(fensWhite: seq<string>, fensBlack: seq<string>, num: nat,
                     whiteDraws: seq<nat>, blackDraws: seq<nat>, mergedDraws: seq<nat>)
    returns (fens: seq<string>)
    requires |fensWhite| <= num || DrawsFit(|fensWhite|, whiteDraws)
    requires |fensBlack| <= num || DrawsFit(|fensBlack|, blackDraws)
    ensures var kw := Kept(|fensWhite|, num);
            |fens| == kw + Kept(|fensBlack|, num) <= 2 * num
            && multiset(fens[..kw]) <= multiset(fensWhite)
            && multiset(fens[kw..]) <= multiset(fensBlack)
  {
    var w := TakeRandom(fensWhite, num, whiteDraws);
    var b := TakeRandom(fensBlack, num, blackDraws);
    fens := w + b;
    assert fens[..|w|] == w && fens[|w|..] == b;
    fens := TakeRandom(fens, num * 2, mergedDraws);
  }

  /**
   * `playGame` from the point where the engines are set up: the turns are
   * played in order and each turn's infos go to the list of the side to
   * move; a failed turn stops the game with White's list so far and
   * `ok = false`.
   */
  method PlayGame(turns: seq<Turn>, num: nat, whiteDraws: seq<nat>, blackDraws: seq<nat>, mergedDraws: seq<nat>)
    returns (g: GameSamples)
    requires FirstFailure(turns) == |turns| ==>
               (|SideInfos(turns, White)| <= num || DrawsFit(|SideInfos(turns, White)|, whiteDraws))
               && (|SideInfos(turns, Black)| <= num || DrawsFit(|SideInfos(turns, Black)|, blackDraws))
    ensures g.ok <==> FirstFailure(turns) == |turns|
    ensures !g.ok ==> g.fens == SideInfos(turns[..FirstFailure(turns) + 1], White)
    ensures g.ok ==> var w := SideInfos(turns, White);
                     var kw := Kept(|w|, num);
                     |g.fens| == kw + Kept(|SideInfos(turns, Black)|, num)
                     && multiset(g.fens[..kw]) <= multiset(w)
                     && multiset(g.fens[kw..]) <= multiset(SideInfos(turns, Black))
  {
    var fensWhite: seq<string> := [];
    var fensBlack: seq<string> := [];
    var i := 0;
    while i < |turns|
      invariant 0 <= i <= |turns| && i <= FirstFailure(turns)
      invariant fensWhite == SideInfos(turns[..i], White)
      invariant fensBlack == SideInfos(turns[..i], Black)
    {
      var t := turns[i];
      assert turns[..i + 1][..i] == turns[..i];
      if t.side == White {
        fensWhite := fensWhite + t.infos;
      } else {
        fensBlack := fensBlack + t.infos;
      }
      if t.failed {
        return GameSamples(fensWhite, false);
      }
      i := i + 1;
    }
    assert turns[..i] == turns;
    var fens := SampleSides(fensWhite, fensBlack, num, whiteDraws, blackDraws, mergedDraws);
    return GameSamples(fens, true);
  }

  /**
   * One game as `GenFens` consumes it: the samples of a played-out game,
   * and nothing from a game a turn error ended. At most `2 * num` samples
   * are kept, all from the game's info strings.
   */
  method CollectGame(turns: seq<Turn>, num: nat, whiteDraws: seq<nat>, blackDraws: seq<nat>, mergedDraws: seq<nat>)
    returns (kept: seq<string>)
    requires FirstFailure(turns) == |turns| ==>
               (|SideInfos(turns, White)| <= num || DrawsFit(|SideInfos(turns, White)|, whiteDraws))
               && (|SideInfos(turns, Black)| <= num || DrawsFit(|SideInfos(turns, Black)|, blackDraws))
    ensures FirstFailure(turns) < |turns| ==> kept == []
    ensures |kept| <= 2 * num
    ensures multiset(kept) <= multiset(SideInfos(turns, White)) + multiset(SideInfos(turns, Black))
  {
    var g := PlayGame(turns, num, whiteDraws, blackDraws, mergedDraws);
    if !g.ok {
      return [];
    }
    kept := g.fens;
    var w, b := SideInfos(turns, White), SideInfos(turns, Black);
    var kw := Kept(|w|, num);
    assert kept == kept[..kw] + kept[kw..];
    assert multiset(kept) == multiset(kept[..kw]) + multiset(kept[kw..]);
    assert multiset(kept[..kw]) <= multiset(w) && multiset(kept[kw..]) <= multiset(b);
  }
}

=== FILE: geometry.dfy ===
/**
 * Square arithmetic: a square is `(x << 3) | y` with x the rank (row,
 * 0 = White's back rank) and y the file (column, 0 = the a-file).
 */
module Geometry {
  import opened Types

  /**
   * `MakeCoord`. As y stays below 8 it occupies only the low three bits,
   * so the `|` of the source is an addition.
   */
  function MakeCoord(x: int, y: int): (r: int)
    requires IsSubcoordValid(x) && IsSubcoordValid(y)
    ensures IsCoordValidAndDefined(r)
    ensures GetXSubcoord(r) == x && GetYSubcoord(r) == y
  {
    x * BoardSide + y
  }

  /** `InvertSubcoord`: mirrors a row or column index. */
  function InvertSubcoord(c: int): (r: int)
    requires IsSubcoordValid(c)
    ensures IsSubcoordValid(r) && r + c == BoardSide - 1
  {
    BoardSide - 1 - c
  }

  /**
   * `GetXSubcoord`, the rank: `c >> 3`. The source's shift is arithmetic
   * and Dafny's `/` rounds toward minus infinity for a positive divisor,
   * so the undefined coordinate -1 maps to -1 in both.
   */
  function GetXSubcoord(c: int): (r: int)
    requires IsCoordValid(c)
    ensures c >= 0 ==> IsSubcoordValid(r)
    ensures c == UndefinedCoord ==> r == -1
  {
    c / BoardSide
  }

  /** `GetYSubcoord`, the file: `c & 7`, which is Dafny's `%` by 8 for every int8 value. */
  function GetYSubcoord(c: int): (r: int)
    requires IsCoordValid(c)
    ensures IsSubcoordValid(r)
    ensures c == UndefinedCoord ==> r == 7
  {
    c % BoardSide
  }

  /** A defined square is rebuilt from its rank and file. */
  lemma MakeCoordOfParts(c: int)
    requires IsCoordValidAndDefined(c)
    ensures MakeCoord(GetXSubcoord(c), GetYSubcoord(c)) == c
  {
  }

  /** Distinct rank/file pairs give distinct squares. */
  lemma MakeCoordInjective(x1: int, y1: int, x2: int, y2: int)
    requires IsSubcoordValid(x1) && IsSubcoordValid(y1)
    requires IsSubcoordValid(x2) && IsSubcoordValid(y2)
    ensures MakeCoord(x1, y1) == MakeCoord(x2, y2) <==> x1 == x2 && y1 == y2
  {
  }

  /** Mirroring twice gives back the index. */
  lemma InvertSubcoordInvolution(c: int)
    requires IsSubcoordValid(c)
    ensures InvertSubcoord(InvertSubcoord(c)) == c
  {
  }

  /** The rank of a square. `GetRank` is not part of this model's sources; it is taken to be `GetXSubcoord`. */
  function GetRank(c: int): (r: int)
    requires IsCoordValid(c)
    ensures c >= 0 ==> 0 <= r < BoardSide
    ensures c == UndefinedCoord ==> r == -1
  {
    GetXSubcoord(c)
  }

  /** The file of a square. `GetFile` is not part of this model's sources; it is taken to be `GetYSubcoord`. */
  function GetFile(c: int): (r: int)
    requires IsCoordValid(c)
    ensures 0 <= r < BoardSide
  {
    GetYSubcoord(c)
  }

  /** A defined square is rebuilt from its rank and file, and only it has them. */
  lemma RankFileRoundTrip(c: int, d: int)
    requires IsCoordValidAndDefined(c) && IsCoordValidAndDefined(d)
    ensures MakeCoord(GetRank(c), GetFile(c)) == c
    ensures GetRank(c) == GetRank(d) && GetFile(c) == GetFile(d) <==> c == d
  {
    MakeCoordOfParts(c);
    MakeCoordOfParts(d);
  }

  /**
   * The square seen from the other side of the board. `FlipCoord` is not
   * part of this model's sources; it is taken to mirror the rank and keep
   * the file.
   */
  function FlipCoord(c: int): (r: int)
    requires IsCoordValidAndDefined(c)
    ensures IsCoordValidAndDefined(r)
    ensures GetXSubcoord(r) == InvertSubcoord(GetXSubcoord(c)) && GetYSubcoord(r) == GetYSubcoord(c)
  {
    MakeCoord(InvertSubcoord(GetXSubcoord(c)), GetYSubcoord(c))
  }

  /** Mirroring a square twice gives it back. */
  lemma FlipCoordInvolution(c: int)
    requires IsCoordValidAndDefined(c)
    ensures FlipCoord(FlipCoord(c)) == c
  {
    MakeCoordOfParts(c);
  }
}

=== FILE: label.dfy ===
/**
 * Labelling one sampled position with a teacher engine's verdict: the
 * engine's best move, its score clamped at mates and its win/draw/loss
 * estimate, all from White's point of view, plus a training target drawn
 * from that estimate. The engine conversation and the random draw are
 * parameters: the reply is what the engine answered, and `r` is the draw
 * from [0, 1).
 */
module Label {
  import opened Wrappers
  import opened Types
  import opened Score
  import opened Strings

  /** The engine's win/draw/loss estimate, as probabilities. */
  datatype Wdl = Wdl(win: real, draw: real, loss: real)

  /** The engine's score: a mate distance or centipawns. */
  datatype EngineScore = Mate(moves: int) | Centipawns(cp: int)

  /**
   * What the engine run gave back: the first failure of setting the
   * position, starting or finishing the search (if any), then the parts of
   * its final status.
   */
  datatype SearchReply = SearchReply(
    failure: Option<string>,
    bestMove: Option<string>,
    score: Option<EngineScore>,
    wdl: Option<Wdl>)

  /** What parsing the FEN gives: the side to move and whether the game is already over. */
  datatype Game = Game(side: Color, finished: bool)

  /** One labelled record. */
  datatype Pos = Pos(fen: string, score: int, bestMove: string, wdl: Wdl, target: real)

  /** The three outcomes of `getResult`: a record, a silent skip, or an error. */
  datatype Outcome = Labeled(pos: Pos) | Skipped | Failed(reason: string)

  /** The engine's estimate seen from White: win and loss trade places when Black moves. */
  function WhiteWdl(w: Wdl, side: Color): (r: Wdl)
    ensures r.draw == w.draw
    ensures side == White ==> r == w
    ensures side == Black ==> r.win == w.loss && r.loss == w.win
  {
    if side == Black then Wdl(w.loss, w.draw, w.win) else w
  }

  /**
   * The sampled target: 1 with the win probability, 0.5 with the draw
   * probability, else 0.
   */
  function SampleTarget(w: Wdl, r: real): (t: real)
    ensures t == 1.0 || t == 0.5 || t == 0.0
    ensures t == 1.0 <==> r < w.win
    ensures t == 0.0 <==> r >= w.win && r >= w.win + w.draw
  {
    if r < w.win then 1.0
    else if r < w.win + w.draw then 0.5
    else 0.0
  }

  /** A larger random number never gives a larger target. */
  lemma SampleTargetMonotone(w: Wdl, r1: real, r2: real)
    requires r1 <= r2
    ensures SampleTarget(w, r2) <= SampleTarget(w, r1)
  {
  }

  /** The score from the side to move's point of view: a mate becomes the extreme score of its sign. */
  function MoverScore(s: EngineScore): (r: int)
    ensures s.Mate? ==> (r == ScoreMax <==> s.moves >= 0) && (r == ScoreMin <==> s.moves < 0)
    ensures s.Centipawns? ==> r == s.cp
  {
    match s
    case Mate(m) => if m < 0 then ScoreMin else ScoreMax
    case Centipawns(cp) => cp
  }

  /** The score seen from White: negated when Black moves. */
  function WhiteScore(s: EngineScore, side: Color): (r: int)
    ensures side == White ==> r == MoverScore(s)
    ensures side == Black ==> r == -MoverScore(s)
  {
    var v := MoverScore(s);
    if side == Black then -v else v
  }

  /** A mate score is always reported as a mate-range score of magnitude 30000. */
  lemma MateScoreIsMate(s: EngineScore, side: Color)
    requires s.Mate?
    ensures IsScoreMate(WhiteScore(s, side))
    ensures WhiteScore(s, side) == ScoreMax || WhiteScore(s, side) == ScoreMin
  {
  }

  /** `getResult` on a parsed position (None when the FEN does not parse) and the engine's reply. */
  function GetResult(fen: string, game: Option<Game>, reply: SearchReply, r: real): (o: Outcome)
    requires 0.0 <= r < 1.0
    ensures game.None? ==> o.Failed?
    ensures game.Some? && game.value.finished ==> o == Skipped
    ensures o.Labeled? <==> game.Some? && !game.value.finished && reply.failure.None?
                            && reply.bestMove.Some? && reply.score.Some? && reply.wdl.Some?
    ensures o.Labeled? ==> o.pos.fen == fen && o.pos.bestMove == reply.bestMove.value
    ensures o.Labeled? ==> o.pos.target in {0.0, 0.5, 1.0}
  {
    if game.None? then Failed("new game")
    else if game.value.finished then Skipped
    else if reply.failure.Some? then Failed(reply.failure.value)
    else if reply.bestMove.None? then Failed("no best move")
    else if reply.score.None? then Failed("no score")
    else if reply.wdl.None? then Failed("no wdl")
    else
      var side := game.value.side;
      var wdl := WhiteWdl(reply.wdl.value, side);
      Labeled(Pos(fen, WhiteScore(reply.score.value, side), reply.bestMove.value, wdl, SampleTarget(wdl, r)))
  }

  /** A finished game is skipped whatever the engine would have said. */
  lemma FinishedIgnoresEngine(fen: string, side: Color, reply1: SearchReply, reply2: SearchReply, r1: real, r2: real)
    requires 0.0 <= r1 < 1.0 && 0.0 <= r2 < 1.0
    ensures GetResult(fen, Some(Game(side, true)), reply1, r1) == GetResult(fen, Some(Game(side, true)), reply2, r2)
  {
  }

  /**
   * The labels are colour-symmetric: the same engine reply for Black to
   * move gives the negated score and swapped win/loss of the label for
   * White to move, and its target is the one White's label would get from
   * the swapped estimate.
   */
  lemma LabelColorSymmetry(fen: string, reply: SearchReply, r: real)
    requires 0.0 <= r < 1.0
    requires reply.failure.None? && reply.bestMove.Some? && reply.score.Some? && reply.wdl.Some?
    ensures var w := GetResult(fen, Some(Game(White, false)), reply, r);
            var b := GetResult(fen, Some(Game(Black, false)), reply, r);
            w.Labeled? && b.Labeled?
            && b.pos.score == -w.pos.score
            && b.pos.wdl == WhiteWdl(w.pos.wdl, Black)
            && b.pos.target == SampleTarget(WhiteWdl(reply.wdl.value, Black), r)
  {
  }

  /** The seven fields of a record in file order: fen, score, best move, win, draw, loss, target. */
  function RecordFields(p: Pos, showInt: int -> string, showReal: real -> string): (fields: seq<string>)
    ensures |fields| == 7 && fields[0] == p.fen && fields[2] == p.bestMove
  {
    [p.fen, showInt(p.score), p.bestMove, showReal(p.wdl.win), showReal(p.wdl.draw), showReal(p.wdl.loss), showReal(p.target)]
  }

  /**
   * The output line of a record: its fields joined by commas and a line
   * break. The number formatting is a parameter.
   */
  function RecordLine(p: Pos, showInt: int -> string, showReal: real -> string): (line: string)
    ensures |line| > 0 && line[|line| - 1] == '\n'
  {
    Join(RecordFields(p, showInt, showReal), ',') + "\n"
  }

  /**
   * A record line reads back as its seven fields when neither the FEN, the
   * move nor the number formatting produces a comma.
   */
  lemma RecordLineFields(p: Pos, showInt: int -> string, showReal: real -> string)
    requires Free(p.fen, ',') && Free(p.bestMove, ',')
    requires Free(showInt(p.score), ',')
    requires Free(showReal(p.wdl.win), ',') && Free(showReal(p.wdl.draw), ',')
    requires Free(showReal(p.wdl.loss), ',') && Free(showReal(p.target), ',')
    ensures var line := RecordLine(p, showInt, showReal);
            Split(line[..|line| - 1], ',') == RecordFields(p, showInt, showReal)
  {
    var fields := RecordFields(p, showInt, showReal);
    var line := RecordLine(p, showInt, showReal);
    assert line[..|line| - 1] == Join(fields, ',');
    SplitJoin(fields, ',');
  }
}

=== FILE: model_writer.dfy ===
/**
 * The training-record writer of the model sampler: each position becomes
 * 768 occupancy features from the side to move's point of view, packed
 * most significant bit first into 96 bytes, followed by the game's result
 * as a target for the side to move.
 */
module ModelWriter {
  import opened Wrappers
  import opened Types
  import opened Geometry
  import opened CoreUtil

  /** A game's result as the writer reads it; `Unexpected` stands for any other value of the enum. */
  datatype GameResult = WhiteWins | Draw | BlackWins | Unexpected(code: int)

  /** `GetTarget`: +1 when the given side won, -1 when it lost, 0 for a draw; any other result is an error. */
  function GetTarget(result: GameResult, c: Color): (r: Option<int>)
    ensures r.None? <==> result.Unexpected?
    ensures result == Draw ==> r == Some(0)
    ensures result == WhiteWins ==> r == Some(if c == White then 1 else -1)
    ensures result == BlackWins ==> r == Some(if c == Black then 1 else -1)
  {
    match result
    case WhiteWins => Some(if c == White then 1 else -1)
    case Draw => Some(0)
    case BlackWins => Some(if c == White then -1 else 1)
    case Unexpected(_) => None
  }

  /** The two sides get opposite targets from the same result. */
  lemma TargetAntisymmetric(result: GameResult)
    requires !result.Unexpected?
    ensures GetTarget(result, White).value == -GetTarget(result, Black).value
  {
  }

  /** Six pieces of two colours on 64 squares. */
  const FeatureCount: nat := 768
  const PackedSize: nat := 96

  predicate BoardWf(cells: seq<int>)
  {
    |cells| == BoardSize && forall i :: 0 <= i < |cells| ==> 0 <= cells[i] < NumberOfCells
  }

  /** Changing a piece's colour moves its cell by the colour offset. */
  lemma FlipCellColorShift(c: int)
    requires 0 < c < NumberOfCells
    ensures FlipCellColor(c) == if c <= King then c + King else c - King
  {
    CellOfParts(c);
  }

  /** A feature index splits back into its cell block and square. */
  lemma IndexParts(a: int, x: int)
    requires 0 <= a && 0 <= x < BoardSize
    ensures (a * BoardSize + x) / BoardSize == a && (a * BoardSize + x) % BoardSize == x
  {
  }

  /**
   * The feature a piece sets: its cell and square as they are for White
   * to move, and with the colours and ranks swapped for Black to move.
   */
  function FeatureIndex(cell: int, coord: int, side: Color): (k: nat)
    requires IsCellValid(cell) && IsCellWithPiece(cell) && 0 <= coord < BoardSize
    ensures k < FeatureCount
  {
    if side == White then (cell - 1) * BoardSize + coord
    else (FlipCellColor(cell) - 1) * BoardSize + FlipCoord(coord)
  }

  /**
   * What feature k means, read back from the board: the square k names
   * (mirrored for Black to move) holds the cell k names (colour-swapped
   * for Black to move).
   */
  predicate FeatureHolds(cells: seq<int>, side: Color, k: int)
    requires BoardWf(cells) && 0 <= k < FeatureCount
  {
    var cell := k / BoardSize + 1;
    var coord := k % BoardSize;
    if side == White then cells[coord] == cell
    else cells[FlipCoord(coord)] == FlipCellColor(cell)
  }

  /** The square the feature loop visits when it sets feature k. */
  function FeatureSquare(side: Color, k: int): (i: int)
    requires 0 <= k < FeatureCount
    ensures 0 <= i < BoardSize
  {
    if side == White then k % BoardSize else FlipCoord(k % BoardSize)
  }

  /** A piece's feature names its own square and cell back. */
  lemma FeatureIndexMeaning(cells: seq<int>, side: Color, i: int)
    requires BoardWf(cells) && 0 <= i < BoardSize && IsCellWithPiece(cells[i])
    ensures var k := FeatureIndex(cells[i], i, side);
            FeatureHolds(cells, side, k) && FeatureSquare(side, k) == i
  {
    FlipCoordInvolution(i);
    var c := cells[i];
    if side == White {
      IndexParts(c - 1, i);
    } else {
      FlipCellColorShift(c);
      FlipCellColorShift(FlipCellColor(c));
      IndexParts(FlipCellColor(c) - 1, FlipCoord(i));
    }
  }

  /** A feature that holds is the one its square's piece sets. */
  lemma FeatureHoldsMeaning(cells: seq<int>, side: Color, k: int)
    requires BoardWf(cells) && 0 <= k < FeatureCount && FeatureHolds(cells, side, k)
    ensures var i := FeatureSquare(side, k);
            IsCellWithPiece(cells[i]) && FeatureIndex(cells[i], i, side) == k
  {
    var c, x := k / BoardSize + 1, k % BoardSize;
    assert k == (c - 1) * BoardSize + x;
    if side == Black {
      FlipCoordInvolution(x);
      FlipCellColorShift(c);
      FlipCellColorShift(FlipCellColor(c));
    }
  }

  /**
   * The feature loop of `WriteBoardsToCSV`: one increment per occupied
   * square. Every feature ends up 1 exactly when it holds on the board,
   * and 0 otherwise.
   */
  method Features(cells: seq<int>, side: Color) returns (f: seq<int>)
    requires BoardWf(cells)
    ensures |f| == FeatureCount
    ensures forall k :: 0 <= k < FeatureCount ==> f[k] == if FeatureHolds(cells, side, k) then 1 else 0
  {
    f := seq(FeatureCount, _ => 0);
    var i := 0;
    while i < BoardSize
      invariant 0 <= i <= BoardSize && |f| == FeatureCount
      invariant forall k :: 0 <= k < FeatureCount ==>
                  f[k] == if FeatureSquare(side, k) < i && FeatureHolds(cells, side, k) then 1 else 0
    {
      if cells[i] != EmptyCell {
        var k := FeatureIndex(cells[i], i, side);
        FeatureIndexMeaning(cells, side, i);
        forall k' | 0 <= k' < FeatureCount && FeatureSquare(side, k') == i && FeatureHolds(cells, side, k')
          ensures k' == k
        {
          FeatureHoldsMeaning(cells, side, k');
        }
        f := f[k := f[k] + 1];
      } else {
        forall k' | 0 <= k' < FeatureCount && FeatureSquare(side, k') == i
          ensures !FeatureHolds(cells, side, k')
        {
          if FeatureHolds(cells, side, k') {
            FeatureHoldsMeaning(cells, side, k');
          }
        }
      }
      i := i + 1;
    }
  }

  /** Bit j of a byte counting from the most significant, i.e. bit 7 - j. */
  predicate MsbBit(b: bv8, j: int)
    requires 0 <= j < 8
  {
    (b >> ((7 - j) as bv8)) & 1 == 1
  }

  /** Feature k's place in the packed bytes: bit k % 8 of byte k / 8, from the most significant. */
  predicate PackedBit(bytes: seq<bv8>, k: int)
    requires 0 <= k < 8 * |bytes|
  {
    MsbBit(bytes[k / 8], k % 8)
  }

  /** Setting bit 7 - j changes that bit and no other. */
  lemma SetBit(b: bv8, j: int, m: int)
    requires 0 <= j < 8 && 0 <= m < 8
    ensures MsbBit(b | (1 << ((7 - j) as bv8)), m) <==> m == j || MsbBit(b, m)
  {
    SetBitShift(b, (7 - j) as bv8, (7 - m) as bv8);
  }

  /** `SetBit` on shift amounts. */
  lemma SetBitShift(b: bv8, s: bv8, t: bv8)
    requires s < 8 && t < 8
    ensures ((b | (1 << s)) >> t) & 1 == 1 <==> s == t || (b >> t) & 1 == 1
  {
  }

  /** Two bytes with the same eight bits are equal. */
  lemma BitsDetermineByte(a: bv8, b: bv8)
    requires forall j :: 0 <= j < 8 ==> MsbBit(a, j) == MsbBit(b, j)
    ensures a == b
  {
    assert MsbBit(a, 0) == MsbBit(b, 0) && MsbBit(a, 1) == MsbBit(b, 1);
    assert MsbBit(a, 2) == MsbBit(b, 2) && MsbBit(a, 3) == MsbBit(b, 3);
    assert MsbBit(a, 4) == MsbBit(b, 4) && MsbBit(a, 5) == MsbBit(b, 5);
    assert MsbBit(a, 6) == MsbBit(b, 6) && MsbBit(a, 7) == MsbBit(b, 7);
  }

  /** No bit of zero is set. */
  lemma ZeroBits(j: int)
    requires 0 <= j < 8
    ensures !MsbBit(0, j)
  {
  }

  /** Packing one byte: its bit j (from the most significant) is set when feature 8 * byteIdx + j is nonzero. */
  method PackByte(f: seq<int>, byteIdx: nat) returns (b: bv8)
    requires |f| == FeatureCount && byteIdx < PackedSize
    ensures forall j :: 0 <= j < 8 ==> (MsbBit(b, j) <==> f[byteIdx * 8 + j] != 0)
  {
    b := 0;
    forall j | 0 <= j < 8
      ensures !MsbBit(b, j)
    {
      ZeroBits(j);
    }
    var j := 0;
    while j < 8
      invariant 0 <= j <= 8
      invariant forall j' :: 0 <= j' < j ==> (MsbBit(b, j') <==> f[byteIdx * 8 + j'] != 0)
      invariant forall j' :: j <= j' < 8 ==> !MsbBit(b, j')
    {
      if f[byteIdx * 8 + j] != 0 {
        var b' := b | (1 << ((7 - j) as bv8));
        forall m | 0 <= m < 8
          ensures MsbBit(b', m) <==> m == j || MsbBit(b, m)
        {
          SetBit(b, j, m);
        }
        b := b';
      }
      j := j + 1;
    }
  }

  /** Appending a byte keeps the earlier bits and places its own bits after them. */
  lemma PackedBitAppend(bytes: seq<bv8>, b: bv8, k: int)
    requires 0 <= k < 8 * |bytes| + 8
    ensures k < 8 * |bytes| ==> (PackedBit(bytes + [b], k) <==> PackedBit(bytes, k))
    ensures k >= 8 * |bytes| ==> (PackedBit(bytes + [b], k) <==> MsbBit(b, k - 8 * |bytes|))
  {
    if k >= 8 * |bytes| {
      assert k / 8 == |bytes| && k % 8 == k - 8 * |bytes|;
    }
  }

  /** The packing loop: 96 bytes, in which feature k's bit is set exactly when feature k is nonzero. */
  method Pack(f: seq<int>) returns (bytes: seq<bv8>)
    requires |f| == FeatureCount
    ensures |bytes| == PackedSize
    ensures forall k :: 0 <= k < FeatureCount ==> (PackedBit(bytes, k) <==> f[k] != 0)
  {
    bytes := [];
    var i := 0;
    while i < PackedSize
      invariant 0 <= i <= PackedSize && |bytes| == i
      invariant forall k :: 0 <= k < 8 * i ==> (PackedBit(bytes, k) <==> f[k] != 0)
    {
      var b := PackByte(f, i);
      forall k | 0 <= k < 8 * i + 8
        ensures PackedBit(bytes + [b], k) <==> f[k] != 0
      {
        PackedBitAppend(bytes, b, k);
        if k >= 8 * i {
          assert f[k] == f[i * 8 + (k - 8 * i)];
        }
      }
      bytes := bytes + [b];
      i := i + 1;
    }
  }

  /** One record of the output: the packed features and the target. */
  datatype Record = Record(packed: seq<bv8>, target: int)

  /**
   * One position of `WriteBoardsToCSV`: the features, their packing and the
   * target; an unexpected game result is an error.
   */
  method WriteBoard(cells: seq<int>, side: Color, result: GameResult) returns (r: Option<Record>)
    requires BoardWf(cells)
    ensures r.None? <==> result.Unexpected?
    ensures r.Some? ==> |r.value.packed| == PackedSize
    ensures r.Some? ==> forall k :: 0 <= k < FeatureCount ==> (PackedBit(r.value.packed, k) <==> FeatureHolds(cells, side, k))
    ensures r.Some? ==> Some(r.value.target) == GetTarget(result, side)
  {
    var f := Features(cells, side);
    var bytes := Pack(f);
    var t := GetTarget(result, side);
    if t.None? {
      return None;
    }
    return Some(Record(bytes, t.value));
  }

  /**
   * The packed bits determine the bytes: two packings with the same
   * feature bits are the same 96 bytes.
   */
  lemma PackedBytesDetermined(p: seq<bv8>, q: seq<bv8>)
    requires |p| == PackedSize && |q| == PackedSize
    requires forall k :: 0 <= k < FeatureCount ==> (PackedBit(p, k) <==> PackedBit(q, k))
    ensures p == q
  {
    forall i | 0 <= i < PackedSize
      ensures p[i] == q[i]
    {
      forall j | 0 <= j < 8
        ensures MsbBit(p[i], j) == MsbBit(q[i], j)
      {
        var k := i * 8 + j;
        assert k / 8 == i && k % 8 == j;
        assert PackedBit(p, k) <==> PackedBit(q, k);
      }
      BitsDetermineByte(p[i], q[i]);
    }
  }
}

=== FILE: move.dfy ===
/**
 * Moves: the type byte and its predicates, the 16-bit compressed form, and
 * the UCI text of a move ("e2e4", "e7e8q") in both directions.
 *
 * The low four bits of the type byte are the basic type (0..7) and the
 * capture bit (8). Above them the byte carries the fifty-rule flag, set on
 * pawn moves and captures, which resets the quiet-move counter; it is a
 * separate field here. The compressed form and the kind predicates look
 * only at the low four bits. The capture test as written compares the whole
 * byte with the basic-type mask, so it also sees the fifty-rule flag:
 * `IsMoveCaptureAsWritten` models that, and `IsMoveCapture` is the intended
 * test of the capture bit alone. An UNDEFINED move is `None`.
 */
module Moves {
  import opened Wrappers
  import opened Types
  import opened Geometry
  import opened CoreUtil
  import opened Board

  const BasicTypeMask: int := 7
  const CaptureBit: int := 8
  const MoveTypeBits: nat := 4
  /** The fifty-rule flag's value in the type byte, just above the four bits move.h describes. */
  const FiftyRuleBit: int := 16

  const SimpleMove: int := 0
  const PawnDoubleMove: int := 1
  const EnPassantMove: int := 2
  const CastlingMove: int := 3
  const KnightPromotion: int := 4
  const BishopPromotion: int := 5
  const RookPromotion: int := 6
  const QueenPromotion: int := 7

  /** `WHITE_KING_INITIAL_POSITION` and `BLACK_KING_INITIAL_POSITION` (e1 and e8). */
  const WhiteKingHome: int := 4
  const BlackKingHome: int := 60

  /** `Move`: source and destination squares, the type, and the picker's ordering key `info`. */
  datatype Move = Move(src: int, dst: int, kind: int, fifty: bool, info: int)

  datatype CastlingSide = Queenside | Kingside

  /** A type that fits the four bits the move predicates assert. */
  predicate IsKindValid(m: Move)
  {
    0 <= m.kind < 16
  }

  /** `ConstructMove`: the given squares and type, no flags, ordering key 0. */
  function ConstructMove(src: int, dst: int, kind: int): (r: Move)
    ensures r.src == src && r.dst == dst && r.kind == kind && !r.fifty && r.info == 0
  {
    Move(src, dst, kind, false, 0)
  }

  /** `NULL_MOVE`. */
  const NullMove: Move := ConstructMove(0, 0, 0)

  /** `GetMoveType`: a basic type with the capture bit when the move captures. */
  function GetMoveType(basic: int, capture: bool): (r: int)
    requires 0 <= basic <= BasicTypeMask
    ensures 0 <= r < 16
    ensures r % 8 == basic && (r > BasicTypeMask <==> capture)
  {
    basic + (if capture then CaptureBit else 0)
  }

  /** `GetMoveBasicType`: the low three bits of the type. */
  function GetMoveBasicType(m: Move): (r: int)
    requires IsKindValid(m)
    ensures 0 <= r <= BasicTypeMask
    ensures m.kind == GetMoveType(r, m.kind > BasicTypeMask)
  {
    m.kind % 8
  }

  /** The whole type byte: the four move.h bits and the fifty-rule flag. */
  function TypeByte(m: Move): (r: int)
    requires IsKindValid(m)
    ensures 0 <= r < 32 && r % 16 == m.kind && (r >= FiftyRuleBit <==> m.fifty)
  {
    m.kind + (if m.fifty then FiftyRuleBit else 0)
  }

  /** The `int` the source's `operator==` compares: `src + (dst << 8) + (type << 16)`. */
  function MoveKey(m: Move): int
    requires IsKindValid(m)
  {
    m.src + m.dst * 0x100 + TypeByte(m) * 0x1_0000
  }

  /** `operator==` on moves. */
  predicate SameMove(a: Move, b: Move)
    requires IsKindValid(a) && IsKindValid(b)
  {
    MoveKey(a) == MoveKey(b)
  }

  /** An `int8_t` square field. */
  predicate IsInt8(c: int)
  {
    -128 <= c < 128
  }

  /**
   * Move equality compares the squares, the type and the fifty-rule flag,
   * and ignores the ordering key, for every pair of `int8_t` squares.
   */
  lemma SameMoveFields(a: Move, b: Move)
    requires IsKindValid(a) && IsKindValid(b)
    requires IsInt8(a.src) && IsInt8(a.dst) && IsInt8(b.src) && IsInt8(b.dst)
    ensures SameMove(a, b) <==> (a.src == b.src && a.dst == b.dst && a.kind == b.kind && a.fifty == b.fifty)
  {
    if SameMove(a, b) {
      var ds := a.src - b.src;
      var dd := a.dst - b.dst;
      var dt := TypeByte(a) - TypeByte(b);
      assert ds + dd * 0x100 + dt * 0x1_0000 == 0;
      assert ds % 0x100 == 0 by {
        assert ds == -(dd + dt * 0x100) * 0x100;
      }
      assert ds == 0;
      assert dd + dt * 0x100 == 0;
      assert dd == 0;
      assert dt == 0;
    }
  }

  /** `IsMoveNull`: both squares a1. */
  function IsMoveNull(m: Move): (r: bool)
    requires IsKindValid(m)
    ensures r <==> m.(kind := SimpleMove, fifty := false, info := 0) == NullMove
  {
    m.src == 0 && m.dst == 0
  }

  /** `IsMoveCapture`: the capture bit, i.e. a type above the basic-type mask. */
  function IsMoveCapture(m: Move): (r: bool)
    requires IsKindValid(m)
    ensures r <==> m.kind == GetMoveType(GetMoveBasicType(m), true)
  {
    m.kind > BasicTypeMask
  }

  /**
   * `IsMoveCapture` as written: the whole type byte, fifty-rule flag
   * included, is compared with the basic-type mask, so a move carrying
   * the flag reads as a capture whatever its capture bit says.
   */
  function IsMoveCaptureAsWritten(m: Move): (r: bool)
    requires IsKindValid(m)
    ensures r <==> IsMoveCapture(m) || m.fifty
  {
    TypeByte(m) > BasicTypeMask
  }

  predicate IsMoveSimple(m: Move)
    requires IsKindValid(m)
  {
    GetMoveBasicType(m) == SimpleMove
  }

  predicate IsMovePawnDouble(m: Move)
    requires IsKindValid(m)
  {
    GetMoveBasicType(m) == PawnDoubleMove
  }

  predicate IsMoveEnPassant(m: Move)
    requires IsKindValid(m)
  {
    GetMoveBasicType(m) == EnPassantMove
  }

  predicate IsMoveCastling(m: Move)
    requires IsKindValid(m)
  {
    GetMoveBasicType(m) == CastlingMove
  }

  /** `IsMovePromotion`: a basic type from the knight promotion on. */
  predicate IsMovePromotion(m: Move)
    requires IsKindValid(m)
  {
    GetMoveBasicType(m) >= KnightPromotion
  }

  /** Every move is of exactly one of the five kinds `MakeMove` handles. */
  lemma MoveKindsPartition(m: Move)
    requires IsKindValid(m)
    ensures IsMoveSimple(m) || IsMovePawnDouble(m) || IsMoveEnPassant(m) || IsMoveCastling(m) || IsMovePromotion(m)
    ensures IsMovePromotion(m) ==> !IsMoveSimple(m) && !IsMovePawnDouble(m) && !IsMoveEnPassant(m) && !IsMoveCastling(m)
    ensures IsMoveCastling(m) ==> !IsMoveSimple(m) && !IsMovePawnDouble(m) && !IsMoveEnPassant(m)
    ensures IsMoveEnPassant(m) ==> !IsMoveSimple(m) && !IsMovePawnDouble(m)
    ensures IsMovePawnDouble(m) ==> !IsMoveSimple(m)
  {
  }

  /** The king's square before castling. */
  function KingHome(c: Color): (r: int)
    ensures IsCoordValidAndDefined(r) && GetYSubcoord(r) == 4
    ensures GetXSubcoord(r) == (if c == White then 0 else BoardSide - 1)
  {
    if c == White then WhiteKingHome else BlackKingHome
  }

  /** `GetCastlingSide`: kingside exactly when the king lands two files right of e1 or e8. */
  function GetCastlingSide(m: Move): (r: CastlingSide)
    requires IsKindValid(m) && IsMoveCastling(m)
    ensures r == Kingside <==> (m.dst == KingHome(White) + 2 || m.dst == KingHome(Black) + 2)
  {
    if m.dst == WhiteKingHome + 2 || m.dst == BlackKingHome + 2 then Kingside else Queenside
  }

  /** `GetPromotionPiece`: the basic types 4..7 name Knight, Bishop, Rook and Queen. */
  function GetPromotionPiece(m: Move): (r: int)
    requires IsKindValid(m) && IsMovePromotion(m)
    ensures IsPieceValid(r) && Knight <= r <= Queen
    ensures GetMoveBasicType(m) == PromotionType(r)
  {
    GetMoveBasicType(m) - KnightPromotion + Knight
  }

  /** The promotion basic type of a piece Knight..Queen, the partner of `GetPromotionPiece`. */
  function PromotionType(p: int): (r: int)
    requires Knight <= p <= Queen
    ensures KnightPromotion <= r <= QueenPromotion
  {
    match p
    case 2 => KnightPromotion
    case 3 => BishopPromotion
    case 4 => RookPromotion
    case _ => QueenPromotion
  }

  /** `GetPawnMoveDelta`: one rank forward for the side. */
  function GetPawnMoveDelta(c: Color): (r: int)
    ensures r == BoardSide || r == -BoardSide
    ensures r > 0 <==> c == White
  {
    if c == White then BoardSide else -BoardSide
  }

  // ------------------------------------------------------- compression

  /** A move the 16-bit form can hold: both squares defined and a four-bit type. */
  predicate IsCompressible(m: Move)
  {
    IsCoordValidAndDefined(m.src) && IsCoordValidAndDefined(m.dst) && IsKindValid(m)
  }

  /**
   * `GetCompressedMove`: `src | dst << 6 | type << 12` cut to 16 bits. With
   * defined squares the fields do not overlap, so `|` is `+`; the cast
   * drops the fifty-rule flag, which sits at bit 16.
   */
  function GetCompressedMove(m: Move): (r: nat)
    requires IsCompressible(m)
    ensures r < 0x1_0000
    ensures r % 64 == m.src && (r / 64) % 64 == m.dst && r / 4096 == m.kind
  {
    var t := TypeByte(m);
    PackDropsHigh(m.src + m.dst * 64 + m.kind * 4096, t - m.kind);
    UnpackFields(m.src, m.dst, m.kind, m.src + m.dst * 64 + m.kind * 4096);
    (m.src + m.dst * 64 + t * 4096) % 0x1_0000
  }

  /** A multiple of 16 in the type byte lands at bit 16 and above, which the 16-bit cast drops. */
  lemma PackDropsHigh(low: int, high: int)
    requires 0 <= low < 0x1_0000 && high in {0, FiftyRuleBit}
    ensures (low + high * 4096) % 0x1_0000 == low
  {
  }

  /** Six bits of source, six of destination and four of type read back from their positions. */
  lemma UnpackFields(src: int, dst: int, kind: int, x: int)
    requires 0 <= src < 64 && 0 <= dst < 64 && 0 <= kind < 16 && x == src + dst * 64 + kind * 4096
    ensures 0 <= x < 0x1_0000 && x % 64 == src && (x / 64) % 64 == dst && x / 4096 == kind
  {
    assert x / 64 == dst + kind * 64;
  }

  /** `GetDecompressedMove`: the three fields back, with no flags and ordering key 0. */
  function GetDecompressedMove(c: nat): (r: Move)
    requires c < 0x1_0000
    ensures IsCompressible(r)
    ensures !r.fifty && r.info == 0
  {
    ConstructMove(c % 64, (c / 64) % 64, c / 4096)
  }

  /** Decompressing a compressed move gives back its squares and its four-bit type. */
  lemma DecompressCompressed(m: Move)
    requires IsCompressible(m)
    ensures GetDecompressedMove(GetCompressedMove(m)) == m.(fifty := false, info := 0)
  {
  }

  /** Every 16-bit value is the compressed form of its decompression. */
  lemma CompressDecompressed(c: nat)
    requires c < 0x1_0000
    ensures GetCompressedMove(GetDecompressedMove(c)) == c
  {
  }

  // -------------------------------------------------------------- text

  /** The promotion letters, indexed by piece (Pawn..King); move.cpp's `CastPieceToChar`. */
  const PieceLetters: string := "pnbrqk"

  /**
   * `CastPieceToChar`. The function is not part of this model's sources;
   * it is taken to give the lower-case letter, as UCI promotions are
   * written ("e7e8q").
   */
  function CastPieceToChar(p: int): (r: char)
    requires IsPieceValid(p)
    ensures r in PieceLetters && CastCharToPiece(r) == p
  {
    PieceLetters[p - 1]
  }

  /**
   * `CastCharToPiece`. Not part of this model's sources; taken to map the
   * lower-case letters to Pawn..King and every other character to 0, a
   * value that is no piece.
   */
  function CastCharToPiece(c: char): (r: int)
    ensures r == 0 || IsPieceValid(r)
    ensures r == 0 <==> c !in PieceLetters
  {
    match c
    case 'p' => Pawn
    case 'n' => Knight
    case 'b' => Bishop
    case 'r' => Rook
    case 'q' => Queen
    case 'k' => King
    case _ => 0
  }

  /**
   * `CastMoveToString`: "null" for the null move, otherwise the two squares
   * and, for a promotion, the letter of the new piece. The null test comes
   * first, and every undefined move the engine builds (`None` here) has
   * both squares 0, so it prints "null" as well; the "undefined" branch is
   * never reached.
   */
  function CastMoveToString(om: Option<Move>): (r: string)
    requires om.Some? ==> IsCompressible(om.value)
    ensures om.None? || IsMoveNull(om.value) <==> r == "null"
    ensures om.Some? && !IsMoveNull(om.value) ==>
      |r| == (if IsMovePromotion(om.value) then 5 else 4)
      && IsCoordStringValid(r[0..2]) && IsCoordStringValid(r[2..4])
      && CastStringToCoord(r[0..2]) == om.value.src && CastStringToCoord(r[2..4]) == om.value.dst
      && (IsMovePromotion(om.value) ==> CastCharToPiece(r[4]) == GetPromotionPiece(om.value))
  {
    match om
    case None => "null"
    case Some(m) =>
      if IsMoveNull(m) then "null"
      else
        var squares := CastCoordToString(m.src) + CastCoordToString(m.dst);
        assert squares[0..2] == CastCoordToString(m.src) && squares[2..4] == CastCoordToString(m.dst);
        if IsMovePromotion(m) then squares + [CastPieceToChar(GetPromotionPiece(m))] else squares
  }

  /** The text shape `TranslateStringToMove` asserts: two squares and an optional promotion letter. */
  predicate IsMoveStringShaped(s: string)
  {
    4 <= |s| <= 5 && IsCoordStringValid(s[0..2]) && IsCoordStringValid(s[2..4])
  }

  /** The piece on a non-empty cell. */
  function PieceAt(b: Board, c: int): (r: int)
    requires CellsWf(b.cells) && IsCoordValidAndDefined(c) && b.cells[c] != EmptyCell
    ensures IsPieceValid(r)
  {
    GetCellPiece(b.cells[c])
  }

  /**
   * `TranslatePromotionStringToMove` as the source writes it: the letter is
   * screened with the `||` validity check, which passes every value, so a
   * letter that names no piece falls through to the bishop promotion.
   */
  function TranslatePromotionAsWritten(s: string, src: int, dst: int): (r: Option<Move>)
    requires |s| == 5
    ensures r.Some? ==> r.value.src == src && r.value.dst == dst
  {
    var piece := CastCharToPiece(s[4]);
    if !IsPieceValidAsWritten(piece) || piece == Pawn || piece == King then None
    else if piece == Queen then Some(ConstructMove(src, dst, QueenPromotion))
    else if piece == Rook then Some(ConstructMove(src, dst, RookPromotion))
    else if piece == Knight then Some(ConstructMove(src, dst, KnightPromotion))
    else Some(ConstructMove(src, dst, BishopPromotion))
  }

  /** "e7e8x" is read as a bishop promotion by the code as written. */
  lemma PromotionLetterAsWritten()
    ensures TranslatePromotionAsWritten("e7e8x", 52, 60) == Some(ConstructMove(52, 60, BishopPromotion))
    ensures TranslatePromotion("e7e8x", 52, 60) == None
  {
  }

  /**
   * `TranslatePromotionStringToMove` with the range check it intends: the
   * letter must name a knight, bishop, rook or queen, and the move is the
   * promotion to that piece.
   */
  function TranslatePromotion(s: string, src: int, dst: int): (r: Option<Move>)
    requires |s| == 5
    ensures r.Some? <==> s[4] in "nbrq"
    ensures r.Some? ==>
      r.value.src == src && r.value.dst == dst && !r.value.fifty
      && IsKindValid(r.value) && IsMovePromotion(r.value) && !IsMoveCapture(r.value)
      && CastPieceToChar(GetPromotionPiece(r.value)) == s[4]
  {
    var piece := CastCharToPiece(s[4]);
    if !IsPieceValid(piece) || piece == Pawn || piece == King then None
    else if piece == Queen then Some(ConstructMove(src, dst, QueenPromotion))
    else if piece == Rook then Some(ConstructMove(src, dst, RookPromotion))
    else if piece == Knight then Some(ConstructMove(src, dst, KnightPromotion))
    else Some(ConstructMove(src, dst, BishopPromotion))
  }

  /**
   * `TranslateStringToMove`: the move the UCI text names on this board.
   * The source square must hold a piece. A pawn moving two ranks is a
   * double move; a pawn moving sideways onto an empty square takes en
   * passant; a pawn with a fifth letter promotes. A king moving two files is
   * castling. Anything else is a simple move, a capture when the destination
   * is occupied; pawn moves and captures carry the fifty-rule flag.
   */
  function TranslateStringToMove(b: Board, s: string): (r: Option<Move>)
    requires CellsWf(b.cells) && IsMoveStringShaped(s)
    ensures var src := CastStringToCoord(s[0..2]);
            var dst := CastStringToCoord(s[2..4]);
            && (b.cells[src] == EmptyCell ==> r.None?)
            && (r.Some? ==> r.value.src == src && r.value.dst == dst && IsCompressible(r.value))
  {
    var src := CastStringToCoord(s[0..2]);
    if !IsCoordValidAndDefined(src) then None
    else
      var dst := CastStringToCoord(s[2..4]);
      if !IsCoordValidAndDefined(dst) then None
      else if b.cells[src] == EmptyCell then None
      else
        var piece := PieceAt(b, src);
        if piece == Pawn && (dst - src == 2 * BoardSide || dst - src == -2 * BoardSide) then
          Some(ConstructMove(src, dst, PawnDoubleMove))
        else if piece == Pawn && dst - src != BoardSide && dst - src != -BoardSide && b.cells[dst] == EmptyCell then
          Some(Move(src, dst, EnPassantMove + CaptureBit, true, 0))
        else if piece == Pawn && |s| == 5 then
          TranslatePromotion(s, src, dst)
        else if piece == King && GetFile(dst) - GetFile(src) == 2 then
          Some(ConstructMove(src, dst, CastlingMove))
        else if piece == King && GetFile(dst) - GetFile(src) == -2 then
          Some(ConstructMove(src, dst, CastlingMove))
        else
          var capture := b.cells[dst] != EmptyCell;
          Some(Move(src, dst, GetMoveType(SimpleMove, capture), piece == Pawn || capture, 0))
  }

  /**
   * The classification rules of `TranslateStringToMove`, one per kind of
   * move, stated over the board and the text.
   */
  lemma TranslateKinds(b: Board, s: string)
    requires CellsWf(b.cells) && IsMoveStringShaped(s)
    ensures var src := CastStringToCoord(s[0..2]);
            var dst := CastStringToCoord(s[2..4]);
            var r := TranslateStringToMove(b, s);
            && (r.None? <==> (b.cells[src] == EmptyCell
                              || (GetCellPiece(b.cells[src]) == Pawn && dst - src != 16 && dst - src != -16
                                  && (dst - src == 8 || dst - src == -8 || b.cells[dst] != EmptyCell)
                                  && |s| == 5 && s[4] !in "nbrq")))
            && (r.Some? && GetCellPiece(b.cells[src]) == Pawn ==>
                  ((dst - src == 16 || dst - src == -16) <==> IsMovePawnDouble(r.value)))
            && (r.Some? && GetCellPiece(b.cells[src]) == Pawn && dst - src != 16 && dst - src != -16
                && dst - src != 8 && dst - src != -8 && b.cells[dst] == EmptyCell ==>
                  IsMoveEnPassant(r.value) && IsMoveCapture(r.value) && r.value.fifty)
            && (r.Some? && GetCellPiece(b.cells[src]) == King ==>
                  (IsMoveCastling(r.value) <==> (GetFile(dst) - GetFile(src) == 2 || GetFile(dst) - GetFile(src) == -2)))
            && (r.Some? && IsMoveCastling(r.value) ==>
                  (GetCastlingSide(r.value) == Kingside <==> (dst == 6 || dst == 62)))
            && (r.Some? && IsMoveSimple(r.value) ==>
                  (IsMoveCapture(r.value) <==> b.cells[dst] != EmptyCell)
                  && (r.value.fifty <==> (b.cells[dst] != EmptyCell || GetCellPiece(b.cells[src]) == Pawn))
                  && (IsMoveCaptureAsWritten(r.value) <==> (b.cells[dst] != EmptyCell || GetCellPiece(b.cells[src]) == Pawn)))
  {
  }

  /**
   * A quiet pawn push ("e2e3" from the starting position) translates to a
   * simple move without the capture bit but with the fifty-rule flag, so
   * the capture test as written calls it a capture while the capture bit
   * says it is not one.
   */
  lemma QuietPawnPushCaptureAsWritten(b: Board, s: string)
    requires CellsWf(b.cells) && IsMoveStringShaped(s) && |s| == 4
    requires var src := CastStringToCoord(s[0..2]);
             var dst := CastStringToCoord(s[2..4]);
             && b.cells[src] != EmptyCell && GetCellPiece(b.cells[src]) == Pawn
             && (dst - src == BoardSide || dst - src == -BoardSide) && b.cells[dst] == EmptyCell
    ensures var r := TranslateStringToMove(b, s);
            && r.Some? && IsMoveSimple(r.value) && r.value.fifty
            && !IsMoveCapture(r.value) && IsMoveCaptureAsWritten(r.value)
  {
  }

  /**
   * Printing a translated move gives back its text: the two squares, and
   * the promotion letter when the move promotes; only a1a1 prints as the
   * null move.
   */
  lemma TranslatePrintRoundTrip(b: Board, s: string)
    requires CellsWf(b.cells) && IsMoveStringShaped(s)
    requires TranslateStringToMove(b, s).Some?
    ensures var m := TranslateStringToMove(b, s).value;
            CastMoveToString(Some(m))
              == if IsMoveNull(m) then "null"
                 else if IsMovePromotion(m) then s else s[0..4]
  {
    var m := TranslateStringToMove(b, s).value;
    var src := CastStringToCoord(s[0..2]);
    var dst := CastStringToCoord(s[2..4]);
    CoordStringRoundTrip(s[0..2]);
    CoordStringRoundTrip(s[2..4]);
    if !IsMoveNull(m) {
      var squares := CastCoordToString(m.src) + CastCoordToString(m.dst);
      assert squares == s[0..4];
      if IsMovePromotion(m) {
        assert |s| == 5;
        assert s == s[0..4] + [s[4]];
      }
    }
  }
}

=== FILE: move_picker.dfy ===
/**
 * The search's move ordering: killer moves, the history table, the
 * most-valuable-victim / least-valuable-attacker key for captures, and the
 * staged move picker that hands out the transposition-table move, then the
 * captures, promotions, killers and the remaining quiet moves.
 *
 * Move generation and the pseudo-legality test are not part of this model:
 * the picker's environment carries the lists the generator would produce
 * and the test as a function.
 */
module MovePicker {
  import opened Wrappers
  import opened Types
  import opened Moves
  import opened Board

  /** Every move of a list has a type that fits its four bits. */
  predicate AllKindValid(ms: seq<Move>)
  {
    forall i :: 0 <= i < |ms| ==> IsKindValid(ms[i])
  }

  /** A move between two squares of the board. */
  predicate OnBoard(m: Move)
  {
    0 <= m.src < BoardSize && 0 <= m.dst < BoardSize && IsKindValid(m)
  }

  predicate AllOnBoard(ms: seq<Move>)
  {
    forall i :: 0 <= i < |ms| ==> OnBoard(ms[i])
  }

  // ------------------------------------------------------------ killer moves

  /** `KillerMoves::COUNT`. */
  const KillerCount: nat := 2

  /** The constructor: every slot holds the null move. */
  function NewKillers(): (r: seq<Move>)
    ensures |r| == KillerCount
    ensures forall i :: 0 <= i < |r| ==> r[i] == NullMove
  {
    [NullMove, NullMove]
  }

  /** `Add`: the move goes to slot 0, older moves shift one slot on and the last falls out. */
  function AddKiller(ks: seq<Move>, m: Move): (r: seq<Move>)
    requires |ks| == KillerCount
    ensures |r| == KillerCount && r[0] == m
    ensures forall i :: 1 <= i < KillerCount ==> r[i] == ks[i - 1]
  {
    [m, ks[0]]
  }

  /** Adding the moves of a list one after the other. */
  function AddKillers(ks: seq<Move>, ms: seq<Move>): (r: seq<Move>)
    requires |ks| == KillerCount
    ensures |r| == KillerCount
    decreases |ms|
  {
    if |ms| == 0 then ks else AddKillers(AddKiller(ks, ms[0]), ms[1..])
  }

  /** After at least two additions the slots hold the last two moves added, the latest first. */
  lemma {:induction false} KillersKeepLatest(ks: seq<Move>, ms: seq<Move>)
    requires |ks| == KillerCount && |ms| >= KillerCount
    ensures AddKillers(ks, ms) == [ms[|ms| - 1], ms[|ms| - 2]]
    decreases |ms|
  {
    var ks' := AddKiller(ks, ms[0]);
    if |ms| == KillerCount {
      assert ms[1..][1..] == [];
      assert AddKillers(ks', ms[1..]) == AddKillers(AddKiller(ks', ms[1]), []);
    } else {
      KillersKeepLatest(ks', ms[1..]);
    }
  }

  // ----------------------------------------------------------- history table

  /** The table's `uint64_t` counters wrap at 2^64. */
  const CounterLimit: nat := 0x1_0000_0000_0000_0000

  /** A history table: a counter per cell and destination square. */
  predicate HistoryWf(h: seq<seq<nat>>)
  {
    |h| == NumberOfCells
    && forall c :: 0 <= c < |h| ==> |h[c]| == BoardSize && forall d :: 0 <= d < BoardSize ==> h[c][d] < CounterLimit
  }

  /** The constructor: every counter is zero. */
  function NewHistory(): (r: seq<seq<nat>>)
    ensures HistoryWf(r)
    ensures forall c, d :: 0 <= c < NumberOfCells && 0 <= d < BoardSize ==> r[c][d] == 0
  {
    seq(NumberOfCells, _ => seq(BoardSize, _ => 0))
  }

  /** `GetScore`: the counter of the moving cell and the move's destination. */
  function GetScore(h: seq<seq<nat>>, cell: int, m: Move): (r: nat)
    requires HistoryWf(h) && 0 <= cell < NumberOfCells && 0 <= m.dst < BoardSize
    ensures r < CounterLimit
  {
    h[cell][m.dst]
  }

  /** `Update`: the square of the depth is added to the counter of the cell and destination, wrapping at 2^64. */
  function Update(h: seq<seq<nat>>, cell: int, m: Move, depth: nat): (r: seq<seq<nat>>)
    requires HistoryWf(h) && 0 <= cell < NumberOfCells && 0 <= m.dst < BoardSize
    ensures HistoryWf(r)
    ensures GetScore(r, cell, m) == (GetScore(h, cell, m) + depth * depth) % CounterLimit
    ensures forall c, d :: 0 <= c < NumberOfCells && 0 <= d < BoardSize && (c, d) != (cell, m.dst) ==> r[c][d] == h[c][d]
  {
    var v: nat := (h[cell][m.dst] + depth * depth) % CounterLimit;
    var row: seq<nat> := h[cell][m.dst := v];
    h[cell := row]
  }

  lemma AddModCommutes(x: nat, a: nat, b: nat)
    ensures ((x + a) % CounterLimit + b) % CounterLimit == ((x + b) % CounterLimit + a) % CounterLimit
  {
  }

  /** Updates commute: the table depends only on which updates were made, not on their order. */
  lemma UpdatesCommute(h: seq<seq<nat>>, c1: int, m1: Move, d1: nat, c2: int, m2: Move, d2: nat)
    requires HistoryWf(h)
    requires 0 <= c1 < NumberOfCells && 0 <= m1.dst < BoardSize
    requires 0 <= c2 < NumberOfCells && 0 <= m2.dst < BoardSize
    ensures Update(Update(h, c1, m1, d1), c2, m2, d2) == Update(Update(h, c2, m2, d2), c1, m1, d1)
  {
    var a := Update(Update(h, c1, m1, d1), c2, m2, d2);
    var b := Update(Update(h, c2, m2, d2), c1, m1, d1);
    if (c1, m1.dst) == (c2, m2.dst) {
      AddModCommutes(h[c1][m1.dst], d1 * d1, d2 * d2);
    }
    assert forall c :: 0 <= c < NumberOfCells ==> a[c] == b[c];
  }

  // ----------------------------------------------------------------- sorting

  /** A list ordered by a key from the largest down: the order `std::sort` produces with `>`. */
  predicate SortedDesc(ms: seq<Move>, key: Move -> int)
  {
    forall i, j :: 0 <= i < j < |ms| ==> key(ms[i]) >= key(ms[j])
  }

  function InsertDesc(m: Move, ms: seq<Move>, key: Move -> int): (r: seq<Move>)
    requires SortedDesc(ms, key)
    ensures SortedDesc(r, key) && multiset(r) == multiset(ms) + multiset{m}
  {
    if |ms| == 0 then [m]
    else if key(m) >= key(ms[0]) then [m] + ms
    else
      var rest := InsertDesc(m, ms[1..], key);
      InsertBound(m, ms, key, rest);
      assert ms == [ms[0]] + ms[1..];
      [ms[0]] + rest
  }

  /** Everything inserted behind the head of a sorted list is no larger than the head. */
  lemma InsertBound(m: Move, ms: seq<Move>, key: Move -> int, rest: seq<Move>)
    requires |ms| > 0 && SortedDesc(ms, key) && key(m) < key(ms[0])
    requires multiset(rest) == multiset(ms[1..]) + multiset{m}
    ensures forall k :: 0 <= k < |rest| ==> key(ms[0]) >= key(rest[k])
  {
    forall k | 0 <= k < |rest| ensures key(ms[0]) >= key(rest[k]) {
      var x := rest[k];
      assert x in multiset(rest);
      if x != m {
        assert x in ms[1..];
        var j :| 0 <= j < |ms[1..]| && ms[1..][j] == x;
        assert ms[j + 1] == x;
      }
    }
  }

  /** `std::sort` with a `>` comparison on a key: the same moves, largest key first. */
  function SortDesc(ms: seq<Move>, key: Move -> int): (r: seq<Move>)
    ensures SortedDesc(r, key) && multiset(r) == multiset(ms) && |r| == |ms|
  {
    if |ms| == 0 then []
    else
      var r := InsertDesc(ms[0], SortDesc(ms[1..], key), key);
      assert ms == [ms[0]] + ms[1..];
      assert |multiset(r)| == |r|;
      r
  }

  // -------------------------------------------------------------- MVV-LVA key

  /** `CAPTURE_VICTIM_COST`, indexed by cell. */
  const VictimCost: seq<int> := [0, 8, 16, 24, 30, 36, 0, 8, 16, 24, 30, 36, 0]

  /** `CAPTURE_ATTACKER_COST`, indexed by cell. */
  const AttackerCost: seq<int> := [0, 5, 4, 3, 2, 1, 6, 5, 4, 3, 2, 1, 6]

  /** The ordering key of a capture: the victim's cost plus the attacker's. */
  function Annotate(cells: seq<int>, m: Move): (r: Move)
    requires CellsWf(cells) && OnBoard(m)
    ensures OnBoard(r) && SameFields(r, m)
    ensures r.info == VictimCost[cells[m.dst]] + AttackerCost[cells[m.src]]
    ensures 0 <= r.info <= 42
  {
    m.(info := VictimCost[cells[m.dst]] + AttackerCost[cells[m.src]])
  }

  /** Two moves that differ at most in their ordering key. */
  predicate SameFields(a: Move, b: Move)
  {
    a.src == b.src && a.dst == b.dst && a.kind == b.kind && a.fifty == b.fifty
  }

  function AnnotateAll(cells: seq<int>, ms: seq<Move>): (r: seq<Move>)
    requires CellsWf(cells) && AllOnBoard(ms)
    ensures |r| == |ms| && AllOnBoard(r)
    ensures forall i :: 0 <= i < |ms| ==> r[i] == Annotate(cells, ms[i])
  {
    seq(|ms|, i requires 0 <= i < |ms| => Annotate(cells, ms[i]))
  }

  function InfoKey(m: Move): int
  {
    m.info
  }

  /** `SortByMVVLVA`: each capture gets its key, and the captures are ordered by it, largest first. */
  function SortByMvvLva(cells: seq<int>, ms: seq<Move>): (r: seq<Move>)
    requires CellsWf(cells) && AllOnBoard(ms)
    ensures multiset(r) == multiset(AnnotateAll(cells, ms)) && |r| == |ms|
    ensures SortedDesc(r, InfoKey)
    ensures AllOnBoard(r)
  {
    var a := AnnotateAll(cells, ms);
    var r := SortDesc(a, InfoKey);
    assert forall i :: 0 <= i < |r| ==> r[i] in multiset(a);
    r
  }

  /** The history key of a move on a board: the counter of its moving cell and destination. */
  function HistoryKey(h: seq<seq<nat>>, cells: seq<int>): (r: Move -> int)
    requires HistoryWf(h) && CellsWf(cells)
    ensures forall m :: OnBoard(m) ==> r(m) == GetScore(h, cells[m.src], m)
  {
    m => if OnBoard(m) then GetScore(h, cells[m.src], m) else 0
  }

  /** `SortByHistoryTable`: quiet moves ordered by their history counter, largest first. */
  function SortByHistory(h: seq<seq<nat>>, cells: seq<int>, ms: seq<Move>): (r: seq<Move>)
    requires HistoryWf(h) && CellsWf(cells) && AllOnBoard(ms)
    ensures multiset(r) == multiset(ms) && |r| == |ms|
    ensures SortedDesc(r, HistoryKey(h, cells))
    ensures AllOnBoard(r)
  {
    var r := SortDesc(ms, HistoryKey(h, cells));
    assert forall i :: 0 <= i < |r| ==> r[i] in multiset(ms);
    r
  }

  // ------------------------------------------------------ removing killers

  /** The test of the History stage: the move equals one of the killer moves. */
  predicate IsKiller(m: Move, ks: seq<Move>)
    requires |ks| == KillerCount && AllKindValid(ks) && IsKindValid(m)
  {
    SameMove(m, ks[0]) || SameMove(m, ks[1])
  }

  /** A killer found at i is replaced by the last move and the list shrinks by one. */
  function SwapRemove(ms: seq<Move>, i: nat): (r: seq<Move>)
    requires i < |ms|
    ensures |r| == |ms| - 1
    ensures multiset(r) == multiset(ms) - multiset{ms[i]}
    ensures forall j :: 0 <= j < |r| && j != i ==> r[j] == ms[j]
    ensures i < |r| ==> r[i] == ms[|ms| - 1]
  {
    var s := ms[i := ms[|ms| - 1]];
    assert ms == ms[..|ms| - 1] + [ms[|ms| - 1]];
    assert s == s[..|ms| - 1] + [ms[|ms| - 1]];
    s[..|ms| - 1]
  }

  /**
   * The History stage's removal loop as written: after swapping the last
   * move into position i, the loop goes on at i + 1, so the swapped-in move
   * is never examined.
   */
  function RemoveKillersAsWritten(ms: seq<Move>, ks: seq<Move>, i: nat): (r: seq<Move>)
    requires |ks| == KillerCount && AllKindValid(ks) && AllKindValid(ms) && i <= |ms| + 1
    ensures |r| <= |ms| && multiset(r) <= multiset(ms)
    decreases |ms| + 1 - i
  {
    if i >= |ms| then ms
    else if IsKiller(ms[i], ks) then
      var s := SwapRemove(ms, i);
      assert AllKindValid(s) by {
        forall j | 0 <= j < |s| ensures IsKindValid(s[j]) {
          if j == i { assert s[j] == ms[|ms| - 1]; } else { assert s[j] == ms[j]; }
        }
      }
      RemoveKillersAsWritten(s, ks, i + 1)
    else RemoveKillersAsWritten(ms, ks, i + 1)
  }

  /** Two killer moves side by side at the end of the list: the second one survives the loop. */
  lemma RemoveKillersSkipAsWritten()
    ensures var a := ConstructMove(12, 28, PawnDoubleMove);
            var b := ConstructMove(6, 21, SimpleMove);
            RemoveKillersAsWritten([a, b], [a, b], 0) == [b] && IsKiller(b, [a, b])
  {
    var a := ConstructMove(12, 28, PawnDoubleMove);
    var b := ConstructMove(6, 21, SimpleMove);
    assert IsKiller(a, [a, b]);
    assert SwapRemove([a, b], 0) == [b];
  }

  /** The removal loop corrected: after a swap the same position is examined again. */
  function RemoveKillers(ms: seq<Move>, ks: seq<Move>, i: nat): (r: seq<Move>)
    requires |ks| == KillerCount && AllKindValid(ks) && AllKindValid(ms) && i <= |ms|
    requires forall j :: 0 <= j < i ==> !IsKiller(ms[j], ks)
    ensures AllKindValid(r) && i <= |r| && r[..i] == ms[..i]
    ensures forall j :: 0 <= j < |r| ==> !IsKiller(r[j], ks)
    ensures multiset(r) <= multiset(ms)
    decreases |ms| - i
  {
    if i == |ms| then ms
    else if IsKiller(ms[i], ks) then
      var s := SwapRemove(ms, i);
      SwapRemoveKindValid(ms, i);
      assert s[..i] == ms[..i];
      RemoveKillers(s, ks, i)
    else RemoveKillers(ms, ks, i + 1)
  }

  lemma SwapRemoveKindValid(ms: seq<Move>, i: nat)
    requires i < |ms| && AllKindValid(ms)
    ensures AllKindValid(SwapRemove(ms, i))
  {
    var s := SwapRemove(ms, i);
    forall j | 0 <= j < |s| ensures IsKindValid(s[j]) {
      if j == i { assert s[j] == ms[|ms| - 1]; } else { assert s[j] == ms[j]; }
    }
  }

  /** A list without killers holds no copy of a killer move. */
  lemma NoKillerCount(ms: seq<Move>, ks: seq<Move>, m: Move)
    requires |ks| == KillerCount && AllKindValid(ks) && AllKindValid(ms) && IsKindValid(m) && IsKiller(m, ks)
    requires forall j :: 0 <= j < |ms| ==> !IsKiller(ms[j], ks)
    ensures multiset(ms)[m] == 0
  {
    assert forall j :: 0 <= j < |ms| ==> ms[j] != m;
  }

  /** The corrected loop removes every copy of a killer and keeps every copy of any other move. */
  lemma {:induction false} RemoveKillersCounts(ms: seq<Move>, ks: seq<Move>, i: nat, m: Move)
    requires |ks| == KillerCount && AllKindValid(ks) && AllKindValid(ms) && i <= |ms| && IsKindValid(m)
    requires forall j :: 0 <= j < i ==> !IsKiller(ms[j], ks)
    ensures multiset(RemoveKillers(ms, ks, i))[m] == if IsKiller(m, ks) then 0 else multiset(ms)[m]
    decreases |ms| - i
  {
    var r := RemoveKillers(ms, ks, i);
    if i == |ms| {
      if IsKiller(m, ks) {
        NoKillerCount(ms, ks, m);
      }
    } else if IsKiller(ms[i], ks) {
      var s := SwapRemove(ms, i);
      SwapRemoveKindValid(ms, i);
      assert s[..i] == ms[..i];
      RemoveKillersCounts(s, ks, i, m);
      if IsKiller(m, ks) {
      } else {
        assert m != ms[i];
      }
    } else {
      RemoveKillersCounts(ms, ks, i + 1, m);
    }
  }

  /** The moves of a list that are not killers, in order: the reference the removal loop is measured against. */
  function NonKillers(ms: seq<Move>, ks: seq<Move>): (r: seq<Move>)
    requires |ks| == KillerCount && AllKindValid(ks) && AllKindValid(ms)
  {
    if |ms| == 0 then []
    else if IsKiller(ms[0], ks) then NonKillers(ms[1..], ks)
    else [ms[0]] + NonKillers(ms[1..], ks)
  }

  lemma {:induction false} NonKillersCount(ms: seq<Move>, ks: seq<Move>, m: Move)
    requires |ks| == KillerCount && AllKindValid(ks) && AllKindValid(ms) && IsKindValid(m)
    ensures multiset(NonKillers(ms, ks))[m] == if IsKiller(m, ks) then 0 else multiset(ms)[m]
    decreases |ms|
  {
    if |ms| > 0 {
      NonKillersCount(ms[1..], ks, m);
      assert ms == [ms[0]] + ms[1..];
    }
  }

  /** The corrected loop keeps exactly the moves that are not killers: the same moves as the reference filter. */
  lemma RemoveKillersIsFilter(ms: seq<Move>, ks: seq<Move>)
    requires |ks| == KillerCount && AllKindValid(ks) && AllKindValid(ms)
    ensures multiset(RemoveKillers(ms, ks, 0)) == multiset(NonKillers(ms, ks))
  {
    var r := RemoveKillers(ms, ks, 0);
    var f := NonKillers(ms, ks);
    forall m ensures multiset(r)[m] == multiset(f)[m] {
      if IsKindValid(m) {
        NonKillersCount(ms, ks, m);
        RemoveKillersCounts(ms, ks, 0, m);
      } else {
        assert m !in r;
        NonKillersInput(ms, ks);
        assert m !in ms;
      }
    }
  }

  lemma {:induction false} NonKillersInput(ms: seq<Move>, ks: seq<Move>)
    requires |ks| == KillerCount && AllKindValid(ks) && AllKindValid(ms)
    ensures multiset(NonKillers(ms, ks)) <= multiset(ms)
    decreases |ms|
  {
    if |ms| > 0 {
      NonKillersInput(ms[1..], ks);
      assert ms == [ms[0]] + ms[1..];
    }
  }

  // ------------------------------------------------------------- the picker

  /** The picker's stages, the values of `MovePicker::Stage`. */
  type Stage = s: nat | s <= 6

  const StartStage: Stage := 0
  const TTMoveStage: Stage := 1
  const CaptureStage: Stage := 2
  const PromotionStage: Stage := 3
  const KillerStage: Stage := 4
  const HistoryStage: Stage := 5
  const EndStage: Stage := 6

  /** `GetNextStage`: the stage after a stage other than End. */
  function NextStage(s: Stage): (r: Stage)
    requires s != EndStage
    ensures r > s && r == s + 1
  {
    s + 1
  }

  /**
   * The moves each stage appends to the picker's list, indexed by stage:
   * the Start and End stages append nothing.
   */
  predicate ListsWf(tt: Move, sm: seq<seq<Move>>)
  {
    IsKindValid(tt) && |sm| == EndStage + 1 && sm[StartStage] == [] && sm[EndStage] == []
    && forall s :: 0 <= s < |sm| ==> AllKindValid(sm[s])
  }

  /** The picker's state: the move list, the read position and the stage. */
  datatype Picker = Picker(list: seq<Move>, pos: nat, stage: Stage)

  /** A picker before its first move. */
  const InitialPicker: Picker := Picker([], 0, StartStage)

  /** `GetNewMoves`: while the list is used up, move to the next stage and append its moves; End stops. */
  function GetNewMoves(tt: Move, sm: seq<seq<Move>>, p: Picker): (r: Picker)
    requires ListsWf(tt, sm) && p.pos <= |p.list|
    ensures r.pos == p.pos && r.pos <= |r.list| && r.stage >= p.stage
    ensures r.stage == p.stage ==> r == p
    ensures p.pos == |p.list| && p.stage != EndStage ==> r.stage > p.stage
    ensures r.pos < |r.list| || r.stage == EndStage
    ensures AllKindValid(p.list) ==> AllKindValid(r.list)
    decreases EndStage - p.stage
  {
    if p.pos < |p.list| || p.stage == EndStage then p
    else
      var s := NextStage(p.stage);
      if s == EndStage then p.(stage := s)
      else GetNewMoves(tt, sm, Picker(p.list + sm[s], p.pos, s))
  }

  /**
   * The loop of `GetNextMove` that steps over the transposition-table move
   * in every stage after its own, fetching new moves when the list runs out.
   */
  function SkipTtMove(tt: Move, sm: seq<seq<Move>>, q: Picker): (r: (Option<Move>, Picker))
    requires ListsWf(tt, sm) && q.pos < |q.list| && AllKindValid(q.list)
    ensures r.1.pos <= |r.1.list| && r.1.stage >= q.stage && AllKindValid(r.1.list)
    ensures r.0.Some? ==> r.1.stage > q.stage || (r.1.stage == q.stage && r.1.list == q.list && r.1.pos > q.pos)
    ensures r.0.Some? && r.1.stage != TTMoveStage ==> IsKindValid(r.0.value) && !SameMove(r.0.value, tt)
    decreases EndStage - q.stage, |q.list| - q.pos, 1
  {
    if q.stage != TTMoveStage && SameMove(q.list[q.pos], tt) then SkipRefill(tt, sm, q.(pos := q.pos + 1))
    else (Some(q.list[q.pos]), q.(pos := q.pos + 1))
  }

  /** After a step over the TT move: go on in the list, or fetch the next stage's moves when it ran out. */
  function SkipRefill(tt: Move, sm: seq<seq<Move>>, q1: Picker): (r: (Option<Move>, Picker))
    requires ListsWf(tt, sm) && 0 < q1.pos <= |q1.list| && AllKindValid(q1.list) && q1.stage != TTMoveStage
    ensures r.1.pos <= |r.1.list| && r.1.stage >= q1.stage && AllKindValid(r.1.list)
    ensures r.0.Some? ==> r.1.stage > q1.stage || (r.1.stage == q1.stage && r.1.list == q1.list && r.1.pos >= q1.pos)
    ensures r.0.Some? && r.1.stage != TTMoveStage ==> IsKindValid(r.0.value) && !SameMove(r.0.value, tt)
    decreases EndStage - q1.stage, |q1.list| - q1.pos + 1, 0
  {
    if q1.pos < |q1.list| then SkipTtMove(tt, sm, q1)
    else
      var q2 := GetNewMoves(tt, sm, q1);
      if q2.pos == |q2.list| then (None, q2) else SkipTtMove(tt, sm, q2)
  }

  /**
   * `GetNextMove`: the next move, or None (the source's null move) once the
   * End stage is reached. After the TT stage a move equal to the TT move is
   * never handed out.
   */
  function GetNextMove(tt: Move, sm: seq<seq<Move>>, p: Picker): (r: (Option<Move>, Picker))
    requires ListsWf(tt, sm) && p.pos <= |p.list| && AllKindValid(p.list)
    ensures r.1.pos <= |r.1.list| && AllKindValid(r.1.list) && r.1.stage >= p.stage
    ensures r.0.Some? ==> r.1.stage > p.stage || (r.1.stage == p.stage && |r.1.list| - r.1.pos < |p.list| - p.pos)
    ensures r.0.Some? && r.1.stage != TTMoveStage ==> IsKindValid(r.0.value) && !SameMove(r.0.value, tt)
  {
    var q := GetNewMoves(tt, sm, p);
    if q.stage == EndStage then (None, q) else SkipTtMove(tt, sm, q)
  }

  /** Every move the picker hands out, in order, until it reports the end. */
  function Drain(tt: Move, sm: seq<seq<Move>>, p: Picker): (r: seq<Move>)
    requires ListsWf(tt, sm) && p.pos <= |p.list| && AllKindValid(p.list)
    decreases EndStage - p.stage, |p.list| - p.pos
  {
    var (m, p') := GetNextMove(tt, sm, p);
    if m.None? then [] else [m.value] + Drain(tt, sm, p')
  }

  // ------------------------------------------------- the order it produces

  /** The moves of a list other than the transposition-table move. */
  function WithoutTtMove(tt: Move, ms: seq<Move>): (r: seq<Move>)
    requires IsKindValid(tt) && AllKindValid(ms)
    ensures AllKindValid(r)
    ensures forall i :: 0 <= i < |r| ==> !SameMove(r[i], tt)
    ensures multiset(r) <= multiset(ms)
  {
    if |ms| == 0 then []
    else
      assert ms == [ms[0]] + ms[1..];
      if SameMove(ms[0], tt) then WithoutTtMove(tt, ms[1..])
      else [ms[0]] + WithoutTtMove(tt, ms[1..])
  }

  lemma {:induction false} WithoutTtMoveAppend(tt: Move, a: seq<Move>, b: seq<Move>)
    requires IsKindValid(tt) && AllKindValid(a) && AllKindValid(b)
    ensures WithoutTtMove(tt, a + b) == WithoutTtMove(tt, a) + WithoutTtMove(tt, b)
    decreases |a|
  {
    if |a| > 0 {
      assert (a + b)[1..] == a[1..] + b;
      WithoutTtMoveAppend(tt, a[1..], b);
    } else {
      assert a + b == b;
    }
  }

  /** A stage's moves as the picker hands them out: all of them in the TT stage, without the TT move later. */
  function Keep(tt: Move, s: Stage, ms: seq<Move>): (r: seq<Move>)
    requires IsKindValid(tt) && AllKindValid(ms)
  {
    if s == TTMoveStage then ms else WithoutTtMove(tt, ms)
  }

  /** The moves of the stages after s, as handed out. */
  function Future(tt: Move, sm: seq<seq<Move>>, s: Stage): (r: seq<Move>)
    requires ListsWf(tt, sm)
    decreases EndStage - s
  {
    if s == EndStage then [] else Keep(tt, s + 1, sm[s + 1]) + Future(tt, sm, s + 1)
  }

  /** The list a picker has built once it reaches stage s: every stage's moves up to s. */
  function Prefix(tt: Move, sm: seq<seq<Move>>, s: Stage): (r: seq<Move>)
    requires ListsWf(tt, sm)
    ensures AllKindValid(r)
  {
    if s == StartStage then [] else Prefix(tt, sm, s - 1) + sm[s]
  }

  /** The reachable states: the list is the stages' moves so far and the position is inside the current stage's part. */
  predicate Inv(tt: Move, sm: seq<seq<Move>>, p: Picker)
    requires ListsWf(tt, sm)
  {
    p.list == Prefix(tt, sm, p.stage) && p.pos <= |p.list|
    && (p.stage == StartStage ==> p.pos == 0)
    && (p.stage > StartStage ==> |Prefix(tt, sm, p.stage - 1)| <= p.pos)
  }

  /** What a picker in a reachable state will still hand out. */
  function Pending(tt: Move, sm: seq<seq<Move>>, p: Picker): (r: seq<Move>)
    requires ListsWf(tt, sm) && Inv(tt, sm, p)
  {
    Keep(tt, p.stage, p.list[p.pos..]) + Future(tt, sm, p.stage)
  }

  lemma {:induction false} GetNewMovesPending(tt: Move, sm: seq<seq<Move>>, p: Picker)
    requires ListsWf(tt, sm) && Inv(tt, sm, p)
    ensures Inv(tt, sm, GetNewMoves(tt, sm, p))
    ensures Pending(tt, sm, GetNewMoves(tt, sm, p)) == Pending(tt, sm, p)
    decreases EndStage - p.stage
  {
    if p.pos < |p.list| || p.stage == EndStage {
    } else {
      var s := NextStage(p.stage);
      assert p.list[p.pos..] == [];
      if s == EndStage {
        assert Future(tt, sm, s) == [];
        assert Keep(tt, s, sm[s]) == [];
      } else {
        var p' := Picker(p.list + sm[s], p.pos, s);
        assert p'.list[p'.pos..] == sm[s];
        assert Pending(tt, sm, p') == Pending(tt, sm, p);
        GetNewMovesPending(tt, sm, p');
      }
    }
  }

  /** Moving the read position on by one inside the current stage keeps the state reachable. */
  lemma InvStep(tt: Move, sm: seq<seq<Move>>, q: Picker)
    requires ListsWf(tt, sm) && Inv(tt, sm, q) && q.pos < |q.list|
    ensures Inv(tt, sm, q.(pos := q.pos + 1))
  {
  }

  /** A head that is stepped over is not among the pending moves. */
  lemma KeepSkip(tt: Move, s: Stage, ms: seq<Move>)
    requires IsKindValid(tt) && AllKindValid(ms) && |ms| > 0
    requires s != TTMoveStage && SameMove(ms[0], tt)
    ensures Keep(tt, s, ms) == Keep(tt, s, ms[1..])
  {
  }

  /** A head that is handed out is the first pending move. */
  lemma KeepTake(tt: Move, s: Stage, ms: seq<Move>)
    requires IsKindValid(tt) && AllKindValid(ms) && |ms| > 0
    requires s == TTMoveStage || !SameMove(ms[0], tt)
    ensures Keep(tt, s, ms) == [ms[0]] + Keep(tt, s, ms[1..])
  {
    assert ms == [ms[0]] + ms[1..];
  }

  /** Stepping over a TT move after the TT stage leaves the pending moves as they were. */
  lemma PendingSkipHead(tt: Move, sm: seq<seq<Move>>, q: Picker)
    requires ListsWf(tt, sm) && Inv(tt, sm, q) && q.pos < |q.list|
    requires q.stage != TTMoveStage && SameMove(q.list[q.pos], tt)
    ensures Inv(tt, sm, q.(pos := q.pos + 1)) && Pending(tt, sm, q.(pos := q.pos + 1)) == Pending(tt, sm, q)
  {
    InvStep(tt, sm, q);
    var rest := q.list[q.pos..];
    assert rest[1..] == q.list[q.pos + 1..];
    KeepSkip(tt, q.stage, rest);
  }

  /** Handing out the move at the read position removes it from the front of the pending moves. */
  lemma PendingTakeHead(tt: Move, sm: seq<seq<Move>>, q: Picker)
    requires ListsWf(tt, sm) && Inv(tt, sm, q) && q.pos < |q.list|
    requires q.stage == TTMoveStage || !SameMove(q.list[q.pos], tt)
    ensures Inv(tt, sm, q.(pos := q.pos + 1))
    ensures Pending(tt, sm, q) == [q.list[q.pos]] + Pending(tt, sm, q.(pos := q.pos + 1))
  {
    InvStep(tt, sm, q);
    var rest := q.list[q.pos..];
    assert rest[1..] == q.list[q.pos + 1..];
    TakeHead(tt, q.stage, rest, Future(tt, sm, q.stage));
  }

  lemma TakeHead(tt: Move, s: Stage, rest: seq<Move>, f: seq<Move>)
    requires IsKindValid(tt) && AllKindValid(rest) && |rest| > 0
    requires s == TTMoveStage || !SameMove(rest[0], tt)
    ensures Keep(tt, s, rest) + f == [rest[0]] + (Keep(tt, s, rest[1..]) + f)
  {
    KeepTake(tt, s, rest);
  }

  lemma {:induction false} SkipTtMovePending(tt: Move, sm: seq<seq<Move>>, q: Picker)
    requires ListsWf(tt, sm) && Inv(tt, sm, q) && q.pos < |q.list|
    ensures Inv(tt, sm, SkipTtMove(tt, sm, q).1)
    ensures SkipTtMove(tt, sm, q).0.None? ==> Pending(tt, sm, q) == []
    ensures SkipTtMove(tt, sm, q).0.Some? ==>
              Pending(tt, sm, q) == [SkipTtMove(tt, sm, q).0.value] + Pending(tt, sm, SkipTtMove(tt, sm, q).1)
    decreases EndStage - q.stage, |q.list| - q.pos, 1
  {
    var q1 := q.(pos := q.pos + 1);
    if q.stage != TTMoveStage && SameMove(q.list[q.pos], tt) {
      assert SkipTtMove(tt, sm, q) == SkipRefill(tt, sm, q1);
      PendingSkipHead(tt, sm, q);
      SkipRefillPending(tt, sm, q1);
    } else {
      assert SkipTtMove(tt, sm, q) == (Some(q.list[q.pos]), q1);
      PendingTakeHead(tt, sm, q);
    }
  }

  lemma {:induction false} SkipRefillPending(tt: Move, sm: seq<seq<Move>>, q1: Picker)
    requires ListsWf(tt, sm) && Inv(tt, sm, q1) && 0 < q1.pos <= |q1.list| && q1.stage != TTMoveStage
    ensures Inv(tt, sm, SkipRefill(tt, sm, q1).1)
    ensures SkipRefill(tt, sm, q1).0.None? ==> Pending(tt, sm, q1) == []
    ensures SkipRefill(tt, sm, q1).0.Some? ==>
              Pending(tt, sm, q1) == [SkipRefill(tt, sm, q1).0.value] + Pending(tt, sm, SkipRefill(tt, sm, q1).1)
    decreases EndStage - q1.stage, |q1.list| - q1.pos + 1, 0
  {
    if q1.pos < |q1.list| {
      SkipTtMovePending(tt, sm, q1);
    } else {
      var q2 := GetNewMoves(tt, sm, q1);
      GetNewMovesPending(tt, sm, q1);
      if q2.pos == |q2.list| {
        assert q2.list[q2.pos..] == [];
      } else {
        SkipTtMovePending(tt, sm, q2);
      }
    }
  }

  /** One call of `GetNextMove` hands out the first pending move, or reports the end when nothing is pending. */
  lemma GetNextMovePending(tt: Move, sm: seq<seq<Move>>, p: Picker)
    requires ListsWf(tt, sm) && Inv(tt, sm, p)
    ensures Inv(tt, sm, GetNextMove(tt, sm, p).1)
    ensures GetNextMove(tt, sm, p).0.None? ==> Pending(tt, sm, p) == []
    ensures GetNextMove(tt, sm, p).0.Some? ==>
              Pending(tt, sm, p) == [GetNextMove(tt, sm, p).0.value] + Pending(tt, sm, GetNextMove(tt, sm, p).1)
  {
    var q := GetNewMoves(tt, sm, p);
    GetNewMovesPending(tt, sm, p);
    if q.stage == EndStage {
      assert q.list[q.pos..] == [];
    } else {
      SkipTtMovePending(tt, sm, q);
    }
  }

  lemma {:induction false} DrainIsPending(tt: Move, sm: seq<seq<Move>>, p: Picker)
    requires ListsWf(tt, sm) && Inv(tt, sm, p)
    ensures Drain(tt, sm, p) == Pending(tt, sm, p)
    decreases EndStage - p.stage, |p.list| - p.pos
  {
    GetNextMovePending(tt, sm, p);
    var (m, p') := GetNextMove(tt, sm, p);
    if m.Some? {
      DrainIsPending(tt, sm, p');
    }
  }

  /** The moves of stage s and every stage after it. */
  function StagesFrom(tt: Move, sm: seq<seq<Move>>, s: Stage): (r: seq<Move>)
    requires ListsWf(tt, sm)
    ensures AllKindValid(r)
    decreases EndStage - s
  {
    if s == EndStage then [] else sm[s] + StagesFrom(tt, sm, s + 1)
  }

  lemma {:induction false} FutureWithoutTtMove(tt: Move, sm: seq<seq<Move>>, s: Stage)
    requires ListsWf(tt, sm) && s >= TTMoveStage
    ensures Future(tt, sm, s) == if s == EndStage then [] else WithoutTtMove(tt, StagesFrom(tt, sm, s + 1))
    decreases EndStage - s
  {
    if s < EndStage {
      FutureWithoutTtMove(tt, sm, s + 1);
      if s + 1 == EndStage {
        assert StagesFrom(tt, sm, s + 1) == [];
      } else {
        WithoutTtMoveAppend(tt, sm[s + 1], StagesFrom(tt, sm, s + 2));
      }
    }
  }

  /**
   * A fresh picker hands out the TT stage's moves, then the moves of every
   * later stage in stage order with the TT move left out, and then reports
   * the end.
   */
  lemma DrainOrder(tt: Move, sm: seq<seq<Move>>)
    requires ListsWf(tt, sm)
    ensures Drain(tt, sm, InitialPicker) == sm[TTMoveStage] + WithoutTtMove(tt, StagesFrom(tt, sm, CaptureStage))
  {
    DrainIsPending(tt, sm, InitialPicker);
    assert InitialPicker.list[0..] == [];
    assert Future(tt, sm, StartStage) == sm[TTMoveStage] + Future(tt, sm, TTMoveStage);
    FutureWithoutTtMove(tt, sm, TTMoveStage);
  }

  // ------------------------------------------------- the stages' own moves

  /**
   * What the picker works from: the board's cells, the transposition-table
   * move, the killer moves, the history table, the generator's captures,
   * promotions and quiet moves, and the pseudo-legality test.
   */
  datatype Env = Env(
    cells: seq<int>,
    ttMove: Move,
    killers: seq<Move>,
    history: seq<seq<nat>>,
    captures: seq<Move>,
    promotions: seq<Move>,
    quiets: seq<Move>,
    isPseudolegal: Move -> bool)

  predicate EnvWf(e: Env)
  {
    CellsWf(e.cells) && IsKindValid(e.ttMove)
    && |e.killers| == KillerCount && AllKindValid(e.killers)
    && HistoryWf(e.history)
    && AllOnBoard(e.captures) && AllKindValid(e.promotions) && AllOnBoard(e.quiets)
  }

  /** The killer moves that are pseudo-legal, in slot order. */
  function PseudolegalKillers(e: Env): (r: seq<Move>)
    requires EnvWf(e)
    ensures AllKindValid(r) && |r| <= KillerCount
    ensures forall m :: m in r <==> m in e.killers && e.isPseudolegal(m)
  {
    (if e.isPseudolegal(e.killers[0]) then [e.killers[0]] else [])
    + (if e.isPseudolegal(e.killers[1]) then [e.killers[1]] else [])
  }

  lemma AllOnBoardKindValid(ms: seq<Move>)
    requires AllOnBoard(ms)
    ensures AllKindValid(ms)
  {
  }

  /** The Capture stage's moves: the captures by MVV-LVA key. */
  function CaptureMoves(e: Env): (r: seq<Move>)
    requires EnvWf(e)
    ensures AllKindValid(r)
  {
    var r := SortByMvvLva(e.cells, e.captures);
    AllOnBoardKindValid(r);
    r
  }

  lemma AllKindValidAppend(a: seq<Move>, b: seq<Move>)
    requires AllKindValid(a) && AllKindValid(b)
    ensures AllKindValid(a + b)
  {
  }

  /** The History stage's moves: the quiet moves other than killers, by history counter. */
  function HistoryMoves(e: Env): (r: seq<Move>)
    requires EnvWf(e)
    ensures AllKindValid(r)
  {
    AllOnBoardKindValid(e.quiets);
    var q := RemoveKillers(e.quiets, e.killers, 0);
    assert AllOnBoard(q) by {
      forall i | 0 <= i < |q| ensures OnBoard(q[i]) {
        assert multiset(q)[q[i]] > 0;
        assert q[i] in e.quiets;
      }
    }
    var r := SortByHistory(e.history, e.cells, q);
    assert forall i :: 0 <= i < |r| ==> r[i] in multiset(q);
    r
  }

  /** The moves each stage appends to the list, indexed by stage. */
  function StageLists(e: Env): (r: seq<seq<Move>>)
    requires EnvWf(e)
    ensures ListsWf(e.ttMove, r)
  {
    var t := if e.isPseudolegal(e.ttMove) then [e.ttMove] else [];
    var captures, killers, quiets := CaptureMoves(e), PseudolegalKillers(e), HistoryMoves(e);
    ListsOfStages(e.ttMove, t, captures, e.promotions, killers, quiets);
    [[], t, captures, e.promotions, killers, quiets, []]
  }

  lemma ListsOfStages(tt: Move, a: seq<Move>, b: seq<Move>, c: seq<Move>, d: seq<Move>, h: seq<Move>)
    requires IsKindValid(tt) && AllKindValid(a) && AllKindValid(b) && AllKindValid(c) && AllKindValid(d) && AllKindValid(h)
    ensures ListsWf(tt, [[], a, b, c, d, h, []])
  {
    var r := [[], a, b, c, d, h, []];
    forall s | 0 <= s < |r| ensures AllKindValid(r[s]) {
      if s == 0 { assert r[s] == []; }
      else if s == 1 { assert r[s] == a; }
      else if s == 2 { assert r[s] == b; }
      else if s == 3 { assert r[s] == c; }
      else if s == 4 { assert r[s] == d; }
      else if s == 5 { assert r[s] == h; }
      else { assert r[s] == []; }
    }
  }

  /** A fresh picker run to the end in an environment. */
  function PickAll(e: Env): (r: seq<Move>)
    requires EnvWf(e)
  {
    Drain(e.ttMove, StageLists(e), InitialPicker)
  }

  /**
   * The order the picker promises: the transposition-table move when it is
   * pseudo-legal; then, each without the transposition-table move, the
   * captures by MVV-LVA key, the promotions, the pseudo-legal killers, and
   * the quiet moves other than killers by history counter.
   */
  function Expected(e: Env): (r: seq<Move>)
    requires EnvWf(e)
  {
    var later := CaptureMoves(e) + (e.promotions + (PseudolegalKillers(e) + HistoryMoves(e)));
    AllKindValidAppend(PseudolegalKillers(e), HistoryMoves(e));
    AllKindValidAppend(e.promotions, PseudolegalKillers(e) + HistoryMoves(e));
    AllKindValidAppend(CaptureMoves(e), e.promotions + (PseudolegalKillers(e) + HistoryMoves(e)));
    (if e.isPseudolegal(e.ttMove) then [e.ttMove] else []) + WithoutTtMove(e.ttMove, later)
  }

  /** A fresh picker hands out exactly the promised order and then reports the end. */
  lemma PickerOrder(e: Env)
    requires EnvWf(e)
    ensures PickAll(e) == Expected(e)
  {
    var sm := StageLists(e);
    var tt := e.ttMove;
    DrainOrder(tt, sm);
    assert StagesFrom(tt, sm, HistoryStage) == sm[HistoryStage] by {
      assert StagesFrom(tt, sm, EndStage) == [];
    }
    assert StagesFrom(tt, sm, CaptureStage) == sm[CaptureStage] + (sm[PromotionStage] + (sm[KillerStage] + sm[HistoryStage]));
  }

  // ------------------------------------------------- the quiescence picker

  /** The quiescence picker's stages: Start, Capture, Promotion, Evasions, End. */
  type QStage = s: nat | s <= 4

  const QStartStage: QStage := 0
  const QCaptureStage: QStage := 1
  const QPromotionStage: QStage := 2
  const QEvasionStage: QStage := 3
  const QEndStage: QStage := 4

  /**
   * One pass of the quiescence picker's capture selection over a list whose
   * head is the read position: every later move with a larger key is swapped
   * into the head.
   */
  function SelectFrom(ms: seq<Move>, i: nat): (r: seq<Move>)
    requires 1 <= i <= |ms|
    requires forall j :: 1 <= j < i ==> ms[0].info >= ms[j].info
    ensures |r| == |ms| && multiset(r) == multiset(ms)
    ensures forall j :: 1 <= j < |r| ==> r[0].info >= r[j].info
    decreases |ms| - i
  {
    if i == |ms| then ms
    else if ms[i].info > ms[0].info then
      var s := ms[0 := ms[i]][i := ms[0]];
      assert multiset(s) == multiset(ms) by {
        assert s == ms[0 := ms[i]][i := ms[0]];
      }
      SelectFrom(s, i + 1)
    else SelectFrom(ms, i + 1)
  }

  /** The move the capture stage hands out next: the remaining capture with the largest key goes to the head. */
  function Select(ms: seq<Move>): (r: seq<Move>)
    requires |ms| > 0
    ensures |r| == |ms| && multiset(r) == multiset(ms)
    ensures forall j :: 1 <= j < |r| ==> r[0].info >= r[j].info
  {
    SelectFrom(ms, 1)
  }

  /** The order repeated selection hands the captures out in. */
  function SelectionOrder(ms: seq<Move>): (r: seq<Move>)
    ensures multiset(r) == multiset(ms) && SortedDesc(r, InfoKey)
    decreases |ms|
  {
    if |ms| == 0 then []
    else
      var s := Select(ms);
      var rest := SelectionOrder(s[1..]);
      SelectionHead(s, rest);
      ConsSorted(s[0], rest, InfoKey);
      assert s == [s[0]] + s[1..];
      [s[0]] + rest
  }

  lemma ConsSorted(x: Move, rest: seq<Move>, key: Move -> int)
    requires SortedDesc(rest, key) && forall k :: 0 <= k < |rest| ==> key(x) >= key(rest[k])
    ensures SortedDesc([x] + rest, key)
  {
  }

  lemma SelectionHead(s: seq<Move>, rest: seq<Move>)
    requires |s| > 0 && forall j :: 1 <= j < |s| ==> s[0].info >= s[j].info
    requires multiset(rest) == multiset(s[1..])
    ensures forall k :: 0 <= k < |rest| ==> InfoKey(s[0]) >= InfoKey(rest[k])
  {
    forall k | 0 <= k < |rest| ensures InfoKey(s[0]) >= InfoKey(rest[k]) {
      assert rest[k] in multiset(s[1..]);
      var j :| 0 <= j < |s[1..]| && s[1..][j] == rest[k];
      assert s[j + 1] == rest[k];
    }
  }

  /** The moves each quiescence stage appends, indexed by stage. */
  predicate QListsWf(sm: seq<seq<Move>>)
  {
    |sm| == QEndStage + 1 && sm[QStartStage] == [] && sm[QEndStage] == []
  }

  datatype QPicker = QPicker(list: seq<Move>, pos: nat, stage: QStage)

  const InitialQPicker: QPicker := QPicker([], 0, QStartStage)

  /** `QuiescenseMovePicker::GetNewMoves`: as the main picker's, over the quiescence stages. */
  function QGetNewMoves(sm: seq<seq<Move>>, p: QPicker): (r: QPicker)
    requires QListsWf(sm) && p.pos <= |p.list|
    ensures r.pos == p.pos && r.pos <= |r.list| && r.stage >= p.stage
    ensures r.stage == p.stage ==> r == p
    ensures r.pos < |r.list| || r.stage == QEndStage
    decreases QEndStage - p.stage
  {
    if p.pos < |p.list| || p.stage == QEndStage then p
    else
      var s: QStage := p.stage + 1;
      if s == QEndStage then p.(stage := s)
      else QGetNewMoves(sm, QPicker(p.list + sm[s], p.pos, s))
  }

  /**
   * `QuiescenseMovePicker::GetNextMove`: the next move, or None once the
   * End stage is reached; in the Capture stage the largest remaining key is
   * selected first.
   */
  function QGetNextMove(sm: seq<seq<Move>>, p: QPicker): (r: (Option<Move>, QPicker))
    requires QListsWf(sm) && p.pos <= |p.list|
    ensures r.1.pos <= |r.1.list| && r.1.stage >= p.stage
    ensures r.0.Some? ==> r.1.stage > p.stage || (r.1.stage == p.stage && |r.1.list| - r.1.pos < |p.list| - p.pos)
    ensures r.0.Some? && r.1.stage == QCaptureStage ==>
              forall j :: r.1.pos <= j < |r.1.list| ==> r.0.value.info >= r.1.list[j].info
  {
    var q := QGetNewMoves(sm, p);
    if q.stage == QEndStage then (None, q)
    else
      var list := if q.stage == QCaptureStage then q.list[..q.pos] + Select(q.list[q.pos..]) else q.list;
      assert list[q.pos..] == if q.stage == QCaptureStage then Select(q.list[q.pos..]) else q.list[q.pos..];
      (Some(list[q.pos]), QPicker(list, q.pos + 1, q.stage))
  }

  function QDrain(sm: seq<seq<Move>>, p: QPicker): (r: seq<Move>)
    requires QListsWf(sm) && p.pos <= |p.list|
    decreases QEndStage - p.stage, |p.list| - p.pos
  {
    var (m, p') := QGetNextMove(sm, p);
    if m.None? then [] else [m.value] + QDrain(sm, p')
  }

  /** A quiescence stage's moves as they are handed out: captures by selection, the rest in list order. */
  function QKeep(s: QStage, ms: seq<Move>): seq<Move>
  {
    if s == QCaptureStage then SelectionOrder(ms) else ms
  }

  function QFuture(sm: seq<seq<Move>>, s: QStage): seq<Move>
    requires QListsWf(sm)
    decreases QEndStage - s
  {
    if s == QEndStage then [] else QKeep(s + 1, sm[s + 1]) + QFuture(sm, s + 1)
  }

  /**
   * The reachable states: the read position is inside the list, and a
   * picker that has not started or has ended has nothing unread. The moves
   * before the position, which the selection may have reordered, play no
   * further part.
   */
  predicate QInv(p: QPicker)
  {
    p.pos <= |p.list| && (p.stage == QStartStage || p.stage == QEndStage ==> p.pos == |p.list|)
  }

  function QPending(sm: seq<seq<Move>>, p: QPicker): seq<Move>
    requires QListsWf(sm) && QInv(p)
  {
    QKeep(p.stage, p.list[p.pos..]) + QFuture(sm, p.stage)
  }

  lemma {:induction false} QGetNewMovesPending(sm: seq<seq<Move>>, p: QPicker)
    requires QListsWf(sm) && QInv(p)
    ensures QInv(QGetNewMoves(sm, p)) && QPending(sm, QGetNewMoves(sm, p)) == QPending(sm, p)
    decreases QEndStage - p.stage
  {
    if p.pos < |p.list| || p.stage == QEndStage {
    } else {
      var s: QStage := p.stage + 1;
      assert p.list[p.pos..] == [];
      if s == QEndStage {
        assert QFuture(sm, s) == [];
      } else {
        var p' := QPicker(p.list + sm[s], p.pos, s);
        assert p'.list[p'.pos..] == sm[s];
        assert QPending(sm, p') == QPending(sm, p);
        QGetNewMovesPending(sm, p');
      }
    }
  }

  /** One call of the quiescence `GetNextMove` hands out the first pending move, or reports the end. */
  lemma QGetNextMovePending(sm: seq<seq<Move>>, p: QPicker)
    requires QListsWf(sm) && QInv(p)
    ensures QInv(QGetNextMove(sm, p).1)
    ensures QGetNextMove(sm, p).0.None? ==> QPending(sm, p) == []
    ensures QGetNextMove(sm, p).0.Some? ==>
              QPending(sm, p) == [QGetNextMove(sm, p).0.value] + QPending(sm, QGetNextMove(sm, p).1)
  {
    var q := QGetNewMoves(sm, p);
    QGetNewMovesPending(sm, p);
    if q.stage == QEndStage {
      assert q.list[q.pos..] == [];
    } else {
      var rest := q.list[q.pos..];
      var list := if q.stage == QCaptureStage then q.list[..q.pos] + Select(rest) else q.list;
      var head := if q.stage == QCaptureStage then Select(rest) else rest;
      assert list[q.pos..] == head;
      assert list[q.pos + 1..] == head[1..];
      assert QGetNextMove(sm, p) == (Some(head[0]), QPicker(list, q.pos + 1, q.stage));
      QTakeHead(q.stage, rest, QFuture(sm, q.stage));
    }
  }

  lemma QTakeHead(s: QStage, rest: seq<Move>, f: seq<Move>)
    requires |rest| > 0
    ensures var head := if s == QCaptureStage then Select(rest) else rest;
            QKeep(s, rest) + f == [head[0]] + (QKeep(s, head[1..]) + f)
  {
    assert rest == [rest[0]] + rest[1..];
  }

  lemma {:induction false} QDrainIsPending(sm: seq<seq<Move>>, p: QPicker)
    requires QListsWf(sm) && QInv(p)
    ensures QDrain(sm, p) == QPending(sm, p)
    decreases QEndStage - p.stage, |p.list| - p.pos
  {
    QGetNextMovePending(sm, p);
    var (m, p') := QGetNextMove(sm, p);
    if m.Some? {
      QDrainIsPending(sm, p');
    }
  }

  /**
   * `AnnotateByMVVLVA` and the stage lists of the quiescence picker: the
   * captures with their keys, the promotions, and the quiet moves only when
   * the side to move is in check.
   */
  function QStageLists(cells: seq<int>, captures: seq<Move>, promotions: seq<Move>, quiets: seq<Move>, inCheck: bool): (r: seq<seq<Move>>)
    requires CellsWf(cells) && AllOnBoard(captures)
    ensures QListsWf(r)
  {
    [[], AnnotateAll(cells, captures), promotions, if inCheck then quiets else [], []]
  }

  /** A fresh quiescence picker run to the end. */
  function QPickAll(cells: seq<int>, captures: seq<Move>, promotions: seq<Move>, quiets: seq<Move>, inCheck: bool): (r: seq<Move>)
    requires CellsWf(cells) && AllOnBoard(captures)
  {
    QDrain(QStageLists(cells, captures, promotions, quiets, inCheck), InitialQPicker)
  }

  /** A fresh quiescence picker hands out the capture stage by selection, then the other stages in order. */
  lemma QDrainOrder(sm: seq<seq<Move>>)
    requires QListsWf(sm)
    ensures QDrain(sm, InitialQPicker) == SelectionOrder(sm[QCaptureStage]) + (sm[QPromotionStage] + sm[QEvasionStage])
  {
    QDrainIsPending(sm, InitialQPicker);
    assert InitialQPicker.list[0..] == [];
    assert QFuture(sm, QEndStage) == [];
    assert QFuture(sm, QEvasionStage) == [] by {
      assert sm[QEndStage] == [];
    }
    assert QFuture(sm, QPromotionStage) == sm[QEvasionStage];
    assert QFuture(sm, QCaptureStage) == sm[QPromotionStage] + sm[QEvasionStage];
    assert QFuture(sm, QStartStage) == SelectionOrder(sm[QCaptureStage]) + (sm[QPromotionStage] + sm[QEvasionStage]);
  }

  /**
   * The quiescence picker hands out every capture, largest MVV-LVA key
   * first, then the promotions, then the quiet moves when in check.
   */
  lemma QuiescenceOrder(cells: seq<int>, captures: seq<Move>, promotions: seq<Move>, quiets: seq<Move>, inCheck: bool)
    requires CellsWf(cells) && AllOnBoard(captures)
    ensures var r := QPickAll(cells, captures, promotions, quiets, inCheck);
            var n := |captures|;
            |r| >= n
            && multiset(r[..n]) == multiset(AnnotateAll(cells, captures)) && SortedDesc(r[..n], InfoKey)
            && r[n..] == promotions + (if inCheck then quiets else [])
  {
    var sm := QStageLists(cells, captures, promotions, quiets, inCheck);
    QDrainOrder(sm);
    var c := SelectionOrder(sm[QCaptureStage]);
    var tail := promotions + (if inCheck then quiets else []);
    assert QPickAll(cells, captures, promotions, quiets, inCheck) == c + tail;
    assert |c| == |captures| by {
      assert |multiset(c)| == |c|;
      assert |multiset(sm[QCaptureStage])| == |sm[QCaptureStage]|;
    }
    assert (c + tail)[..|c|] == c;
    assert (c + tail)[|c|..] == tail;
  }
}

=== FILE: pawns.dfy ===
/**
 * The pawn cache: a direct-mapped table of 2^16 entries keyed by the top
 * 16 bits of the pawn-structure hash. An entry keeps the low 32 bits of the
 * hash to tell hits from other positions that share the key; 0 in those
 * bits marks an empty entry, so a hash whose low 32 bits are zero is never
 * found.
 */
module Pawns {
  import opened Wrappers
  import opened Score

  /** `SIZE_LOG`. */
  const SizeLog: nat := 16
  const CacheSize: nat := 0x1_0000

  const HashLimit: nat := 0x1_0000_0000_0000_0000

  datatype PawnEntry = PawnEntry(score: ScorePair, hashPart: nat)

  datatype PawnCache = PawnCache(data: seq<PawnEntry>)

  predicate Valid(c: PawnCache)
  {
    |c.data| == CacheSize
  }

  /** The constructor: every entry has its default hash part 0 (and a zero score). */
  function New(): (r: PawnCache)
    ensures Valid(r)
    ensures forall k :: 0 <= k < CacheSize ==> !IsEntryValid(r.data[k])
  {
    PawnCache(seq(CacheSize, _ => PawnEntry(ZeroPair, 0)))
  }

  /** `GetKeyFromHash`: the top 16 bits of the 64-bit hash. */
  function KeyFromHash(hash: nat): (r: nat)
    requires hash < HashLimit
    ensures r < CacheSize
  {
    hash / 0x1_0000_0000_0000
  }

  /** `GetHashPart`: the low 32 bits. */
  function HashPart(hash: nat): (r: nat)
    ensures r < 0x1_0000_0000
  {
    hash % 0x1_0000_0000
  }

  /** `IsPawnHashTableEntryValid`: a nonzero hash part. */
  predicate IsEntryValid(e: PawnEntry)
  {
    e.hashPart > 0
  }

  /** `Add`: the entry at the hash's key is overwritten, whatever it held, and the new entry is returned. */
  function Add(c: PawnCache, hash: nat, score: ScorePair): (r: (PawnCache, PawnEntry))
    requires Valid(c) && hash < HashLimit
    ensures Valid(r.0)
    ensures r.1 == PawnEntry(score, HashPart(hash)) && r.0.data[KeyFromHash(hash)] == r.1
    ensures forall k :: 0 <= k < CacheSize && k != KeyFromHash(hash) ==> r.0.data[k] == c.data[k]
  {
    var e := PawnEntry(score, HashPart(hash));
    (PawnCache(c.data[KeyFromHash(hash) := e]), e)
  }

  /** `Get`: the entry at the hash's key when it is valid and its hash part matches. */
  function Get(c: PawnCache, hash: nat): (r: Option<PawnEntry>)
    requires Valid(c) && hash < HashLimit
    ensures r.Some? <==> IsEntryValid(c.data[KeyFromHash(hash)]) && c.data[KeyFromHash(hash)].hashPart == HashPart(hash)
    ensures r.Some? ==> r.value == c.data[KeyFromHash(hash)] && r.value.hashPart == HashPart(hash)
  {
    var e := c.data[KeyFromHash(hash)];
    if !IsEntryValid(e) || e.hashPart != HashPart(hash) then None else Some(e)
  }

  /** After `Add`, `Get` of the same hash returns the stored score exactly when the hash's low 32 bits are nonzero. */
  lemma GetAfterAdd(c: PawnCache, hash: nat, score: ScorePair)
    requires Valid(c) && hash < HashLimit
    ensures HashPart(hash) != 0 ==> Get(Add(c, hash, score).0, hash) == Some(PawnEntry(score, HashPart(hash)))
    ensures HashPart(hash) == 0 ==> Get(Add(c, hash, score).0, hash) == None
  {
  }

  /** `Add` does not change what `Get` answers for a hash with another key. */
  lemma AddKeepsOtherKeys(c: PawnCache, hash: nat, score: ScorePair, other: nat)
    requires Valid(c) && hash < HashLimit && other < HashLimit
    requires KeyFromHash(other) != KeyFromHash(hash)
    ensures Get(Add(c, hash, score).0, other) == Get(c, other)
  {
  }

  /** A fresh cache finds nothing. */
  lemma NewFindsNothing(hash: nat)
    requires hash < HashLimit
    ensures Get(New(), hash) == None
  {
  }

  /**
   * Two hashes that agree in their top 16 and low 32 bits share an entry:
   * the cache answers for 1 + 2^32 with the score stored for 1.
   */
  lemma SharedEntry(score: ScorePair)
    ensures Get(Add(New(), 1, score).0, 1 + 0x1_0000_0000) == Some(PawnEntry(score, 1))
  {
    assert KeyFromHash(1 + 0x1_0000_0000) == KeyFromHash(1) == 0;
  }
}

=== FILE: psq.dfy ===
/**
 * Piece-square tables: one score pair per cell and square, laid out cell by
 * cell, built from a table for the six white pieces. A white cell's entry is
 * the table value plus the piece's cost; a black cell's entry, on the
 * vertically mirrored square, is the negation of that sum; the empty cell's
 * entries stay zero.
 */
module Psq {
  import opened Types
  import opened CoreUtil
  import opened Geometry
  import opened Score

  /** `PSQ_SIZE`: 64 squares for each of the 13 cells. */
  const PsqSize: nat := 64 * 13

  /** `GetPSQIndex`: the cell's block of 64 entries, then the square. */
  function PsqIndex(cell: int, coord: int): (r: nat)
    requires 0 <= cell < NumberOfCells && 0 <= coord < BoardSize
    ensures r < PsqSize
  {
    cell * BoardSize + coord
  }

  /** `GetCoordFromPSQIndex`. */
  function CoordFromPsqIndex(i: nat): (r: int)
    requires i < PsqSize
    ensures 0 <= r < BoardSize
  {
    i % BoardSize
  }

  /** `GetCellFromPSQIndex`. */
  function CellFromPsqIndex(i: nat): (r: int)
    requires i < PsqSize
    ensures 0 <= r < NumberOfCells
  {
    i / BoardSize
  }

  /** The index and its two readings are inverse, in both directions. */
  lemma PsqIndexRoundTrip(cell: int, coord: int, i: nat)
    requires 0 <= cell < NumberOfCells && 0 <= coord < BoardSize && i < PsqSize
    ensures CellFromPsqIndex(PsqIndex(cell, coord)) == cell
    ensures CoordFromPsqIndex(PsqIndex(cell, coord)) == coord
    ensures PsqIndex(CellFromPsqIndex(i), CoordFromPsqIndex(i)) == i
  {
  }

  /** `PIECE_COST`, indexed by piece minus one. */
  const PieceCost: seq<ScorePair> :=
    [ScorePair(100, 100), ScorePair(300, 300), ScorePair(300, 300), ScorePair(500, 500), ScorePair(900, 900), ZeroPair]

  /** The white piece's table value plus its cost. */
  function WhiteValue(psq: seq<ScorePair>, piece: int, coord: int): (r: ScorePair)
    requires |psq| == BoardSize * NumberOfPieces && IsPieceValid(piece) && 0 <= coord < BoardSize
  {
    Add(psq[(piece - 1) * BoardSize + coord], PieceCost[piece - 1])
  }

  /**
   * The entry the table is meant to hold for a cell and square: zero for
   * the empty cell, the white value for a white piece, and for a black
   * piece the negated white value of the mirrored square.
   */
  function Entry(psq: seq<ScorePair>, cell: int, coord: int): (r: ScorePair)
    requires |psq| == BoardSize * NumberOfPieces && 0 <= cell < NumberOfCells && 0 <= coord < BoardSize
  {
    if cell == EmptyCell then ZeroPair
    else if GetCellColor(cell) == White then WhiteValue(psq, GetCellPiece(cell), coord)
    else Neg(WhiteValue(psq, GetCellPiece(cell), FlipCoord(coord)))
  }

  /**
   * `GetPSQ`: a zeroed table, then for every cell other than the empty one
   * and every square, the white write at the square or the black write at
   * the mirrored square.
   */
  method GetPsq(psq: seq<ScorePair>) returns (res: seq<ScorePair>)
    requires |psq| == BoardSize * NumberOfPieces
    ensures |res| == PsqSize
    ensures forall cell, coord :: 0 <= cell < NumberOfCells && 0 <= coord < BoardSize ==>
              res[PsqIndex(cell, coord)] == Entry(psq, cell, coord)
  {
    res := seq(PsqSize, _ => ZeroPair);
    var cell := 0;
    while cell < NumberOfCells
      invariant 0 <= cell <= NumberOfCells && |res| == PsqSize
      invariant forall c, d :: 0 <= c < cell && 0 <= d < BoardSize ==> res[PsqIndex(c, d)] == Entry(psq, c, d)
      invariant forall c, d :: cell <= c < NumberOfCells && 0 <= d < BoardSize ==> res[PsqIndex(c, d)] == ZeroPair
    {
      if cell != EmptyCell {
        res := FillCell(psq, res, cell);
      }
      cell := cell + 1;
    }
  }

  /**
   * The inner loop of `GetPSQ` for one occupied cell: a white cell gets the
   * table value plus the piece's cost on each square, a black cell the
   * negated sum on the mirrored square. It writes that cell's 64 entries,
   * each with its reference value, and nothing else.
   */
  method FillCell(psq: seq<ScorePair>, table: seq<ScorePair>, cell: int) returns (res: seq<ScorePair>)
    requires |psq| == BoardSize * NumberOfPieces && |table| == PsqSize
    requires 0 < cell < NumberOfCells
    ensures |res| == PsqSize
    ensures forall d :: 0 <= d < BoardSize ==> res[PsqIndex(cell, d)] == Entry(psq, cell, d)
    ensures forall c, d :: 0 <= c < NumberOfCells && c != cell && 0 <= d < BoardSize ==> res[PsqIndex(c, d)] == table[PsqIndex(c, d)]
  {
    res := table;
    var white := GetCellColor(cell) == White;
    var piece := GetCellPiece(cell);
    var coord := 0;
    while coord < BoardSize
      invariant 0 <= coord <= BoardSize && |res| == PsqSize
      invariant white ==> forall d :: 0 <= d < coord ==> res[PsqIndex(cell, d)] == WhiteValue(psq, piece, d)
      invariant !white ==> forall d :: 0 <= d < coord ==> res[PsqIndex(cell, FlipCoord(d))] == Neg(WhiteValue(psq, piece, d))
      invariant forall j :: 0 <= j < PsqSize && j / BoardSize != cell ==> res[j] == table[j]
    {
      var value := Add(psq[(piece - 1) * BoardSize + coord], PieceCost[piece - 1]);
      if white {
        res := res[PsqIndex(cell, coord) := value];
      } else {
        res := res[PsqIndex(cell, FlipCoord(coord)) := Neg(value)];
      }
      coord := coord + 1;
    }
    forall d | 0 <= d < BoardSize
      ensures res[PsqIndex(cell, d)] == Entry(psq, cell, d)
    {
      if !white {
        FlipCoordInvolution(d);
        assert res[PsqIndex(cell, FlipCoord(FlipCoord(d)))] == Neg(WhiteValue(psq, piece, FlipCoord(d)));
      }
    }
  }

  /** A black piece's entry on the mirrored square is the negation of the white piece's entry. */
  lemma BlackMirrorsWhite(psq: seq<ScorePair>, piece: int, coord: int)
    requires |psq| == BoardSize * NumberOfPieces && IsPieceValid(piece) && 0 <= coord < BoardSize
    ensures Entry(psq, MakeCell(Black, piece), FlipCoord(coord)) == Neg(Entry(psq, MakeCell(White, piece), coord))
  {
  }
}

=== FILE: repetition_table.dfy ===
/**
 * The repetition table: an open-addressing set of position hashes with
 * linear probing. A hash lives in the first free slot at or after its
 * key (the hash's low bits), wrapping around; the value 0 marks a free
 * slot, so the hash 0 cannot be stored.
 *
 * The source's probe loops have no bound: they run until they meet the
 * slot they look for. Here a probe visits each slot at most once, and a
 * probe that would run forever is the precondition the source leaves to
 * its callers.
 */
module RepetitionTable {
  import opened Wrappers
  import opened Bits

  /** `ABSENT_VALUE`: the mark of a free slot. */
  const Absent: nat := 0

  /** `ENTRY_SIZE_LOG`: a slot is 8 = 2^3 bytes. */
  const EntrySizeLog: nat := 3

  datatype Table = Table(slots: seq<nat>)

  /**
   * A table has at least one slot. The constructor makes the count a power
   * of two, for which `hash & size_mask` is `hash % size`.
   */
  predicate IsSized(t: Table)
  {
    |t.slots| > 0
  }

  /** The home slot of a hash in a table of n slots. */
  function Key(n: nat, h: nat): (r: nat)
    requires n > 0
    ensures r < n
  {
    h % n
  }

  /** The slot k steps after `from`, wrapping at the end: `(i + 1) & size_mask` applied k times. */
  function Step(n: nat, from: nat, k: nat): (r: nat)
    requires from < n && k < n
    ensures r < n
  {
    if from + k < n then from + k else from + k - n
  }

  /** How many steps lead from `from` to `to`. */
  function Distance(n: nat, from: nat, to: nat): (r: nat)
    requires from < n && to < n
    ensures r < n && Step(n, from, r) == to
  {
    if to >= from then to - from else to + n - from
  }

  /** The slots from the key of the hash stored at i up to i are all occupied. */
  predicate Reachable(t: Table, i: nat)
    requires i < |t.slots|
  {
    var n := |t.slots|;
    var key := Key(n, t.slots[i]);
    forall k :: 0 <= k < Distance(n, key, i) ==> t.slots[Step(n, key, k)] != Absent
  }

  /** The table invariant: every stored hash can be found by probing from its key. */
  predicate Valid(t: Table)
  {
    IsSized(t) && forall i :: 0 <= i < |t.slots| && t.slots[i] != Absent ==> Reachable(t, i)
  }

  /** The constructor: 2^(byte_size_log - 3) free slots. */
  function New(byteSizeLog: nat): (r: Table)
    requires EntrySizeLog <= byteSizeLog < EntrySizeLog + 64
    ensures |r.slots| == Pow2(byteSizeLog - EntrySizeLog)
    ensures forall i :: 0 <= i < |r.slots| ==> r.slots[i] == Absent
    ensures Valid(r)
  {
    Table(seq(Pow2(byteSizeLog - EntrySizeLog), _ => Absent))
  }

  // -------------------------------------------------------------- probing

  /** The first step from the key, at k or later, whose slot is free or holds h (where `Insert` and `Has` stop). */
  function ProbeFrom(t: Table, h: nat, k: nat): (r: Option<nat>)
    requires IsSized(t)
    ensures r.Some? ==> k <= r.value < |t.slots|
    ensures r.Some? ==> var s := t.slots[Step(|t.slots|, Key(|t.slots|, h), r.value)]; s == Absent || s == h
    ensures forall j :: k <= j < |t.slots| && (r.None? || j < r.value) ==>
              t.slots[Step(|t.slots|, Key(|t.slots|, h), j)] != Absent
              && t.slots[Step(|t.slots|, Key(|t.slots|, h), j)] != h
    decreases |t.slots| - k
  {
    if k >= |t.slots| then None
    else
      var s := t.slots[Step(|t.slots|, Key(|t.slots|, h), k)];
      if s == Absent || s == h then Some(k) else ProbeFrom(t, h, k + 1)
  }

  /** The source's probe loops in `Insert` and `Has` end: some slot is free or holds h. */
  predicate ProbeEnds(t: Table, h: nat)
  {
    IsSized(t) && (Absent in t.slots || h in t.slots)
  }

  /** The probe stops exactly when the source's loop would end. */
  lemma ProbeStops(t: Table, h: nat)
    requires IsSized(t)
    ensures ProbeFrom(t, h, 0).Some? <==> ProbeEnds(t, h)
  {
    var n := |t.slots|;
    var key := Key(n, h);
    if ProbeFrom(t, h, 0).None? {
      forall i | 0 <= i < n ensures t.slots[i] != Absent && t.slots[i] != h {
        assert Step(n, key, Distance(n, key, i)) == i;
      }
    }
  }

  /** The slot where the probe of h stops. */
  function ProbeSlot(t: Table, h: nat): (r: nat)
    requires ProbeEnds(t, h)
    ensures r < |t.slots| && (t.slots[r] == Absent || t.slots[r] == h)
  {
    ProbeStops(t, h);
    Step(|t.slots|, Key(|t.slots|, h), ProbeFrom(t, h, 0).value)
  }

  // ------------------------------------------------------------ operations

  /** `Has`: probe from the key; a free slot means absent, h means present. */
  function Has(t: Table, h: nat): (r: bool)
    requires ProbeEnds(t, h)
    ensures r ==> h != Absent && h in t.slots
  {
    var p := ProbeSlot(t, h);
    t.slots[p] != Absent && t.slots[p] == h
  }

  /** `Insert`: store h in the first free slot of its probe, unless the probe meets h first. */
  function Insert(t: Table, h: nat): (r: (Table, bool))
    requires ProbeEnds(t, h)
    ensures |r.0.slots| == |t.slots|
    ensures r.1 ==> exists p :: 0 <= p < |t.slots| && t.slots[p] == Absent && r.0.slots == t.slots[p := h]
    ensures h != Absent && h !in t.slots ==> r.1
    ensures !r.1 ==> r.0 == t
    ensures h == Absent ==> r.0 == t
  {
    var p := ProbeSlot(t, h);
    if t.slots[p] == Absent then (Table(t.slots[p := h]), true)
    else (t, false)
  }

  /** The first step from the key, at k or later, whose slot holds h (where `Erase` stops). */
  function FindFrom(t: Table, h: nat, k: nat): (r: Option<nat>)
    requires IsSized(t)
    ensures r.Some? ==> k <= r.value < |t.slots| && t.slots[Step(|t.slots|, Key(|t.slots|, h), r.value)] == h
    ensures r.None? ==> forall j :: k <= j < |t.slots| ==> t.slots[Step(|t.slots|, Key(|t.slots|, h), j)] != h
    decreases |t.slots| - k
  {
    if k >= |t.slots| then None
    else if t.slots[Step(|t.slots|, Key(|t.slots|, h), k)] == h then Some(k)
    else FindFrom(t, h, k + 1)
  }

  /** A stored hash is met by the probe of `Erase`. */
  lemma FindStops(t: Table, h: nat)
    requires IsSized(t) && h in t.slots
    ensures FindFrom(t, h, 0).Some?
  {
    var n := |t.slots|;
    var i :| 0 <= i < n && t.slots[i] == h;
    assert Step(n, Key(n, h), Distance(n, Key(n, h), i)) == i;
  }

  /** `Erase`: free the first slot of the probe that holds h; its loop ends only if h is stored. */
  function Erase(t: Table, h: nat): (r: Table)
    requires IsSized(t) && h in t.slots
    ensures |r.slots| == |t.slots|
    ensures exists i :: 0 <= i < |t.slots| && t.slots[i] == h && r.slots == t.slots[i := Absent]
  {
    FindStops(t, h);
    var p := Step(|t.slots|, Key(|t.slots|, h), FindFrom(t, h, 0).value);
    Table(t.slots[p := Absent])
  }

  // ------------------------------------------------------------ properties

  /** Inserting keeps every stored hash reachable, the new one included. */
  lemma InsertKeepsValid(t: Table, h: nat)
    requires Valid(t) && ProbeEnds(t, h)
    ensures Valid(Insert(t, h).0)
  {
    var (t', ok) := Insert(t, h);
    var n := |t.slots|;
    if ok && h != Absent {
      ProbeStops(t, h);
      var key := Key(n, h);
      var k := ProbeFrom(t, h, 0).value;
      var p := Step(n, key, k);
      assert t'.slots == t.slots[p := h];
      forall i | 0 <= i < n && t'.slots[i] != Absent ensures Reachable(t', i) {
        if i == p {
          assert Distance(n, key, p) == k;
          forall j | 0 <= j < k ensures t'.slots[Step(n, key, j)] != Absent {
            assert t.slots[Step(n, key, j)] != Absent;
          }
        } else {
          assert Reachable(t, i);
        }
      }
    }
  }

  /** In a valid table, `Has` answers whether h is stored; the hash 0 is never there. */
  lemma HasIsMembership(t: Table, h: nat)
    requires Valid(t) && ProbeEnds(t, h)
    ensures Has(t, h) <==> h != Absent && h in t.slots
  {
    var n := |t.slots|;
    if h != Absent && h in t.slots {
      ProbeStops(t, h);
      var key := Key(n, h);
      var i :| 0 <= i < n && t.slots[i] == h;
      var d := Distance(n, key, i);
      assert Reachable(t, i);
      ProbeBound(t, h, d);
      var k := ProbeFrom(t, h, 0).value;
      if k < d {
        assert t.slots[Step(n, Key(n, t.slots[i]), k)] != Absent;
      }
    }
  }

  /** The probe stops no later than a step whose slot is free or holds h. */
  lemma ProbeBound(t: Table, h: nat, j: nat)
    requires IsSized(t) && j < |t.slots|
    requires t.slots[Step(|t.slots|, Key(|t.slots|, h), j)] == Absent || t.slots[Step(|t.slots|, Key(|t.slots|, h), j)] == h
    ensures ProbeFrom(t, h, 0).Some? && ProbeFrom(t, h, 0).value <= j
  {
  }

  /** After inserting h into a valid table, h is there. */
  lemma HasAfterInsert(t: Table, h: nat)
    requires Valid(t) && ProbeEnds(t, h) && h != Absent
    ensures ProbeEnds(Insert(t, h).0, h) && Has(Insert(t, h).0, h)
  {
    var t' := Insert(t, h).0;
    assert h in t'.slots by {
      if Insert(t, h).1 {
        var p :| 0 <= p < |t.slots| && t.slots[p] == Absent && t'.slots == t.slots[p := h];
        assert t'.slots[p] == h;
      } else {
        assert t' == t;
      }
    }
    InsertKeepsValid(t, h);
    HasIsMembership(t', h);
  }

  /** `Insert` reports a new hash exactly when `Has` did not find it. */
  lemma InsertReportsNew(t: Table, h: nat)
    requires Valid(t) && ProbeEnds(t, h) && h != Absent
    ensures Insert(t, h).1 <==> !Has(t, h)
  {
    HasIsMembership(t, h);
  }

  /** Erasing a hash just inserted gives back the table it was inserted into. */
  lemma EraseUndoesInsert(t: Table, h: nat)
    requires ProbeEnds(t, h) && h != Absent && h !in t.slots
    ensures h in Insert(t, h).0.slots
    ensures Erase(Insert(t, h).0, h) == t
  {
    ProbeStops(t, h);
    var n := |t.slots|;
    var key := Key(n, h);
    var k := ProbeFrom(t, h, 0).value;
    var p := Step(n, key, k);
    var t' := Insert(t, h).0;
    assert t'.slots == t.slots[p := h];
    FindFirstFrom(t', h, k, 0);
  }

  /** When slot k of the probe holds h and none before it does, `FindFrom` stops there. */
  lemma {:induction false} FindFirstFrom(t: Table, h: nat, k: nat, from: nat)
    requires IsSized(t) && from <= k < |t.slots| && t.slots[Step(|t.slots|, Key(|t.slots|, h), k)] == h
    requires forall j :: from <= j < k ==> t.slots[Step(|t.slots|, Key(|t.slots|, h), j)] != h
    ensures FindFrom(t, h, from) == Some(k)
    decreases k - from
  {
    if from < k {
      FindFirstFrom(t, h, k, from + 1);
    }
  }

  /**
   * Erasing out of insertion order can hide a hash: 2 and 4 share the key
   * of a two-slot table, 4 lands behind 2, and once 2 is erased the probe
   * for 4 stops at the freed slot.
   */
  lemma EraseOutOfOrderHides()
    ensures Insert(Table([0, 0]), 2) == (Table([2, 0]), true)
    ensures Insert(Table([2, 0]), 4) == (Table([2, 4]), true)
    ensures Erase(Table([2, 4]), 2) == Table([0, 4])
    ensures !Has(Table([0, 4]), 4)
  {
    assert ProbeFrom(Table([0, 0]), 2, 0) == Some(0);
    assert ProbeSlot(Table([0, 0]), 2) == 0;
    assert [0, 0][0 := 2] == [2, 0];
    assert ProbeFrom(Table([2, 0]), 4, 1) == Some(1);
    assert ProbeFrom(Table([2, 0]), 4, 0) == Some(1);
    assert ProbeSlot(Table([2, 0]), 4) == 1;
    assert [2, 0][1 := 4] == [2, 4];
    assert FindFrom(Table([2, 4]), 2, 0) == Some(0);
    assert ProbeFrom(Table([0, 4]), 4, 0) == Some(0);
  }
}

=== FILE: score.dfy ===
/**
 * Evaluation scores: the `int16_t` score with its bounds and mate
 * threshold, and the pair of middlegame and endgame scores the tables hold.
 */
module Score {
  /** `SCORE_MIN` and `SCORE_MAX`. */
  const ScoreMin: int := -30000
  const ScoreMax: int := 30000

  /** `SCORE_ALMOST_MATE`: scores beyond its magnitude announce a mate. */
  const ScoreAlmostMate: int := -25000

  /** `IsScoreMate`: the magnitude is above 25000. */
  function IsScoreMate(s: int): (r: bool)
    ensures r <==> s < ScoreAlmostMate || s > -ScoreAlmostMate
  {
    (if s < 0 then -s else s) > -ScoreAlmostMate
  }

  /** Mate scores are exactly those outside [-25000, 25000], and the property ignores the sign. */
  lemma MateIsSymmetric(s: int)
    ensures IsScoreMate(s) <==> (s < ScoreAlmostMate || s > -ScoreAlmostMate)
    ensures IsScoreMate(s) <==> IsScoreMate(-s)
  {
  }

  /**
   * A middlegame and an endgame score. `ScorePair` is not part of this
   * model's sources; it is taken to add and scale componentwise, with
   * unbounded components.
   */
  datatype ScorePair = ScorePair(mid: int, end: int)

  const ZeroPair: ScorePair := ScorePair(0, 0)

  function Add(a: ScorePair, b: ScorePair): (r: ScorePair)
  {
    ScorePair(a.mid + b.mid, a.end + b.end)
  }

  /** Multiplication by -1. */
  function Neg(a: ScorePair): (r: ScorePair)
    ensures Add(a, r) == ZeroPair
  {
    ScorePair(-a.mid, -a.end)
  }
}

=== FILE: strings.dfy ===
/**
 * The engine's string helpers: splitting on a delimiter, re-joining
 * pieces, recognising decimal numbers, and the decimal conversions
 * (`std::to_string`, `std::stoi`) the text formats rely on.
 */
module Strings {

  /** Index of the first occurrence of c in s at or after `from`, or |s| when there is none (`std::find`). */
  function Find<T(==)>(s: seq<T>, c: T, from: nat): (r: nat)
    requires from <= |s|
    ensures from <= r <= |s|
    ensures r < |s| ==> s[r] == c
    ensures forall j :: from <= j < r ==> s[j] != c
    decreases |s| - from
  {
    if from == |s| then |s|
    else if s[from] == c then from
    else Find(s, c, from + 1)
  }

  /** Number of occurrences of c in s. */
  function Count<T(==)>(s: seq<T>, c: T): (r: nat)
    ensures r <= |s|
  {
    if |s| == 0 then 0
    else (if s[0] == c then 1 else 0) + Count(s[1..], c)
  }

  /**
   * `SplitString`: the pieces between successive delimiters, always at
   * least one (the empty string splits into one empty piece).
   */
  function Split(s: string, delim: char): (r: seq<string>)
    ensures |r| >= 1
    decreases |s|
  {
    var i := Find(s, delim, 0);
    if i == |s| then [s]
    else [s[..i]] + Split(s[i + 1..], delim)
  }

  /** The pieces joined with one delimiter between consecutive pieces. */
  function Join(pieces: seq<string>, delim: char): string
  {
    if |pieces| == 0 then []
    else if |pieces| == 1 then pieces[0]
    else pieces[0] + [delim] + Join(pieces[1..], delim)
  }

  /** s does not contain c. */
  predicate Free(s: string, c: char)
  {
    forall j :: 0 <= j < |s| ==> s[j] != c
  }

  /** Counting distributes over concatenation. */
  lemma {:induction false} CountAppend(a: string, b: string, c: char)
    ensures Count(a + b, c) == Count(a, c) + Count(b, c)
    decreases |a|
  {
    if |a| == 0 {
      assert a + b == b;
    } else {
      assert (a + b)[1..] == a[1..] + b;
      CountAppend(a[1..], b, c);
    }
  }

  /** A string free of c counts no c. */
  lemma {:induction false} CountFree(s: string, c: char)
    requires Free(s, c)
    ensures Count(s, c) == 0
    decreases |s|
  {
    if |s| > 0 {
      CountFree(s[1..], c);
    }
  }

  /** Splitting yields one more piece than there are delimiters, and no piece holds one. */
  lemma {:induction false} SplitPieces(s: string, delim: char)
    ensures |Split(s, delim)| == Count(s, delim) + 1
    ensures forall k :: 0 <= k < |Split(s, delim)| ==> Free(Split(s, delim)[k], delim)
    decreases |s|
  {
    var i := Find(s, delim, 0);
    if i == |s| {
      CountFree(s, delim);
    } else {
      var rest := s[i + 1..];
      SplitPieces(rest, delim);
      assert s == s[..i] + [delim] + rest;
      CountFree(s[..i], delim);
      CountAppend(s[..i] + [delim], rest, delim);
      CountAppend(s[..i], [delim], delim);
      var r := Split(s, delim);
      assert r == [s[..i]] + Split(rest, delim);
      forall k | 0 <= k < |r| ensures Free(r[k], delim) {
        if k > 0 {
          assert r[k] == Split(rest, delim)[k - 1];
        }
      }
    }
  }

  /** Joining the pieces of a split gives back the string. */
  lemma {:induction false} JoinSplit(s: string, delim: char)
    ensures Join(Split(s, delim), delim) == s
    decreases |s|
  {
    var i := Find(s, delim, 0);
    if i == |s| {
      assert Split(s, delim) == [s];
    } else {
      var rest := s[i + 1..];
      calc {
        Join(Split(s, delim), delim);
      == { SplitCons(s, delim, i); }
        Join([s[..i]] + Split(rest, delim), delim);
      == { JoinCons(s[..i], Split(rest, delim), delim); }
        s[..i] + [delim] + Join(Split(rest, delim), delim);
      == { JoinSplit(rest, delim); }
        s[..i] + [delim] + rest;
      == { assert s == s[..i] + [delim] + rest; }
        s;
      }
    }
  }

  /** Up to the first delimiter is the first piece; the rest splits on its own. */
  lemma SplitCons(s: string, delim: char, i: nat)
    requires i == Find(s, delim, 0) < |s|
    ensures Split(s, delim) == [s[..i]] + Split(s[i + 1..], delim)
  {
  }

  /** A join of a head and a non-empty tail puts one delimiter between them. */
  lemma JoinCons(head: string, tail: seq<string>, delim: char)
    requires |tail| >= 1
    ensures Join([head] + tail, delim) == head + [delim] + Join(tail, delim)
  {
    assert ([head] + tail)[1..] == tail;
  }

  /** Splitting a join of delimiter-free pieces gives back the pieces. */
  lemma {:induction false} SplitJoin(pieces: seq<string>, delim: char)
    requires |pieces| >= 1
    requires forall k :: 0 <= k < |pieces| ==> Free(pieces[k], delim)
    ensures Split(Join(pieces, delim), delim) == pieces
    decreases |pieces|
  {
    var p := pieces[0];
    if |pieces| == 1 {
      assert Find(p, delim, 0) == |p|;
    } else {
      var tail := Join(pieces[1..], delim);
      var s := p + [delim] + tail;
      assert Join(pieces, delim) == s;
      FindAfterFree(p, delim, tail);
      assert s[..|p|] == p && s[|p| + 1..] == tail;
      SplitJoin(pieces[1..], delim);
      assert pieces == [p] + pieces[1..];
    }
  }

  /** The first delimiter of p + [delim] + t is the one right after p, when p has none. */
  lemma FindAfterFree(p: string, delim: char, t: string)
    requires Free(p, delim)
    ensures Find(p + [delim] + t, delim, 0) == |p|
  {
    var s := p + [delim] + t;
    assert s[|p|] == delim;
    assert forall j :: 0 <= j < |p| ==> s[j] == p[j];
  }

  /**
   * `ConcatenateStrings` as written: the running result gets a delimiter
   * before each piece only once it is non-empty.
   */
  function Concatenate(pieces: seq<string>, delim: char): (r: string)
    ensures forall k :: 0 <= k < |pieces| && pieces[k] != [] ==> |r| >= |pieces[k]|
  {
    ConcatFrom([], pieces, delim)
  }

  /** The loop of `ConcatenateStrings`, continued from the running result `acc`. */
  function ConcatFrom(acc: string, pieces: seq<string>, delim: char): (r: string)
    ensures |r| >= |acc|
    ensures forall k :: 0 <= k < |pieces| && pieces[k] != [] ==> |r| >= |pieces[k]|
    decreases |pieces|
  {
    if |pieces| == 0 then acc
    else
      var next := (if acc != [] then acc + [delim] else acc) + pieces[0];
      var r := ConcatFrom(next, pieces[1..], delim);
      assert forall k :: 1 <= k < |pieces| ==> pieces[k] == pieces[1..][k - 1];
      r
  }

  /** The pieces after the leading run of empty pieces. */
  function DropLeadingEmpty(pieces: seq<string>): (r: seq<string>)
    ensures |r| <= |pieces|
    ensures r == pieces[|pieces| - |r|..]
    ensures |r| > 0 ==> r[0] != []
    ensures forall k :: 0 <= k < |pieces| - |r| ==> pieces[k] == []
  {
    if |pieces| == 0 then []
    else if pieces[0] == [] then DropLeadingEmpty(pieces[1..])
    else pieces
  }

  /** Continuing the concatenation from a non-empty result appends a delimiter and a join. */
  lemma {:induction false} ConcatFromNonEmpty(acc: string, pieces: seq<string>, delim: char)
    requires acc != []
    ensures ConcatFrom(acc, pieces, delim) == if |pieces| == 0 then acc else acc + [delim] + Join(pieces, delim)
    decreases |pieces|
  {
    if |pieces| > 0 {
      var next := acc + [delim] + pieces[0];
      ConcatFromNonEmpty(next, pieces[1..], delim);
      if |pieces| > 1 {
        assert next + [delim] + Join(pieces[1..], delim) == acc + [delim] + Join(pieces, delim);
      }
    }
  }

  /**
   * `ConcatenateStrings` drops the leading empty pieces and joins the rest;
   * in particular it is `Join` when the first piece is non-empty.
   */
  lemma {:induction false} ConcatenateIsJoin(pieces: seq<string>, delim: char)
    ensures Concatenate(pieces, delim) == Join(DropLeadingEmpty(pieces), delim)
    ensures |pieces| > 0 && pieces[0] != [] ==> Concatenate(pieces, delim) == Join(pieces, delim)
    decreases |pieces|
  {
    if |pieces| > 0 {
      if pieces[0] == [] {
        assert ConcatFrom([], pieces, delim) == ConcatFrom([], pieces[1..], delim);
        ConcatenateIsJoin(pieces[1..], delim);
      } else {
        assert [] + pieces[0] == pieces[0];
        assert ConcatFrom([], pieces, delim) == ConcatFrom(pieces[0], pieces[1..], delim);
        ConcatFromNonEmpty(pieces[0], pieces[1..], delim);
        if |pieces| > 1 {
          assert Join(pieces, delim) == pieces[0] + [delim] + Join(pieces[1..], delim);
        }
      }
    }
  }

  // ------------------------------------------------------------- numbers

  /** `std::isdigit`. */
  predicate IsDigit(c: char)
  {
    '0' <= c <= '9'
  }

  /** Index of the first non-digit of s at or after `from`, or |s| (the `std::find_if` scan). */
  function FindNonDigit(s: string, from: nat): (r: nat)
    requires from <= |s|
    ensures from <= r <= |s|
    ensures r < |s| ==> !IsDigit(s[r])
    ensures forall j :: from <= j < r ==> IsDigit(s[j])
    decreases |s| - from
  {
    if from == |s| then |s|
    else if !IsDigit(s[from]) then from
    else FindNonDigit(s, from + 1)
  }

  /** Every character of s from position `from` on is a digit. */
  predicate DigitsFrom(s: string, from: nat)
  {
    forall j :: from <= j < |s| ==> IsDigit(s[j])
  }

  /** `IsStringNonNegativeNumber`: non-empty and all digits. */
  function IsNonNegativeNumber(s: string): (r: bool)
    ensures r <==> |s| > 0 && DigitsFrom(s, 0)
  {
    |s| > 0 && FindNonDigit(s, 0) == |s|
  }

  /** `IsStringNumber`: non-empty, and all digits after an optional leading '-' (so "-" alone passes). */
  function IsNumber(s: string): (r: bool)
    ensures r <==> |s| > 0 && DigitsFrom(s, if s[0] == '-' then 1 else 0)
    ensures |s| > 0 && s[0] != '-' ==> (r <==> IsNonNegativeNumber(s))
  {
    |s| > 0 && FindNonDigit(s, if s[0] == '-' then 1 else 0) == |s|
  }

  /** The value of a digit character. */
  function DigitValue(c: char): (r: nat)
    requires IsDigit(c)
    ensures r < 10
  {
    (c as int - '0' as int)
  }

  /** The digit character of a value below 10. */
  function DigitChar(d: nat): (c: char)
    requires d < 10
    ensures IsDigit(c) && DigitValue(c) == d
  {
    (d + '0' as int) as char
  }

  /** The decimal value of a string of digits (`std::stoi` / `std::stoll` on such a string). */
  function ParseNat(s: string): (r: nat)
    requires DigitsFrom(s, 0)
    decreases |s|
  {
    if |s| == 0 then 0
    else ParseNat(s[..|s| - 1]) * 10 + DigitValue(s[|s| - 1])
  }

  /** `std::to_string` of a non-negative number: its shortest decimal spelling. */
  function NatToString(n: nat): (r: string)
    ensures |r| > 0 && DigitsFrom(r, 0)
    ensures r[0] == '0' ==> n == 0
    decreases n
  {
    if n < 10 then [DigitChar(n)]
    else NatToString(n / 10) + [DigitChar(n % 10)]
  }

  /** Parsing what `NatToString` prints gives back the number. */
  lemma {:induction false} ParseNatToString(n: nat)
    ensures IsNonNegativeNumber(NatToString(n))
    ensures ParseNat(NatToString(n)) == n
    decreases n
  {
    var s := NatToString(n);
    if n >= 10 {
      ParseNatToString(n / 10);
      assert s[..|s| - 1] == NatToString(n / 10);
    }
  }

  /** Printing the value of a canonical digit string (no superfluous leading zero) gives it back. */
  lemma {:induction false} NatToStringParse(s: string)
    requires |s| > 0 && DigitsFrom(s, 0)
    requires s[0] == '0' ==> |s| == 1
    ensures NatToString(ParseNat(s)) == s
    decreases |s|
  {
    if |s| > 1 {
      var init := s[..|s| - 1];
      NatToStringParse(init);
      ParseNatPositive(init);
      assert s == init + [s[|s| - 1]];
    }
  }

  /** A digit string that does not start with '0' has a positive value. */
  lemma {:induction false} ParseNatPositive(s: string)
    requires |s| > 0 && DigitsFrom(s, 0) && s[0] != '0'
    ensures ParseNat(s) > 0
    decreases |s|
  {
    if |s| > 1 {
      ParseNatPositive(s[..|s| - 1]);
    }
  }
}

=== FILE: transposition_table.dfy ===
/**
 * The transposition table: clusters of three entries, one cluster per key
 * (the low bits of the position hash). An entry keeps the high 32 bits of
 * the hash in two 16-bit halves, the best move, score, depth and a flags
 * byte holding the search generation, the node type and the PV bit.
 *
 * A lookup finds the entry whose stored 32 bits match, or else offers the
 * least important entry of the cluster for replacement; a store replaces
 * an entry only by a more important one. Importance is the depth less a
 * quarter of how many generations old the entry is.
 *
 * The generation is kept as a byte whose low three bits are zero: the flags
 * byte is the generation with the node type in bits 1-2 and the PV flag in
 * bit 0, and every new position adds 8.
 */
module TranspositionTable {
  import opened Bits

  /** `CLUSTER_ENTRY_COUNT`. */
  const ClusterEntryCount: nat := 3

  /** A cluster is three 10-byte entries and 2 bytes of padding: 32 = 2^5 bytes. */
  const ClusterSizeLog: nat := 5

  /** The flag bits below the generation: `1 << GENERATION_BIT_COUNT` is one generation step. */
  const GenerationBitCount: nat := 3
  const GenerationStep: nat := 8

  datatype NodeType = ExactValue | LowerBound | UpperBound | Invalid

  /** The two-bit code of a node type. */
  function NodeTypeCode(t: NodeType): (r: nat)
    ensures r < 4
  {
    match t
    case ExactValue => 0
    case LowerBound => 1
    case UpperBound => 2
    case Invalid => 3
  }

  /** The node type of a two-bit code. */
  function NodeTypeOfCode(c: nat): (r: NodeType)
    requires c < 4
    ensures NodeTypeCode(r) == c
  {
    if c == 0 then ExactValue else if c == 1 then LowerBound else if c == 2 then UpperBound else Invalid
  }

  /** A generation: a byte with its three low bits clear. */
  predicate IsGeneration(g: nat)
  {
    g < 0x100 && g % GenerationStep == 0
  }

  datatype EntryInfo = EntryInfo(generation: nat, nodeType: NodeType, isPv: bool)

  /** The flags byte of an entry. */
  function InfoByte(i: EntryInfo): (r: nat)
    requires IsGeneration(i.generation)
    ensures r < 0x100
  {
    i.generation + NodeTypeCode(i.nodeType) * 2 + (if i.isPv then 1 else 0)
  }

  /** Reading the flags byte back: `IsPV` is bit 0, `GetNodeType` bits 1-2, the generation the rest. */
  function InfoOfByte(d: nat): (r: EntryInfo)
    requires d < 0x100
    ensures IsGeneration(r.generation)
  {
    EntryInfo(d / GenerationStep * GenerationStep, NodeTypeOfCode(d / 2 % 4), d % 2 == 1)
  }

  /** The flags byte and its reading are inverse. */
  lemma InfoRoundTrip(i: EntryInfo, d: nat)
    requires IsGeneration(i.generation) && d < 0x100
    ensures InfoOfByte(InfoByte(i)) == i
    ensures InfoByte(InfoOfByte(d)) == d
  {
    var c := NodeTypeCode(i.nodeType);
    var b := InfoByte(i);
    assert b / GenerationStep == i.generation / GenerationStep;
    assert b / 2 % 4 == c;
    assert NodeTypeOfCode(c) == i.nodeType by {
      match i.nodeType
      case ExactValue =>
      case LowerBound =>
      case UpperBound =>
      case Invalid =>
    }
  }

  /** An entry: the stored hash halves, the result of the search and its flags. */
  datatype Entry = Entry(hashLow: nat, hashHigh: nat, score: int, move: nat, depth: nat, info: EntryInfo)

  predicate EntryWf(e: Entry)
  {
    e.hashLow < 0x1_0000 && e.hashHigh < 0x1_0000 && e.depth < 0x100 && IsGeneration(e.info.generation)
  }

  /** The 32 stored hash bits: `hash_low + (hash_high << 16)`. */
  function EntryHash(e: Entry): (r: nat)
    requires EntryWf(e)
    ensures r < 0x1_0000_0000
  {
    e.hashLow + e.hashHigh * 0x1_0000
  }

  datatype Table = Table(clusters: seq<seq<Entry>>, generation: nat, sizeLog: nat)

  predicate ClusterWf(c: seq<Entry>)
  {
    |c| == ClusterEntryCount && forall i :: 0 <= i < |c| ==> EntryWf(c[i])
  }

  predicate Valid(t: Table)
  {
    t.sizeLog < 64 && |t.clusters| == Pow2(t.sizeLog) && IsGeneration(t.generation)
    && forall k :: 0 <= k < |t.clusters| ==> ClusterWf(t.clusters[k])
  }

  /**
   * Clusters a fresh allocation of 2^(byte_size_log - 5) may hold: the
   * allocation does not initialise them, so any well-formed contents.
   */
  predicate FreshClusters(byteSizeLog: nat, contents: seq<seq<Entry>>)
    requires ClusterSizeLog <= byteSizeLog
  {
    |contents| == Pow2(byteSizeLog - ClusterSizeLog) && forall k :: 0 <= k < |contents| ==> ClusterWf(contents[k])
  }

  /**
   * The constructor: 2^(byte_size_log - 5) clusters, keyed by as many low
   * hash bits, and generation 0. The clusters' contents are whatever the
   * allocation left, given as `contents`.
   */
  function New(byteSizeLog: nat, contents: seq<seq<Entry>>): (r: Table)
    requires ClusterSizeLog <= byteSizeLog < ClusterSizeLog + 64 && FreshClusters(byteSizeLog, contents)
    ensures Valid(r) && r.generation == 0
    ensures |r.clusters| == Pow2(byteSizeLog - ClusterSizeLog)
    ensures forall hash :: KeyHash(hash, r.sizeLog) < |r.clusters|
  {
    Table(contents, 0, byteSizeLog - ClusterSizeLog)
  }

  // ----------------------------------------------------------------- hashes

  /** `GetKeyHash`: the low `size_log` bits of the hash select the cluster. */
  function KeyHash(hash: nat, sizeLog: nat): (r: nat)
    ensures r < Pow2(sizeLog)
  {
    hash % Pow2(sizeLog)
  }

  /** `GetValueHash`: the high 32 bits of the 64-bit hash. */
  function ValueHash(hash: nat): (r: nat)
    requires hash < 0x1_0000_0000_0000_0000
    ensures r < 0x1_0000_0000
    ensures hash == r * 0x1_0000_0000 + hash % 0x1_0000_0000
  {
    hash / 0x1_0000_0000
  }

  /** The byte difference `cur_generation - GetGeneration()`: how far the entry's generation lags, modulo 256. */
  function GenerationDiff(cur: nat, g: nat): (r: nat)
    requires IsGeneration(cur) && IsGeneration(g)
    ensures r < 0x100 && r % GenerationStep == 0
    ensures cur >= g ==> r == cur - g
  {
    (cur - g) % 0x100
  }

  /** `GetEntryImportance`: the depth less a quarter of the generation difference. */
  function Importance(e: Entry, cur: nat): (r: int)
    requires EntryWf(e) && IsGeneration(cur)
    ensures r <= e.depth && r > e.depth - 64
    ensures e.info.generation == cur ==> r == e.depth
  {
    e.depth - GenerationDiff(cur, e.info.generation) / 4
  }

  /** An entry stored k positions ago, k < 32, has lost two points of importance per position. */
  lemma ImportanceAfterPositions(e: Entry, g: nat, k: nat)
    requires EntryWf(e) && IsGeneration(g) && e.info.generation == g && k < 0x100 / GenerationStep
    ensures IsGeneration(AdvanceGeneration(g, k))
    ensures Importance(e, AdvanceGeneration(g, k)) == e.depth - 2 * k
  {
    AdvanceGenerationWraps(g, k);
    var cur := AdvanceGeneration(g, k);
    LagAfterSteps(g, k, cur);
  }

  /** Fewer than 32 steps after g, the generation lags g by exactly those steps. */
  lemma LagAfterSteps(g: nat, k: nat, cur: nat)
    requires g < 0x100 && k < 0x100 / GenerationStep && cur == (g + GenerationStep * k) % 0x100
    ensures (cur - g) % 0x100 == GenerationStep * k
  {
    if g + GenerationStep * k < 0x100 {
      assert cur == g + GenerationStep * k;
    } else {
      assert cur == g + GenerationStep * k - 0x100;
    }
  }

  /** One `NextPosition` step of the generation counter, an 8-bit value that wraps. */
  function StepGeneration(g: nat): (r: nat)
    requires IsGeneration(g)
    ensures IsGeneration(r)
    ensures r == 0 <==> g == 0x100 - GenerationStep
  {
    (g + GenerationStep) % 0x100
  }

  /** The generation after k calls of `NextPosition`. */
  function AdvanceGeneration(g: nat, k: nat): (r: nat)
    requires IsGeneration(g)
    ensures IsGeneration(r)
  {
    if k == 0 then g else StepGeneration(AdvanceGeneration(g, k - 1))
  }

  /** k generation steps add k times the step, modulo the byte. */
  lemma {:induction false} AdvanceGenerationWraps(g: nat, k: nat)
    requires IsGeneration(g)
    ensures AdvanceGeneration(g, k) == (g + GenerationStep * k) % 0x100
  {
    if k > 0 {
      AdvanceGenerationWraps(g, k - 1);
      var x := g + GenerationStep * (k - 1);
      ByteAddStep(x, x / 0x100, x % 0x100);
    }
  }

  /** Adding the step after reducing to a byte is adding it before. */
  lemma ByteAddStep(x: nat, q: nat, low: nat)
    requires x == 0x100 * q + low && low < 0x100
    ensures (low + GenerationStep) % 0x100 == (x + GenerationStep) % 0x100
  {
    var y := x + GenerationStep;
    assert y == 0x100 * q + (low + GenerationStep);
  }

  /** `NextPosition`: one generation step, wrapping in the byte. */
  function NextPosition(t: Table): (r: Table)
    requires Valid(t)
    ensures Valid(r) && r.clusters == t.clusters
    ensures r.generation == AdvanceGeneration(t.generation, 1)
  {
    t.(generation := (t.generation + GenerationStep) % 0x100)
  }

  /** `NextGame`: the generation starts again at 0. */
  function NextGame(t: Table): (r: Table)
    requires Valid(t)
    ensures Valid(r) && r.clusters == t.clusters && r.generation == 0
  {
    t.(generation := 0)
  }

  // ----------------------------------------------------------------- lookup

  /** The first entry of the cluster from i on whose stored hash is vh. */
  function FindFrom(c: seq<Entry>, vh: nat, i: nat): (r: nat)
    requires ClusterWf(c) && i <= |c|
    ensures i <= r <= |c|
    ensures r < |c| ==> EntryHash(c[r]) == vh
    ensures forall j :: i <= j < r ==> EntryHash(c[j]) != vh
    decreases |c| - i
  {
    if i == |c| then |c|
    else if EntryHash(c[i]) == vh then i
    else FindFrom(c, vh, i + 1)
  }

  /** The replacement scan as written: move to entry i when the current choice is strictly more important. */
  function LeastImportantFrom(c: seq<Entry>, cur: nat, best: nat, i: nat): (r: nat)
    requires ClusterWf(c) && IsGeneration(cur) && best < i <= |c|
    requires forall j :: 0 <= j < i ==> Importance(c[best], cur) <= Importance(c[j], cur)
    requires forall j :: 0 <= j < best ==> Importance(c[best], cur) < Importance(c[j], cur)
    ensures r < |c|
    ensures forall j :: 0 <= j < |c| ==> Importance(c[r], cur) <= Importance(c[j], cur)
    ensures forall j :: 0 <= j < r ==> Importance(c[r], cur) < Importance(c[j], cur)
    decreases |c| - i
  {
    if i == |c| then best
    else if Importance(c[best], cur) > Importance(c[i], cur) then LeastImportantFrom(c, cur, i, i + 1)
    else LeastImportantFrom(c, cur, best, i + 1)
  }

  /** The outcome of `GetEntry`: whether the hash was found, and the cluster and entry it designates. */
  datatype Slot = Slot(found: bool, key: nat, index: nat)

  /**
   * `GetEntry`: the first entry of the hash's cluster storing its value
   * hash, or, when none does, the first of the least important entries.
   */
  function GetEntry(t: Table, hash: nat): (r: Slot)
    requires Valid(t) && hash < 0x1_0000_0000_0000_0000
    ensures r.key == KeyHash(hash, t.sizeLog) && r.key < |t.clusters| && r.index < ClusterEntryCount
    ensures var c := t.clusters[r.key];
            && (r.found <==> exists j :: 0 <= j < |c| && EntryHash(c[j]) == ValueHash(hash))
            && (r.found ==> EntryHash(c[r.index]) == ValueHash(hash)
                            && forall j :: 0 <= j < r.index ==> EntryHash(c[j]) != ValueHash(hash))
            && (!r.found ==> forall j :: 0 <= j < |c| ==> Importance(c[r.index], t.generation) <= Importance(c[j], t.generation))
            && (!r.found ==> forall j :: 0 <= j < r.index ==> Importance(c[r.index], t.generation) < Importance(c[j], t.generation))
  {
    var key := KeyHash(hash, t.sizeLog);
    var c := t.clusters[key];
    var i := FindFrom(c, ValueHash(hash), 0);
    if i < |c| then Slot(true, key, i)
    else Slot(false, key, LeastImportantFrom(c, t.generation, 0, 1))
  }

  // ------------------------------------------------------------------ store

  /** The entry `Store` builds: the value hash in two halves, and the flags of the current generation. */
  function MakeEntry(t: Table, hash: nat, move: nat, score: int, depth: nat, nodeType: NodeType, isPv: bool): (r: Entry)
    requires Valid(t) && hash < 0x1_0000_0000_0000_0000 && depth < 0x100
    ensures EntryWf(r) && EntryHash(r) == ValueHash(hash)
    ensures r.depth == depth && r.info == EntryInfo(t.generation, nodeType, isPv)
    ensures Importance(r, t.generation) == depth
  {
    var vh := ValueHash(hash);
    Entry(vh % 0x1_0000, vh / 0x1_0000, score, move, depth, EntryInfo(t.generation, nodeType, isPv))
  }

  /** `Store`: the entry at the slot is replaced by the new one only when the new one is strictly more important. */
  function Store(t: Table, s: Slot, hash: nat, move: nat, score: int, depth: nat, nodeType: NodeType, isPv: bool): (r: Table)
    requires Valid(t) && hash < 0x1_0000_0000_0000_0000 && depth < 0x100
    requires s.key < |t.clusters| && s.index < ClusterEntryCount
    ensures Valid(r) && r.generation == t.generation && r.sizeLog == t.sizeLog
    ensures |r.clusters| == |t.clusters|
    ensures forall k :: 0 <= k < |t.clusters| && k != s.key ==> r.clusters[k] == t.clusters[k]
    ensures forall j :: 0 <= j < ClusterEntryCount && j != s.index ==> r.clusters[s.key][j] == t.clusters[s.key][j]
    ensures var old_ := t.clusters[s.key][s.index];
            r.clusters[s.key][s.index] ==
              if depth > Importance(old_, t.generation) then MakeEntry(t, hash, move, score, depth, nodeType, isPv) else old_
  {
    var e := MakeEntry(t, hash, move, score, depth, nodeType, isPv);
    var c := t.clusters[s.key];
    if Importance(e, t.generation) > Importance(c[s.index], t.generation) then
      t.(clusters := t.clusters[s.key := c[s.index := e]])
    else t
  }

  /**
   * A lookup that missed, followed by a store of greater importance into
   * the slot it offered, makes the next lookup find the stored entry there.
   */
  lemma StoreThenFind(t: Table, hash: nat, move: nat, score: int, depth: nat, nodeType: NodeType, isPv: bool)
    requires Valid(t) && hash < 0x1_0000_0000_0000_0000 && depth < 0x100
    requires !GetEntry(t, hash).found
    requires depth > Importance(t.clusters[GetEntry(t, hash).key][GetEntry(t, hash).index], t.generation)
    ensures var s := GetEntry(t, hash);
            var t' := Store(t, s, hash, move, score, depth, nodeType, isPv);
            GetEntry(t', hash) == Slot(true, s.key, s.index)
            && t'.clusters[s.key][s.index] == MakeEntry(t, hash, move, score, depth, nodeType, isPv)
  {
    var s := GetEntry(t, hash);
    var t' := Store(t, s, hash, move, score, depth, nodeType, isPv);
    var c := t.clusters[s.key];
    var c' := t'.clusters[s.key];
    assert forall j :: 0 <= j < |c| ==> EntryHash(c[j]) != ValueHash(hash);
    assert forall j :: 0 <= j < s.index ==> c'[j] == c[j];
    var r := GetEntry(t', hash);
    assert r.found;
  }

  // ---------------------------------------------------------------- resizing

  /**
   * `Clear`: the storage is released and the generation starts again at 0;
   * the size exponent stays. No cluster is left, so the table is not valid
   * to probe until it is resized.
   */
  function Clear(t: Table): (r: Table)
    ensures |r.clusters| == 0 && r.generation == 0 && r.sizeLog == t.sizeLog
    ensures !Valid(r)
  {
    t.(clusters := [], generation := 0)
  }

  /**
   * `ClearAndResize` as written: fresh clusters for the new size and
   * generation 0, but the size exponent the key hash uses is left as it was.
   */
  function ClearAndResizeAsWritten(t: Table, newByteSizeLog: nat, contents: seq<seq<Entry>>): (r: Table)
    requires ClusterSizeLog <= newByteSizeLog < ClusterSizeLog + 64 && FreshClusters(newByteSizeLog, contents)
    ensures |r.clusters| == Pow2(newByteSizeLog - ClusterSizeLog) && r.generation == 0
    ensures r.sizeLog == t.sizeLog
  {
    New(newByteSizeLog, contents).(sizeLog := t.sizeLog)
  }

  /**
   * Shrinking a two-cluster table to one cluster, whatever the clusters
   * hold, leaves hash 1 keyed to a cluster that no longer exists.
   */
  lemma ClearAndResizeShrinkAsWritten(t: Table, contents: seq<seq<Entry>>)
    requires Valid(t) && t.sizeLog == 1 && FreshClusters(ClusterSizeLog, contents)
    ensures var r := ClearAndResizeAsWritten(t, ClusterSizeLog, contents);
            |r.clusters| == 1 && KeyHash(1, r.sizeLog) == 1 && !Valid(r)
  {
    Pow2Values();
    var r := ClearAndResizeAsWritten(t, ClusterSizeLog, contents);
    assert KeyHash(1, r.sizeLog) == 1 % Pow2(1);
  }

  /** `ClearAndResize` corrected: the table is exactly a new table of the requested size. */
  function ClearAndResize(t: Table, newByteSizeLog: nat, contents: seq<seq<Entry>>): (r: Table)
    requires ClusterSizeLog <= newByteSizeLog < ClusterSizeLog + 64 && FreshClusters(newByteSizeLog, contents)
    ensures Valid(r) && r.generation == 0
    ensures |r.clusters| == Pow2(newByteSizeLog - ClusterSizeLog)
    ensures forall hash :: KeyHash(hash, r.sizeLog) < |r.clusters|
  {
    New(newByteSizeLog, contents)
  }
}

=== FILE: types.dfy ===
/**
 * Board-level scalar types: board dimensions, colours, pieces, cells,
 * coordinates and the castling-rights bit set, with their validity
 * predicates.
 *
 * Coordinates, subcoordinates and cells are the source's `int8_t` values,
 * kept as `int`; the castling set is the source's `uint8_t` enum, kept as
 * `bv8` so that its `&`, `|`, `^` and `~` are the machine operations.
 */
module Types {

  const BoardSide: int := 8
  const BoardSize: int := 64
  const BoardSideLog: nat := 3

  /** The side to move, or the owner of a piece. */
  datatype Color = White | Black
  {
    /** `GetInvertedColor`. */
    function Inverted(): (r: Color)
      ensures r != this && (r == White <==> this == Black)
    {
      match this
      case White => Black
      case Black => White
    }

    /** The `int8_t` value of the enum: White 0, Black 1. */
    function Index(): (r: nat)
      ensures r < 2 && (r == 0 <==> this == White)
    {
      match this
      case White => 0
      case Black => 1
    }
  }

  const Pawn: int := 1
  const Knight: int := 2
  const Bishop: int := 3
  const Rook: int := 4
  const Queen: int := 5
  const King: int := 6

  const NumberOfPieces: int := 6
  const NumberOfCells: int := 13

  const EmptyCell: int := 0
  const UndefinedCell: int := -1
  const UndefinedCoord: int := -1

  /** A row or column index 0..7. */
  predicate IsSubcoordValid(c: int)
  {
    0 <= c < BoardSide
  }

  /** A square 0..63, or the undefined coordinate. */
  predicate IsCoordValid(c: int)
  {
    c == UndefinedCoord || (0 <= c < BoardSize)
  }

  /** A square 0..63. */
  predicate IsCoordValidAndDefined(c: int)
  {
    0 <= c < BoardSize
  }

  /** A defined coordinate is exactly a valid one other than the undefined marker. */
  lemma CoordValidity(c: int)
    ensures IsCoordValidAndDefined(c) <==> IsCoordValid(c) && c != UndefinedCoord
    ensures IsCoordValid(c) <==> c == -1 || IsCoordValidAndDefined(c)
  {
  }

  /** One of Pawn..King: exactly the six piece kinds. */
  function IsPieceValid(p: int): (r: bool)
    ensures r <==> p in {Pawn, Knight, Bishop, Rook, Queen, King}
  {
    Pawn <= p <= King
  }

  /**
   * `IsPieceValid` as the source writes it: the two bounds are joined with
   * `||`, so every value passes.
   */
  function IsPieceValidAsWritten(p: int): (r: bool)
    ensures r
  {
    p >= Pawn || p <= King
  }

  /** The as-written check accepts every value, the corrected one exactly Pawn..King. */
  lemma PieceValidityAsWritten(p: int)
    ensures IsPieceValidAsWritten(p)
    ensures IsPieceValid(p) <==> 1 <= p <= 6
    ensures IsPieceValidAsWritten(0) && !IsPieceValid(0)
  {
  }

  /** A cell value 0..12, or the undefined cell. */
  predicate IsCellValid(c: int)
  {
    c == UndefinedCell || (0 <= c < NumberOfCells)
  }

  type Castling = bv8

  const CastlingNone: Castling := 0
  const WhiteKingside: Castling := 1
  const WhiteQueenside: Castling := 2
  const BlackKingside: Castling := 4
  const BlackQueenside: Castling := 8
  const CastlingAll: Castling := 15
  const WhiteAll: Castling := WhiteKingside | WhiteQueenside
  const BlackAll: Castling := BlackKingside | BlackQueenside

  /** A subset of the four rights. */
  function IsCastlingValid(c: Castling): (r: bool)
    ensures r <==> c & CastlingAll == c
  {
    CastlingNone <= c <= CastlingAll
  }

  /** The enum's `operator~`: the complement within the four rights. */
  function CastlingNot(a: Castling): (r: Castling)
    requires IsCastlingValid(a)
    ensures IsCastlingValid(r)
    ensures r & a == CastlingNone && r | a == CastlingAll
    ensures CastlingAll ^ r == a
  {
    CastlingAll ^ a
  }

  /** The named groups are unions of the single rights, and the four rights are distinct bits. */
  lemma CastlingConstants()
    ensures WhiteAll == 3 && BlackAll == 12 && WhiteAll | BlackAll == CastlingAll
    ensures WhiteAll & BlackAll == CastlingNone
    ensures WhiteKingside & WhiteQueenside == 0 && BlackKingside & BlackQueenside == 0
  {
  }
}

=== FILE: uci_parser.dfy ===
/**
 * The UCI command parser: a command line is split on single spaces and
 * the first word selects the command; the rest are its arguments, each
 * checked in turn, with a textual error when they do not fit.
 *
 * Numbers are read by `std::stoll`; they are modelled as unbounded
 * naturals, and the `uint8_t` fields (`moves_to_go`, `max_depth`) keep
 * the low eight bits.
 */
module UciParser {
  import opened Wrappers
  import opened Strings

  /** The position "startpos" stands for. */
  const StartPosFen: string := "rnbqkbnr/pppppppp/8/8/8/8/PPPPPPPP/RNBQKBNR w KQkq - 0 1"

  /** `Searcher::MAX_DEPTH`. */
  const MaxDepth: nat := 127

  /** `GameTimeControl::NO_MOVES_TO_GO`, the default of a clock without "movestogo". */
  const NoMovesToGo: nat := 255

  /** The error of a first word that names no command. */
  const UnknownCommand: string := "Unknown UCI command"

  datatype OptionType = HashTableSize

  datatype PlayerTime = PlayerTime(time: nat, increment: nat)

  /** `time_control_t`: the clock of a game, a fixed time per move, or no limit. */
  datatype TimeControl =
    | Game(white: PlayerTime, black: PlayerTime, movesToGo: nat)
    | Fixed(time: nat)
    | Infinite

  /** `uci_command_t`: one alternative per command, and the unparsed command with its error. */
  datatype Command =
    | Init
    | Ready
    | NewGame
    | SetOption(option: OptionType, value: string)
    | Position(fen: string, moves: Option<seq<string>>)
    | Go(timeControl: TimeControl, maxDepth: nat)
    | Stop
    | Quit
    | Unparsed(parseError: string)

  /** The `uint8_t` truncation of an assigned number. */
  function Byte(n: nat): (r: nat)
    ensures r < 0x100
    ensures n < 0x100 ==> r == n
  {
    n % 0x100
  }

  /** A clock that no argument has set yet: zero times and no moves-to-go. */
  const EmptyClock: TimeControl := Game(PlayerTime(0, 0), PlayerTime(0, 0), NoMovesToGo)

  // ------------------------------------------------------------ setoption

  /** The argument test of "setoption" as written: it fails only when both words are wrong. */
  predicate SetOptionWordsRejectedAsWritten(args: seq<string>)
    requires |args| == 5
  {
    args[1] != "key" && args[3] != "value"
  }

  /** The argument test as its error text says: either word wrong is an error. */
  function SetOptionWordsRejected(args: seq<string>): (r: bool)
    requires |args| == 5
    ensures !r <==> args[1] == "key" && args[3] == "value"
    ensures SetOptionWordsRejectedAsWritten(args) ==> r
  {
    args[1] != "key" || args[3] != "value"
  }

  /** As written, a "setoption" without the word "value" is still accepted. */
  lemma SetOptionWordsAsWritten()
    ensures !SetOptionWordsRejectedAsWritten(["setoption", "key", "Hash", "size", "64"])
    ensures SetOptionWordsRejected(["setoption", "key", "Hash", "size", "64"])
  {
  }

  /** "setoption": five words, "key" and "value" in their places, and a known option name. */
  function ParseSetOption(args: seq<string>): (r: Command)
    requires |args| >= 1
    ensures |args| != 5 ==> r == Unparsed("Invalid number of arguments")
    ensures r.SetOption? <==> |args| == 5 && args[1] == "key" && args[3] == "value" && args[2] == "Hash"
    ensures r.SetOption? ==> r.option == HashTableSize && r.value == args[4]
    ensures !r.SetOption? ==> r.Unparsed? && r.parseError != UnknownCommand
  {
    if |args| != 5 then Unparsed("Invalid number of arguments")
    else if SetOptionWordsRejected(args) then Unparsed("Expected key and value")
    else if args[2] == "Hash" then SetOption(HashTableSize, args[4])
    else Unparsed("No such option")
  }

  // ------------------------------------------------------------- position

  /**
   * "position": "startpos" or "fen" and the position's words, up to the
   * first "moves"; every word after that is a move.
   */
  function ParsePosition(args: seq<string>): (r: Command)
    requires |args| >= 1 && args[0] != "moves"
    ensures |args| == 1 ==> r == Unparsed("Expected arguments")
    ensures r.Position? <==> |args| >= 2 && (args[1] == "fen" || args[1] == "startpos")
    ensures r.Position? && args[1] == "startpos" ==> r.fen == StartPosFen
    ensures r.Position? ==> (r.moves.None? <==> "moves" !in args)
    ensures r.Position? && r.moves.Some? ==>
              var k := Find(args, "moves", 0);
              r.moves.value == args[k + 1..] && args[k] == "moves" && "moves" !in args[..k]
    ensures !r.Position? ==> r.Unparsed? && r.parseError != UnknownCommand
  {
    if |args| == 1 then Unparsed("Expected arguments")
    else if args[1] != "fen" && args[1] != "startpos" then Unparsed("Expected fen or startpos argument")
    else
      var k := Find(args, "moves", 0);
      assert k >= 2;
      var fen := if args[1] == "startpos" then StartPosFen else Concatenate(args[2..k], ' ');
      Position(fen, if k == |args| then None else Some(args[k + 1..]))
  }

  // ------------------------------------------------------------------- go

  /**
   * The loop over "go" clock arguments, from word i on: each key must be
   * followed by a number and be one of the five clock keys. A key with no
   * word after it is reported like a key followed by a non-number.
   */
  function ParseClocks(args: seq<string>, i: nat, tc: TimeControl): (r: Result<TimeControl, string>)
    requires tc.Game? && i >= 1
    ensures r.Ok? ==> r.value.Game?
    ensures r.Err? ==> r.error != UnknownCommand
    ensures r.Ok? ==> forall j :: i <= j < |args| && (j - i) % 2 == 0 ==> ClockPair(args, j)
    decreases |args| - i
  {
    if i >= |args| then Ok(tc)
    else if i + 1 >= |args| || !IsNonNegativeNumber(args[i + 1]) then Err("Expected valid argument as time")
    else
      var arg := ParseNat(args[i + 1]);
      var key := args[i];
      if key !in ClockKeys then Err("Unsupported argument: " + key)
      else
        var r := ParseClocks(args, i + 2, SetClock(tc, key, arg));
        assert ClockPair(args, i);
        r
  }

  /** Word j is a clock key and a number follows it. */
  predicate ClockPair(args: seq<string>, j: nat)
  {
    j + 1 < |args| && IsNonNegativeNumber(args[j + 1]) && args[j] in ClockKeys
  }

  /** The five clock keys "go" understands. */
  const ClockKeys: set<string> := {"wtime", "btime", "winc", "binc", "movestogo"}

  /** One clock assignment. */
  function SetClock(tc: TimeControl, key: string, arg: nat): (r: TimeControl)
    requires tc.Game? && key in ClockKeys
    ensures r.Game?
    ensures key == "wtime" ==> r == tc.(white := tc.white.(time := arg))
    ensures key == "btime" ==> r == tc.(black := tc.black.(time := arg))
    ensures key == "winc" ==> r == tc.(white := tc.white.(increment := arg))
    ensures key == "binc" ==> r == tc.(black := tc.black.(increment := arg))
    ensures key == "movestogo" ==> r == tc.(movesToGo := Byte(arg))
  {
    if key == "wtime" then tc.(white := tc.white.(time := arg))
    else if key == "btime" then tc.(black := tc.black.(time := arg))
    else if key == "winc" then tc.(white := tc.white.(increment := arg))
    else if key == "binc" then tc.(black := tc.black.(increment := arg))
    else tc.(movesToGo := Byte(arg))
  }

  /**
   * The word indices the clock loop reads as written: for each odd i below
   * the word count, both i and i + 1, whether or not i + 1 exists.
   */
  function ClockReadsAsWritten(n: nat, i: nat): (r: set<nat>)
    requires i >= 1
    ensures forall j :: j in r ==> i <= j <= n
    ensures i < n ==> i + 1 in r
    decreases n - i
  {
    if i >= n then {} else {i, i + 1} + ClockReadsAsWritten(n, i + 2)
  }

  /** As written, "go wtime" reads the word after the last one; the corrected loop reports an error instead. */
  lemma ClockReadPastEndAsWritten()
    ensures 2 in ClockReadsAsWritten(|["go", "wtime"]|, 1)
    ensures ParseGo(["go", "wtime"]) == Unparsed("Expected valid argument as time")
  {
  }

  /** The single numeric argument of "movetime" and "depth". */
  predicate OneNumber(args: seq<string>)
  {
    |args| == 3 && IsNonNegativeNumber(args[2])
  }

  /**
   * "go": no argument is an unlimited search; "infinite" must stand
   * alone; "movetime" and "depth" take exactly one number, depth at most
   * `MaxDepth`; anything else is a list of clock settings.
   */
  function ParseGo(args: seq<string>): (r: Command)
    requires |args| >= 1
    ensures |args| == 1 ==> r == Go(Infinite, MaxDepth)
    ensures r.Go? ==> r.maxDepth <= MaxDepth
    ensures r.Go? && r.timeControl.Fixed? <==> |args| >= 2 && args[1] == "movetime" && OneNumber(args)
    ensures r.Go? && r.timeControl.Fixed? ==> r.timeControl.time == ParseNat(args[2])
    ensures r.Go? && r.maxDepth != MaxDepth ==> args[1] == "depth" && OneNumber(args)
    ensures |args| >= 2 && args[1] == "depth" ==>
              (r.Go? <==> OneNumber(args) && ParseNat(args[2]) <= MaxDepth)
    ensures |args| >= 2 && args[1] == "depth" && r.Go? ==> r == Go(Infinite, ParseNat(args[2]))
    ensures !r.Go? ==> r.Unparsed? && r.parseError != UnknownCommand
  {
    if |args| == 1 then Go(Infinite, MaxDepth)
    else if args[1] == "infinite" then
      if |args| > 2 then Unparsed("Infinite argument must be used alone") else Go(Infinite, MaxDepth)
    else if args[1] == "movetime" then
      if |args| == 2 then Unparsed("Movetime argument must be used with amount of time as a next argument")
      else if !IsNonNegativeNumber(args[2]) then Unparsed("Expected valid argument as time")
      else if |args| != 3 then Unparsed("Movetime must be followed by precisely one argument")
      else Go(Fixed(ParseNat(args[2])), MaxDepth)
    else if args[1] == "depth" then
      if |args| == 2 then Unparsed("Movetime argument must be used with amount of time as a next argument")
      else if !IsNonNegativeNumber(args[2]) then Unparsed("Expected valid argument as depth")
      else if ParseNat(args[2]) > MaxDepth then Unparsed("Depth should be not more than 127")
      else if |args| != 3 then Unparsed("Depth must be followed by precisely one argument")
      else Go(Infinite, ParseNat(args[2]))
    else
      match ParseClocks(args, 1, EmptyClock)
      case Ok(tc) => Go(tc, MaxDepth)
      case Err(e) => Unparsed(e)
  }

  // -------------------------------------------------------------- command

  /** `ParseUciCommand` on the words of the line. */
  function ParseWords(args: seq<string>): (r: Command)
    requires |args| >= 1
    ensures r.Unparsed? && r.parseError == UnknownCommand <==>
              args[0] !in {"uci", "isready", "ucinewgame", "setoption", "position", "go", "stop", "quit"}
    ensures args[0] == "uci" <==> r == Init
    ensures args[0] == "isready" <==> r == Ready
    ensures args[0] == "ucinewgame" <==> r == NewGame
    ensures args[0] == "stop" <==> r == Stop
    ensures args[0] == "quit" <==> r == Quit
    ensures r.SetOption? ==> args[0] == "setoption"
    ensures r.Position? ==> args[0] == "position"
    ensures r.Go? ==> args[0] == "go"
  {
    var name := args[0];
    if name == "uci" then Init
    else if name == "isready" then Ready
    else if name == "ucinewgame" then NewGame
    else if name == "setoption" then ParseSetOption(args)
    else if name == "position" then ParsePosition(args)
    else if name == "go" then ParseGo(args)
    else if name == "stop" then Stop
    else if name == "quit" then Quit
    else Unparsed(UnknownCommand)
  }

  /** `ParseUciCommand`: split the line on spaces and parse its words. */
  function ParseUciCommand(command: string): (r: Command)
    ensures var name := Split(command, ' ')[0];
            && (r.Unparsed? && r.parseError == UnknownCommand <==>
                  name !in {"uci", "isready", "ucinewgame", "setoption", "position", "go", "stop", "quit"})
            && (r == Init <==> name == "uci") && (r == Quit <==> name == "quit")
            && (r.Position? ==> name == "position") && (r.Go? ==> name == "go")
  {
    ParseWords(Split(command, ' '))
  }

  // ------------------------------------------------------------- printing

  /** A word of a command line: non-empty and without a space. */
  predicate IsWord(w: string)
  {
    |w| > 0 && Free(w, ' ')
  }

  /** The canonical clock arguments, every key once in a fixed order. */
  function ClockWords(tc: TimeControl): (r: seq<string>)
    requires tc.Game?
    ensures |r| == 10 && forall k :: 0 <= k < |r| ==> IsWord(r[k])
  {
    DigitsAreWord(tc.white.time);
    DigitsAreWord(tc.black.time);
    DigitsAreWord(tc.white.increment);
    DigitsAreWord(tc.black.increment);
    DigitsAreWord(tc.movesToGo);
    ["wtime", NatToString(tc.white.time), "btime", NatToString(tc.black.time),
     "winc", NatToString(tc.white.increment), "binc", NatToString(tc.black.increment),
     "movestogo", NatToString(tc.movesToGo)]
  }

  /** A printed number is a word. */
  lemma DigitsAreWord(n: nat)
    ensures IsWord(NatToString(n))
  {
    var s := NatToString(n);
    forall j | 0 <= j < |s| ensures s[j] != ' ' {
      assert IsDigit(s[j]);
    }
  }

  /** The position words: no empty word, no word "moves". */
  predicate IsFenText(fen: string)
  {
    forall k :: 0 <= k < |Split(fen, ' ')| ==> Split(fen, ' ')[k] != [] && Split(fen, ' ')[k] != "moves"
  }

  /** The commands with a canonical spelling: everything the parser produces except an error. */
  predicate IsPrintable(c: Command)
  {
    match c
    case SetOption(_, v) => IsWord(v)
    case Position(fen, moves) =>
      IsFenText(fen) && (moves.Some? ==> forall k :: 0 <= k < |moves.value| ==> IsWord(moves.value[k]))
    case Go(tc, d) =>
      d <= MaxDepth && (d != MaxDepth ==> tc.Infinite?) && (tc.Game? ==> tc.movesToGo < 0x100)
    case Unparsed(_) => false
    case _ => true
  }

  /** The words of a printable command. */
  function CommandWords(c: Command): (r: seq<string>)
    requires IsPrintable(c)
    ensures |r| >= 1
  {
    match c
    case Init => ["uci"]
    case Ready => ["isready"]
    case NewGame => ["ucinewgame"]
    case SetOption(_, v) => ["setoption", "key", "Hash", "value", v]
    case Position(fen, moves) =>
      ["position", "fen"] + Split(fen, ' ') + (if moves.Some? then ["moves"] + moves.value else [])
    case Go(tc, d) =>
      if d != MaxDepth then ["go", "depth", NatToString(d)]
      else if tc.Fixed? then ["go", "movetime", NatToString(tc.time)]
      else if tc.Game? then ["go"] + ClockWords(tc)
      else ["go"]
    case Stop => ["stop"]
    case Quit => ["quit"]
  }

  /** The command line of a printable command. */
  function CommandText(c: Command): (r: string)
    requires IsPrintable(c)
  {
    Join(CommandWords(c), ' ')
  }

  /** Every word of a printable command is free of spaces. */
  lemma CommandWordsFree(c: Command)
    requires IsPrintable(c)
    ensures forall k :: 0 <= k < |CommandWords(c)| ==> Free(CommandWords(c)[k], ' ')
  {
    match c
    case Position(fen, moves) => PositionWordsFree(fen, moves);
    case Go(tc, d) => GoWordsFree(tc, d);
    case _ =>
  }

  /** The words of a printable "position" command are free of spaces. */
  lemma PositionWordsFree(fen: string, moves: Option<seq<string>>)
    requires IsPrintable(Position(fen, moves))
    ensures var w := CommandWords(Position(fen, moves));
            forall k :: 0 <= k < |w| ==> Free(w[k], ' ')
  {
    var w := CommandWords(Position(fen, moves));
    SplitPieces(fen, ' ');
    var f := Split(fen, ' ');
    forall k | 0 <= k < |w| ensures Free(w[k], ' ') {
      if 2 <= k < 2 + |f| {
        assert w[k] == f[k - 2];
      } else if k > 2 + |f| {
        assert w[k] == moves.value[k - 3 - |f|];
      }
    }
  }

  /** The words of a printable "go" command are free of spaces. */
  lemma GoWordsFree(tc: TimeControl, d: nat)
    requires IsPrintable(Go(tc, d))
    ensures var w := CommandWords(Go(tc, d));
            forall k :: 0 <= k < |w| ==> Free(w[k], ' ')
  {
    var w := CommandWords(Go(tc, d));
    DigitsAreWord(d);
    if tc.Fixed? { DigitsAreWord(tc.time); }
    if tc.Game? && d == MaxDepth {
      forall k | 1 <= k < |w| ensures Free(w[k], ' ') {
        assert w[k] == ClockWords(tc)[k - 1];
      }
    }
  }

  /** Parsing the canonical clock words from an empty clock gives the clock back. */
  lemma ClockRoundTrip(tc: TimeControl)
    requires tc.Game? && tc.movesToGo < 0x100
    ensures ParseClocks(["go"] + ClockWords(tc), 1, EmptyClock) == Ok(tc)
  {
    var a := ["go"] + ClockWords(tc);
    ParseNatToString(tc.white.time);
    ParseNatToString(tc.black.time);
    ParseNatToString(tc.white.increment);
    ParseNatToString(tc.black.increment);
    ParseNatToString(tc.movesToGo);
    var t1 := SetClock(EmptyClock, "wtime", tc.white.time);
    var t2 := SetClock(t1, "btime", tc.black.time);
    var t3 := SetClock(t2, "winc", tc.white.increment);
    var t4 := SetClock(t3, "binc", tc.black.increment);
    var t5 := SetClock(t4, "movestogo", tc.movesToGo);
    assert ParseClocks(a, 11, t5) == Ok(tc);
    assert ParseClocks(a, 9, t4) == Ok(tc);
    assert ParseClocks(a, 7, t3) == Ok(tc);
    assert ParseClocks(a, 5, t2) == Ok(tc);
    assert ParseClocks(a, 3, t1) == Ok(tc);
  }

  /** The position words of a canonical "position fen" line join back into the position text. */
  lemma FenWordsRoundTrip(fen: string, rest: seq<string>)
    requires IsFenText(fen)
    ensures var a := ["position", "fen"] + Split(fen, ' ') + rest;
            Concatenate(a[2..2 + |Split(fen, ' ')|], ' ') == fen
  {
    var a := ["position", "fen"] + Split(fen, ' ') + rest;
    assert a[2..2 + |Split(fen, ' ')|] == Split(fen, ' ');
    ConcatenateIsJoin(Split(fen, ' '), ' ');
    JoinSplit(fen, ' ');
  }

  /** Parsing the printed line of a command gives the command back. */
  lemma ParsePrintRoundTrip(c: Command)
    requires IsPrintable(c)
    ensures ParseUciCommand(CommandText(c)) == c
  {
    CommandWordsFree(c);
    SplitJoin(CommandWords(c), ' ');
    WordsRoundTrip(c);
  }

  /** Parsing the words of a printable command gives the command back. */
  lemma WordsRoundTrip(c: Command)
    requires IsPrintable(c)
    ensures ParseWords(CommandWords(c)) == c
  {
    match c
    case Position(fen, moves) => PositionWordsRoundTrip(fen, moves);
    case Go(tc, d) => GoWordsRoundTrip(tc, d);
    case _ =>
  }

  /** The words of a canonical "position" line parse back to the position and its moves. */
  lemma PositionWordsRoundTrip(fen: string, moves: Option<seq<string>>)
    requires IsPrintable(Position(fen, moves))
    ensures ParseWords(CommandWords(Position(fen, moves))) == Position(fen, moves)
  {
    var w := CommandWords(Position(fen, moves));
    var f := Split(fen, ' ');
    var rest := if moves.Some? then ["moves"] + moves.value else [];
    assert w == ["position", "fen"] + f + rest;
    var k := Find(w, "moves", 0);
    forall j | 2 <= j < 2 + |f| ensures w[j] != "moves" {
      assert w[j] == f[j - 2];
    }
    assert w[0] != "moves" && w[1] != "moves";
    if moves.Some? {
      assert w[2 + |f|] == "moves";
    }
    assert k == 2 + |f|;
    FenWordsRoundTrip(fen, rest);
    if moves.Some? {
      assert w[k + 1..] == moves.value;
    }
  }

  /** The words of a canonical "go" line parse back to its clock and depth. */
  lemma GoWordsRoundTrip(tc: TimeControl, d: nat)
    requires IsPrintable(Go(tc, d))
    ensures ParseWords(CommandWords(Go(tc, d))) == Go(tc, d)
  {
    var w := CommandWords(Go(tc, d));
    if d != MaxDepth {
      ParseNatToString(d);
    } else if tc.Fixed? {
      ParseNatToString(tc.time);
    } else if tc.Game? {
      ClockRoundTrip(tc);
      assert w[1] == "wtime";
    }
  }
}

=== FILE: wrappers.dfy ===
/** Failure-carrying result types shared by the whole model. */
module Wrappers {

  /** A value that may be absent, as std::optional in the engine and a missing `TryGet` in the tools. */
  datatype Option<+T> = None | Some(value: T)

  /** Either a value or an error code, as the engine's status enums and the tools' `error` returns. */
  datatype Result<+T, +E> = Ok(value: T) | Err(error: E)
}
